=== FILE: README.md ===
# ttm core, modelled in Dafny

`ttm` is a command-line toolkit for topic modelling. Each stage of the pipeline
reads a tab-separated corpus, adds or replaces a column and writes the result
on. This project models the deterministic core of those stages as pure Dafny
functions over sequences and maps, and proves properties of them:

- **The replayable line reader.** `CachingFileReader` in `ttm/types.py` and the
  older `Corpus` in `ttm/common_types.py` (module `Replay`). A reader is an
  explicit state: the source, a cache of recorded lines, the `file_accessed`
  and `cache_complete` flags and the memoized length. A pass is a cursor
  driven by a number of pulls, so a pass abandoned early can be expressed.
  A seekable file is reopened on every pass (`types.py`) or rewound on a shared
  handle (`common_types.py`). An unseekable one is recorded on the first pass
  and replayed afterwards. A second pass that starts before the recording is
  complete fails.
- **Views, columns and pairs files.** `InputFile`, `Column` and `PsqPairs`
  (module `Tsv`) and the `_open` suffix dispatch (module `Open`).
- **Per-stage computations:**
  - the cluster distribution, bucket probability, psq count and score, metric
    gating and the TSV result format of `ttm eval` (`Eval`, `EvalTsv`);
  - the within-cluster pairs, the toggle-based symmetric difference and kappa
    of `ttm comp` (`Comp`);
  - windowing, page pairs and the window/step options of `ttm cat` (`Cat`);
  - the message filter and numbering loop of `ttm 20cat` (`C20cat`);
  - the page map, chunking, glyphs, cluster order and book selection of
    `ttm show` (`Show`);
  - method dispatch, the `random` weights, split relabelling and output
    assembly of `ttm cluster` and `ttm redim` (`Cluster`, `Redim`, `Output`,
    `Cli`), and the `argmax` run of `ttm cluster` as it drives two passes
    over one reader;
  - the `from ... import` statements that tie the command modules together
    (`Imports`).

Python's built-ins the code relies on are modelled once each: `str.split` with
and without a separator, `join`, `strip`/`rstrip`, `str(int)`, `int(str)`,
`//` and `%` with Python's flooring semantics, `sorted`, and string ordering
(`Text`, `Decimal`, `Sorting`). Errors are values: `Wrappers.Result` carries
the Python exception the code would raise (`Wrappers.Error`). A loop that
would never end is the value `Diverges`. Several handlers name exception
classes that nothing defines; such a `try` is modelled as it runs, turning any
exception of its body into NameError.

`ttm/c20cat.py` imports a name that `ttm/cat.py` does not define, and
`ttm/cli.py` imports that module for every command, so as written no command
runs (see Findings). Repairing that import alone is not enough:
`ttm/embed.py` and `ttm/desc.py`, which `ttm/cli.py` imports next, use the
absolute `from common_types import *`, and the installed package
(`setup.py`, which installs only `ttm`) has no top-level module of that name,
so every command then fails at `embed`. The stage models describe the
commands as they run once both imports are repaired: `calculate_window`
defined in `ttm/cat.py`, and `from .common_types import *` in embed and desc.

Ratios that Python computes as floats are exact `real`s here. Foreign
computations are parameters: `float()` parsing of weights, the `eval` of
`--function`, regex matching in `show`, `json.dumps` of a vector, the values
of `random()` that `random.choices` draws with, and the sub-clustering used in split mode. The texts of a
directory for `cat` and the data and targets of the 20 newsgroups fetch for
`20cat` are inputs.

## Model

| member | source | states |
|---|---|---|
| Open.OpenFile | ttm/types.py:12-31 | a direction other than `in`/`out` fails first; `-` means stdin or stdout; otherwise `.gz`, `.bz2` and `.xz` select gzip, bz2 and lzma and anything else opens plain, in text mode for reading or writing |
| Open.SuffixesExclusive | ttm/types.py:24-31 | a file name cannot select two codecs: at most one of the suffixes applies |
| Open.ExtensionSuffix | ttm/types.py:24-31 | a name ends in `.` and a dot-free text exactly when that text is its extension, the part after the last dot |
| Open.CodecByExtension | ttm/types.py:24-31 | a named file is opened with gzip, bz2 or lzma exactly when its extension is `gz`, `bz2` or `xz`, and plain for any other extension or none |
| Open.ReadBackSameCodec | ttm/types.py:12-31 | both directions succeed, and what `_open(name, 'out')` writes `_open(name, 'in')` reads through the same codec; `-` pairs stdout with stdin |
| Replay.Expected | ttm/types.py:69-71 | the lines of a pass are the source lines, one each, with the trailing `\n` and then `\r` removed |
| Replay.NewReaderValid | ttm/types.py:57-65 | a fresh reader is in a consistent state (nothing recorded, not accessed, not complete) |
| Replay.Begin | ttm/types.py:66-84 | starting a pass fails exactly on an unseekable source that was accessed but is not complete; otherwise the first pass on an unseekable source marks it accessed, and consistency is kept |
| Replay.Pull | ttm/types.py:66-84 | one `next()` fails only when it starts a pass that `Begin` refuses; it only ever extends the cache and never changes the source or the memoized length |
| Replay.PullValid | ttm/types.py:66-84 | one pull keeps the reader consistent and the cursor in flight over it |
| Replay.DriveValid | ttm/types.py:66-84 | any number of pulls keeps the reader consistent |
| Replay.DriveReopened | ttm/types.py:67-71 | on a reopened seekable file, pulls yield the next stripped lines and leave the reader unchanged; the pass ends after the last line |
| Replay.DriveRewound | ttm/common_types.py:22-26 | on the shared seekable handle, pulls yield the lines from the handle's position on and advance that position |
| Replay.DriveReplaying | ttm/types.py:72-74 | replaying a complete cache yields its next lines and changes nothing |
| Replay.DriveRecording | ttm/types.py:75-81 | a recording pass appends each yielded line to the cache, in order, and marks the cache complete only on the pull after the last line |
| Replay.UnpulledPassIsInert | ttm/types.py:66-84 | a pass that is never pulled has no effect: the generator body has not started |
| Replay.RegularPassReopens | ttm/types.py:64-71 | every full pass over a reopened seekable file yields all stripped lines and leaves the reader as it was, so passes repeat |
| Replay.RegularPassRewinds | ttm/common_types.py:22-26 | a full pass over a seekable shared handle yields all stripped lines, leaving the handle at the end |
| Replay.FirstPassRecords | ttm/types.py:75-81 | a first pass of any length over an unseekable source yields a prefix of the lines, the cache equals exactly what was yielded, the reader is accessed, and it is complete exactly when the pass pulled past the last line |
| Replay.FirstFullPassCompletes | ttm/types.py:75-81 | an exhausting first pass yields every line, and the cache then equals the yielded lines and is complete |
| Replay.CompletePassReplays | ttm/types.py:72-74 | once complete, any pass replays a prefix of the cache, and a full pass the whole cache, without changing the reader |
| Replay.ReplayAfterRecording | ttm/types.py:72-81 | after an exhausting first pass, every later pass yields the same lines as the first |
| Replay.EarlySecondPassFails | ttm/types.py:82-84 | a pass that starts while the recording is incomplete raises |
| Replay.AbandonedFirstPassBlocksLaterPasses | ttm/types.py:75-84 | a first pass abandoned before exhaustion makes every later pass raise |
| Replay.FullPassOutcome | ttm/types.py:66-84 | a full pass fails exactly when an unseekable source was accessed but not completed; otherwise it yields every stripped line and leaves an unseekable reader complete |
| Replay.LenCountsOnceAndMemoizes | ttm/types.py:87-89 | `len` is the number of lines, is memoized, and a second call returns the same count without a pass; it fails only where a full pass fails and nothing is memoized |
| Replay.EnsureLoadedIdempotent | ttm/types.py:85-86 | `ensure_loaded` is idempotent and leaves an unseekable reader complete |
| Replay.ReadablePass | ttm/types.py:66-74 | a reader that is seekable or complete yields the first lines of the file to a pass of any length, unchanged, and lets another pass begin |
| Replay.ZipBeforeLoadingFails | ttm/types.py:75-84 | zipping two columns of one unseekable, unloaded reader raises: the second column starts while the first is still recording |
| Replay.ZipAfterLoading | ttm/types.py:72-74 | once loaded, two zipped passes over the cache yield equal lines side by side |
| Replay.SharedRewindInterferes | ttm/common_types.py:22-26 | two interleaved passes over one shared seekable handle disturb each other: the second rewinds the first |
| Tsv.Fields | ttm/types.py:110-117 | splitting a line on tabs gives at least one cell and no cell contains a tab |
| Tsv.Visible | ttm/types.py:113-114 | the visible names are exactly the header names that are not hidden |
| Tsv.Keep | ttm/types.py:117-118 | a row fails with IndexError exactly when it has more cells than the header; otherwise only cells of the row are kept |
| Tsv.KeepLength | ttm/types.py:117-118 | a kept row has one cell per visible header name among its positions |
| Tsv.KeepAt | ttm/types.py:117-118 | a cell under a visible name lands at that name's position among the visible names: order is preserved |
| Tsv.KeepHeader | ttm/types.py:113-114 | the header row, kept against itself, is its visible names |
| Tsv.KeepSameHidden | ttm/types.py:113-118 | only the set of hidden names matters, not their order or repetition |
| Tsv.ProjectRows | ttm/types.py:115-118 | data rows project one for one and fail with IndexError exactly when some row is longer than the header |
| Tsv.StripColumn | ttm/types.py:121-127 | `strip(c)` hides `c` in addition to every name hidden before |
| Tsv.ViewLines | ttm/types.py:103-118 | with nothing hidden a view passes lines through; otherwise empty input raises ExpectedRuntimeError, a row longer than the header raises IndexError, and the output has one line per input line |
| Tsv.ViewLinesPrefix | ttm/types.py:113-118 | the view projects each row on its own, so viewing the first k lines gives the first k lines of the view |
| Tsv.ViewHeaderNames | ttm/types.py:110-114 | a non-empty name is in the view's header exactly when the file's header has it and the view does not hide it |
| Tsv.ViewHeaderIsVisible | ttm/types.py:110-114 | a view's header line is the tab-join of the visible names, and those are exactly the header names not hidden |
| Tsv.StripCommutes | ttm/types.py:121-127 | `strip(a).strip(b)` yields the same lines as `strip(b).strip(a)` |
| Tsv.ProjectRowsSameHidden | ttm/types.py:115-118 | row projection depends only on the set of hidden names |
| Tsv.ColumnIndex | ttm/types.py:154 | `list.index` gives the first position of the name, and fails exactly when the name is missing |
| Tsv.ColumnCells | ttm/types.py:157-158 | each data row contributes `map_f` of its cell at the column index; a row too short fails with IndexError |
| Tsv.ColumnOf | ttm/types.py:151-158 | empty input raises ExpectedRuntimeError, a missing name fails at `index` before any row, and otherwise the column has one mapped cell per non-header line |
| Tsv.ColumnPassMissingName | ttm/types.py:151-156 | on a non-empty file whose header lacks the name, or whose view hides it, a column pass raises ValueError whatever the data rows hold |
| Tsv.ColumnPassIsColumnOfView | ttm/types.py:151-158 | when the view projects every row, a column pass yields exactly the column of the whole view, and fails with its error when it fails |
| Tsv.ColumnLenCountsValues | ttm/types.py:159-160 | on any valid reader, measured before or not, `len(Column)` equals the number of values a full column pass yields |
| Tsv.ColumnThroughView | ttm/types.py:103-158 | reading a column through a view that does not hide it gives the same values as reading it from the raw lines |
| Tsv.VisiblePosition | ttm/types.py:113-114 | a visible name's index among the visible names is the number of visible names before it in the header |
| Tsv.ProjectedColumn | ttm/types.py:115-158 | a column read from projected rows at its visible position equals the column read from the raw rows |
| Tsv.CorpusColumnOf | ttm/common_types.py:56-60 | the older `Column` on empty input fails with RuntimeError (the unguarded `next`) |
| Tsv.CorpusColumnAgrees | ttm/common_types.py:56-60 | the older `Column` agrees with the newer one on non-empty input and differs only in the error for empty input |
| Tsv.CorpusColumnRepeats | ttm/common_types.py:22-26 | on a seekable handle a second column pass yields the same values as the first |
| Tsv.ParsePair | ttm/types.py:171-173 | a pairs line parses exactly when it has one tab, else ValueError; neither id holds a tab |
| Tsv.ParseFormatPair | ttm/types.py:172 | a pair written as `a<TAB>b` parses back to `(a, b)` |
| Tsv.FormatParsePair | ttm/types.py:172 | a line that parses is re-written exactly by its pair |
| Tsv.PairsOf | ttm/types.py:170-173 | a pairs file parses exactly when every line does, one pair per line, in order |
| Output.Zipped | ttm/cluster.py:218-221 | the output fails with ExpectedRuntimeError on empty input and with IndexError exactly when a row the zip pulls, up to the one after the last cell, is wider than the header; it has the new header and then, for the shorter of rows and labels, each visible row with its label appended |
| Output.ZippedWholeView | ttm/cluster.py:218-221 | when every row fits under the header the output succeeds, and its rows are the view of the whole input with the labels appended |
| Output.ZippedIgnoresUnpulledRows | ttm/cluster.py:220-221 | lines after the row that follows the last cell are never read: appending any lines there leaves the outcome unchanged, errors included |
| Output.Indexed | ttm/redim.py:125-128 | the view's error passes through; with fewer values than data rows it is an IndexError; otherwise every data row gets its own value appended |
| Output.NewHeaderFields | ttm/cluster.py:218-219 | the new header names each other column once and ends with the new column, which it holds exactly once |
| Output.RerunKeepsHeader | ttm/cluster.py:218-219 | running a stage again on its own output gives the same header, so the column is never duplicated |
| Cli.OptionValueLastWins | ttm/cluster.py:135 | an option is present exactly when given, and its value is that of its last occurrence |
| Cli.IntOption | ttm/cat.py:104 | converting an option with `int()` raises ValueError on failure |
| Cli.IntOptionParses | ttm/cluster.py:152-153 | `int()` of an option fails exactly when the option is present and not an integer; a written integer reads back |
| Cli.EveryInt | ttm/redim.py:97 | converting every option value with `int()` succeeds exactly when each is an integer, else ValueError |
| Cli.FailOnRest | ttm/cluster.py:140-143 | leftover arguments are an error exactly when there are any |
| Cluster.Collect | ttm/cluster.py:179-180 | converted weights succeed exactly when every conversion does, one value per part, else ValueError |
| Cluster.ParseWeightsParts | ttm/cluster.py:179-180 | `--weights` splits on commas, strips each part and converts it, giving one weight per comma plus one |
| Cluster.RandomOptions | ttm/cluster.py:172-191 | leftover arguments are a CliError naming them; every failure is a CliError or a ValueError |
| Cluster.RandomOptionsAgree | ttm/cluster.py:176-188 | parsed options always agree (weights, if any, match clusters); clusters default to the number of weights; a count mismatch raises the CliError naming both numbers |
| Cluster.MethodOf | ttm/cluster.py:138-194 | dispatch fails only with a CliError or a ValueError |
| Cluster.MethodNamed | ttm/cluster.py:144-194 | a dispatched method is the one its METHOD word names |
| Cluster.MethodUnknown | ttm/cluster.py:138-139 | a missing METHOD and an unknown METHOD word raise their CliErrors |
| Cluster.MethodLeftovers | ttm/cluster.py:144-174 | `argmax` accepts no further words; other methods reject leftover arguments with a CliError naming them |
| Cluster.Range | ttm/cluster.py:45-48 | `range(n)` is 0 to n-1, and empty when n is not positive |
| Cluster.Random | ttm/cluster.py:40-48 | `random` returns one label per input vector, each a cluster number from `range(clusters)`; once validated it fails exactly when there are no clusters (IndexError, even with no vectors) or the weights total zero or less (ValueError) |
| Cluster.DrawLengths | ttm/cluster.py:44-47 | without `--weights` there is one weight per cluster; validated weights also match the population |
| Cluster.Choices | ttm/cluster.py:48 | `random.choices` fails before any draw on a weight count other than the population's (ValueError), an empty population (IndexError) or a total that is not positive (ValueError); otherwise it draws `k` members of the population |
| Cluster.Bisect | ttm/cluster.py:48 | the binary search `random.choices` uses stays within its bounds, and on ascending running totals returns the point after every total up to `x` and before every total above it |
| Cluster.AccumulateAscending | ttm/cluster.py:48 | nonnegative weights give ascending running totals |
| Cluster.ChoicesDrawPositiveWeights | ttm/cluster.py:48 | with nonnegative weights and `random()` in [0, 1) every draw lands on a member whose weight is positive |
| Cluster.RandomAvoidsZeroWeights | ttm/cluster.py:40-48 | a cluster whose weight (after `--function`) is zero never receives a label |
| Cluster.RandomDrawWeights | ttm/cluster.py:40-48 | the draw has one weight per cluster over `range(clusters)`, ten clusters by default and k equal to the number of vectors; weight i is the given weight (or 1) times `function(i+1)` when a function is given |
| Cluster.HdbscanAgreesOnlyOnDefaults | ttm/cluster.py:31-38 | the code as written clusters with the requested parameters for every input exactly when neither the metric nor the selection method asks for anything but euclidean and eom; the minimum cluster size always gets through |
| Cluster.HdbscanIgnoresMetric | ttm/cluster.py:31-38 | a `--metric` that dispatch accepts is dropped as written, and kept by the corrected parameters |
| Cluster.Relabel | ttm/cluster.py:211-212 | relabelling keeps one label per row, and fails only with RuntimeError (the sub-clustering ran out) |
| Cluster.RelabelRows | ttm/cluster.py:211-212 | relabelling succeeds exactly when the sub-clustering has a label for every row of the split cluster, and row i then gets its reference label |
| Cluster.RelabelKeepsOthers | ttm/cluster.py:211-212 | rows of other clusters keep their label; the j-th row of the split cluster becomes `split.k` with k the j-th sub-label |
| Cluster.ClusteredRows | ttm/cluster.py:214-221 | the clustered output has the new header and, for the shorter of rows and labels, each row of the view of the pulled lines with its label appended |
| Cluster.SplitAlwaysFailsAsWritten | ttm/cluster.py:197-211 | as written split mode fails with NameError on every input, before any sub-clustering or output |
| Cluster.SplitClusteredRows | ttm/cluster.py:197-221 | when every row fits under the header, the split output succeeds exactly when the sub-labels suffice for the zipped rows, fails otherwise with RuntimeError, and appends each row's relabelled cluster |
| Cluster.SplitClusteredErrors | ttm/cluster.py:211-221 | on any input, errors come in the zip's order: when the sub-labels run out, the run fails with RuntimeError unless a row up to the one whose label exhausts them is too wide, which raises IndexError first; otherwise it fails exactly when a pulled row is too wide, and each written row carries the reference label |
| Cluster.ArgmaxStageOutcome | ttm/cluster.py:196-221 | on a seekable file, or an input without data rows, `argmax` writes the clustered view of the whole file; on standard input or any unseekable input with a data row it fails, and fails with the reader's second-pass error exactly when the first data row is no wider than the header |
| Cluster.ArgmaxAfterLoading | ttm/cluster.py:216-221 | with `ensure_loaded` before the zip, `argmax` writes the clustered view of the whole file on every input, standard input included |
| Cluster.ArgmaxRunReadable | ttm/cluster.py:218-221 | over a reader that is seekable or fully recorded, the two interleaved passes behave as one read of the whole file |
| Cluster.ArgmaxOutputRows | ttm/cluster.py:218-221 | a successful `argmax` output has one line per input line: the view's header, then each view row followed by the argmax of that row's `lowdim` cell |
| Redim.RealOption | ttm/redim.py:114-115 | `float()` of an option fails with ValueError exactly when the option is present and not a float |
| Redim.MethodOf | ttm/redim.py:85-118 | dispatch fails only with a CliError or a ValueError |
| Redim.MethodNamed | ttm/redim.py:91-118 | a dispatched method is the one its METHOD word names |
| Redim.MethodUnknown | ttm/redim.py:85-86 | a missing METHOD and an unknown METHOD word raise their CliErrors |
| Redim.MethodLeftovers | ttm/redim.py:87-98 | `id` rejects extra words, naming them separated by spaces; other methods reject leftover arguments the same way |
| Redim.EveryValueConverted | ttm/redim.py:97-104 | every option of `svd` and `lda` is converted with `int()`, so one bad value raises ValueError |
| Redim.ReducedRows | ttm/redim.py:125-128 | fewer vectors than data rows is an IndexError; otherwise data row i gets vector i appended |
| Redim.IdentityCopiesHighdim | ttm/redim.py:7-8 | the `id` method writes each row's own highdim value as its lowdim cell |
| Redim.SvdAgreesOnlyOnFive | ttm/redim.py:28-33 | the code as written reduces to the requested number of components exactly when `--components` is absent or is 5 |
| Redim.SvdIgnoresComponents | ttm/redim.py:28-33 | `--components 2` is accepted by dispatch but yields five components as written, and two when corrected |
| Eval.Distinct | ttm/eval.py:28-29 | the keys of the counts are exactly the labels, each once, in order of first appearance |
| Eval.CountLabels | ttm/eval.py:26-30 | the counting loop builds one entry per distinct label, in first-appearance order, holding its number of occurrences |
| Eval.TallyStep | ttm/eval.py:28-30 | one more label adds a new key with count 1 or raises the existing key's count by one |
| Eval.ByCountDescIsTotalPreorder | ttm/eval.py:33 | ordering by count, larger first, is total and transitive |
| Eval.SortKeepsTies | ttm/eval.py:32-33 | the sort is stable: entries with equal counts keep their relative order |
| Eval.SortNoDup | ttm/eval.py:32-33 | sorting keeps the keys distinct |
| Eval.SumCountsSort | ttm/eval.py:31-33 | sorting preserves the total |
| Eval.SumCountsTally | ttm/eval.py:31 | the counts add up to the number of labels |
| Eval.Shares | ttm/eval.py:32 | each share is its count divided by the total, key unchanged |
| Eval.SortedTallyEntries | ttm/eval.py:26-33 | the sorted entries are one per distinct label, each with its count, with distinct keys |
| Eval.DistributionEntries | ttm/eval.py:26-34 | the distribution is empty exactly for an empty column; its keys are exactly the labels, once each, and each value is count/total |
| Eval.DistributionOrdered | ttm/eval.py:31-34 | every share is positive and shares never increase along the distribution |
| Eval.DistributionSumsToOne | ttm/eval.py:26-34 | the shares of a non-empty column add up to 1 |
| Eval.DistributionTiesInFirstAppearanceOrder | ttm/eval.py:32-33 | entries with equal counts appear in the order their labels first appear |
| Eval.SumSquaresOfShares | ttm/eval.py:43 | the sum of squared shares is the sum of squared counts over the squared total |
| Eval.SquaresBelowSquaredSum | ttm/eval.py:43 | the squared counts add up to at most the squared total, with equality exactly for at most one cluster |
| Eval.BucketProbabilityInCounts | ttm/eval.py:36-43 | the bucket probability of a column's distribution is the sum of squared counts over the squared number of labels |
| Eval.BucketProbabilityBounds | ttm/eval.py:36-43 | for a non-empty column the bucket probability lies in (0, 1] and is 1 exactly with a single cluster |
| Eval.Doc2Cluster | ttm/eval.py:53-54 | the map's keys are exactly the ids among the zipped rows |
| Eval.Doc2ClusterLastWins | ttm/eval.py:53-54 | an id maps to the cluster of its last occurrence |
| Eval.CountMatches | ttm/eval.py:55-57 | counting succeeds exactly when every line is a pair of known ids (else ValueError or KeyError), counts every pair, and matches at most all of them |
| Eval.CountMatchesExtremes | ttm/eval.py:55-57 | all pairs match exactly when every pair lies in one cluster, and none exactly when no pair does |
| Eval.PsqCount | ttm/eval.py:45-58 | an empty pairs file divides by zero; otherwise the psq count lies in [0, 1] |
| Eval.PsqCountExtremes | ttm/eval.py:45-58 | the psq count is 1 exactly when every pair shares a cluster and 0 exactly when none does |
| Eval.PsqScore | ttm/eval.py:90-94 | the score fails exactly when the expected probability is 1; otherwise the score is the chance-adjusted count times the zoom |
| Eval.ChanceAdjusted | ttm/eval.py:92-93 | for an expectation in (0, 1) and a count at most 1, the score is at most 1, zero exactly at the expectation, and the zoom at least 1 |
| Eval.PsqScoreBounds | ttm/eval.py:60-94 | with more than one cluster the score is defined, the zoom is at least 1, the score at most 1, and the score is 0 exactly when the count equals the expectation |
| Eval.EvaluateGating | ttm/eval.py:319-360 | the separation metrics run only with more than one cluster and vectors; the psq count only with pairs and a cluster; the psq score only with more than one cluster, so evaluation fails only where the psq count does and a score is at most 1 with zoom at least 1 |
| Eval.EvalAbortsAtFirstFile | ttm/eval.py:319-330 | as written every FILE of `ttm eval` aborts with NameError whatever it holds, so the loop gets through only when there is no FILE |
| EvalTsv.KeyOf | ttm/eval.py:262-267 | a column name stands for a field exactly when it is in `_tsv_header`, at the position of that field |
| EvalTsv.HeaderNamesKeys | ttm/eval.py:262-267 | column i of the header names field i |
| EvalTsv.ParseFloat | ttm/eval.py:211 | `float()` accepts exactly the float literals, else ValueError |
| EvalTsv.FloatLiteralHasNoTab | ttm/eval.py:211 | a float literal never contains a tab, so it stays one cell |
| EvalTsv.PlaceholdersAreNotFloats | ttm/eval.py:201 | `N/A`, `undefined` and `None` are not float literals |
| EvalTsv.TsvRow | ttm/eval.py:282-285 | a written row has one cell per header column |
| EvalTsv.TsvRowPlaceholders | ttm/eval.py:271-281 | missing values are written as `N/A` or `undefined` in the columns `_print_tsv` assigns them |
| EvalTsv.ParseValue | ttm/eval.py:200-212 | a placeholder reads as None; int fields read as `int()` and float fields as `float()`, else ValueError; a read value fits its field |
| EvalTsv.ParseCell | ttm/eval.py:200-212 | the unknown-key error arises exactly for a non-placeholder under a name outside the header; other failures are ValueErrors |
| EvalTsv.AssignGet | ttm/eval.py:221 | assigning a field changes that field and no other |
| EvalTsv.AddCell | ttm/eval.py:218-221 | a cell under a name outside `_tsv_header` is skipped, so adding a cell fails only with ValueError, never the unknown-key error |
| EvalTsv.AddCellGet | ttm/eval.py:217-221 | a cell sets the field its column names and leaves every other field alone |
| EvalTsv.ParseRow | ttm/eval.py:215-222 | a row parses only when it is no longer than the header, failing otherwise with IndexError or ValueError |
| EvalTsv.ParseRowFields | ttm/eval.py:215-222 | each field of a parsed row holds the value of the last column naming it, or its default when no column does |
| EvalTsv.ParseRowSucceeds | ttm/eval.py:217-221 | a row no longer than the header whose cells all convert parses |
| EvalTsv.ParseRowFails | ttm/eval.py:217-221 | a row with a cell beyond the header or a cell that does not convert fails |
| EvalTsv.ParseTsv | ttm/eval.py:199-222 | empty input fails with RuntimeError; otherwise there is one result per data line |
| EvalTsv.ParseRows | ttm/eval.py:213-222 | the lines parse exactly when each does, one result per line, in order |
| EvalTsv.IntCellReadsBack | ttm/eval.py:206-207 | a written int field or its `N/A` reads back as the same value |
| EvalTsv.FloatCellReadsBack | ttm/eval.py:208-211 | a written float field or its placeholder reads back as the same value |
| EvalTsv.CellReadsBack | ttm/eval.py:200-212 | every written cell of a well-formed result reads back as the value `_print_tsv` left in its field, and holds no tab |
| EvalTsv.RowRoundTrip | ttm/eval.py:262-286 | reading back a written row gives the result with the placeholders `_print_tsv` assigns |
| EvalTsv.MissingClustersDoNotReadBack | ttm/eval.py:285 | a result without a cluster count writes `None`, which does not read back |
| EvalTsv.TsvRoundTrip | ttm/eval.py:199-286 | reading back the header and written rows gives the written results, placeholders as None, for results whose texts hold no tab or line break |
| EvalTsv.ParseRowsRoundTrip | ttm/eval.py:213-222 | written data lines read back one result each, as written |
| Comp.Cluster2Doc | ttm/comp.py:8-9 | the dictionary has one key per distinct label |
| Comp.FillAppends | ttm/comp.py:10-11 | the loop appends each id to its cluster's list, in row order |
| Comp.Cluster2DocLists | ttm/comp.py:8-12 | each label maps to the ids carrying it, in row order |
| Comp.MembersIff | ttm/comp.py:10-11 | an id is in a cluster's list exactly when a row pairs them |
| Comp.Cluster2DocPartition | ttm/comp.py:8-12 | with distinct ids every id lands in exactly one list: its own cluster's |
| Comp.Combinations | ttm/comp.py:15 | a list of n elements has n(n-1)/2 combinations |
| Comp.CombinationsIff | ttm/comp.py:15 | the combinations are exactly the pairs of an earlier with a later element |
| Comp.CombinationsOrdered | ttm/comp.py:15 | the pairs of a sorted list put the smaller element first |
| Comp.CombinationsNoDup | ttm/comp.py:15 | the combinations of a list without repeats have no repeats and never pair an element with itself |
| Comp.ClusterOrder | ttm/comp.py:14 | the clusters are visited once each |
| Comp.ClusterPairsSameCluster | ttm/comp.py:13-16 | every pair joins two ids of one cluster, smaller id first |
| Comp.ClusterPairsNoDup | ttm/comp.py:13-16 | with distinct ids no pair is produced twice |
| Comp.ToggleParity | ttm/comp.py:40-45 | after the toggle loop a pair is in the set exactly when it was in F or occurred an odd number of times in G, but not both |
| Comp.ToggleIsSymmetricDifference | ttm/comp.py:40-45 | toggling a repeat-free G into F gives F △ G |
| Comp.ToggleTwiceCancels | ttm/comp.py:40-45 | with a repeated pair the toggle differs from the symmetric difference: the pair cancels |
| Comp.ChanceAgreement | ttm/comp.py:50 | `p_e` lies in [0, 1] when `p_F` and `p_G` do |
| Comp.ChanceCertain | ttm/comp.py:50 | `p_e` is 1 exactly when both probabilities are 1 or both are 0 |
| Comp.Agreement | ttm/comp.py:47-54 | kappa fails with ZeroDivisionError exactly when there are no pairs or `p_e` is 1; kappa is `(p_o - p_e)` times the zoom |
| Comp.KappaDefinitionsAgree | ttm/comp.py:17-54 | with distinct ids in the second file, the set-based and the toggle-based `_kappa` give the same result |
| Comp.LenU | ttm/comp.py:36 | `(n**2 - n) / 2` is the number of unordered pairs of n ids |
| Comp.LenUZero | ttm/comp.py:36 | there are no pairs exactly with fewer than two ids |
| Comp.AgreementBounds | ttm/comp.py:47-54 | kappa fails exactly without pairs, with both probabilities 1 or with both 0; otherwise zoom is at least 1 and kappa at most 1 |
| Comp.KappaReflexive | ttm/comp.py:31-54 | a file with distinct ids compared with itself has no disagreeing pair, and kappa is 1 whenever it is defined, that is with two ids and more than one cluster |
| Comp.KappaBounds | ttm/comp.py:31-54 | kappa of any two files, header-only ones included, fails exactly with fewer than two ids or a single cluster in both; otherwise kappa is at most 1 and zoom at least 1 |
| Comp.ExpectedBounds | ttm/comp.py:48-49 | a file's bucket probability lies in [0, 1], is 0 exactly when the file has no rows, and is 1 exactly with a single cluster |
| Comp.Collect | ttm/comp.py:57-60 | the loop over file pairs succeeds exactly when every kappa does, keeping them in order; otherwise it raises one of their errors |
| Comp.Kappas | ttm/comp.py:57-58 | one kappa per pair of files |
| Comp.Means | ttm/comp.py:61-63 | averaging fails with ZeroDivisionError exactly on an empty list |
| Comp.AvgKappa | ttm/comp.py:55-65 | fewer than two files leave nothing to average and divide by zero |
| Comp.MeansBounds | ttm/comp.py:61-63 | means of kappas at most 1 and zooms at least 1 keep those bounds |
| Comp.AvgKappaBounds | ttm/comp.py:55-65 | a successful average, over any files including header-only ones, involves at least two files, its kappa is at most 1 and its zoom at least 1 |
| Comp.CompCli | ttm/comp.py:98-100 | fewer than two files raise the CliError |
| Comp.CliAvoidsEmptyAverage | ttm/comp.py:98-105 | past the check there is at least one pair of files, so a failure comes from some pair's kappa, never from an empty average |
| Cat.DropHyphenBreaks | ttm/cat.py:8 | deleting `-\n` never lengthens the text |
| Cat.DropHyphenBreaksNone | ttm/cat.py:8 | text without a hyphenated line break is left alone |
| Cat.DropHyphenBreaksSplice | ttm/cat.py:8 | a hyphenated line break between two texts is removed and the parts are joined |
| Cat.Normalize | ttm/cat.py:7-10 | the normalized text has no whitespace runs and the same tokens as the text with `-\n` deleted |
| Cat.Tokens | ttm/cat.py:21-23 | the tokens are non-empty and whitespace-free, those of the text with `-\n` deleted |
| Cat.PySliceSpec | ttm/cat.py:27 | `s[a:b]` for `0 <= a` holds the elements from a on, at most b-a of them, clipped at the end of `s` |
| Cat.StartAt | ttm/cat.py:24-28 | the k-th value of the loop variable is the start plus k steps |
| Cat.WindowAt | ttm/cat.py:24-29 | the k-th window is the slice of `window` tokens starting k steps after the first |
| Cat.WindowCount | ttm/cat.py:26 | the loop stops at the first window whose predecessor reaches the end of the tokens |
| Cat.SplitDoc | ttm/cat.py:12-29 | a zero step divides by zero; a step that does not divide the window raises; otherwise the k-th window is named `filename:k`, and no window is produced when there are at most `window - step` tokens |
| Cat.SplitDocWindow | ttm/cat.py:24-29 | the k-th window (from 1) is `filename:k` holding `tokens[(k-1)*step:(k-1)*step+window]`, at most `window` tokens |
| Cat.SplitDocCount | ttm/cat.py:26-28 | the windows reach the last token, the last window is needed, and there is none exactly when there are at most `window - step` tokens |
| Cat.WindowsCover | ttm/cat.py:24-29 | every token from the first start on falls inside some window |
| Cat.Coverage | ttm/cat.py:12-29 | when a file yields windows, every token of it sits in some window at its offset |
| Cat.DocOfWindow | ttm/cat.py:41-44 | a row's content splits back into the window's tokens and its counts are those of the tokens and the content |
| Cat.Docs | ttm/cat.py:31-44 | no files give no rows; a zero step or a step that does not divide the window fails for any file |
| Cat.DocsConsistent | ttm/cat.py:39-44 | every row is consistent and holds at most `window` tokens |
| Cat.PairsLoopShifted | ttm/cat.py:55-59 | the queue loop pairs each id with the one `window // step` places later |
| Cat.FilePairs | ttm/cat.py:54-59 | a file's pairs exist exactly when its windows do |
| Cat.PsqPairs | ttm/cat.py:46-59 | no files give no pairs; a zero step or a step that does not divide the window fails |
| Cat.FilePairsShape | ttm/cat.py:46-59 | a file yields exactly the pairs `(file:k, file:k+window//step)` for every later window, and those steps add up to a window |
| Cat.FilePairsFromFile | ttm/cat.py:54-59 | the pairs of one file are made of that file's ids |
| Cat.PairsStayInFile | ttm/cat.py:54-59 | no pair joins ids of two different files |
| Cat.SuggestWindowNearest | ttm/cat.py:115-116 | the suggested window is the multiple of the step nearest the window, ties going up |
| Cat.SearchAsWritten | ttm/cat.py:117-120 | both bounds move down together and no step between the final bound and the given one divides the window |
| Cat.OrStep | ttm/cat.py:121-126 | the offered step is a bound that divides the window, `high_s` first, and none is offered exactly when neither does |
| Cat.StepHintAsWritten | ttm/cat.py:117-126 | as written, an offered step divides the window, is at most the given step and is the largest such step within the search |
| Cat.AsWrittenMissesNearerStep | ttm/cat.py:117-126 | for window 10 and step 4 the code offers 2, although 5 divides 10 and is nearer |
| Cat.StepHint | ttm/cat.py:117-126 | the intended search with `high_s` moving up offers only steps that divide the window |
| Cat.StepHintNearest | ttm/cat.py:117-126 | the intended hint is a nearest divisor of the window to the step, and none is offered only when no divisor lies within a fifth of the window |
| Cat.StepHintExample | ttm/cat.py:117-126 | for window 10 and step 4 the intended search offers 5 |
| Cat.WindowStep | ttm/cat.py:104-129 | an accepted window and step have a non-zero step that divides the window; the window is the given one, and a window that is not an integer raises ValueError |
| Cat.DefaultStep | ttm/cat.py:104-112 | without a step an odd window raises the CliError, zero divides by zero, and an even window runs with half of it as step |
| Cat.GivenStep | ttm/cat.py:105-129 | a given step that is not an integer raises ValueError, zero divides by zero, and otherwise it is accepted exactly when it divides the window, else the CliError whose suggested step is the one the search as written finds |
| Cat.DivisibilityMessageExample | ttm/cat.py:117-129 | for window 10 and step 4 the message suggests a window of 12 or a step of 2 as written, and a step of 5 with the corrected search |
| Cat.DefaultWindowStep | ttm/cat.py:104-108 | without options the window is 300 and the step 150 |
| C20cat.NormalizeSpec | ttm/c20cat.py:8-10 | a normalized message has no outer whitespace, no whitespace runs, the same tokens, and is no longer |
| C20cat.NormalizeEmpty | ttm/c20cat.py:8-10 | a message normalizes to the empty string exactly when it has no token |
| C20cat.NormalizeAll | ttm/c20cat.py:21 | every message is normalized, in order |
| C20cat.NonEmpty | ttm/c20cat.py:21 | `filter(bool, ...)` keeps only non-empty messages, never more than given |
| C20cat.NonEmptyKeepsExactly | ttm/c20cat.py:21 | `filter(bool, ...)` keeps a message exactly when it is non-empty, as often as it occurs, and drops every empty one |
| C20cat.NonEmptyAppend | ttm/c20cat.py:21 | the filter keeps the order: filtering a concatenation concatenates the filtered parts |
| C20cat.KeptIff | ttm/c20cat.py:29-31 | a message is kept exactly when it meets the minima and each non-negative maximum, inclusive |
| C20cat.InitialCounts | ttm/c20cat.py:23 | every newsgroup starts at message number 0 |
| C20cat.LoopStep | ttm/c20cat.py:24-32 | each round raises its label's counter, then yields the message numbered with the new count unless it is skipped |
| C20cat.LoopIsExpected | ttm/c20cat.py:24-32 | the loop yields exactly the reference sequence: the kept pairs in order, each numbered by how often its label occurred so far |
| C20cat.LoopFails | ttm/c20cat.py:22-25 | the loop raises IndexError exactly when some zipped target has no name |
| C20cat.ReadFilesIsExpected | ttm/c20cat.py:12-32 | `_read_files` yields the reference messages over the filtered contents, or IndexError exactly when a zipped target has no name |
| C20cat.ExpectedMembers | ttm/c20cat.py:24-32 | every yielded message is a kept zipped pair, with its numbered id |
| C20cat.IdOfInjective | ttm/c20cat.py:26 | ids of one newsgroup differ when their numbers do |
| C20cat.SameGroupDistinctIds | ttm/c20cat.py:24-32 | no two yielded messages of one newsgroup share an id, although skipped messages leave gaps |
| C20cat.LoopPositional | ttm/c20cat.py:24-32 | every yielded message is the k-th filtered content with the k-th target, and passed the filters |
| C20cat.ReadFilesPositional | ttm/c20cat.py:21-32 | as written the label of a message is the target at its position among the non-empty contents |
| C20cat.MisalignedExample | ttm/c20cat.py:21-24 | as written an empty first message shifts the labels: message `x` of group `b` is yielded as `a.message-001` |
| C20cat.AlignedOwnGroup | ttm/c20cat.py:21-24 | with the intended alignment every message carries its own target's name |
| C20cat.AlignedExample | ttm/c20cat.py:21-24 | with the intended alignment the same input yields `x` as `b.message-001` |
| Show.ParseId | ttm/show.py:11 | unpacking a bad id fails with ValueError |
| Show.ParseFormatId | ttm/show.py:11 | an id `book:page` with a colon-free book name reads back as that book and page |
| Show.ParseIdColons | ttm/show.py:11 | an id parses only when it holds exactly one colon |
| Show.PageMap | ttm/show.py:9-13 | building the page map fails with ValueError exactly when some zipped id does not parse |
| Show.PageMapPages | ttm/show.py:10-13 | the keys are exactly the pages of the requested book |
| Show.PageMapLastWins | ttm/show.py:13 | a page maps to the cluster of the last row naming it |
| Show.SortedPages | ttm/show.py:20 | the pages are all keys, each once, ascending |
| Show.Chunks | ttm/show.py:21-28 | every chunk has between 1 and `res` pages, and all but the last exactly `res` |
| Show.ChunksFlatten | ttm/show.py:21-28 | the chunks hold every page once, in the given order |
| Show.ChunksCount | ttm/show.py:21-28 | there are ceil(pages / res) chunks, none exactly for no pages |
| Show.GlyphLevelIsLeast | ttm/show.py:30-37 | the glyph is the first threshold k/6 that `count/res` does not exceed |
| Show.GlyphMonotone | ttm/show.py:30-37 | more pages of a cluster never give a lighter glyph; none gives the blank and a full chunk `+++` |
| Show.HeaderCellText | ttm/show.py:18 | a header cell is three columns, the first two characters of the label right-aligned, then a space |
| Show.Header | ttm/show.py:17-18 | the header is fifteen spaces, then one three-column cell per cluster in order |
| Show.Cells | ttm/show.py:30-37 | a body line has one glyph per cluster of the order, chosen from that cluster's count in the chunk |
| Show.BodyLineShape | ttm/show.py:22-38 | a chunk's line fails with KeyError exactly when one of its pages has a cluster outside the order; otherwise it is the `first-last` range right-aligned in ten columns, a bar, the glyphs and a closing bar |
| Show.GatherAt | ttm/show.py:21-38 | collecting the lines succeeds exactly when every line does, keeps them in order, and otherwise fails with the error of the first failing line |
| Show.BodyLinesAt | ttm/show.py:21-38 | the body has one line per chunk and fails exactly when a chunk's line does |
| Show.ChunksKnown | ttm/show.py:23-27 | every chunk draws exactly when every page's cluster is in the order |
| Show.BookKnown | ttm/show.py:7-40 | with `res >= 1` a book renders exactly when every page's cluster is in the order, else KeyError |
| Show.BookShape | ttm/show.py:17-40 | the rendering is the header, one line per chunk and the header again |
| Show.BookPages | ttm/show.py:9-28 | the chunks hold exactly the book's pages, ascending, and there are ceil(pages / res) of them |
| Show.BookNeedsPositiveRes | ttm/show.py:21-28 | a book without pages is two headers for any `res`; with pages, a `res` below 1 never renders |
| Show.ShareThenNameDescIsTotalOrder | ttm/show.py:61-62 | ordering by share, then name, descending is total and transitive |
| Show.RankedDistribution | ttm/show.py:60-62 | sorting the distribution permutes it, orders it and keeps the names distinct |
| Show.ClusterOrderMembers | ttm/show.py:60-62 | the order holds every cluster of the column once |
| Show.ClusterOrderRanks | ttm/show.py:60-62 | more frequent clusters come first, and equally frequent ones in descending name order |
| Show.BookNames | ttm/show.py:63 | a book name is the part of each id before its first colon |
| Show.BooksSorted | ttm/show.py:63-65 | the books are the distinct book names, sorted |
| Show.Matching | ttm/show.py:65-67 | the books a regex selects are exactly those it matches |
| Show.Unmatched | ttm/show.py:66-67 | the books left for later regexes are exactly those it does not match |
| Show.SelectedOnce | ttm/show.py:64-67 | the rendered books are exactly those some regex matches, each once |
| Show.ResOption | ttm/show.py:56-57 | `--res` values convert with `int()`, each of them, else ValueError |
| Show.ResOptionLastWins | ttm/show.py:57-69 | the last `--res` counts, and 15 is the default |
| Show.Render | ttm/show.py:64-71 | each selected book is printed with its own rendering, in order |
| Show.BookCommand | ttm/show.py:53-59 | no REGEX raises the CliError; a bad `--res` raises ValueError first |
| Show.BookCommandRendersEachOnce | ttm/show.py:63-71 | the printed books are exactly the books some regex matches, each printed once |
| Text.Split | ttm/types.py:110 | `str.split('\t')` gives one field more than there are tabs, none containing a tab |
| Text.JoinSplit | ttm/types.py:113-118 | joining the fields of a split gives the line back |
| Text.SplitJoin | ttm/types.py:113-118 | splitting a join of tab-free fields gives the fields back |
| Text.RStrip | ttm/types.py:70 | `rstrip(c)` removes exactly the trailing run of `c` |
| Text.CollapseKeepsTokens | ttm/cat.py:9 | replacing whitespace runs by one space keeps the tokens of `split()` |
| Text.StripKeepsTokens | ttm/c20cat.py:10 | `strip()` keeps the tokens of `split()` |
| Text.SplitWsNoSpace | ttm/cat.py:23 | `split()` yields non-empty tokens without whitespace |
| Text.JoinSplitWs | ttm/cat.py:42 | splitting the space-join of tokens gives the tokens back |
| Text.PadLeft | ttm/show.py:29 | right-alignment pads with spaces on the left to the width and keeps the text at the end |
| Decimal.ParseShowInt | ttm/cluster.py:219-221 | `int(str(i))` gives `i` back |
| Decimal.ZeroPadValue | ttm/c20cat.py:26 | the zero-padded number still denotes the number and ends with its plain digits |
| Decimal.PyMod | ttm/cat.py:19 | Python's `%` takes the sign of the divisor and agrees with `//` |
| Sorting.SortSorted | ttm/eval.py:33 | sorting by a total, transitive order returns its input in order |
| Sorting.LexLeIsTotalOrder | ttm/comp.py:15 | Python's string order is a total order |
| Wrappers.TryUndefinedExcept | ttm/eval.py:321-325 | a `try` whose handler names an undefined class keeps its body's value when the body succeeds, and raises NameError exactly when the body raises |
| Imports.FromImport | ttm/c20cat.py:5 | `from M import ...` succeeds exactly when M binds every requested name, else ImportError |
| Imports.RunAfterImports | ttm/cli.py:5-6 | a command behind imports runs as itself when every import succeeds, and otherwise fails with the error of the first failing import |
| Imports.EveryCommandFailsAsWritten | ttm/c20cat.py:5 | as written `ttm/cat.py` binds no `calculate_window`, so importing `c20cat` fails and every command fails with ImportError, whatever embed and desc do |
| Imports.CommonTypesImport | ttm/embed.py:4 | `from common_types import *` succeeds exactly when it is made relative; as written it is ImportError, since no top-level `common_types` is installed |
| Imports.CliImportsSucceedIffRepaired | ttm/cli.py:5-6 | every module import of cli.py succeeds exactly when `ttm/cat.py` defines `calculate_window` and embed and desc import `common_types` relatively |
| Imports.CatRepairAloneFailsAtEmbed | ttm/embed.py:4 | with only `calculate_window` added, c20cat imports but embed does not, so every command still fails with ImportError |
| Imports.CommandsRunOnceRepaired | ttm/cli.py:5-6 | with both repairs every import succeeds and each command runs as modelled |

## Left out

- Opening, reading and writing files: compression codecs, `OutputFile`, `os.listdir` and printing are I/O. `_open` is modelled only as the choice of a handle, and `cat` works on `(filename, text)` pairs in directory order.
- `json.loads` and `json.dumps` of vectors and of the distribution cell: the decoder and encoder are parameters, and an undecodable cell is not modelled.
- Library algorithms: the sklearn metrics and clusterers, numpy `argmax`, umap, lda, svd, hdbscan and `fetch_20newsgroups` are foreign calls. Only their options and what the code does with their results are modelled.
- `random()` is nondeterministic: `Cluster.Random` takes its successive values as a parameter. `random.choices` is modelled as Python 3.9 and later run it; 3.7 and 3.8 do not raise on a total that is not positive.
- Cluster.Choices: weights are reals, so the rounding of the running totals and of `random() * total`, and the ValueError for a total that is not finite, are not modelled.
- `eval` of `--function` is a parameter (`Cluster.RandomDrawWeights`).
- Floating point: ratios are exact reals. The `.2*w` bound of the step search is compared as `5 * d <= w`. The `round` of the silhouette sample size and the standard deviations in `avg_kappa` are left out.
- `Column.filter`, `peek` and `matrix` are called but never defined in `ttm/types.py`, and neither are the exceptions `ColumnNotFound` and `EmptyColumnError` that the surrounding handlers name. Split mode therefore always fails with NameError (`Cluster.SplitAlwaysFailsAsWritten`), and so does every FILE of `ttm eval` (`Eval.EvalAbortsAtFirstFile`). `aggl`, `kmeans` and `hdbscan` would raise AttributeError on `matrix`; those methods are foreign calls and are not run. The corrected split mode and `ttm eval` take the sub-clustering and the number of vectors as inputs.
- Eval.EvaluateGating: models the metric part of the per-file loop as it would run once `peek`, `ColumnNotFound` and the size metrics exist. As written every FILE aborts with NameError before it (`Eval.EvalAbortsAtFirstFile`).
- Output.Zipped: takes the lines and the cells as already read. When the cells come from a lazy column over the same input, the reader can fail first; `Cluster.ArgmaxStageOutcome` states this for `argmax`.
- Cluster.ClusteredRows: takes the labels as given, which is how `random` runs, since it exhausts the column before the output starts. For `argmax` the labels are produced lazily, and `Cluster.ArgmaxStageOutcome` states the outcome over a reader.
- Cluster.SplitClusteredRows: describes split mode with the `cluster` column already read. The relabelling generator reads that column lazily while the output pass runs, so over an unseekable input it would meet the same second-pass error as `argmax`; this is not stated for split mode, which as written fails earlier with NameError. The errors of reading that column itself (no `cluster` column, a row too short for it) are not interleaved with the rows either.
- Help texts, `HelpRequested` and the getopt parsing itself (including `GetoptError`): options arrive as the `(name, value)` pairs getopt returns and leftover words as `rest`.
- `eval._print_text` and the text output of `ttm comp` are presentation only.
- `ttm cat`'s TYPE dispatch, its directory check and its tab/newline id check are left out. Only the window/step handling of its `_cli` is modelled.
- `ttm/c20cat.py` cannot be imported, because `ttm/cat.py` does not define `calculate_window` (`Imports.EveryCommandFailsAsWritten`). Its `_cli` also uses a `docs`/`psq_pairs` signature that `ttm/cat.py` does not have, and is left out. `_read_files` is modelled on its own, with the fetched data and targets as inputs.
- `show`: `cluster_freq` is computed but never used, and is left out. Regex matching is the parameter `matches`, so the `re.error` that an invalid REGEX raises is not modelled. The id and cluster columns are read once and given as sequences.
- `ttm/desc.py`, `ttm/embed.py` and `setup.py` are not part of this model beyond their imports: desc is numpy tf-idf and embed a stub that always raises, and neither can be imported as written (`Imports.CommonTypesImport`); of `setup.py` only the installed package list is used. Of `ttm/cli.py` only the module imports are modelled; its dispatch of commands and global options is left out.
- Messages printed to standard error, and output already printed when a later row raises, are not modelled: a failure is the whole outcome.
- Cat.SplitDoc: a negative step either yields nothing or loops forever. The model returns `Diverges` for the second case and does not describe the lines the generator yields before it hangs.
- Show.BookLines: a `res` of 0 divides by zero and a negative `res` loops forever. Both are failures in the model, and the rendering is only described for `res >= 1`.
- Tsv.ViewLines: errors in a view are reported for the whole pass, not after the lines a generator yields before raising.
- Comp.KappaDefinitionsAgree: the first, overridden `_kappa` builds sets, so the model states agreement only for files without repeated ids, where the toggle loop is a symmetric difference.
- Cluster.MethodOf: `aggl`, `kmeans` and `hdbscan` options are validated and kept, but the methods themselves cannot run (see above).
- Cli.IntOptionParses: `int()` is modelled as an optional sign followed by ASCII digits (`Decimal.ParseInt`). Python also accepts surrounding whitespace, `_` between digits and non-ASCII decimal digits; those inputs are ValueError in the model.
- Cli.EveryInt: uses the same `int()` grammar, with the same gaps.
- Show.ResOption: uses the same `int()` grammar, with the same gaps.
- Show.ParseId: uses the same `int()` grammar for the page, so an id such as `b: 3` is ValueError here, though Python reads page 3.
- EvalTsv.ParseFloat: `float()` is modelled as an optional sign followed by a decimal literal with optional point and exponent, or `inf`, `infinity` or `nan` in lower case. Python also accepts surrounding whitespace, `_` between digits, any letter case for `inf`/`nan`, and non-ASCII digits; those inputs are ValueError here. A parsed float is kept as the cell's text (`FloatValue`), whereas Python prints it back through `repr`, so `1.50` comes out as `1.5` there.
- EvalTsv.ParseValue: uses the `int()` and `float()` grammars above, with the same gaps.

## Findings

| source | as written | input that shows it | evidently intended | confidence | as-written member | corrected member |
|---|---|---|---|---|---|---|
| ttm/cat.py:117-126 | the step search decrements `high_s` along with `low_s`, so both bounds only move down and a larger divisor is never offered | window 10, step 4: the message suggests a step of 2 | `high_s` moves up, offering the nearest divisor (5 here) | high, not executed | Cat.AsWrittenMissesNearerStep | Cat.StepHintNearest |
| ttm/c20cat.py:21-24 | empty messages are dropped from the contents but not from the labels, so later messages are paired with earlier messages' labels | data `["", "x"]`, targets `[0, 1]`, names `["a", "b"]`: `x` is yielded as `a.message-001` in group `a` | each message keeps its own label: `b.message-001` in group `b` | high, not executed | C20cat.MisalignedExample | C20cat.AlignedOwnGroup |
| ttm/redim.py:28-33 | `svd` ignores its `components` argument and always asks for 5 components | `ttm redim svd --components 2` gives 5 dimensions | `n_components = components`, as the help text documents | high, not executed | Redim.SvdIgnoresComponents | Redim.SvdAgreesOnlyOnFive |
| ttm/cluster.py:31-38 | `hdbscan` ignores its `metric` and `cluster_selection_method` arguments and always uses euclidean and eom | `ttm cluster hdbscan --metric manhattan` clusters with the euclidean metric | pass the given metric and selection method, as the help text documents | high, not executed | Cluster.HdbscanIgnoresMetric | Cluster.HdbscanAgreesOnlyOnDefaults |
| ttm/c20cat.py:5 | imports `calculate_window` from `ttm/cat.py`, which defines no such name; `ttm/cli.py:5` imports `c20cat` for every command | any command line, e.g. `ttm cat` | `ttm/cat.py` defines `calculate_window` as its window/step check, and (next row) embed and desc import `common_types` relatively | high, not executed | Imports.EveryCommandFailsAsWritten | Imports.CommandsRunOnceRepaired |
| ttm/embed.py:4 | `from common_types import *` is an absolute import, and the installed package has no top-level `common_types` (ttm/desc.py:4 has the same line), so with `calculate_window` added every command fails at `embed` | any command line of the installed `ttm`, e.g. `ttm cat` | `from .common_types import *`, as every other module imports `.types` | high, not executed | Imports.CatRepairAloneFailsAtEmbed | Imports.CliImportsSucceedIffRepaired |
| ttm/eval.py:320-330 | every FILE calls `peek`, which `Column` does not have, inside a `try` whose handler names the undefined `ColumnNotFound`, so the AttributeError becomes NameError | `ttm eval corpus.tsv` on any corpus | read the vector sizes and go on to the metrics | high, not executed | Eval.EvalAbortsAtFirstFile | Eval.EvaluateGating |
| ttm/cluster.py:197-211 | split mode calls `filter`, which `Column` does not have, inside a `try` whose handlers name undefined classes, so the AttributeError becomes NameError | `ttm cluster --split 3 argmax` on any corpus | select the split cluster's vectors and relabel its rows | high, not executed | Cluster.SplitAlwaysFailsAsWritten | Cluster.SplitClusteredRows |
| ttm/cluster.py:11-13 | `argmax` returns a lazy generator over the `lowdim` column, so the first label starts a second pass over the input while the output pass is still recording it | `ttm cluster argmax < corpus.tsv` with a header and one data row | load the input first (`ensure_loaded`, as `psq_count` and `book` do), or read the labels eagerly as `random` does | high, not executed | Cluster.ArgmaxStageOutcome | Cluster.ArgmaxAfterLoading |

=== FILE: c20cat.dfy ===
/** `ttm 20cat`: the 20 newsgroups messages as a corpus. The dataset fetch is
    abstracted into its three parts: the message texts, the target index of
    every message and the newsgroup names. */
module C20cat {
  import opened Wrappers
  import opened Text
  import opened Decimal
  import Eval

  // ---------------------------------------------------------------------
  // _normalize
  // ---------------------------------------------------------------------

  /** `_normalize`: whitespace runs become one space, then outer blanks go. */
  function Normalize(doc: string): string
  {
    Strip(Collapse(doc))
  }

  /** A normalized message has no outer blanks and no whitespace runs, holds
      the same tokens as the message and is no longer. */
  lemma NormalizeSpec(doc: string)
    ensures var r := Normalize(doc);
      && Trimmed(r) && NoSpaceRuns(r)
      && SplitWs(r) == SplitWs(doc)
      && |r| <= |doc|
  {
    CollapseKeepsTokens(doc);
    StripKeepsTokens(Collapse(doc));
    StripKeepsNoSpaceRuns(Collapse(doc));
    CollapseNoLonger(doc);
  }

  /** Collapsing never lengthens a text. */
  lemma {:induction false} CollapseNoLonger(s: string)
    ensures |Collapse(s)| <= |s|
    decreases |s|
  {
    if |s| > 0 {
      if IsSpace(s[0]) {
        var rest := SkipSpace(s);
        CollapseNoLonger(rest);
      } else {
        CollapseNoLonger(s[1..]);
      }
    }
  }

  /** A normalized message is empty exactly when it holds no token. */
  lemma NormalizeEmpty(doc: string)
    ensures Normalize(doc) == "" <==> SplitWs(doc) == []
  {
    var r := Normalize(doc);
    NormalizeSpec(doc);
    if |r| > 0 {
      SplitWsFirst(r);
    }
  }

  /** Every message normalized, in order. */
  function NormalizeAll(data: seq<string>): (r: seq<string>)
    ensures |r| == |data| && forall i :: 0 <= i < |data| ==> r[i] == Normalize(data[i])
  {
    if |data| == 0 then [] else [Normalize(data[0])] + NormalizeAll(data[1..])
  }

  /** `filter(bool, xs)` on strings: the non-empty ones, in order. */
  function NonEmpty(xs: seq<string>): (r: seq<string>)
    ensures forall i :: 0 <= i < |r| ==> |r[i]| > 0
    ensures |r| <= |xs|
  {
    if |xs| == 0 then []
    else (if |xs[0]| > 0 then [xs[0]] else []) + NonEmpty(xs[1..])
  }

  /** How often `filter(bool, xs)` keeps one message. */
  lemma {:induction false} NonEmptyCount(xs: seq<string>, s: string)
    ensures multiset(NonEmpty(xs))[s] == if |s| > 0 then multiset(xs)[s] else 0
  {
    if |xs| > 0 {
      NonEmptyCount(xs[1..], s);
      assert xs == [xs[0]] + xs[1..];
      var h := if |xs[0]| > 0 then [xs[0]] else [];
      assert multiset(NonEmpty(xs)) == multiset(h) + multiset(NonEmpty(xs[1..]));
    }
  }

  /** `filter(bool, xs)` keeps every non-empty message exactly as often as it
      occurs and drops every empty one. */
  lemma NonEmptyKeepsExactly(xs: seq<string>)
    ensures forall s :: s in NonEmpty(xs) <==> s in xs && |s| > 0
    ensures forall s :: |s| > 0 ==> multiset(NonEmpty(xs))[s] == multiset(xs)[s]
    ensures "" !in NonEmpty(xs)
  {
    forall s
      ensures multiset(NonEmpty(xs))[s] == if |s| > 0 then multiset(xs)[s] else 0
    {
      NonEmptyCount(xs, s);
    }
  }

  /** Filtering keeps the order: the filter of a concatenation is the
      concatenation of the filters. */
  lemma {:induction false} NonEmptyAppend(xs: seq<string>, ys: seq<string>)
    ensures NonEmpty(xs + ys) == NonEmpty(xs) + NonEmpty(ys)
    decreases |xs|
  {
    if |xs| > 0 {
      NonEmptyAppend(xs[1..], ys);
      assert (xs + ys)[1..] == xs[1..] + ys;
      assert (xs + ys)[0] == xs[0];
    } else {
      assert xs + ys == ys;
    }
  }

  // ---------------------------------------------------------------------
  // The loop of _read_files
  // ---------------------------------------------------------------------

  /** A yielded message: `(doc_id, group_label, content)`. */
  datatype Message = Message(id: string, group: string, content: string)

  /** The length filters of `_read_files`. */
  datatype Limits = Limits(minChars: int, minTokens: int, maxChars: int, maxTokens: int)

  /** The command line defaults: at least one character and one token, no
      upper bounds. */
  const DefaultLimits := Limits(1, 1, -1, -1)

  /** `label.message-NNN`, the number zero-padded to at least 3 digits. */
  function IdOf(group: string, n: nat): string
  {
    group + ".message-" + ZeroPad(n, 3)
  }

  /** The two `continue` tests of c20cat.py:29-31, as written. */
  predicate Skipped(content: string, lim: Limits)
  {
    var nChars, nTokens := |content|, |SplitWs(content)|;
    || nChars < lim.minChars || nTokens < lim.minTokens
    || (lim.maxChars >= 0 && nChars > lim.maxChars)
    || (lim.maxTokens >= 0 && nTokens > lim.maxTokens)
  }

  /** A message is kept exactly when its length and token count reach the
      minima and a non-negative maximum is not exceeded; a negative maximum
      puts no bound. */
  lemma KeptIff(content: string, lim: Limits)
    ensures !Skipped(content, lim) <==>
      && lim.minChars <= |content| && lim.minTokens <= |SplitWs(content)|
      && (lim.maxChars < 0 || |content| <= lim.maxChars)
      && (lim.maxTokens < 0 || |SplitWs(content)| <= lim.maxTokens)
  {
  }

  /** `msg_number` has an entry for every newsgroup name. */
  predicate HasAllNames(counts: map<string, nat>, names: seq<string>)
  {
    forall i :: 0 <= i < |names| ==> names[i] in counts
  }

  /** `msg_number` after the zipped messages with the given labels. */
  predicate CountsAfter(counts: map<string, nat>, names: seq<string>, labels: seq<string>)
  {
    && HasAllNames(counts, names)
    && (forall l :: l in counts ==> counts[l] == Eval.Count(labels, l))
  }

  /** The loop of c20cat.py:24-32 from the k-th zipped pair on. `zip` pulls
      a content first and stops when there is none; the label generator
      then raises `IndexError` for a target outside the name list. The
      counter is bumped before the length filters. */
  function Loop(contents: seq<string>, target: seq<nat>, names: seq<string>, k: nat,
                counts: map<string, nat>, lim: Limits): (r: Result<seq<Message>>)
    requires HasAllNames(counts, names)
    decreases |contents| - k
  {
    if k >= |contents| || k >= |target| then Success([])
    else if target[k] >= |names| then Failure(IndexError)
    else
      var group := names[target[k]];
      var n := counts[group] + 1;
      var id := IdOf(group, n);
      var content := contents[k];
      var counts' := counts[group := n];
      var rest :- Loop(contents, target, names, k + 1, counts', lim);
      if Skipped(content, lim) then Success(rest)
      else Success([Message(id, group, content)] + rest)
  }

  /** The initial `msg_number`: every newsgroup at 0. */
  function InitialCounts(names: seq<string>): (r: map<string, nat>)
    ensures CountsAfter(r, names, [])
  {
    map l | l in names :: 0
  }

  /** `_read_files` after the fetch, as written: the empty messages are
      dropped from the contents, the labels are taken positionally. */
  function ReadFiles(data: seq<string>, target: seq<nat>, names: seq<string>, lim: Limits): Result<seq<Message>>
  {
    Loop(NonEmpty(NormalizeAll(data)), target, names, 0, InitialCounts(names), lim)
  }

  // ---------------------------------------------------------------------
  // Reference definition of the loop's output
  // ---------------------------------------------------------------------

  /** The labels of the first `n` messages. */
  predicate LabelsInRange(target: seq<nat>, names: seq<string>, n: nat)
  {
    forall k :: 0 <= k < n && k < |target| ==> target[k] < |names|
  }

  /** The labels `zip` pairs with the contents. */
  function Labels(target: seq<nat>, names: seq<string>, n: nat): (r: seq<string>)
    requires LabelsInRange(target, names, n)
    ensures |r| == if n < |target| then n else |target|
    ensures forall k :: 0 <= k < |r| ==> r[k] == names[target[k]]
  {
    var m := if n < |target| then n else |target|;
    seq(m, k requires 0 <= k < m => names[target[k]])
  }

  /** The message the k-th zipped pair becomes: its number is how often its
      label occurred among the first k+1 labels. */
  function Numbered(contents: seq<string>, labels: seq<string>, k: nat): Message
    requires k < |contents| && k < |labels|
  {
    Message(IdOf(labels[k], Eval.Count(labels[..k + 1], labels[k])), labels[k], contents[k])
  }

  /** The messages kept from the k-th zipped pair on. */
  function Expected(contents: seq<string>, labels: seq<string>, k: nat, lim: Limits): seq<Message>
    requires |labels| <= |contents|
    decreases |labels| - k
  {
    if k >= |labels| then []
    else
      (if Skipped(contents[k], lim) then [] else [Numbered(contents, labels, k)])
      + Expected(contents, labels, k + 1, lim)
  }

  /** One more label raises its count by one and no other. */
  lemma CountSnoc(s: seq<string>, x: string, l: string)
    ensures Eval.Count(s + [x], l) == Eval.Count(s, l) + (if x == l then 1 else 0)
  {
    assert (s + [x])[..|s|] == s;
  }

  /** One round of the loop, for a target with a name. */
  lemma LoopStep(contents: seq<string>, target: seq<nat>, names: seq<string>, k: nat,
                 counts: map<string, nat>, lim: Limits)
    requires HasAllNames(counts, names)
    requires k < |contents| && k < |target| && target[k] < |names|
    ensures var group := names[target[k]];
      var n := counts[group] + 1;
      var next := Loop(contents, target, names, k + 1, counts[group := n], lim);
      Loop(contents, target, names, k, counts, lim)
        == if next.Failure? then next
           else if Skipped(contents[k], lim) then next
           else Success([Message(IdOf(group, n), group, contents[k])] + next.value)
  {
  }

  /** Bumping the counter of the next label keeps `msg_number` in step
      with the labels seen. */
  lemma CountsStep(counts: map<string, nat>, names: seq<string>, seen: seq<string>, group: string)
    requires CountsAfter(counts, names, seen) && group in counts
    ensures CountsAfter(counts[group := counts[group] + 1], names, seen + [group])
    ensures counts[group] + 1 == Eval.Count(seen + [group], group)
  {
    var counts' := counts[group := counts[group] + 1];
    forall l | l in counts' ensures counts'[l] == Eval.Count(seen + [group], l) {
      CountSnoc(seen, group, l);
    }
    CountSnoc(seen, group, group);
  }

  /** One step of the reference definition. */
  lemma ExpectedStep(contents: seq<string>, labels: seq<string>, k: nat, lim: Limits)
    requires |labels| <= |contents| && k < |labels|
    ensures Expected(contents, labels, k, lim)
      == if Skipped(contents[k], lim) then Expected(contents, labels, k + 1, lim)
         else [Numbered(contents, labels, k)] + Expected(contents, labels, k + 1, lim)
  {
    if Skipped(contents[k], lim) {
      assert [] + Expected(contents, labels, k + 1, lim) == Expected(contents, labels, k + 1, lim);
    }
  }

  /** When every zipped target has a name, the loop with its counter map
      computes the reference definition. */
  lemma {:induction false} LoopIsExpected(contents: seq<string>, target: seq<nat>, names: seq<string>, k: nat,
                                          seen: seq<string>, counts: map<string, nat>, lim: Limits)
    requires k <= |contents| && k <= |target| && LabelsInRange(target, names, |contents|)
    requires seen == Labels(target, names, k) && CountsAfter(counts, names, seen)
    ensures Loop(contents, target, names, k, counts, lim)
      == Success(Expected(contents, Labels(target, names, |contents|), k, lim))
    decreases |contents| - k
  {
    if k >= |contents| || k >= |target| {
      LoopIsExpectedEnd(contents, target, names, k, counts, lim);
    } else {
      var group := names[target[k]];
      var counts' := counts[group := counts[group] + 1];
      LoopInvariantNext(target, names, |contents|, k, seen, counts);
      LoopIsExpected(contents, target, names, k + 1, seen + [group], counts', lim);
      LoopIsExpectedStep(contents, target, names, k, seen, counts, lim);
    }
  }

  /** The labels and counters the loop carries into the next pair. */
  lemma LoopInvariantNext(target: seq<nat>, names: seq<string>, n: nat, k: nat,
                          seen: seq<string>, counts: map<string, nat>)
    requires k < n && k < |target| && LabelsInRange(target, names, n)
    requires seen == Labels(target, names, k) && CountsAfter(counts, names, seen)
    ensures var group := names[target[k]];
      && seen + [group] == Labels(target, names, k + 1)
      && CountsAfter(counts[group := counts[group] + 1], names, seen + [group])
  {
    var group := names[target[k]];
    CountsStep(counts, names, seen, group);
    LabelsSnoc(target, names, k);
  }

  lemma LoopIsExpectedEnd(contents: seq<string>, target: seq<nat>, names: seq<string>, k: nat,
                          counts: map<string, nat>, lim: Limits)
    requires k >= |contents| || k >= |target|
    requires LabelsInRange(target, names, |contents|) && HasAllNames(counts, names)
    ensures Loop(contents, target, names, k, counts, lim)
      == Success(Expected(contents, Labels(target, names, |contents|), k, lim))
  {
    assert |Labels(target, names, |contents|)| <= k;
  }

  lemma LoopIsExpectedStep(contents: seq<string>, target: seq<nat>, names: seq<string>, k: nat,
                           seen: seq<string>, counts: map<string, nat>, lim: Limits)
    requires k < |contents| && k < |target| && LabelsInRange(target, names, |contents|)
    requires seen == Labels(target, names, k) && CountsAfter(counts, names, seen)
    requires var group := names[target[k]];
      Loop(contents, target, names, k + 1, counts[group := counts[group] + 1], lim)
        == Success(Expected(contents, Labels(target, names, |contents|), k + 1, lim))
    ensures Loop(contents, target, names, k, counts, lim)
      == Success(Expected(contents, Labels(target, names, |contents|), k, lim))
  {
    var labels := Labels(target, names, |contents|);
    var group := names[target[k]];
    LoopStep(contents, target, names, k, counts, lim);
    CountsStep(counts, names, seen, group);
    LabelsSnoc(target, names, k);
    LabelsPrefix(target, names, |contents|, k + 1);
    assert Numbered(contents, labels, k) == Message(IdOf(group, counts[group] + 1), group, contents[k]);
    ExpectedStep(contents, labels, k, lim);
  }

  /** One more zipped pair adds its label at the end. */
  lemma LabelsSnoc(target: seq<nat>, names: seq<string>, k: nat)
    requires k < |target| && LabelsInRange(target, names, k + 1)
    ensures Labels(target, names, k + 1) == Labels(target, names, k) + [names[target[k]]]
  {
  }

  /** The labels of a shorter prefix are a prefix of the labels. */
  lemma LabelsPrefix(target: seq<nat>, names: seq<string>, n: nat, k: nat)
    requires k <= n && k <= |target| && LabelsInRange(target, names, n)
    ensures Labels(target, names, n)[..k] == Labels(target, names, k)
  {
  }

  /** The loop fails exactly when some zipped target has no name, and then
      with `IndexError`. */
  lemma {:induction false} LoopFails(contents: seq<string>, target: seq<nat>, names: seq<string>, k: nat,
                                     counts: map<string, nat>, lim: Limits)
    requires k <= |contents| && k <= |target| && LabelsInRange(target, names, k)
    requires HasAllNames(counts, names)
    ensures Loop(contents, target, names, k, counts, lim).Failure? <==> !LabelsInRange(target, names, |contents|)
    ensures Loop(contents, target, names, k, counts, lim).Failure? ==> Loop(contents, target, names, k, counts, lim).error == IndexError
    decreases |contents| - k
  {
    if k >= |contents| || k >= |target| {
      assert LabelsInRange(target, names, |contents|);
    } else if target[k] >= |names| {
      assert !LabelsInRange(target, names, |contents|) by {
        assert 0 <= k < |contents| && k < |target| && target[k] >= |names|;
      }
    } else {
      var group := names[target[k]];
      LoopFails(contents, target, names, k + 1, counts[group := counts[group] + 1], lim);
      LoopFailsStep(contents, target, names, k, counts, lim);
    }
  }

  lemma LoopFailsStep(contents: seq<string>, target: seq<nat>, names: seq<string>, k: nat,
                      counts: map<string, nat>, lim: Limits)
    requires k < |contents| && k < |target| && target[k] < |names| && LabelsInRange(target, names, k)
    requires HasAllNames(counts, names)
    requires var group := names[target[k]];
      var next := Loop(contents, target, names, k + 1, counts[group := counts[group] + 1], lim);
      (next.Failure? <==> !LabelsInRange(target, names, |contents|)) && (next.Failure? ==> next.error == IndexError)
    ensures Loop(contents, target, names, k, counts, lim).Failure? <==> !LabelsInRange(target, names, |contents|)
    ensures Loop(contents, target, names, k, counts, lim).Failure? ==> Loop(contents, target, names, k, counts, lim).error == IndexError
  {
    LoopStep(contents, target, names, k, counts, lim);
  }

  // ---------------------------------------------------------------------
  // Properties of the yielded messages
  // ---------------------------------------------------------------------

  /** `_read_files` either fails with `IndexError`, exactly when a target
      zipped with a non-empty message has no name, or yields the reference
      messages. */
  lemma ReadFilesIsExpected(data: seq<string>, target: seq<nat>, names: seq<string>, lim: Limits)
    ensures var contents := NonEmpty(NormalizeAll(data));
      var r := ReadFiles(data, target, names, lim);
      && (LabelsInRange(target, names, |contents|) ==>
            r == Success(Expected(contents, Labels(target, names, |contents|), 0, lim)))
      && (!LabelsInRange(target, names, |contents|) <==> r == Failure(IndexError))
  {
    var contents := NonEmpty(NormalizeAll(data));
    LoopFails(contents, target, names, 0, InitialCounts(names), lim);
    if LabelsInRange(target, names, |contents|) {
      assert Labels(target, names, 0) == [];
      LoopIsExpected(contents, target, names, 0, [], InitialCounts(names), lim);
    }
  }

  /** `m` is the numbered message of a zipped pair from `j` on that passes
      the length filters. */
  predicate NumberedFrom(contents: seq<string>, labels: seq<string>, j: nat, lim: Limits, m: Message)
    requires |labels| <= |contents|
  {
    exists k :: j <= k < |labels| && m == Numbered(contents, labels, k) && !Skipped(contents[k], lim)
  }

  /** Every message of the reference definition is the numbered message of
      one zipped pair that passes the length filters. */
  lemma ExpectedMembers(contents: seq<string>, labels: seq<string>, j: nat, lim: Limits)
    requires |labels| <= |contents|
    ensures forall m :: m in Expected(contents, labels, j, lim) ==> NumberedFrom(contents, labels, j, lim, m)
  {
    forall m | m in Expected(contents, labels, j, lim)
      ensures NumberedFrom(contents, labels, j, lim, m)
    {
      ExpectedMember(contents, labels, j, lim, m);
    }
  }

  lemma {:induction false} ExpectedMember(contents: seq<string>, labels: seq<string>, j: nat, lim: Limits, m: Message)
    requires |labels| <= |contents| && m in Expected(contents, labels, j, lim)
    ensures NumberedFrom(contents, labels, j, lim, m)
    decreases |labels| - j
  {
    assert j < |labels|;
    if m in Expected(contents, labels, j + 1, lim) {
      ExpectedMember(contents, labels, j + 1, lim, m);
      NumberedFromEarlier(contents, labels, j, lim, m);
    } else {
      ExpectedHead(contents, labels, j, lim, m);
    }
  }

  lemma NumberedFromEarlier(contents: seq<string>, labels: seq<string>, j: nat, lim: Limits, m: Message)
    requires |labels| <= |contents| && NumberedFrom(contents, labels, j + 1, lim, m)
    ensures NumberedFrom(contents, labels, j, lim, m)
  {
    var k :| j + 1 <= k < |labels| && m == Numbered(contents, labels, k) && !Skipped(contents[k], lim);
    assert j <= k;
  }

  /** A message from `j` on that is not one from `j + 1` on is the j-th. */
  lemma ExpectedHead(contents: seq<string>, labels: seq<string>, j: nat, lim: Limits, m: Message)
    requires j < |labels| <= |contents|
    requires m in Expected(contents, labels, j, lim) && m !in Expected(contents, labels, j + 1, lim)
    ensures NumberedFrom(contents, labels, j, lim, m)
  {
    ExpectedStep(contents, labels, j, lim);
    assert m == Numbered(contents, labels, j) && !Skipped(contents[j], lim);
  }

  /** Ids with the same label prefix differ when their numbers do. */
  lemma IdOfInjective(group: string, a: nat, b: nat)
    requires IdOf(group, a) == IdOf(group, b)
    ensures a == b
  {
    var p := group + ".message-";
    assert IdOf(group, a)[|p|..] == ZeroPad(a, 3);
    assert IdOf(group, b)[|p|..] == ZeroPad(b, 3);
    ZeroPadValue(a, 3);
    ZeroPadValue(b, 3);
  }

  /** Counts never shrink as the prefix grows. */
  lemma {:induction false} CountMonotone(s: seq<string>, l: string, i: nat, j: nat)
    requires i <= j <= |s|
    ensures Eval.Count(s[..i], l) <= Eval.Count(s[..j], l)
    decreases j - i
  {
    if i < j {
      CountMonotone(s, l, i, j - 1);
      assert s[..j][..j - 1] == s[..j - 1];
    }
  }

  /** A later occurrence of a label has a higher count. */
  lemma CountGrows(labels: seq<string>, i: nat, j: nat)
    requires i < j < |labels| && labels[i] == labels[j]
    ensures Eval.Count(labels[..i + 1], labels[i]) < Eval.Count(labels[..j + 1], labels[j])
  {
    CountMonotone(labels, labels[i], i + 1, j);
    assert labels[..j + 1][..j] == labels[..j];
  }

  /** A message after the j-th zipped pair with the same label has another
      id than the j-th pair's message. */
  lemma LaterIdDiffers(contents: seq<string>, labels: seq<string>, j: nat, lim: Limits, m: Message)
    requires |labels| <= |contents| && j < |labels|
    requires m in Expected(contents, labels, j + 1, lim) && m.group == labels[j]
    ensures m.id != Numbered(contents, labels, j).id
  {
    var k := ExpectedIndex(contents, labels, j + 1, lim, m);
    NumberedIdsDiffer(contents, labels, j, k);
  }

  /** The zipped pair a message of the reference definition comes from. */
  lemma ExpectedIndex(contents: seq<string>, labels: seq<string>, j: nat, lim: Limits, m: Message) returns (k: nat)
    requires |labels| <= |contents| && m in Expected(contents, labels, j, lim)
    ensures j <= k < |labels| && m == Numbered(contents, labels, k) && !Skipped(contents[k], lim)
  {
    ExpectedMember(contents, labels, j, lim, m);
    k :| j <= k < |labels| && m == Numbered(contents, labels, k) && !Skipped(contents[k], lim);
  }

  /** Two zipped pairs with the same label are numbered apart. */
  lemma NumberedIdsDiffer(contents: seq<string>, labels: seq<string>, j: nat, k: nat)
    requires j < k < |labels| <= |contents| && labels[k] == labels[j]
    ensures Numbered(contents, labels, k).id != Numbered(contents, labels, j).id
  {
    CountGrows(labels, j, k);
    if Numbered(contents, labels, k).id == Numbered(contents, labels, j).id {
      IdOfInjective(labels[j], Eval.Count(labels[..j + 1], labels[j]), Eval.Count(labels[..k + 1], labels[k]));
    }
  }

  /** No two messages with the same label share an id. */
  predicate DistinctIdsPerGroup(out: seq<Message>)
  {
    forall a, b :: 0 <= a < b < |out| && out[a].group == out[b].group ==> out[a].id != out[b].id
  }

  lemma DistinctCons(h: Message, tail: seq<Message>)
    requires DistinctIdsPerGroup(tail)
    requires forall m :: m in tail && m.group == h.group ==> m.id != h.id
    ensures DistinctIdsPerGroup([h] + tail)
  {
    var out := [h] + tail;
    forall a, b | 0 <= a < b < |out| && out[a].group == out[b].group
      ensures out[a].id != out[b].id
    {
      assert out[b] == tail[b - 1];
      if a > 0 {
        assert out[a] == tail[a - 1];
      }
    }
  }

  /** The j-th pair, kept or skipped, keeps the ids per label distinct. */
  lemma DistinctStep(contents: seq<string>, labels: seq<string>, j: nat, lim: Limits)
    requires |labels| <= |contents| && j < |labels|
    requires DistinctIdsPerGroup(Expected(contents, labels, j + 1, lim))
    ensures DistinctIdsPerGroup(Expected(contents, labels, j, lim))
  {
    ExpectedStep(contents, labels, j, lim);
    if !Skipped(contents[j], lim) {
      DistinctKept(contents, labels, j, lim);
    }
  }

  /** A kept j-th pair keeps the ids per label distinct. */
  lemma DistinctKept(contents: seq<string>, labels: seq<string>, j: nat, lim: Limits)
    requires |labels| <= |contents| && j < |labels|
    requires DistinctIdsPerGroup(Expected(contents, labels, j + 1, lim))
    ensures DistinctIdsPerGroup([Numbered(contents, labels, j)] + Expected(contents, labels, j + 1, lim))
  {
    var tail := Expected(contents, labels, j + 1, lim);
    var h := Numbered(contents, labels, j);
    forall m | m in tail && m.group == h.group ensures m.id != h.id {
      LaterIdDiffers(contents, labels, j, lim, m);
    }
    DistinctCons(h, tail);
  }

  /** Two messages with the same label never share an id: the counter is
      bumped for every zipped message, kept or not. */
  lemma {:induction false} SameGroupDistinctIds(contents: seq<string>, labels: seq<string>, j: nat, lim: Limits)
    requires |labels| <= |contents|
    ensures DistinctIdsPerGroup(Expected(contents, labels, j, lim))
    decreases |labels| - j
  {
    if j < |labels| {
      SameGroupDistinctIds(contents, labels, j + 1, lim);
      DistinctStep(contents, labels, j, lim);
    }
  }

  /** A run of the loop from the start yields contents `k` under the
      newsgroup of `target[k]`, for positions `k` that pass the filters. */
  lemma LoopPositional(contents: seq<string>, target: seq<nat>, names: seq<string>, lim: Limits)
    requires Loop(contents, target, names, 0, InitialCounts(names), lim).Success?
    ensures forall m :: m in Loop(contents, target, names, 0, InitialCounts(names), lim).value ==>
      exists k :: (0 <= k < |contents| && k < |target| && target[k] < |names|
        && m.content == contents[k] && m.group == names[target[k]] && !Skipped(m.content, lim))
  {
    var counts := InitialCounts(names);
    LoopFails(contents, target, names, 0, counts, lim);
    assert Labels(target, names, 0) == [];
    LoopIsExpected(contents, target, names, 0, [], counts, lim);
    forall m | m in Loop(contents, target, names, 0, counts, lim).value
      ensures exists k :: (0 <= k < |contents| && k < |target| && target[k] < |names|
        && m.content == contents[k] && m.group == names[target[k]] && !Skipped(m.content, lim))
    {
      ExpectedPositional(contents, target, names, lim, m);
    }
  }

  /** A message of the reference definition carries the content and the
      newsgroup of one zipped pair. */
  lemma ExpectedPositional(contents: seq<string>, target: seq<nat>, names: seq<string>, lim: Limits, m: Message)
    requires LabelsInRange(target, names, |contents|)
    requires m in Expected(contents, Labels(target, names, |contents|), 0, lim)
    ensures exists k :: (0 <= k < |contents| && k < |target| && target[k] < |names|
      && m.content == contents[k] && m.group == names[target[k]] && !Skipped(m.content, lim))
  {
    var labels := Labels(target, names, |contents|);
    var k := ExpectedIndex(contents, labels, 0, lim, m);
    assert m.content == contents[k] && m.group == names[target[k]];
  }

  /** As written, the k-th non-empty message is paired with the k-th label,
      counting positions after the empty messages were dropped. Every
      yielded message passed the length filters. */
  lemma ReadFilesPositional(data: seq<string>, target: seq<nat>, names: seq<string>, lim: Limits)
    requires ReadFiles(data, target, names, lim).Success?
    ensures var contents := NonEmpty(NormalizeAll(data));
      forall m :: m in ReadFiles(data, target, names, lim).value ==>
        exists k :: (0 <= k < |contents| && k < |target| && target[k] < |names|
          && m.content == contents[k] && m.group == names[target[k]] && !Skipped(m.content, lim))
  {
    LoopPositional(NonEmpty(NormalizeAll(data)), target, names, lim);
  }

  /** The drift as written: the first message is empty and dropped, and
      the second message is yielded under the first message's newsgroup. */
  lemma MisalignedExample()
    ensures ReadFiles(["", "x"], [0, 1], ["a", "b"], DefaultLimits)
      == Success([Message(IdOf("a", 1), "a", "x")])
  {
    NormalizeExample();
    assert NonEmpty(["", "x"]) == ["x"] by {
      assert ["", "x"][1..] == ["x"];
      assert ["x"][1..] == [];
    }
    SingleMessage(["x"], [0, 1], 0);
  }

  /** The normal forms of the two messages of the drift examples. */
  lemma NormalizeSmall()
    ensures Normalize("") == "" && Normalize("x") == "x"
    ensures !Skipped("x", DefaultLimits)
  {
    NormalizeSpec("");
    assert "x"[1..] == "";
    assert !IsSpace('x');
    assert Collapse("x") == "x";
    assert SkipSpace("x") == "x";
    assert RStripSpace("x") == "x";
    assert SplitWs("x") == ["x"];
  }

  /** The messages of the drift examples are already normalized. */
  lemma NormalizeExample()
    ensures NormalizeAll(["", "x"]) == ["", "x"]
  {
    NormalizePair("", "x");
    NormalizeSmall();
  }

  lemma NormalizePair(a: string, b: string)
    ensures NormalizeAll([a, b]) == [Normalize(a), Normalize(b)]
  {
    assert [a, b][1..] == [b];
    assert [b][1..] == [];
  }

  /** One message "x" labelled by `target[0]`. */
  lemma SingleMessage(contents: seq<string>, target: seq<nat>, t: nat)
    requires contents == ["x"] && |target| >= 1 && target[0] == t && t < 2
    ensures Loop(contents, target, ["a", "b"], 0, InitialCounts(["a", "b"]), DefaultLimits)
      == Success([Message(IdOf(["a", "b"][t], 1), ["a", "b"][t], "x")])
  {
    NormalizeSmall();
    var names := ["a", "b"];
    var counts := InitialCounts(names);
    assert names[t] in counts && counts[names[t]] == 0;
    var m := Message(IdOf(names[t], 1), names[t], "x");
    assert Loop(contents, target, names, 1, counts[names[t] := 1], DefaultLimits) == Success([]);
    assert [m] + [] == [m];
  }

  // ---------------------------------------------------------------------
  // The evidently intended pairing
  // ---------------------------------------------------------------------

  /** Each normalized message zipped with its own target, then the empty
      ones are dropped together with their targets. */
  function Aligned(cs: seq<string>, target: seq<nat>): seq<(string, nat)>
    decreases |cs|
  {
    if |cs| == 0 || |target| == 0 then []
    else (if |cs[0]| > 0 then [(cs[0], target[0])] else []) + Aligned(cs[1..], target[1..])
  }

  /** `p` is message `i` paired with its own target. */
  predicate FromIndex(cs: seq<string>, target: seq<nat>, p: (string, nat))
  {
    exists i :: 0 <= i < |cs| && i < |target| && p == (cs[i], target[i])
  }

  /** Every aligned pair is a message with its own target. */
  lemma {:induction false} AlignedOrigin(cs: seq<string>, target: seq<nat>)
    ensures forall k :: 0 <= k < |Aligned(cs, target)| ==> FromIndex(cs, target, Aligned(cs, target)[k])
    decreases |cs|
  {
    if |cs| > 0 && |target| > 0 {
      AlignedOrigin(cs[1..], target[1..]);
      var head: seq<(string, nat)> := if |cs[0]| > 0 then [(cs[0], target[0])] else [];
      var tail := Aligned(cs[1..], target[1..]);
      assert Aligned(cs, target) == head + tail;
      forall k | 0 <= k < |head + tail|
        ensures FromIndex(cs, target, (head + tail)[k])
      {
        if k < |head| {
          assert (head + tail)[k] == (cs[0], target[0]);
        } else {
          assert FromIndex(cs[1..], target[1..], tail[k - |head|]);
          var i :| 0 <= i < |cs[1..]| && i < |target[1..]| && tail[k - |head|] == (cs[1..][i], target[1..][i]);
          assert (head + tail)[k] == (cs[i + 1], target[i + 1]);
        }
      }
    }
  }

  /** The contents of the aligned pairs. */
  function Contents(ps: seq<(string, nat)>): (r: seq<string>)
    ensures |r| == |ps| && forall k :: 0 <= k < |ps| ==> r[k] == ps[k].0
  {
    seq(|ps|, k requires 0 <= k < |ps| => ps[k].0)
  }

  /** The targets of the aligned pairs. */
  function Targets(ps: seq<(string, nat)>): (r: seq<nat>)
    ensures |r| == |ps| && forall k :: 0 <= k < |ps| ==> r[k] == ps[k].1
  {
    seq(|ps|, k requires 0 <= k < |ps| => ps[k].1)
  }

  /** The loop over normalized messages, each kept with its own target. */
  function AlignedLoop(cs: seq<string>, target: seq<nat>, names: seq<string>, lim: Limits): Result<seq<Message>>
  {
    var ps := Aligned(cs, target);
    Loop(Contents(ps), Targets(ps), names, 0, InitialCounts(names), lim)
  }

  /** Every message of the aligned loop has the content and the target of
      one and the same input position. */
  lemma AlignedLoopOrigin(cs: seq<string>, target: seq<nat>, names: seq<string>, lim: Limits)
    requires AlignedLoop(cs, target, names, lim).Success?
    ensures forall m :: m in AlignedLoop(cs, target, names, lim).value ==>
      exists i :: (0 <= i < |cs| && i < |target| && target[i] < |names|
        && m.content == cs[i] && m.group == names[target[i]])
  {
    var ps := Aligned(cs, target);
    var contents, targets := Contents(ps), Targets(ps);
    LoopPositional(contents, targets, names, lim);
    AlignedOrigin(cs, target);
    forall m | m in AlignedLoop(cs, target, names, lim).value
      ensures exists i :: (0 <= i < |cs| && i < |target| && target[i] < |names|
        && m.content == cs[i] && m.group == names[target[i]])
    {
      var k :| 0 <= k < |contents| && k < |targets| && targets[k] < |names|
        && m.content == contents[k] && m.group == names[targets[k]];
      assert FromIndex(cs, target, ps[k]);
      var i :| 0 <= i < |cs| && i < |target| && ps[k] == (cs[i], target[i]);
      assert m.content == cs[i];
    }
  }

  /** `_read_files` with the pairing evidently intended: empty messages are
      dropped together with their labels, then the same loop runs. */
  function ReadFilesAligned(data: seq<string>, target: seq<nat>, names: seq<string>, lim: Limits): Result<seq<Message>>
  {
    AlignedLoop(NormalizeAll(data), target, names, lim)
  }

  /** With the intended pairing every message carries the newsgroup of the
      message it came from. */
  lemma AlignedOwnGroup(data: seq<string>, target: seq<nat>, names: seq<string>, lim: Limits)
    requires ReadFilesAligned(data, target, names, lim).Success?
    ensures forall m :: m in ReadFilesAligned(data, target, names, lim).value ==>
      exists i :: (0 <= i < |data| && i < |target| && target[i] < |names|
        && m.content == Normalize(data[i]) && m.group == names[target[i]])
  {
    var cs := NormalizeAll(data);
    AlignedLoopOrigin(cs, target, names, lim);
    forall m | m in AlignedLoop(cs, target, names, lim).value
      ensures exists i :: (0 <= i < |data| && i < |target| && target[i] < |names|
        && m.content == Normalize(data[i]) && m.group == names[target[i]])
    {
      var i :| 0 <= i < |cs| && i < |target| && target[i] < |names|
        && m.content == cs[i] && m.group == names[target[i]];
      assert cs[i] == Normalize(data[i]);
    }
  }

  /** The example of `MisalignedExample` with the intended pairing. */
  lemma AlignedExample()
    ensures ReadFilesAligned(["", "x"], [0, 1], ["a", "b"], DefaultLimits)
      == Success([Message(IdOf("b", 1), "b", "x")])
  {
    NormalizeExample();
    AlignedLoopExample();
  }

  /** The aligned loop on the normalized messages of the drift example. */
  lemma AlignedLoopExample()
    ensures AlignedLoop(["", "x"], [0, 1], ["a", "b"], DefaultLimits)
      == Success([Message(IdOf("b", 1), "b", "x")])
  {
    var cs: seq<string>, target: seq<nat> := ["", "x"], [0, 1];
    assert cs[1..] == ["x"] && target[1..] == [1];
    assert Aligned(["x"], [1]) == [("x", 1)] by {
      assert ["x"][1..] == [] && [1][1..] == [];
    }
    assert Aligned(cs, target) == [("x", 1)];
    assert Contents([("x", 1)]) == ["x"];
    assert Targets([("x", 1)]) == [1];
    SingleMessage(["x"], [1], 1);
  }
}

=== FILE: cat.dfy ===
/** `ttm cat`: turning a directory of plain text files into windowed
    documents (`docs`) and pairs of consecutive, non-overlapping windows
    (`psq_pairs`), and the window/step option handling of its command line. */
module Cat {
  import opened Wrappers
  import opened Text
  import opened Decimal

  // ---------------------------------------------------------------------
  // _normalize
  // ---------------------------------------------------------------------

  /** `re.sub(r'-\n', '', s)`: every hyphen followed by a newline is
      deleted, scanning left to right without rescanning the output. */
  function DropHyphenBreaks(s: string): (r: string)
    ensures |r| <= |s|
    decreases |s|
  {
    if |s| >= 2 && s[0] == '-' && s[1] == '\n' then DropHyphenBreaks(s[2..])
    else if |s| == 0 then ""
    else [s[0]] + DropHyphenBreaks(s[1..])
  }

  /** `s` contains no hyphen directly followed by a newline. */
  predicate NoHyphenBreak(s: string)
  {
    forall i :: 0 <= i < |s| - 1 ==> !(s[i] == '-' && s[i + 1] == '\n')
  }

  /** Text without hyphenated line breaks is left alone. */
  lemma {:induction false} DropHyphenBreaksNone(s: string)
    requires NoHyphenBreak(s)
    ensures DropHyphenBreaks(s) == s
    decreases |s|
  {
    if |s| >= 2 {
      assert !(s[0] == '-' && s[1] == '\n');
      DropHyphenBreaksNone(s[1..]);
      assert s == [s[0]] + s[1..];
    } else if |s| == 1 {
      assert s[1..] == "";
    }
  }

  /** One hyphenated line break is deleted and the text on both sides is
      treated independently: a hyphen before it does not pair with the
      hyphen of the break. */
  lemma {:induction false} DropHyphenBreaksSplice(a: string, b: string)
    ensures DropHyphenBreaks(a + "-\n" + b) == DropHyphenBreaks(a) + DropHyphenBreaks(b)
    decreases |a|
  {
    if |a| == 0 {
      SpliceEmpty(a, b);
    } else if |a| >= 2 && a[0] == '-' && a[1] == '\n' {
      DropHyphenBreaksSplice(a[2..], b);
      SpliceAfterBreak(a, b);
    } else if |a| == 1 {
      SpliceAfterOne(a, b);
    } else {
      DropHyphenBreaksSplice(a[1..], b);
      assert a == [a[0]] + a[1..];
      SpliceAfterKept(a[0], a[1..], b);
    }
  }

  lemma SpliceEmpty(a: string, b: string)
    requires |a| == 0
    ensures DropHyphenBreaks(a + "-\n" + b) == DropHyphenBreaks(a) + DropHyphenBreaks(b)
  {
    var s := a + "-\n" + b;
    assert s == "-\n" + b;
    DropBreak(s);
    assert s[2..] == b;
    assert DropHyphenBreaks(a) == "";
  }

  lemma SpliceAfterBreak(a: string, b: string)
    requires |a| >= 2 && a[0] == '-' && a[1] == '\n'
    requires DropHyphenBreaks(a[2..] + "-\n" + b) == DropHyphenBreaks(a[2..]) + DropHyphenBreaks(b)
    ensures DropHyphenBreaks(a + "-\n" + b) == DropHyphenBreaks(a) + DropHyphenBreaks(b)
  {
    var s := a + "-\n" + b;
    assert s[0] == '-' && s[1] == '\n';
    DropBreak(s);
    assert s[2..] == a[2..] + "-\n" + b;
    DropBreak(a);
  }

  lemma SpliceAfterOne(a: string, b: string)
    requires |a| == 1
    ensures DropHyphenBreaks(a + "-\n" + b) == DropHyphenBreaks(a) + DropHyphenBreaks(b)
  {
    var s := a + "-\n" + b;
    assert s[0] == a[0] && s[1] == '-';
    DropKeep(s);
    assert s[1..] == "-\n" + b;
    DropBreak(s[1..]);
    assert s[1..][2..] == b;
    DropKeep(a);
    assert a[1..] == "";
  }

  lemma SpliceAfterKept(c: char, t: string, b: string)
    requires |t| >= 1 && !(c == '-' && t[0] == '\n')
    requires DropHyphenBreaks(t + "-\n" + b) == DropHyphenBreaks(t) + DropHyphenBreaks(b)
    ensures DropHyphenBreaks([c] + t + "-\n" + b) == DropHyphenBreaks([c] + t) + DropHyphenBreaks(b)
  {
    var u := t + "-\n" + b;
    var dt, db := DropHyphenBreaks(t), DropHyphenBreaks(b);
    assert [c] + t + "-\n" + b == [c] + u;
    assert DropHyphenBreaks([c] + u) == [c] + (dt + db) by {
      assert u[0] == t[0];
      DropCons(c, u);
    }
    assert DropHyphenBreaks([c] + t) == [c] + dt by {
      DropCons(c, t);
    }
    ConsAssoc(c, dt, db);
  }

  lemma ConsAssoc<T>(c: T, x: seq<T>, y: seq<T>)
    ensures [c] + (x + y) == ([c] + x) + y
  {
  }

  /** A character that does not start a hyphenated line break is kept in
      front of the rest. */
  lemma DropCons(c: char, t: string)
    requires !(c == '-' && |t| >= 1 && t[0] == '\n')
    ensures DropHyphenBreaks([c] + t) == [c] + DropHyphenBreaks(t)
  {
    assert ([c] + t)[1..] == t;
  }

  /** A leading hyphenated line break is deleted. */
  lemma DropBreak(s: string)
    requires |s| >= 2 && s[0] == '-' && s[1] == '\n'
    ensures DropHyphenBreaks(s) == DropHyphenBreaks(s[2..])
  {
  }

  /** Any other leading character is kept. */
  lemma DropKeep(s: string)
    requires |s| >= 1 && !(|s| >= 2 && s[0] == '-' && s[1] == '\n')
    ensures DropHyphenBreaks(s) == [s[0]] + DropHyphenBreaks(s[1..])
  {
  }

  /** `_normalize`: hyphenated line breaks join their word halves, then every
      whitespace run becomes one space; outer blanks are kept (collapsed). */
  function Normalize(doc: string): (r: string)
    ensures NoSpaceRuns(r)
    ensures SplitWs(r) == SplitWs(DropHyphenBreaks(doc))
  {
    CollapseKeepsTokens(DropHyphenBreaks(doc));
    Collapse(DropHyphenBreaks(doc))
  }

  /** The tokens `_split_doc` works on: `_normalize(text).split()`. */
  function Tokens(text: string): (r: seq<string>)
    ensures AreTokens(r)
    ensures r == SplitWs(DropHyphenBreaks(text))
  {
    SplitWsNoSpace(Normalize(text));
    SplitWs(Normalize(text))
  }

  // ---------------------------------------------------------------------
  // Python slicing
  // ---------------------------------------------------------------------

  /** Python's normalisation of one slice bound for a sequence of length `n`:
      negative bounds count from the end, and both are clamped to [0, n]. */
  function SliceBound(x: int, n: nat): (r: nat)
    ensures r <= n
    ensures 0 <= x <= n ==> r == x
    ensures x > n ==> r == n
  {
    if x < 0 then (if x + n < 0 then 0 else x + n)
    else if x > n then n else x
  }

  /** `s[a:b]` in Python. */
  function PySlice<T>(s: seq<T>, a: int, b: int): seq<T>
  {
    var lo, hi := SliceBound(a, |s|), SliceBound(b, |s|);
    if lo < hi then s[lo..hi] else []
  }

  /** A slice from a non-negative `a` holds `s[a]`, `s[a+1]`, … and no
      more than `b - a` of them, and exactly as many as `s` has up to `b`. */
  lemma PySliceSpec<T>(s: seq<T>, a: int, b: int)
    ensures var r := PySlice(s, a, b);
      && (0 <= a <= b ==> |r| <= b - a)
      && (0 <= a ==> forall k :: 0 <= k < |r| ==> a + k < |s| && r[k] == s[a + k])
      && (0 <= a <= |s| && a <= b ==> |r| == (if b <= |s| then b else |s|) - a)
  {
  }

  /** A slice starting at a non-negative index keeps only tokens. */
  lemma SliceKeepsTokens(s: seq<string>, a: int, b: int)
    requires AreTokens(s) && 0 <= a
    ensures AreTokens(PySlice(s, a, b))
  {
    var r := PySlice(s, a, b);
    PySliceSpec(s, a, b);
    forall k | 0 <= k < |r| ensures r[k] == s[a + k] {}
  }

  // ---------------------------------------------------------------------
  // _split_doc
  // ---------------------------------------------------------------------

  /** The values `i` takes in the loop of `_split_doc` from the given one
      on, for a text of `n` tokens: each while `(i-step)+window < n`. */
  function Starts(n: int, window: int, step: int, i: int): seq<int>
    requires step > 0
    decreases n - window + step - i
  {
    if (i - step) + window < n then [i] + Starts(n, window, step, i + step) else []
  }

  /** The windows the loop yields from `i` on: `tokens[i:i+window]` for
      every value `i` takes. */
  function Windows(tokens: seq<string>, window: int, step: int, i: int): (r: seq<seq<string>>)
    requires step > 0
    ensures |r| == |Starts(|tokens|, window, step, i)|
  {
    var st := Starts(|tokens|, window, step, i);
    seq(|st|, k requires 0 <= k < |st| => PySlice(tokens, st[k], st[k] + window))
  }

  /** `k * step`, computed by repeated addition so that the window lemmas
      stay linear. */
  function Offset(step: int, k: nat): int
  {
    if k == 0 then 0 else Offset(step, k - 1) + step
  }

  lemma {:induction false} OffsetIsProduct(step: int, k: nat)
    ensures Offset(step, k) == k * step
  {
    if k > 0 {
      OffsetIsProduct(step, k - 1);
      assert (k - 1) * step + step == k * step;
    }
  }

  /** Offsets of a non-negative step are non-negative. */
  lemma {:induction false} OffsetNonNegative(step: int, k: nat)
    requires step >= 0
    ensures Offset(step, k) >= 0
  {
    if k > 0 {
      OffsetNonNegative(step, k - 1);
    }
  }

  /** A positive step makes offsets strictly increasing. */
  lemma {:induction false} OffsetMonotone(step: int, j: nat, k: nat)
    requires step > 0 && j < k
    ensures Offset(step, j) + step <= Offset(step, k)
    decreases k
  {
    if j < k - 1 {
      OffsetMonotone(step, j, k - 1);
    }
  }

  /** The k-th value (from 0) of the loop variable is `k` steps after the first. */
  lemma {:induction false} StartAt(n: int, window: int, step: int, i: int, k: nat)
    requires step > 0 && k < |Starts(n, window, step, i)|
    ensures Starts(n, window, step, i)[k] == i + Offset(step, k)
    decreases k
  {
    if k > 0 {
      StartAt(n, window, step, i + step, k - 1);
      assert Starts(n, window, step, i)[k] == Starts(n, window, step, i + step)[k - 1];
      OffsetShift(step, k - 1);
    }
  }

  /** The k-th window (from 0) starts `k` steps after the first. */
  lemma WindowAt(tokens: seq<string>, window: int, step: int, i: int, k: nat)
    requires step > 0 && k < |Windows(tokens, window, step, i)|
    ensures Windows(tokens, window, step, i)[k] == PySlice(tokens, i + Offset(step, k), i + Offset(step, k) + window)
  {
    StartAt(|tokens|, window, step, i, k);
  }

  /** The number of windows: the loop condition held for the window before
      the last one produced and fails for the one after it. */
  lemma {:induction false} WindowCount(tokens: seq<string>, window: int, step: int, i: int)
    requires step > 0
    ensures var n := |Windows(tokens, window, step, i)|;
      && (i + Offset(step, n) - step) + window >= |tokens|
      && (n > 0 ==> (i + Offset(step, n - 1) - step) + window < |tokens|)
    decreases |tokens| - window + step - i
  {
    var n := |Windows(tokens, window, step, i)|;
    if (i - step) + window < |tokens| {
      WindowCount(tokens, window, step, i + step);
      assert n - 1 == |Windows(tokens, window, step, i + step)|;
      OffsetShift(step, n - 1);
      if n - 1 > 0 {
        OffsetShift(step, n - 2);
      }
    }
  }

  lemma {:induction false} OffsetShift(step: int, k: nat)
    ensures step + Offset(step, k) == Offset(step, k + 1)
  {
  }

  /** `filename:n`, the id of the n-th window of a file. */
  function DocId(filename: string, n: nat): string
  {
    filename + ":" + Show(n)
  }

  /** The windows of a file paired with their ids `filename:1`, `filename:2`, … */
  function Numbered(filename: string, ws: seq<seq<string>>): (r: seq<(string, seq<string>)>)
  {
    seq(|ws|, k requires 0 <= k < |ws| => (DocId(filename, k + 1), ws[k]))
  }

  /** `_split_doc(path, filename, window, step)` on the file's text: the
      numbered windows, `StepDoesNotDivide` when `window % step != 0`, and
      `ZeroDivisionError` for a zero step.  A negative step either yields
      nothing or makes the loop run forever (`Diverges`). */
  function SplitDoc(filename: string, text: string, window: int, step: int): (r: Result<seq<(string, seq<string>)>>)
    ensures step == 0 <==> r == Failure(ZeroDivisionError)
    ensures step != 0 ==> (PyMod(window, step) != 0 <==> r == Failure(StepDoesNotDivide))
    ensures r.Success? ==> step != 0 && PyMod(window, step) == 0
    ensures step > 0 && PyMod(window, step) == 0 ==> r.Success?
    ensures r.Success? && step > 0 ==> forall k :: 0 <= k < |r.value| ==> r.value[k].0 == DocId(filename, k + 1)
    ensures r.Success? && |Tokens(text)| <= window - step ==> r.value == []
  {
    if step == 0 then Failure(ZeroDivisionError)
    else if PyMod(window, step) != 0 then Failure(StepDoesNotDivide)
    else
      var tokens := Tokens(text);
      if step < 0 then
        if -step + window < |tokens| then Failure(Diverges) else Success([])
      else
        Success(Numbered(filename, Windows(tokens, window, step, 0)))
  }

  /** The k-th window (from 1) is `tokens[(k-1)*step:(k-1)*step+window]`,
      holds at most `window` tokens, and only tokens. */
  lemma SplitDocWindow(filename: string, text: string, window: int, step: int, k: nat)
    requires step > 0 && PyMod(window, step) == 0
    requires 1 <= k <= |SplitDoc(filename, text, window, step).value|
    ensures var w := SplitDoc(filename, text, window, step).value[k - 1];
      && w.0 == DocId(filename, k)
      && w.1 == PySlice(Tokens(text), (k - 1) * step, (k - 1) * step + window)
      && (window >= 0 ==> |w.1| <= window)
      && AreTokens(w.1)
  {
    var tokens := Tokens(text);
    var ws := Windows(tokens, window, step, 0);
    assert SplitDoc(filename, text, window, step).value == Numbered(filename, ws);
    WindowShape(tokens, window, step, k - 1);
  }

  /** The window at index j of a text split from its start. */
  lemma WindowShape(tokens: seq<string>, window: int, step: int, j: nat)
    requires step > 0 && j < |Windows(tokens, window, step, 0)| && AreTokens(tokens)
    ensures var w := Windows(tokens, window, step, 0)[j];
      && w == PySlice(tokens, j * step, j * step + window)
      && (window >= 0 ==> |w| <= window)
      && AreTokens(w)
  {
    var a := j * step;
    assert Windows(tokens, window, step, 0)[j] == PySlice(tokens, a, a + window) by {
      WindowAt(tokens, window, step, 0, j);
      OffsetIsProduct(step, j);
    }
    assert a >= 0 by { NonNegativeProduct(j, step); }
    SliceShape(tokens, a, window);
  }

  lemma NonNegativeProduct(j: nat, step: int)
    requires step > 0
    ensures j * step >= 0
  {
  }

  /** A window of the given width from a non-negative start. */
  lemma SliceShape(tokens: seq<string>, a: int, window: int)
    requires AreTokens(tokens) && 0 <= a
    ensures var w := PySlice(tokens, a, a + window);
      && (window >= 0 ==> |w| <= window)
      && AreTokens(w)
  {
    PySliceSpec(tokens, a, a + window);
    SliceKeepsTokens(tokens, a, a + window);
  }

  /** A further window is produced exactly while the previous one ends
      before the last token: the last window reaches the end of the text and
      the one before it does not. */
  lemma SplitDocCount(filename: string, text: string, window: int, step: int)
    requires step > 0 && PyMod(window, step) == 0
    ensures var n := |SplitDoc(filename, text, window, step).value|;
      && (n - 1) * step + window >= |Tokens(text)|
      && (n > 1 ==> (n - 2) * step + window < |Tokens(text)|)
      && (n == 0 <==> |Tokens(text)| <= window - step)
  {
    var tokens := Tokens(text);
    var n := |Windows(tokens, window, step, 0)|;
    assert |SplitDoc(filename, text, window, step).value| == n;
    WindowCount(tokens, window, step, 0);
    if n > 0 {
      OffsetIsProduct(step, n - 1);
      OffsetShift(step, n - 1);
      if n > 1 {
        OffsetIsProduct(step, n - 2);
        OffsetShift(step, n - 2);
      }
    }
  }

  /** Every position from `i` on lies inside a window that starts a whole
      number of steps after `i`, provided a window is as long as a step. */
  lemma {:induction false} WindowsCover(tokens: seq<string>, window: int, step: int, i: int, t: int)
    requires 0 < step <= window && i <= t < |tokens|
    requires |Windows(tokens, window, step, i)| > 0
    ensures exists k ::
      0 <= k < |Windows(tokens, window, step, i)| && i + Offset(step, k) <= t < i + Offset(step, k) + window
    decreases |tokens| - window + step - i
  {
    if t < i + window {
      assert i + Offset(step, 0) <= t < i + Offset(step, 0) + window;
    } else {
      WindowsCover(tokens, window, step, i + step, t);
      var k :| 0 <= k < |Windows(tokens, window, step, i + step)|
        && i + step + Offset(step, k) <= t < i + step + Offset(step, k) + window;
      OffsetShift(step, k);
      assert i + Offset(step, k + 1) <= t < i + Offset(step, k + 1) + window;
    }
  }

  /** A positive window the step divides is at least one step long. */
  lemma DivisibleWindow(window: int, step: int)
    requires 0 < step && 0 < window && PyMod(window, step) == 0
    ensures step <= window
  {
    var q := PyDiv(window, step);
    assert window == step * q;
    assert q >= 1;
    assert step * q >= step * 1;
  }

  /** `SplitDoc` for a positive step that divides the window. */
  lemma SplitDocValue(filename: string, text: string, window: int, step: int)
    requires step > 0 && PyMod(window, step) == 0
    ensures SplitDoc(filename, text, window, step) == Success(Numbered(filename, Windows(Tokens(text), window, step, 0)))
  {
  }

  /** The window holding token `t`, found through `WindowsCover`. */
  lemma WindowOfToken(tokens: seq<string>, window: int, step: int, t: nat) returns (k: nat)
    requires 0 < step <= window && t < |tokens| && |Windows(tokens, window, step, 0)| > 0
    ensures k < |Windows(tokens, window, step, 0)| && k * step <= t < k * step + window
    ensures t - k * step < |Windows(tokens, window, step, 0)[k]|
    ensures Windows(tokens, window, step, 0)[k][t - k * step] == tokens[t]
  {
    k := WindowOfTokenAt(tokens, window, step, t);
    OffsetIsProduct(step, k);
  }

  /** `WindowOfToken` with the window start as an `Offset`. */
  lemma WindowOfTokenAt(tokens: seq<string>, window: int, step: int, t: nat) returns (k: nat)
    requires 0 < step <= window && t < |tokens| && |Windows(tokens, window, step, 0)| > 0
    ensures k < |Windows(tokens, window, step, 0)| && Offset(step, k) <= t < Offset(step, k) + window
    ensures t - Offset(step, k) < |Windows(tokens, window, step, 0)[k]|
    ensures Windows(tokens, window, step, 0)[k][t - Offset(step, k)] == tokens[t]
  {
    var wins := Windows(tokens, window, step, 0);
    WindowsCover(tokens, window, step, 0, t);
    k :| 0 <= k < |wins| && Offset(step, k) <= t < Offset(step, k) + window;
    WindowAt(tokens, window, step, 0, k);
    OffsetNonNegative(step, k);
    SliceAt(tokens, Offset(step, k), window, t);
  }

  /** Token `t` sits at `t - a` in a slice `[a, a + window)` around it. */
  lemma SliceAt(tokens: seq<string>, a: int, window: int, t: nat)
    requires 0 <= a <= t < a + window && t < |tokens|
    ensures t - a < |PySlice(tokens, a, a + window)|
    ensures PySlice(tokens, a, a + window)[t - a] == tokens[t]
  {
    PySliceSpec(tokens, a, a + window);
  }

  /** When the step divides a positive window, every token of a text that
      yields any window lies inside one of the windows, at the expected
      offset. */
  lemma Coverage(filename: string, text: string, window: int, step: int, t: nat)
    requires step > 0 && window > 0 && PyMod(window, step) == 0
    requires |SplitDoc(filename, text, window, step).value| > 0 && t < |Tokens(text)|
    ensures var ws := SplitDoc(filename, text, window, step).value;
      exists k :: 0 <= k < |ws| && k * step <= t < k * step + window
        && t - k * step < |ws[k].1| && ws[k].1[t - k * step] == Tokens(text)[t]
  {
    var tokens := Tokens(text);
    var wins := Windows(tokens, window, step, 0);
    SplitDocValue(filename, text, window, step);
    DivisibleWindow(window, step);
    var k := WindowOfToken(tokens, window, step, t);
    var ws := Numbered(filename, wins);
    assert ws[k].1 == wins[k];
  }

  // ---------------------------------------------------------------------
  // docs
  // ---------------------------------------------------------------------

  /** A row of `docs`: `(doc_id, n_tokens, n_chars, content)`. */
  datatype Doc = Doc(id: string, nTokens: nat, nChars: nat, content: string)

  /** The row `docs` derives from one window. */
  function DocOf(w: (string, seq<string>)): Doc
  {
    var content := Join(w.1, ' ');
    Doc(w.0, |w.1|, |content|, content)
  }

  /** A row whose counts describe its content: the content is single-spaced
      with no outer blanks, `n_tokens` is the number of its tokens and
      `n_chars` its length. */
  predicate Consistent(d: Doc)
  {
    && NoSpaceRuns(d.content) && Trimmed(d.content)
    && d.nTokens == |SplitWs(d.content)| && d.nChars == |d.content|
  }

  /** The content of a window's row splits back into the window. */
  lemma DocOfWindow(w: (string, seq<string>))
    requires AreTokens(w.1)
    ensures SplitWs(DocOf(w).content) == w.1
    ensures Consistent(DocOf(w))
  {
    JoinSplitWs(w.1);
    JoinTokensShape(w.1);
  }

  /** `docs(path, window, step)` over the directory's files, given as
      (filename, text) pairs in listing order.  Nothing is checked until the
      first file is split, so an empty directory never fails. */
  function Docs(files: seq<(string, string)>, window: int, step: int): (r: Result<seq<Doc>>)
    ensures |files| == 0 ==> r == Success([])
    ensures |files| > 0 && step == 0 ==> r == Failure(ZeroDivisionError)
    ensures |files| > 0 && step != 0 && PyMod(window, step) != 0 ==> r == Failure(StepDoesNotDivide)
    decreases |files|
  {
    if |files| == 0 then Success([])
    else
      var ws :- SplitDoc(files[0].0, files[0].1, window, step);
      var rest :- Docs(files[1..], window, step);
      Success(seq(|ws|, k requires 0 <= k < |ws| => DocOf(ws[k])) + rest)
  }

  /** Every row of `docs` is consistent and holds at most `window` tokens. */
  lemma {:induction false} DocsConsistent(files: seq<(string, string)>, window: int, step: int)
    requires step > 0 && Docs(files, window, step).Success?
    ensures forall d :: d in Docs(files, window, step).value ==>
      Consistent(d) && (window >= 0 ==> d.nTokens <= window)
    decreases |files|
  {
    if |files| > 0 {
      var ws := SplitDoc(files[0].0, files[0].1, window, step).value;
      var head := seq(|ws|, k requires 0 <= k < |ws| => DocOf(ws[k]));
      DocsConsistent(files[1..], window, step);
      forall k | 0 <= k < |ws|
        ensures Consistent(head[k]) && (window >= 0 ==> head[k].nTokens <= window)
      {
        SplitDocWindow(files[0].0, files[0].1, window, step, k + 1);
        DocOfWindow(ws[k]);
      }
      assert Docs(files, window, step).value == head + Docs(files[1..], window, step).value;
    }
  }

  // ---------------------------------------------------------------------
  // psq_pairs
  // ---------------------------------------------------------------------

  /** The loop of `psq_pairs` over one file's ids: each id is appended to
      `last_ids`, and once the queue is longer than `d` its head is popped
      and paired with the current id. */
  function PairsLoop(ids: seq<string>, queue: seq<string>, d: int): seq<(string, string)>
    decreases |ids|
  {
    if |ids| == 0 then []
    else
      var q := queue + [ids[0]];
      if |q| > d then [(q[0], ids[0])] + PairsLoop(ids[1..], q[1..], d)
      else PairsLoop(ids[1..], q, d)
  }

  /** Every element of `s` paired with the one `e` places later. */
  function Shifted(s: seq<string>, e: nat): (r: seq<(string, string)>)
    ensures |r| == if |s| > e then |s| - e else 0
    ensures forall k :: 0 <= k < |r| ==> r[k] == (s[k], s[k + e])
  {
    if |s| > e then seq(|s| - e, k requires 0 <= k < |s| - e => (s[k], s[k + e])) else []
  }

  /** Peeling the first pair off a shifted pairing. */
  lemma ShiftedCons(s: seq<string>, e: nat)
    requires |s| > e
    ensures Shifted(s, e) == [(s[0], s[e])] + Shifted(s[1..], e)
  {
    var r, t := Shifted(s, e), [(s[0], s[e])] + Shifted(s[1..], e);
    assert |r| == |t|;
    forall k | 0 <= k < |r| ensures r[k] == t[k] {
      if k > 0 {
        assert t[k] == Shifted(s[1..], e)[k - 1];
      }
    }
  }

  /** The queue never holds more than `max(d, 0)` ids between iterations,
      and the loop pairs ids `max(d, 0)` apart in the stream of queued and
      remaining ids. */
  lemma {:induction false} PairsLoopShifted(ids: seq<string>, queue: seq<string>, d: int)
    requires |queue| <= (if d > 0 then d else 0)
    ensures PairsLoop(ids, queue, d) == Shifted(queue + ids, if d > 0 then d else 0)
    decreases |ids|
  {
    if |ids| > 0 {
      var q := queue + [ids[0]];
      PairsLoopShifted(ids[1..], if |q| > d then q[1..] else q, d);
      PairsLoopShiftedStep(ids, queue, d);
    }
  }

  /** One iteration of the loop, given the claim for the rest of the ids. */
  lemma PairsLoopShiftedStep(ids: seq<string>, queue: seq<string>, d: int)
    requires |ids| > 0 && |queue| <= (if d > 0 then d else 0)
    requires var q := queue + [ids[0]];
      var q' := if |q| > d then q[1..] else q;
      PairsLoop(ids[1..], q', d) == Shifted(q' + ids[1..], if d > 0 then d else 0)
    ensures PairsLoop(ids, queue, d) == Shifted(queue + ids, if d > 0 then d else 0)
  {
    var e := if d > 0 then d else 0;
    var s := queue + ids;
    var q := queue + [ids[0]];
    assert q + ids[1..] == s;
    if |q| > d {
      assert q[1..] + ids[1..] == s[1..];
      assert |queue| == e;
      ShiftedCons(s, e);
    }
  }

  /** The ids of the windows `_split_doc` yields for one file. */
  function WindowIds(ws: seq<(string, seq<string>)>): (r: seq<string>)
    ensures |r| == |ws| && forall k :: 0 <= k < |ws| ==> r[k] == ws[k].0
  {
    seq(|ws|, k requires 0 <= k < |ws| => ws[k].0)
  }

  /** `psq_pairs` restricted to one file. */
  function FilePairs(filename: string, text: string, window: int, step: int): (r: Result<seq<(string, string)>>)
    ensures r.Success? <==> SplitDoc(filename, text, window, step).Success?
  {
    var ws :- SplitDoc(filename, text, window, step);
    Success(PairsLoop(WindowIds(ws), [], PyDiv(window, step)))
  }

  /** `psq_pairs(path, window, step)`: the files' pairs one file after the
      other; the queue starts empty for every file. */
  function PsqPairs(files: seq<(string, string)>, window: int, step: int): (r: Result<seq<(string, string)>>)
    ensures |files| == 0 ==> r == Success([])
    ensures |files| > 0 && step == 0 ==> r == Failure(ZeroDivisionError)
    ensures |files| > 0 && step != 0 && PyMod(window, step) != 0 ==> r == Failure(StepDoesNotDivide)
    decreases |files|
  {
    if |files| == 0 then Success([])
    else
      var head :- FilePairs(files[0].0, files[0].1, window, step);
      var rest :- PsqPairs(files[1..], window, step);
      Success(head + rest)
  }

  /** A positive window the step divides is a positive number of steps. */
  lemma WholeSteps(window: int, step: int)
    requires 0 < step && 0 < window && PyMod(window, step) == 0
    ensures PyDiv(window, step) > 0 && PyDiv(window, step) * step == window
  {
    var d := PyDiv(window, step);
    assert window == step * d;
  }

  /** The pairs of one file pair each window id with the one
      `max(window // step, 0)` places later. */
  lemma FilePairsValue(filename: string, text: string, window: int, step: int)
    requires SplitDoc(filename, text, window, step).Success?
    ensures var d := PyDiv(window, step);
      FilePairs(filename, text, window, step).value
        == Shifted(WindowIds(SplitDoc(filename, text, window, step).value), if d > 0 then d else 0)
  {
    var ids := WindowIds(SplitDoc(filename, text, window, step).value);
    PairsLoopShifted(ids, [], PyDiv(window, step));
    assert [] + ids == ids;
  }

  /** For one file, the pairs are exactly `(file:k, file:k+window//step)`
      for every k whose partner window exists (a quotient below 1 pairs
      each id with itself). With a positive window the partner starts
      exactly where the first window ends, so the two never overlap. */
  lemma FilePairsShape(filename: string, text: string, window: int, step: int)
    requires step > 0 && PyMod(window, step) == 0
    ensures var n := |SplitDoc(filename, text, window, step).value|;
      var e := if PyDiv(window, step) > 0 then PyDiv(window, step) else 0;
      var ps := FilePairs(filename, text, window, step).value;
      && |ps| == (if n > e then n - e else 0)
      && (forall k :: 0 <= k < |ps| ==> ps[k] == (DocId(filename, k + 1), DocId(filename, k + 1 + e)))
      && (window > 0 ==> e * step == window)
  {
    var ws := SplitDoc(filename, text, window, step).value;
    var d := PyDiv(window, step);
    var e := if d > 0 then d else 0;
    assert FilePairs(filename, text, window, step).value == Shifted(WindowIds(ws), e) by {
      FilePairsValue(filename, text, window, step);
    }
    NumberedShifted(filename, ws, e);
    if window > 0 {
      WholeSteps(window, step);
    }
  }

  /** The shifted pairing of numbered windows pairs `file:k` with
      `file:k+e`. */
  lemma NumberedShifted(filename: string, ws: seq<(string, seq<string>)>, e: nat)
    requires forall k :: 0 <= k < |ws| ==> ws[k].0 == DocId(filename, k + 1)
    ensures var ps := Shifted(WindowIds(ws), e);
      && |ps| == (if |ws| > e then |ws| - e else 0)
      && forall k :: 0 <= k < |ps| ==> ps[k] == (DocId(filename, k + 1), DocId(filename, k + 1 + e))
  {
    var ids := WindowIds(ws);
    var ps := Shifted(ids, e);
    forall k | 0 <= k < |ps| ensures ps[k] == (DocId(filename, k + 1), DocId(filename, k + 1 + e)) {
      assert ps[k] == (ids[k], ids[k + e]);
    }
  }

  /** Both ids of `p` are ids of windows of the file `f`. */
  predicate FromFile(p: (string, string), f: (string, string), window: int, step: int)
  {
    var ws := SplitDoc(f.0, f.1, window, step);
    ws.Success? && p.0 in WindowIds(ws.value) && p.1 in WindowIds(ws.value)
  }

  /** The pairs of one file are made of that file's ids. */
  lemma FilePairsFromFile(f: (string, string), window: int, step: int)
    requires FilePairs(f.0, f.1, window, step).Success?
    ensures forall p :: p in FilePairs(f.0, f.1, window, step).value ==> FromFile(p, f, window, step)
  {
    var ids := WindowIds(SplitDoc(f.0, f.1, window, step).value);
    var d := PyDiv(window, step);
    var e := if d > 0 then d else 0;
    FilePairsValue(f.0, f.1, window, step);
    var head := FilePairs(f.0, f.1, window, step).value;
    forall p | p in head ensures p.0 in ids && p.1 in ids {
      var k :| 0 <= k < |head| && head[k] == p;
      assert p == (ids[k], ids[k + e]);
    }
  }

  /** Pairs never join two files: both ids of every pair are ids of windows
      of one and the same file. */
  lemma {:induction false} PairsStayInFile(files: seq<(string, string)>, window: int, step: int)
    requires PsqPairs(files, window, step).Success?
    ensures forall p :: p in PsqPairs(files, window, step).value ==>
      exists j :: 0 <= j < |files| && FromFile(p, files[j], window, step)
    decreases |files|
  {
    if |files| > 0 {
      var head := FilePairs(files[0].0, files[0].1, window, step).value;
      var tail := PsqPairs(files[1..], window, step).value;
      PairsStayInFile(files[1..], window, step);
      FilePairsFromFile(files[0], window, step);
      assert PsqPairs(files, window, step).value == head + tail;
      forall p | p in head + tail
        ensures exists j :: 0 <= j < |files| && FromFile(p, files[j], window, step)
      {
        if p in head {
          assert FromFile(p, files[0], window, step);
        } else {
          var j :| 0 <= j < |files[1..]| && FromFile(p, files[1..][j], window, step);
          assert files[1..][j] == files[j + 1];
        }
      }
    }
  }

  // ---------------------------------------------------------------------
  // Window and step options of the command line
  // ---------------------------------------------------------------------

  /** The distance between two integers. */
  function Dist(a: int, b: int): nat
  {
    if a >= b then a - b else b - a
  }

  /** Multiplication by a positive factor keeps the order. */
  lemma MulMonotone(s: int, a: int, b: int)
    requires s > 0 && a <= b
    ensures s * a <= s * b
  {
    assert s * b - s * a == s * (b - a);
  }

  /** A multiple of a positive `s` is never strictly between two
      consecutive multiples `q*s` and `(q+1)*s`. */
  lemma MultipleOutside(m: int, s: int, q: int)
    requires s > 0 && PyMod(m, s) == 0
    ensures m <= q * s || m >= (q + 1) * s
  {
    var p := PyDiv(m, s);
    assert m == s * p;
    if p <= q {
      MulMonotone(s, p, q);
    } else {
      MulMonotone(s, q + 1, p);
    }
  }

  /** Every `k * s` leaves no remainder. */
  lemma MultipleMod(k: int, s: int)
    requires s != 0
    ensures PyMod(k * s, s) == 0
  {
    var p, r := PyDiv(k * s, s), PyMod(k * s, s);
    assert r == s * (k - p);
    if s > 0 {
      if k - p >= 1 {
        MulMonotone(s, 1, k - p);
      } else if k - p <= -1 {
        MulMonotone(s, k - p, -1);
      }
    } else {
      if k - p >= 1 {
        MulMonotone(-s, 1, k - p);
      } else if k - p <= -1 {
        MulMonotone(-s, k - p, -1);
      }
    }
  }

  /** `sug_w`: of the multiples `(w//s)*s` and `((w//s)+1)*s` around the
      window, the lower one when it is strictly nearer, else the upper one. */
  function SuggestWindow(w: int, s: int): int
    requires s != 0
  {
    var low, high := PyDiv(w, s) * s, (PyDiv(w, s) + 1) * s;
    if w - low < high - w then low else high
  }

  /** For a positive step the suggested window is a multiple of the step,
      no multiple is nearer to the requested window, and of two equally near
      multiples the larger is suggested. */
  lemma SuggestWindowNearest(w: int, s: int)
    requires s > 0
    ensures PyMod(SuggestWindow(w, s), s) == 0
    ensures forall m :: PyMod(m, s) == 0 ==> Dist(w, SuggestWindow(w, s)) <= Dist(w, m)
    ensures forall m :: PyMod(m, s) == 0 && Dist(w, m) == Dist(w, SuggestWindow(w, s)) ==> m <= SuggestWindow(w, s)
  {
    var q := PyDiv(w, s);
    var low, high := q * s, (q + 1) * s;
    assert w == s * q + PyMod(w, s);
    assert low <= w < high;
    MultipleMod(q, s);
    MultipleMod(q + 1, s);
    forall m | PyMod(m, s) == 0
      ensures Dist(w, SuggestWindow(w, s)) <= Dist(w, m)
      ensures Dist(w, m) == Dist(w, SuggestWindow(w, s)) ==> m <= SuggestWindow(w, s)
    {
      MultipleOutside(m, s, q);
    }
  }

  /** The loop of cat.py:118-120 as written: both `low_s` and `high_s` are
      decremented, so the search only ever moves below `s`. The bounds
      `s - .2*w` and `s + .2*w` are compared multiplied by 5. */
  function SearchAsWritten(w: int, s: int, low: int, high: int): (r: (int, int))
    requires low == high && low <= s && low != 0
    requires forall d :: low < d <= s && d != 0 ==> PyMod(w, d) != 0
    ensures r.0 == r.1 && r.0 <= low && r.0 != 0
    ensures forall d :: r.0 < d <= s && d != 0 ==> PyMod(w, d) != 0
    decreases 5 * low - 5 * s + w
  {
    if PyMod(w, low) != 0 && PyMod(w, high) != 0 && 5 * low > 5 * s - w && 5 * high < 5 * s + w then
      SearchAsWritten(w, s, low - 1, high - 1)
    else (low, high)
  }

  /** The search of the evidently intended loop: `low_s` moves down and
      `high_s` moves up, one each round, until one divides `w` or the
      band of `.2*w` around `s` is left. */
  function Search(w: int, s: int, low: int, high: int): (r: (int, int))
    requires low + high == 2 * s && low <= s && low != 0 && high != 0
    requires forall d :: low < d < high && d != 0 ==> PyMod(w, d) != 0
    ensures r.0 + r.1 == 2 * s && r.0 <= low && r.0 != 0 && r.1 != 0
    ensures forall d :: r.0 < d < r.1 && d != 0 ==> PyMod(w, d) != 0
    ensures PyMod(w, r.0) == 0 || PyMod(w, r.1) == 0 || 5 * r.0 <= 5 * s - w || 5 * r.1 >= 5 * s + w
    decreases 5 * s + w - 5 * high
  {
    if PyMod(w, low) != 0 && PyMod(w, high) != 0 && 5 * low > 5 * s - w && 5 * high < 5 * s + w then
      Search(w, s, low - 1, high + 1)
    else (low, high)
  }

  /** `or_step`'s choice after the search: `high_s` when it divides `w`,
      else `low_s` when it does, else no alternative step. */
  function OrStep(w: int, low: int, high: int): (r: Option<int>)
    requires low != 0 && high != 0
    ensures r.Some? ==> (r.value == low || r.value == high) && PyMod(w, r.value) == 0
    ensures r.None? <==> PyMod(w, low) != 0 && PyMod(w, high) != 0
  {
    if PyMod(w, high) == 0 then Some(high)
    else if PyMod(w, low) == 0 then Some(low)
    else None
  }

  /** The alternative step cat.py:117-126 computes as written: the largest
      divisor of `w` that is at most `s` and found inside the band. */
  function StepHintAsWritten(w: int, s: int): (r: Option<int>)
    requires s != 0
    ensures r.Some? ==> r.value != 0 && PyMod(w, r.value) == 0 && r.value <= s
    ensures r.Some? ==> forall d :: r.value < d <= s && d != 0 ==> PyMod(w, d) != 0
  {
    var (low, high) := SearchAsWritten(w, s, s, s);
    OrStep(w, low, high)
  }

  /** With a window of 10 and a step of 4 the code as written offers a step
      of 2, although 5 also divides 10 and is nearer to 4. */
  lemma AsWrittenMissesNearerStep()
    ensures StepHintAsWritten(10, 4) == Some(2)
    ensures PyMod(10, 5) == 0 && Dist(4, 5) < Dist(4, 2)
  {
    assert PyMod(10, 4) == 2 && PyMod(10, 3) == 1 && PyMod(10, 2) == 0;
    assert SearchAsWritten(10, 4, 2, 2) == (2, 2);
    assert SearchAsWritten(10, 4, 3, 3) == (2, 2);
    assert SearchAsWritten(10, 4, 4, 4) == (2, 2);
  }

  /** The alternative step the message evidently means to offer (the
      search of cat.py:117-126 with `high_s` moving up). */
  function StepHint(w: int, s: int): (r: Option<int>)
    requires s != 0
    ensures r.Some? ==> r.value != 0 && PyMod(w, r.value) == 0
  {
    var (low, high) := Search(w, s, s, s);
    OrStep(w, low, high)
  }

  /** The intended alternative step is a divisor of `w` nearest to `s`, the
      larger one on a tie; when there is none, the band of `w/5` around `s`
      holds no divisor at all. The search never divides by zero. */
  lemma StepHintNearest(w: int, s: int)
    requires s != 0
    ensures var r := StepHint(w, s);
      && (r.Some? ==> forall d :: d != 0 && Dist(s, d) < Dist(s, r.value) ==> PyMod(w, d) != 0)
      && (r.Some? && r.value < s ==> 2 * s - r.value != 0 && PyMod(w, 2 * s - r.value) != 0)
      && (r.None? ==> forall d :: d != 0 && 5 * Dist(s, d) <= w ==> PyMod(w, d) != 0)
  {
    var (low, high) := Search(w, s, s, s);
    var r := StepHint(w, s);
    assert r == OrStep(w, low, high);
    if r.None? {
      forall d | d != 0 && 5 * Dist(s, d) <= w ensures PyMod(w, d) != 0 {
        if d != low && d != high {
          assert low < d < high;
        }
      }
    }
  }

  /** For a window of 10 and a step of 4 the intended search offers 5. */
  lemma StepHintExample()
    ensures StepHint(10, 4) == Some(5)
  {
    assert PyMod(10, 4) == 2 && PyMod(10, 3) == 1 && PyMod(10, 5) == 0;
    assert Search(10, 4, 3, 5) == (3, 5);
    assert Search(10, 4, 4, 4) == (3, 5);
  }

  /** `' or a step of N'`, or nothing. */
  function OrStepText(hint: Option<int>): string
  {
    if hint.Some? then " or a step of " + ShowInt(hint.value) else ""
  }

  /** The text of the divisibility error around a suggested step. */
  function DivisibilityText(w: int, s: int, hint: Option<int>): string
    requires s != 0
  {
    "Window must be divisible by step, but " + ShowInt(w) + " % " + ShowInt(s)
    + " is " + ShowInt(PyMod(w, s)) + ". You may want to\nconsider a window of "
    + ShowInt(SuggestWindow(w, s)) + OrStepText(hint) + "."
  }

  /** The message raised when the step does not divide the window, with the
      step the search finds as written. */
  function DivisibilityMessage(w: int, s: int): string
    requires s != 0
  {
    DivisibilityText(w, s, StepHintAsWritten(w, s))
  }

  /** The same message with the step the search is meant to find. */
  function IntendedDivisibilityMessage(w: int, s: int): string
    requires s != 0
  {
    DivisibilityText(w, s, StepHint(w, s))
  }

  /** `ttm cat -w 10 -s 4` suggests a step of 2 as written, where the
      intended search suggests 5; both suggest a window of 12. */
  lemma DivisibilityMessageExample()
    ensures SuggestWindow(10, 4) == 12
    ensures DivisibilityMessage(10, 4) == DivisibilityText(10, 4, Some(2))
    ensures IntendedDivisibilityMessage(10, 4) == DivisibilityText(10, 4, Some(5))
    ensures OrStepText(Some(2)) == " or a step of 2" && OrStepText(Some(5)) == " or a step of 5"
  {
    AsWrittenMissesNearerStep();
    StepHintExample();
  }

  /** The message raised for an odd window without a step. */
  function OddWindowMessage(w: int): string
  {
    "The step was not specified and should default to half the window size,\nbut "
    + ShowInt(w) + " is not an even number."
  }

  /** `int(opts.get('window', 300))`. */
  function WindowOption(windowOpt: Option<string>): Option<int>
  {
    if windowOpt.None? then Some(300) else ParseInt(windowOpt.value)
  }

  /** A failed `int()` conversion raises `ValueError`. */
  function IntOrValueError(o: Option<int>): (r: Result<int>)
    ensures o.Some? ==> r == Success(o.value)
    ensures o.None? ==> r == Failure(ValueError)
  {
    if o.Some? then Success(o.value) else Failure(ValueError)
  }

  /** cat.py:104-129: the window and step `ttm cat` runs with. */
  function WindowStep(windowOpt: Option<string>, stepOpt: Option<string>): (r: Result<(int, int)>)
    ensures r.Success? ==> r.value.1 != 0 && PyMod(r.value.0, r.value.1) == 0
    ensures r.Success? ==> Some(r.value.0) == WindowOption(windowOpt)
    ensures WindowOption(windowOpt).None? ==> r == Failure(ValueError)
  {
    var w :- IntOrValueError(WindowOption(windowOpt));
    var s :- if stepOpt.Some? then IntOrValueError(ParseInt(stepOpt.value))
             else if PyMod(w, 2) == 0 then Success(PyDiv(w, 2))
             else Failure(CliError(OddWindowMessage(w)));
    if s == 0 then Failure(ZeroDivisionError)
    else if PyMod(w, s) != 0 then Failure(CliError(DivisibilityMessage(w, s)))
    else Success((w, s))
  }

  /** Without a step the step is half the window: an odd window is refused,
      and a zero window fails on the division by the zero step. */
  lemma DefaultStep(windowOpt: Option<string>)
    requires WindowOption(windowOpt).Some?
    ensures var w, r := WindowOption(windowOpt).value, WindowStep(windowOpt, None);
      && (PyMod(w, 2) != 0 <==> r == Failure(CliError(OddWindowMessage(w))))
      && (w == 0 ==> r == Failure(ZeroDivisionError))
      && (r.Success? <==> PyMod(w, 2) == 0 && w != 0)
      && (r.Success? ==> r.value.0 == 2 * r.value.1)
  {
    var w := WindowOption(windowOpt).value;
    DefaultStepOutcome(windowOpt, w);
    DefaultStepCases(w, WindowStep(windowOpt, None));
  }

  /** What the case split of `DefaultStepOutcome` means for the result. */
  lemma DefaultStepCases(w: int, r: Result<(int, int)>)
    requires r == if PyMod(w, 2) != 0 then Failure(CliError(OddWindowMessage(w)))
      else if w == 0 then Failure(ZeroDivisionError)
      else Success((w, PyDiv(w, 2)))
    ensures PyMod(w, 2) != 0 <==> r == Failure(CliError(OddWindowMessage(w)))
    ensures w == 0 ==> r == Failure(ZeroDivisionError)
    ensures r.Success? <==> PyMod(w, 2) == 0 && w != 0
    ensures r.Success? ==> r.value.0 == 2 * r.value.1
  {
  }

  /** The outcome of `WindowStep` without a step, case by case. */
  lemma DefaultStepOutcome(windowOpt: Option<string>, w: int)
    requires WindowOption(windowOpt) == Some(w)
    ensures WindowStep(windowOpt, None) ==
      if PyMod(w, 2) != 0 then Failure(CliError(OddWindowMessage(w)))
      else if w == 0 then Failure(ZeroDivisionError)
      else Success((w, PyDiv(w, 2)))
  {
    if PyMod(w, 2) == 0 && w != 0 {
      var s := PyDiv(w, 2);
      assert w == 2 * s;
      assert PyMod(w, s) == 0 by {
        MultipleMod(2, s);
      }
    }
  }

  /** With a step given, a step that is not an integer, is zero, or does not
      divide the window is refused, the last with the suggestion message. */
  lemma GivenStep(windowOpt: Option<string>, step: string)
    requires WindowOption(windowOpt).Some?
    ensures var w, r := WindowOption(windowOpt).value, WindowStep(windowOpt, Some(step));
      && (ParseInt(step).None? ==> r == Failure(ValueError))
      && (ParseInt(step) == Some(0) ==> r == Failure(ZeroDivisionError))
      && (ParseInt(step).Some? && ParseInt(step) != Some(0) ==>
            var s := ParseInt(step).value;
            && (PyMod(w, s) != 0 <==> r == Failure(CliError(DivisibilityMessage(w, s))))
            && (PyMod(w, s) == 0 <==> r == Success((w, s))))
  {
  }

  /** Without options `ttm cat` uses windows of 300 tokens and a step of 150. */
  lemma DefaultWindowStep()
    ensures WindowStep(None, None) == Success((300, 150))
  {
  }
}

=== FILE: cli.dfy ===
/** The option handling shared by the stage commands: a dictionary built
    from getopt's `(option, value)` pairs, integer options, and the check
    that no argument is left over. getopt's own parsing is not modelled;
    the pairs and the leftover arguments are inputs. */
module Cli {
  import opened Wrappers
  import opened Text
  import Decimal

  /** `{k.lstrip('-'): v for k, v in opts}[name]`: the last value given for
      `name`, since a later key overwrites an earlier one. */
  function OptionValue(opts: seq<(string, string)>, name: string): (r: Option<string>)
    decreases |opts|
  {
    if |opts| == 0 then None
    else if opts[|opts| - 1].0 == name then Some(opts[|opts| - 1].1)
    else OptionValue(opts[..|opts| - 1], name)
  }

  /** The dictionary has a value for `name` exactly when some pair names
      it, and that value is the one of the last such pair. */
  lemma {:induction false} OptionValueLastWins(opts: seq<(string, string)>, name: string)
    ensures OptionValue(opts, name).Some? <==> exists i :: 0 <= i < |opts| && opts[i].0 == name
    ensures OptionValue(opts, name).Some? ==> exists i :: (0 <= i < |opts| && opts[i] == (name, OptionValue(opts, name).value)
      && forall j :: i < j < |opts| ==> opts[j].0 != name)
    decreases |opts|
  {
    if |opts| > 0 && opts[|opts| - 1].0 != name {
      var init := opts[..|opts| - 1];
      OptionValueLastWins(init, name);
      assert forall i :: 0 <= i < |init| ==> init[i] == opts[i];
    }
  }

  /** `int(value)` applied to an option when it is present. */
  function IntOption(opts: seq<(string, string)>, name: string): (r: Result<Option<int>>)
    ensures r.Failure? ==> r.error == ValueError
  {
    match OptionValue(opts, name)
    case None => Success(None)
    case Some(v) =>
      match Decimal.ParseInt(v)
      case None => Failure(ValueError)
      case Some(n) => Success(Some(n))
  }

  /** An integer option fails exactly when it is present and not an
      integer, and reads back any integer written with `str`. */
  lemma IntOptionParses(opts: seq<(string, string)>, name: string, n: int)
    ensures IntOption(opts, name).Failure? <==>
      OptionValue(opts, name).Some? && Decimal.ParseInt(OptionValue(opts, name).value).None?
    ensures OptionValue(opts, name) == Some(Decimal.ShowInt(n)) ==> IntOption(opts, name) == Success(Some(n))
  {
    Decimal.ParseShowInt(n);
  }

  /** `{k: int(v) for k, v in opts}`: every value is converted, including
      one a later pair of the same name replaces. */
  function EveryInt(opts: seq<(string, string)>): (r: Result<()>)
    ensures r.Success? <==> forall i :: 0 <= i < |opts| ==> Decimal.ParseInt(opts[i].1).Some?
    ensures r.Failure? ==> r.error == ValueError
  {
    if |opts| == 0 then Success(())
    else if Decimal.ParseInt(opts[0].1).None? then Failure(ValueError)
    else
      var _ :- EveryInt(opts[1..]);
      assert forall i :: 1 <= i < |opts| ==> opts[i] == opts[1..][i - 1];
      Success(())
  }

  /** `fail_on_rest`: leftover arguments are rejected, joined by `sep` in
      the message. */
  function FailOnRest(rest: seq<string>, sep: char): (r: Result<()>)
    ensures r.Success? <==> |rest| == 0
  {
    if |rest| == 0 then Success(())
    else Failure(CliError("Unsupported command line argument '" + Join(rest, sep) + "'"))
  }
}

=== FILE: cluster.dfy ===
/** `ttm cluster` (ttm/cluster.py): the choice of clustering method and its
    options, the `random` method's weights, the relabelling of one cluster
    into sub-clusters, and the output that replaces the `cluster` column.
    The clustering algorithms themselves (numpy, sklearn, hdbscan) are
    outside the model and their labels are inputs; `random.choices` is
    modelled with the values of `random()` as an input. */
module Cluster {
  import opened Wrappers
  import opened Text
  import Decimal
  import Eval
  import Tsv
  import Cli
  import Output
  import Replay

  // ---------------------------------------------------------------------
  // Methods and their options (cluster.py:132-194)
  // ---------------------------------------------------------------------

  /** The options of `random` after conversion; `func` is the source text of
      the `--function` expression. */
  datatype RandomArgs = RandomArgs(clusters: Option<int>, weights: Option<seq<real>>, func: Option<string>)

  /** A clustering method together with the options given for it. */
  datatype Method =
    | Argmax
    | Aggl(clusters: Option<int>, affinity: Option<string>, linkage: Option<string>)
    | Kmeans(clusters: Option<int>, init: Option<string>)
    | Hdbscan(metric: Option<string>, selection: Option<string>, minClusterSize: Option<int>)
    | RandomLabels(args: RandomArgs)

  /** The METHOD word that selects each method. */
  function Name(m: Method): string
  {
    match m
    case Argmax => "argmax"
    case Aggl(_, _, _) => "aggl"
    case Kmeans(_, _) => "kmeans"
    case Hdbscan(_, _, _) => "hdbscan"
    case RandomLabels(_) => "random"
  }

  /** Every converted value, or ValueError for the first that failed. */
  function Collect(values: seq<Option<real>>): (r: Result<seq<real>>)
    ensures r.Success? <==> forall i :: 0 <= i < |values| ==> values[i].Some?
    ensures r.Failure? ==> r.error == ValueError
    ensures r.Success? ==> (|r.value| == |values| &&
      forall i :: 0 <= i < |values| ==> values[i] == Some(r.value[i]))
  {
    if |values| == 0 then Success([])
    else if values[0].None? then Failure(ValueError)
    else
      var rest :- Collect(values[1..]);
      assert forall i :: 1 <= i < |values| ==> values[i] == values[1..][i - 1];
      Success([values[0].value] + rest)
  }

  /** `[float(x.strip()) for x in text.split(',')]`; `parseFloat` stands for
      Python's `float` on an already stripped string. */
  function ParseWeights(text: string, parseFloat: string -> Option<real>): (r: Result<seq<real>>)
  {
    var parts := Split(text, ',');
    Collect(seq(|parts|, i requires 0 <= i < |parts| => parseFloat(Strip(parts[i]))))
  }

  /** One weight per comma-separated part, each the float its stripped
      text denotes; a part that is not a float fails the whole list. */
  lemma ParseWeightsParts(text: string, parseFloat: string -> Option<real>)
    ensures var r := ParseWeights(text, parseFloat);
      var parts := Split(text, ',');
      (r.Success? <==> forall i :: 0 <= i < |parts| ==> parseFloat(Strip(parts[i])).Some?) &&
      (r.Failure? ==> r.error == ValueError) &&
      (r.Success? ==> (|r.value| == Occurrences(text, ',') + 1 &&
        forall i :: 0 <= i < |parts| ==> parseFloat(Strip(parts[i])) == Some(r.value[i])))
  {
    var parts := Split(text, ',');
    var values := seq(|parts|, i requires 0 <= i < |parts| => parseFloat(Strip(parts[i])));
    assert ParseWeights(text, parseFloat) == Collect(values);
    if forall i :: 0 <= i < |parts| ==> parseFloat(Strip(parts[i])).Some? {
      assert forall i :: 0 <= i < |values| ==> values[i].Some?;
    } else {
      var i :| 0 <= i < |parts| && parseFloat(Strip(parts[i])).None?;
      assert values[i].None?;
    }
  }

  /** The message for weights that do not match the cluster count. */
  function MismatchMessage(weights: nat, clusters: int): string
  {
    "Expected the number of weights to match the number of clusters, but found "
      + Decimal.ShowInt(weights) + " weights for " + Decimal.ShowInt(clusters) + " clusters"
  }

  /** The options of `random` (cluster.py:171-192): leftover arguments are
      rejected, `--clusters` is an integer, `--weights` a comma-separated
      list of floats whose length gives the cluster count when none is
      given and must equal it otherwise. */
  function RandomOptions(opts: seq<(string, string)>, rest: seq<string>, parseFloat: string -> Option<real>): (r: Result<RandomArgs>)
    ensures r.Failure? ==> r.error.CliError? || r.error == ValueError
    ensures |rest| > 0 ==> r == Failure(CliError("Unsupported command line argument '" + Join(rest, '\n') + "'"))
  {
    var _ :- Cli.FailOnRest(rest, '\n');
    var clusters :- Cli.IntOption(opts, "clusters");
    var func := Cli.OptionValue(opts, "function");
    match Cli.OptionValue(opts, "weights")
    case None => Success(RandomArgs(clusters, None, func))
    case Some(text) =>
      var ws :- ParseWeights(text, parseFloat);
      var c := if clusters.Some? then clusters.value else |ws|;
      if |ws| != c then Failure(CliError(MismatchMessage(|ws|, c)))
      else Success(RandomArgs(Some(c), Some(ws), func))
  }

  /** Weights and clusters: when both are known they agree, a missing
      cluster count is the number of weights, and a disagreement is the
      CliError naming both numbers. */
  lemma RandomOptionsAgree(opts: seq<(string, string)>, parseFloat: string -> Option<real>)
    ensures var r := RandomOptions(opts, [], parseFloat);
      r.Success? ==> Consistent(r.value)
    ensures var r := RandomOptions(opts, [], parseFloat);
      r.Success? && Cli.OptionValue(opts, "clusters").None? ==>
        r.value.clusters == (if r.value.weights.Some? then Some(|r.value.weights.value|) else None)
    ensures var r := RandomOptions(opts, [], parseFloat);
      r.Success? <==> (Cli.IntOption(opts, "clusters").Success? &&
        (Cli.OptionValue(opts, "weights").Some? ==>
          var w := ParseWeights(Cli.OptionValue(opts, "weights").value, parseFloat);
          w.Success? && (Cli.IntOption(opts, "clusters").value.Some? ==>
            Cli.IntOption(opts, "clusters").value.value == |w.value|)))
    ensures var r := RandomOptions(opts, [], parseFloat);
      var w := Cli.OptionValue(opts, "weights");
      var c := Cli.IntOption(opts, "clusters");
      w.Some? && c.Success? && c.value.Some? &&
      ParseWeights(w.value, parseFloat).Success? &&
      |ParseWeights(w.value, parseFloat).value| != c.value.value ==>
        r == Failure(CliError(MismatchMessage(|ParseWeights(w.value, parseFloat).value|, c.value.value)))
  {
  }

  /** Method dispatch (cluster.py:138-194). `opts` and `rest` are what
      getopt returns for the arguments after METHOD, option names without
      their leading dashes. */
  function MethodOf(args: seq<string>, opts: seq<(string, string)>, rest: seq<string>,
                    parseFloat: string -> Option<real>): (r: Result<Method>)
    ensures r.Failure? ==> r.error.CliError? || r.error == ValueError
  {
    if |args| == 0 then Failure(CliError("No METHOD specified for ttm cluster"))
    else if args[0] == "argmax" then
      var _ :- Cli.FailOnRest(args[1..], '\n');
      Success(Argmax)
    else if args[0] == "aggl" then
      var _ :- Cli.FailOnRest(rest, '\n');
      var clusters :- Cli.IntOption(opts, "clusters");
      Success(Aggl(clusters, Cli.OptionValue(opts, "affinity"), Cli.OptionValue(opts, "linkage")))
    else if args[0] == "kmeans" then
      var _ :- Cli.FailOnRest(rest, '\n');
      var clusters :- Cli.IntOption(opts, "clusters");
      Success(Kmeans(clusters, Cli.OptionValue(opts, "init")))
    else if args[0] == "hdbscan" then
      var _ :- Cli.FailOnRest(rest, '\n');
      var size :- Cli.IntOption(opts, "min-cluster-size");
      Success(Hdbscan(Cli.OptionValue(opts, "metric"), Cli.OptionValue(opts, "cluster-selection-method"), size))
    else if args[0] == "random" then
      var a :- RandomOptions(opts, rest, parseFloat);
      Success(RandomLabels(a))
    else Failure(CliError("Unknown ttm cluster METHOD '" + args[0] + "'"))
  }

  /** The words that name a method. */
  predicate Known(word: string)
  {
    word in {"argmax", "aggl", "kmeans", "hdbscan", "random"}
  }

  /** A dispatched method is the one its word names. */
  lemma MethodNamed(args: seq<string>, opts: seq<(string, string)>, rest: seq<string>,
                    parseFloat: string -> Option<real>)
    ensures var r := MethodOf(args, opts, rest, parseFloat);
      r.Success? ==> |args| > 0 && Known(args[0]) && Name(r.value) == args[0]
  {
    var r := MethodOf(args, opts, rest, parseFloat);
    if r.Success? {
      if args[0] == "random" {
        assert r.value == RandomLabels(RandomOptions(opts, rest, parseFloat).value);
      } else if args[0] == "hdbscan" {
        assert r.value.Hdbscan?;
      } else if args[0] == "kmeans" {
        assert r.value.Kmeans?;
      } else if args[0] == "aggl" {
        assert r.value.Aggl?;
      }
    }
  }

  /** No METHOD and an unknown word are CliErrors. */
  lemma MethodUnknown(args: seq<string>, opts: seq<(string, string)>, rest: seq<string>,
                      parseFloat: string -> Option<real>)
    ensures |args| == 0 ==>
      MethodOf(args, opts, rest, parseFloat) == Failure(CliError("No METHOD specified for ttm cluster"))
    ensures |args| > 0 && !Known(args[0]) ==>
      MethodOf(args, opts, rest, parseFloat) == Failure(CliError("Unknown ttm cluster METHOD '" + args[0] + "'"))
  {
  }

  /** Extra words after `argmax`, and leftover arguments after any other
      method's options, are CliErrors. */
  lemma MethodLeftovers(args: seq<string>, opts: seq<(string, string)>, rest: seq<string>,
                        parseFloat: string -> Option<real>)
    ensures |args| > 0 && args[0] == "argmax" ==>
      (MethodOf(args, opts, rest, parseFloat).Success? <==> |args| == 1)
    ensures |args| > 0 && Known(args[0]) && args[0] != "argmax" && |rest| > 0 ==>
      MethodOf(args, opts, rest, parseFloat) ==
        Failure(CliError("Unsupported command line argument '" + Join(rest, '\n') + "'"))
  {
    if |args| > 0 && args[0] == "argmax" {
      ArgmaxLeftovers(args, opts, rest, parseFloat);
    } else if |args| > 0 && Known(args[0]) && |rest| > 0 {
      OptionLeftovers(args, opts, rest, parseFloat);
    }
  }

  lemma ArgmaxLeftovers(args: seq<string>, opts: seq<(string, string)>, rest: seq<string>,
                        parseFloat: string -> Option<real>)
    requires |args| > 0 && args[0] == "argmax"
    ensures MethodOf(args, opts, rest, parseFloat).Success? <==> |args| == 1
  {
    assert MethodOf(args, opts, rest, parseFloat).Success? <==> Cli.FailOnRest(args[1..], '\n').Success?;
  }

  lemma OptionLeftovers(args: seq<string>, opts: seq<(string, string)>, rest: seq<string>,
                        parseFloat: string -> Option<real>)
    requires |args| > 0 && Known(args[0]) && args[0] != "argmax" && |rest| > 0
    ensures MethodOf(args, opts, rest, parseFloat) ==
      Failure(CliError("Unsupported command line argument '" + Join(rest, '\n') + "'"))
  {
    var w := args[0];
    var e := CliError("Unsupported command line argument '" + Join(rest, '\n') + "'");
    assert Cli.FailOnRest(rest, '\n') == Failure(e);
    if w == "aggl" {
      assert w[1] != "argmax"[1];
    } else if w == "kmeans" {
      assert w[0] != "argmax"[0] && w[0] != "aggl"[0];
    } else if w == "hdbscan" {
      assert w[0] != "argmax"[0] && w[0] != "aggl"[0] && w[0] != "kmeans"[0];
    } else {
      assert w == "random";
      assert w[0] != "argmax"[0] && w[0] != "aggl"[0] && w[0] != "kmeans"[0] && w[0] != "hdbscan"[0];
      assert RandomOptions(opts, rest, parseFloat) == Failure(e);
    }
  }

  // ---------------------------------------------------------------------
  // The random method (cluster.py:40-48)
  // ---------------------------------------------------------------------

  /** The arguments handed to `random.choices`: the population
      `range(clusters)`, one weight per cluster and `k` draws. */
  datatype Draw = Draw(population: seq<int>, weights: seq<real>, k: nat)

  /** `range(n)`, empty for n <= 0. */
  function Range(n: int): (r: seq<int>)
    ensures |r| == if n > 0 then n else 0
    ensures forall i :: 0 <= i < |r| ==> r[i] == i
  {
    if n <= 0 then [] else seq(n, i => i)
  }

  /** The weights before `--function`: the given ones, or one per cluster. */
  function BaseWeights(clusters: int, weights: Option<seq<real>>): seq<real>
  {
    match weights
    case Some(ws) => ws
    case None => seq(|Range(clusters)|, _ => 1.0)
  }

  /** The number of clusters `random` draws over, ten by default. */
  function ClusterCount(a: RandomArgs): int
  {
    if a.clusters.Some? then a.clusters.value else 10
  }

  /** cluster.py:45-48. `eval` stands for evaluating the `--function`
      text with `x` bound to a cluster number. */
  function RandomDraw<V>(vectors: seq<V>, a: RandomArgs, eval: (string, int) -> real): Draw
  {
    var clusters := ClusterCount(a);
    var base := BaseWeights(clusters, a.weights);
    var weights := match a.func
      case None => base
      case Some(f) => seq(|base|, i requires 0 <= i < |base| => base[i] * eval(f, i + 1));
    Draw(Range(clusters), weights, |vectors|)
  }

  /** Without given weights there is one weight per cluster; given ones
      match the population whenever validation has passed. */
  lemma DrawLengths<V>(vectors: seq<V>, a: RandomArgs, eval: (string, int) -> real)
    ensures var d := RandomDraw(vectors, a, eval);
      (a.weights.None? || Consistent(a)) ==> |d.weights| == |d.population|
  {
  }

  /** The sum of the weights, added left to right. */
  function Total(ws: seq<real>): real
  {
    if |ws| == 0 then 0.0 else Total(ws[..|ws| - 1]) + ws[|ws| - 1]
  }

  /** `cum_weights`, the running totals `itertools.accumulate` forms. */
  function Accumulate(ws: seq<real>): (r: seq<real>)
    ensures |r| == |ws|
  {
    seq(|ws|, i requires 0 <= i < |ws| => Total(ws[..i + 1]))
  }

  /** The first running total is the first weight. */
  lemma AccumulateFirst(ws: seq<real>)
    requires 0 < |ws|
    ensures Accumulate(ws)[0] == ws[0]
  {
    var w := ws[..1];
    assert w[..|w| - 1] == [];
    assert Total(w) == Total([]) + ws[0];
  }

  /** Each later running total adds its own weight to the one before. */
  lemma AccumulateStep(ws: seq<real>, i: nat)
    requires 0 < i < |ws|
    ensures Accumulate(ws)[i] == Accumulate(ws)[i - 1] + ws[i]
  {
    assert ws[..i + 1][..i] == ws[..i];
  }

  /** The last running total is the sum of all the weights. */
  lemma AccumulateLast(ws: seq<real>)
    requires 0 < |ws|
    ensures Accumulate(ws)[|ws| - 1] == Total(ws)
  {
    assert ws[..|ws|] == ws;
  }

  predicate Ascending(a: seq<real>)
  {
    forall i, j :: 0 <= i <= j < |a| ==> a[i] <= a[j]
  }

  /** Nonnegative weights give ascending running totals. */
  lemma {:induction false} AccumulateAscending(ws: seq<real>)
    requires forall m :: 0 <= m < |ws| ==> ws[m] >= 0.0
    ensures Ascending(Accumulate(ws))
  {
    forall i, j | 0 <= i <= j < |ws|
      ensures Accumulate(ws)[i] <= Accumulate(ws)[j]
    {
      AccumulateMono(ws, i, j);
    }
  }

  lemma {:induction false} AccumulateMono(ws: seq<real>, i: nat, j: nat)
    requires forall m :: 0 <= m < |ws| ==> ws[m] >= 0.0
    requires i <= j < |ws|
    ensures Accumulate(ws)[i] <= Accumulate(ws)[j]
    decreases j - i
  {
    if i < j {
      AccumulateStep(ws, j);
      AccumulateMono(ws, i, j - 1);
    }
  }

  /** `bisect.bisect_right(a, x, lo, hi)`, the binary search as Python runs
      it: on ascending `a` the result is the point after every entry up to
      `x` and before every entry above it. */
  function Bisect(a: seq<real>, x: real, lo: nat, hi: nat): (r: nat)
    requires lo <= hi <= |a|
    ensures lo <= r <= hi
    ensures Ascending(a) ==>
      (forall i :: lo <= i < r ==> a[i] <= x) && (forall i :: r <= i < hi ==> x < a[i])
    decreases hi - lo
  {
    if lo < hi then
      var mid := (lo + hi) / 2;
      if x < a[mid] then Bisect(a, x, lo, mid) else Bisect(a, x, mid + 1, hi)
    else lo
  }

  /** The point a draw falls on, `random() * total`. */
  function Point(u: real, total: real): real
  {
    u * total
  }

  /** The index a draw takes for the point `x`: `bisect(cum_weights, x, 0, n - 1)`. */
  function ChoiceIndex(ws: seq<real>, x: real): (r: nat)
    requires 0 < |ws|
    ensures r < |ws|
  {
    Bisect(Accumulate(ws), x, 0, |ws| - 1)
  }

  /** `random.choices(population, weights=weights, k=k)` as Python 3.9 and
      later run it, `u(j)` being the j-th value `random()` returns. Before
      anything is drawn, a weight count other than the population's is a
      ValueError, an empty population an IndexError (on `cum_weights[-1]`)
      and a total that is not positive a ValueError. */
  function Choices(d: Draw, u: nat -> real): (r: Result<seq<int>>)
    ensures r.Failure? <==>
      (|d.weights| != |d.population| || |d.population| == 0 || Total(d.weights) <= 0.0)
    ensures r.Failure? ==>
      r.error == if |d.weights| == |d.population| == 0 then IndexError else ValueError
    ensures r.Success? ==> |r.value| == d.k && forall j :: 0 <= j < d.k ==> r.value[j] in d.population
  {
    var n := |d.population|;
    var cum := Accumulate(d.weights);
    if |cum| != n then Failure(ValueError)
    else if n == 0 then Failure(IndexError)
    else
      var total := cum[n - 1];
      AccumulateLast(d.weights);
      if total <= 0.0 then Failure(ValueError)
      else
        var picks := seq(d.k, j requires 0 <= j < d.k => d.population[ChoiceIndex(d.weights, Point(u(j), total))]);
        assert forall j :: 0 <= j < d.k ==> picks[j] in d.population by {
          forall j | 0 <= j < d.k
            ensures picks[j] in d.population
          {
            var i := ChoiceIndex(d.weights, Point(u(j), total));
            assert picks[j] == d.population[i];
          }
        }
        Success(picks)
  }

  /** Draw j is the member at the index its point selects. */
  lemma ChoicesAt(d: Draw, u: nat -> real, j: nat)
    requires Choices(d, u).Success? && j < d.k
    ensures Choices(d, u).value[j] == d.population[ChoiceIndex(d.weights, Point(u(j), Total(d.weights)))]
  {
    AccumulateLast(d.weights);
  }

  /** With nonnegative weights and `random()` in [0, 1), every draw lands
      on a member whose weight is positive: a zero weight is never drawn. */
  lemma ChoicesDrawPositiveWeights(ws: seq<real>, u: real)
    requires 0 < |ws| && forall m :: 0 <= m < |ws| ==> ws[m] >= 0.0
    requires Total(ws) > 0.0 && 0.0 <= u < 1.0
    ensures ws[ChoiceIndex(ws, Point(u, Total(ws)))] > 0.0
  {
    ScaledBelow(u, Total(ws));
    BisectLandsOnPositive(ws, Point(u, Total(ws)));
  }

  lemma ScaledBelow(u: real, total: real)
    requires 0.0 <= u < 1.0 && total > 0.0
    ensures 0.0 <= Point(u, total) < total
  {
    var v := 1.0 - u;
    assert total - u * total == v * total;
  }

  /** A point below the total of nonnegative weights falls inside the span
      of a positive one. */
  lemma BisectLandsOnPositive(ws: seq<real>, x: real)
    requires 0 < |ws| && forall m :: 0 <= m < |ws| ==> ws[m] >= 0.0
    requires 0.0 <= x < Total(ws)
    ensures ws[ChoiceIndex(ws, x)] > 0.0
  {
    var cum := Accumulate(ws);
    AccumulateLast(ws);
    AccumulateAscending(ws);
    var b := Bisect(cum, x, 0, |ws| - 1);
    assert x < cum[b];
    if b == 0 {
      AccumulateFirst(ws);
    } else {
      AccumulateStep(ws, b);
      assert cum[b - 1] <= x;
    }
  }

  /** `random`: one label per input vector, each a cluster number below
      `--clusters`. Once validated, it fails exactly when there are no
      clusters (IndexError) or the weights do not add up to more than
      zero (ValueError), even with no vectors to label. */
  function Random<V>(vectors: seq<V>, a: RandomArgs, eval: (string, int) -> real,
                     u: nat -> real): (r: Result<seq<int>>)
    ensures r.Success? ==>
      |r.value| == |vectors| && forall j :: 0 <= j < |r.value| ==> 0 <= r.value[j] < ClusterCount(a)
    ensures Consistent(a) ==>
      (r.Failure? <==> (ClusterCount(a) <= 0 || Total(RandomDraw(vectors, a, eval).weights) <= 0.0))
    ensures Consistent(a) && ClusterCount(a) <= 0 ==> r == Failure(IndexError)
    ensures Consistent(a) && ClusterCount(a) > 0 && r.Failure? ==> r.error == ValueError
  {
    var d := RandomDraw(vectors, a, eval);
    DrawLengths(vectors, a, eval);
    Choices(d, u)
  }

  /** A cluster whose weight is zero never receives a label. */
  lemma RandomAvoidsZeroWeights<V>(vectors: seq<V>, a: RandomArgs, eval: (string, int) -> real,
                                   u: nat -> real, j: nat)
    requires Random(vectors, a, eval, u).Success?
    requires var ws := RandomDraw(vectors, a, eval).weights;
      forall m :: 0 <= m < |ws| ==> ws[m] >= 0.0
    requires 0.0 <= u(j) < 1.0 && j < |vectors|
    ensures RandomDraw(vectors, a, eval).weights[Random(vectors, a, eval, u).value[j]] > 0.0
  {
    var d := RandomDraw(vectors, a, eval);
    assert Random(vectors, a, eval, u) == Choices(d, u);
    ChoicesDrawPositiveWeights(d.weights, u(j));
    ChoicesAt(d, u, j);
  }

  /** What validation guarantees of the options: given weights fix the
      cluster count. */
  predicate Consistent(a: RandomArgs)
  {
    a.weights.Some? ==> a.clusters == Some(|a.weights.value|)
  }

  /** For consistent options (every validated one, by RandomOptionsAgree)
      the weights line up with the population, one per cluster: weight i is
      the given weight (1 by default) times the function at i + 1 when a
      function is given; `k` is the number of vectors and the default is
      ten clusters. */
  lemma RandomDrawWeights<V>(vectors: seq<V>, a: RandomArgs, eval: (string, int) -> real)
    requires Consistent(a)
    ensures var d := RandomDraw(vectors, a, eval);
      |d.weights| == |d.population| && d.k == |vectors| &&
      (a.clusters.None? ==> |d.population| == 10) &&
      forall i :: 0 <= i < |d.weights| ==>
        d.population[i] == i &&
        d.weights[i] == (if a.weights.Some? then a.weights.value[i] else 1.0)
          * (if a.func.Some? then eval(a.func.value, i + 1) else 1.0)
  {
    var clusters := ClusterCount(a);
    var base := BaseWeights(clusters, a.weights);
    assert |base| == |Range(clusters)|;
    BaseWeightsAt(clusters, a.weights);
  }

  lemma BaseWeightsAt(clusters: int, weights: Option<seq<real>>)
    ensures forall i :: 0 <= i < |BaseWeights(clusters, weights)| ==>
      BaseWeights(clusters, weights)[i] == if weights.Some? then weights.value[i] else 1.0
  {
  }

  // ---------------------------------------------------------------------
  // hdbscan's parameters (cluster.py:31-38)
  // ---------------------------------------------------------------------

  /** The parameters HDBSCAN is constructed with. */
  datatype HdbscanParams = HdbscanParams(metric: string, selection: string, minClusterSize: int)

  /** As written: `metric` and `cluster_selection_method` are accepted and
      then replaced by the literals 'euclidean' and 'eom'. */
  function HdbscanParamsAsWritten(metric: Option<string>, selection: Option<string>, size: Option<int>): HdbscanParams
  {
    HdbscanParams("euclidean", "eom", if size.Some? then size.value else 15)
  }

  /** As intended: every option reaches HDBSCAN, with the documented
      defaults. */
  function HdbscanParamsOf(metric: Option<string>, selection: Option<string>, size: Option<int>): (p: HdbscanParams)
    ensures metric.Some? ==> p.metric == metric.value
    ensures selection.Some? ==> p.selection == selection.value
    ensures size.Some? ==> p.minClusterSize == size.value
    ensures metric.None? && selection.None? && size.None? ==> p == HdbscanParams("euclidean", "eom", 15)
  {
    HdbscanParams(
      if metric.Some? then metric.value else "euclidean",
      if selection.Some? then selection.value else "eom",
      if size.Some? then size.value else 15)
  }

  /** The code as written passes the parameters the options ask for only
      when neither `--metric` nor `--cluster-selection-method` asks for
      anything other than its default; the minimum cluster size always
      gets through. */
  lemma HdbscanAgreesOnlyOnDefaults(metric: Option<string>, selection: Option<string>, size: Option<int>)
    ensures HdbscanParamsOf(metric, selection, size) == HdbscanParamsAsWritten(metric, selection, size)
      <==> (metric.None? || metric == Some("euclidean")) && (selection.None? || selection == Some("eom"))
    ensures HdbscanParamsOf(metric, selection, size).minClusterSize
      == HdbscanParamsAsWritten(metric, selection, size).minClusterSize
  {
  }

  /** `ttm cluster hdbscan --metric manhattan` still clusters with the
      euclidean metric as written. */
  lemma HdbscanIgnoresMetric()
    ensures MethodOf(["hdbscan", "--metric", "manhattan"], [("metric", "manhattan")], [], _ => None)
      == Success(Hdbscan(Some("manhattan"), None, None))
    ensures HdbscanParamsAsWritten(Some("manhattan"), None, None).metric == "euclidean"
    ensures HdbscanParamsOf(Some("manhattan"), None, None).metric == "manhattan"
  {
    assert Cli.OptionValue([("metric", "manhattan")], "min-cluster-size") == None;
  }

  // ---------------------------------------------------------------------
  // Splitting one cluster (cluster.py:197-212)
  // ---------------------------------------------------------------------

  /** The generator `f'{c}.{next(subclusters)}' if c == split else c`:
      each row labelled `split` takes the next sub-cluster; running out of
      sub-clusters ends the generator with RuntimeError (PEP 479). */
  function Relabel(labels: seq<string>, split: string, sub: seq<int>): (r: Result<seq<string>>)
    ensures r.Failure? ==> r.error == RuntimeError
    ensures r.Success? ==> |r.value| == |labels|
    decreases |labels|
  {
    if |labels| == 0 then Success([])
    else if labels[0] == split then
      if |sub| == 0 then Failure(RuntimeError)
      else
        var rest :- Relabel(labels[1..], split, sub[1..]);
        Success([split + "." + Decimal.ShowInt(sub[0])] + rest)
    else
      var rest :- Relabel(labels[1..], split, sub);
      Success([labels[0]] + rest)
  }

  /** Reference definition of one relabelled row: a row of the split
      cluster becomes `split.k` with the k-th sub-cluster, counting the
      split rows before it; every other row keeps its label. */
  function RowLabel(labels: seq<string>, split: string, sub: seq<int>, i: nat): string
    requires i < |labels|
  {
    if labels[i] != split then labels[i]
    else
      var k := Eval.Count(labels[..i], split);
      if k < |sub| then split + "." + Decimal.ShowInt(sub[k]) else ""
  }

  lemma {:induction false} CountCons(x: string, s: seq<string>, y: string)
    ensures Eval.Count([x] + s, y) == (if x == y then 1 else 0) + Eval.Count(s, y)
    decreases |s|
  {
    if |s| > 0 {
      CountCons(x, s[..|s| - 1], y);
      assert ([x] + s)[..|s|] == [x] + s[..|s| - 1];
    }
  }

  /** Dropping the first row shifts the reference labels of the others. */
  lemma RowLabelShift(labels: seq<string>, split: string, sub: seq<int>, i: nat)
    requires 1 <= i < |labels| && (labels[0] == split ==> |sub| > 0)
    ensures RowLabel(labels, split, sub, i) ==
      RowLabel(labels[1..], split, if labels[0] == split then sub[1..] else sub, i - 1)
  {
    var tail := labels[1..];
    var sub' := if labels[0] == split then sub[1..] else sub;
    assert labels[..i] == [labels[0]] + tail[..i - 1];
    CountCons(labels[0], tail[..i - 1], split);
    assert labels[i] == tail[i - 1];
    if labels[i] == split {
      var k := Eval.Count(labels[..i], split);
      var k' := Eval.Count(tail[..i - 1], split);
      assert k == k' + (if labels[0] == split then 1 else 0);
      assert k < |sub| <==> k' < |sub'|;
      assert k < |sub| ==> sub[k] == sub'[k'];
    }
  }

  /** The relabelling succeeds exactly when there are at least as many
      sub-clusters as rows in the split cluster, and then agrees row by row
      with the reference definition. */
  lemma {:induction false} RelabelRows(labels: seq<string>, split: string, sub: seq<int>)
    ensures Relabel(labels, split, sub).Success? <==> Eval.Count(labels, split) <= |sub|
    ensures Relabel(labels, split, sub).Success? ==>
      forall i :: 0 <= i < |labels| ==> Relabel(labels, split, sub).value[i] == RowLabel(labels, split, sub, i)
    decreases |labels|
  {
    if |labels| > 0 {
      CountCons(labels[0], labels[1..], split);
      assert [labels[0]] + labels[1..] == labels;
      if labels[0] != split || |sub| > 0 {
        var sub' := if labels[0] == split then sub[1..] else sub;
        RelabelRows(labels[1..], split, sub');
        if Relabel(labels, split, sub).Success? {
          var r := Relabel(labels, split, sub).value;
          forall i | 0 <= i < |labels| ensures r[i] == RowLabel(labels, split, sub, i) {
            if i > 0 {
              RowLabelShift(labels, split, sub, i);
            } else {
              assert labels[..0] == [];
            }
          }
        }
      }
    }
  }

  /** Rows outside the split cluster keep their label, and the split
      cluster's rows take the sub-clusters in order. */
  lemma RelabelKeepsOthers(labels: seq<string>, split: string, sub: seq<int>, i: nat)
    requires i < |labels| && Relabel(labels, split, sub).Success?
    ensures labels[i] != split ==> Relabel(labels, split, sub).value[i] == labels[i]
    ensures labels[i] == split ==> (Eval.Count(labels[..i], split) < |sub| &&
      Relabel(labels, split, sub).value[i] == split + "." + Decimal.ShowInt(sub[Eval.Count(labels[..i], split)]))
  {
    RelabelRows(labels, split, sub);
    if labels[i] == split {
      CountPrefix(labels, split, i);
    }
  }

  /** A split row is preceded by fewer split rows than there are in all. */
  lemma {:induction false} CountPrefix(labels: seq<string>, split: string, i: nat)
    requires i < |labels| && labels[i] == split
    ensures Eval.Count(labels[..i], split) < Eval.Count(labels, split)
    decreases |labels|
  {
    if i < |labels| - 1 {
      CountPrefix(labels[..|labels| - 1], split, i);
      assert labels[..|labels| - 1][..i] == labels[..i];
    } else {
      assert labels[..|labels| - 1] == labels[..i];
    }
  }

  // ---------------------------------------------------------------------
  // Output (cluster.py:218-221)
  // ---------------------------------------------------------------------

  /** The output of a plain clustering: the input with the old `cluster`
      column hidden and the labels appended, zipped to the shorter of rows
      and labels. */
  function Clustered(lines: seq<string>, labels: seq<int>): (r: Result<seq<string>>)
  {
    Output.Zipped(lines, "cluster", seq(|labels|, i requires 0 <= i < |labels| => Decimal.ShowInt(labels[i])))
  }

  /** The position among `labels` of the split row that finds the
      sub-clusters exhausted: the split row with exactly `k` split rows
      before it. */
  function Exhausting(labels: seq<string>, split: string, k: nat): (m: nat)
    requires Eval.Count(labels, split) > k
    ensures m < |labels| && labels[m] == split && Eval.Count(labels[..m], split) == k
    decreases |labels|
  {
    assert |labels| > 0;
    CountCons(labels[0], labels[1..], split);
    assert [labels[0]] + labels[1..] == labels;
    if labels[0] == split && k == 0 then
      assert labels[..0] == [];
      0
    else
      var m := Exhausting(labels[1..], split, if labels[0] == split then k - 1 else k);
      CountCons(labels[0], labels[1..][..m], split);
      assert labels[..m + 1] == [labels[0]] + labels[1..][..m];
      m + 1
  }

  /** The output in split mode. `column` is the `cluster` column of the
      input and `sub` the sub-clusters the method produced. The zip pulls a
      row of the view and then its label, so row `k` is projected before
      label `k` is drawn; when the sub-clusters run out at the label of row
      `m + 1`, only rows 1 to `m + 1` have been projected, and one of them
      that is wider than the header raises IndexError first. */
  function SplitClustered(lines: seq<string>, column: seq<string>, split: string, sub: seq<int>): (r: Result<seq<string>>)
  {
    if |lines| == 0 then Failure(ExpectedRuntimeError)
    else
      var n := Eval.Min(|lines| - 1, |column|);
      RelabelRows(column[..n], split, sub);
      match Relabel(column[..n], split, sub)
      case Success(labels) => Output.Zipped(lines, "cluster", labels)
      case Failure(_) =>
        var m := Exhausting(column[..n], split, |sub|);
        var _ :- Tsv.ViewLines(lines[..m + 2], ["cluster"]);
        Failure(RuntimeError)
  }

  /** Split mode as written (cluster.py:197-211): `Column` has no `filter`,
      so selecting the vectors of the split cluster raises AttributeError
      inside a `try` whose handlers name `ColumnNotFound` and
      `EmptyColumnError`, which nothing defines; evaluating the first of
      them raises NameError before any sub-clustering or output. */
  function SplitClusteredAsWritten(lines: seq<string>, column: seq<string>, split: string): Result<seq<string>>
  {
    match TryUndefinedExcept<seq<int>>(Failure(AttributeError))
    case Failure(e) => Failure(e)
    case Success(sub) => SplitClustered(lines, column, split, sub)
  }

  /** Split mode as written fails with NameError on every input. */
  lemma SplitAlwaysFailsAsWritten(lines: seq<string>, column: seq<string>, split: string)
    ensures SplitClusteredAsWritten(lines, column, split) == Failure(NameError)
  {
  }

  /** A plain clustering writes one row per zipped pair, each row the
      input row without its old cluster cell followed by its label. */
  lemma ClusteredRows(lines: seq<string>, labels: seq<int>)
    requires Clustered(lines, labels).Success?
    ensures var r := Clustered(lines, labels).value;
      |r| == 1 + Eval.Min(|lines| - 1, |labels|) &&
      forall i :: 0 <= i < |r| - 1 ==>
        r[i + 1] == Tsv.ViewLines(Output.Pulled(lines, |labels|), ["cluster"]).value[i + 1] + "\t" + Decimal.ShowInt(labels[i])
  {
    var cells := seq(|labels|, i requires 0 <= i < |labels| => Decimal.ShowInt(labels[i]));
    var r := Output.Zipped(lines, "cluster", cells);
    assert Clustered(lines, labels) == r;
    var view := Tsv.ViewLines(Output.Pulled(lines, |cells|), ["cluster"]).value;
    forall i | 0 <= i < |r.value| - 1
      ensures r.value[i + 1] == view[i + 1] + "\t" + Decimal.ShowInt(labels[i])
    {
      assert r.value[i + 1] == view[i + 1] + "\t" + cells[i];
    }
  }

  /** When every row fits under the header, split mode fails for want of
      sub-clusters exactly when the rows the zip reaches hold more rows of
      the split cluster than there are sub-clusters; otherwise each written
      row carries the reference label. */
  lemma SplitClusteredRows(lines: seq<string>, column: seq<string>, split: string, sub: seq<int>)
    requires Tsv.ViewLines(lines, ["cluster"]).Success?
    ensures var n := Eval.Min(|lines| - 1, |column|);
      SplitClustered(lines, column, split, sub).Success? <==> Eval.Count(column[..n], split) <= |sub|
    ensures var n := Eval.Min(|lines| - 1, |column|);
      SplitClustered(lines, column, split, sub).Failure? ==> SplitClustered(lines, column, split, sub).error == RuntimeError
    ensures var r := SplitClustered(lines, column, split, sub);
      var n := Eval.Min(|lines| - 1, |column|);
      r.Success? ==> |r.value| == n + 1 && forall i :: 0 <= i < n ==>
        r.value[i + 1] == Tsv.ViewLines(lines, ["cluster"]).value[i + 1] + "\t" + RowLabel(column[..n], split, sub, i)
  {
    var n := Eval.Min(|lines| - 1, |column|);
    RelabelRows(column[..n], split, sub);
    if Eval.Count(column[..n], split) <= |sub| {
      Output.ZippedWholeView(lines, "cluster", Relabel(column[..n], split, sub).value);
    } else {
      var m := Exhausting(column[..n], split, |sub|);
      Tsv.ViewLinesPrefix(lines, ["cluster"], m + 2);
    }
  }

  /** Split mode over any input, in the order the zip meets the errors.
      When the sub-clusters run out, the run fails with RuntimeError unless
      a row up to the one whose label exhausts them is wider than the
      header, which raises IndexError first; rows after it are never read.
      Otherwise the run fails exactly when a row the zip pulls is too wide,
      and each written row carries the reference label. */
  lemma SplitClusteredErrors(lines: seq<string>, column: seq<string>, split: string, sub: seq<int>)
    ensures |lines| == 0 ==> SplitClustered(lines, column, split, sub) == Failure(ExpectedRuntimeError)
    ensures |lines| > 0 ==>
      var n := Eval.Min(|lines| - 1, |column|);
      var r := SplitClustered(lines, column, split, sub);
      Eval.Count(column[..n], split) > |sub| ==>
        var m := Exhausting(column[..n], split, |sub|);
        && r.Failure?
        && (r.error == RuntimeError <==>
              forall k :: 1 <= k <= m + 1 ==> |Tsv.Fields(lines[k])| <= |Tsv.Fields(lines[0])|)
        && (r.error != RuntimeError ==> r.error == IndexError)
    ensures |lines| > 0 ==>
      var n := Eval.Min(|lines| - 1, |column|);
      var r := SplitClustered(lines, column, split, sub);
      Eval.Count(column[..n], split) <= |sub| ==>
        && (r.Failure? <==> exists k :: 1 <= k < |lines| && k <= n + 1 && |Tsv.Fields(lines[k])| > |Tsv.Fields(lines[0])|)
        && (r.Failure? ==> r.error == IndexError)
        && (r.Success? ==> |r.value| == n + 1 && forall i :: 0 <= i < n ==>
              r.value[i + 1] == Tsv.ViewLines(Output.Pulled(lines, n), ["cluster"]).value[i + 1] + "\t" + RowLabel(column[..n], split, sub, i))
  {
    if |lines| > 0 {
      var n := Eval.Min(|lines| - 1, |column|);
      if Eval.Count(column[..n], split) > |sub| {
        SplitExhausted(lines, column, split, sub);
      } else {
        SplitSuffices(lines, column, split, sub);
      }
    }
  }

  /** SplitClusteredErrors when the sub-clusters run out. */
  lemma SplitExhausted(lines: seq<string>, column: seq<string>, split: string, sub: seq<int>)
    requires |lines| > 0 && Eval.Count(column[..Eval.Min(|lines| - 1, |column|)], split) > |sub|
    ensures var m := Exhausting(column[..Eval.Min(|lines| - 1, |column|)], split, |sub|);
      var r := SplitClustered(lines, column, split, sub);
      && r.Failure?
      && (r.error == RuntimeError <==>
            forall k :: 1 <= k <= m + 1 ==> |Tsv.Fields(lines[k])| <= |Tsv.Fields(lines[0])|)
      && (r.error != RuntimeError ==> r.error == IndexError)
  {
    var n := Eval.Min(|lines| - 1, |column|);
    RelabelRows(column[..n], split, sub);
    var m := Exhausting(column[..n], split, |sub|);
    var p := lines[..m + 2];
    assert forall k :: 1 <= k <= m + 1 ==> p[k] == lines[k];
  }

  /** SplitClusteredErrors when there are sub-clusters enough. */
  lemma SplitSuffices(lines: seq<string>, column: seq<string>, split: string, sub: seq<int>)
    requires |lines| > 0 && Eval.Count(column[..Eval.Min(|lines| - 1, |column|)], split) <= |sub|
    ensures var n := Eval.Min(|lines| - 1, |column|);
      var r := SplitClustered(lines, column, split, sub);
      && (r.Failure? <==> exists k :: 1 <= k < |lines| && k <= n + 1 && |Tsv.Fields(lines[k])| > |Tsv.Fields(lines[0])|)
      && (r.Failure? ==> r.error == IndexError)
      && (r.Success? ==> |r.value| == n + 1 && forall i :: 0 <= i < n ==>
            r.value[i + 1] == Tsv.ViewLines(Output.Pulled(lines, n), ["cluster"]).value[i + 1] + "\t" + RowLabel(column[..n], split, sub, i))
  {
    var n := Eval.Min(|lines| - 1, |column|);
    RelabelRows(column[..n], split, sub);
  }

  // ---------------------------------------------------------------------
  // The argmax run over one reader (cluster.py:11-13, 196, 216, 218-221)
  // ---------------------------------------------------------------------

  /** What the argmax run writes when every pass reads the whole input
      `lines`: the view's header, then each data row without its old
      `cluster` cell, followed by the argmax of its `lowdim` vector. `pick`
      stands for `json.loads` followed by numpy's `argmax`. The first data
      row is projected before the first label is drawn, so its IndexError
      comes before any error of the `lowdim` column. */
  function ArgmaxOutput(lines: seq<string>, pick: string -> int): (r: Result<seq<string>>)
    ensures r.Failure? ==> r.error in {ExpectedRuntimeError, IndexError, ValueNotInList}
  {
    if |lines| < 2 then Clustered(lines, [])
    else
      var _ :- Tsv.ViewLines(lines[..2], ["cluster"]);
      var labels :- Tsv.ColumnOf(lines, "lowdim", pick);
      Clustered(lines, labels)
  }

  /** The argmax run as written, from reader state `r`. `next(input_lines)`
      and the first round of `zip` pull the view's pass twice, for the
      header and the first data row; only then does `zip` draw the first
      label, and the lazy `argmax` generator starts the `lowdim` column, a
      second pass over the same reader. Once that pass has begun, both
      passes read the whole file. */
  function ArgmaxRun(r: Replay.Reader, pick: string -> int): Result<seq<string>>
  {
    var (r1, got) :- Replay.Pass(r, 2);
    if |got| < 2 then ArgmaxOutput(got, pick)
    else
      var _ :- Tsv.ViewLines(got, ["cluster"]);
      var _ :- Replay.Pull(r1, Replay.Unstarted);
      ArgmaxOutput(Replay.Expected(r.src), pick)
  }

  /** `ttm cluster argmax` on input `src` (cli.py:70 makes it standard input
      unless `-i` names a file). */
  function ArgmaxStage(src: Replay.Source, pick: string -> int): Result<seq<string>>
  {
    ArgmaxRun(Replay.NewReader(Replay.ReopenPerPass, src), pick)
  }

  /** The same run after `infile.ensure_loaded()`, which `psq_count` and
      `book` call before they zip two passes. */
  function ArgmaxStageLoaded(src: Replay.Source, pick: string -> int): Result<seq<string>>
  {
    var r :- Replay.EnsureLoaded(Replay.NewReader(Replay.ReopenPerPass, src));
    ArgmaxRun(r, pick)
  }

  /** A reader that can be read again runs argmax over the whole file. */
  lemma ArgmaxRunReadable(r: Replay.Reader, pick: string -> int)
    requires Replay.Valid(r) && r.flavor == Replay.ReopenPerPass && (Replay.Regular(r) || r.complete)
    ensures ArgmaxRun(r, pick) == ArgmaxOutput(Replay.Expected(r.src), pick)
  {
    Replay.ReadablePass(r, 2);
    var e := Replay.Expected(r.src);
    if |e| < 2 {
      assert e[..Replay.Min(2, |r.src.lines|)] == e;
    } else {
      assert e[..Replay.Min(2, |r.src.lines|)] == e[..2];
    }
  }

  /** cluster.py:11-13, 218-221 over types.py:66-84. On a regular file, or
      on input with no data row, argmax writes the clustered view of the
      whole file. On standard input or any unseekable file with a data
      row it fails: the first label starts a second pass while the first
      is still recording, so unless the first row is wider than the header
      (IndexError) the run dies with the reader's usage error. */
  lemma ArgmaxStageOutcome(src: Replay.Source, pick: string -> int)
    ensures var r := Replay.NewReader(Replay.ReopenPerPass, src);
      Replay.Regular(r) || |src.lines| < 2 ==> ArgmaxStage(src, pick) == ArgmaxOutput(Replay.Expected(src), pick)
    ensures var r := Replay.NewReader(Replay.ReopenPerPass, src);
      !Replay.Regular(r) && |src.lines| >= 2 ==> ArgmaxStage(src, pick).Failure?
    ensures var r := Replay.NewReader(Replay.ReopenPerPass, src);
      ArgmaxStage(src, pick) == Failure(UsageViolation) <==>
        !Replay.Regular(r) && |src.lines| >= 2 &&
        |Tsv.Fields(Replay.Expected(src)[1])| <= |Tsv.Fields(Replay.Expected(src)[0])|
  {
    var r := Replay.NewReader(Replay.ReopenPerPass, src);
    if Replay.Regular(r) || |src.lines| < 2 {
      ArgmaxStageReadsAll(src, pick);
    } else {
      ArgmaxStageUnseekable(src, pick);
    }
  }

  /** ArgmaxStageOutcome on a regular file or on input without a data row. */
  lemma ArgmaxStageReadsAll(src: Replay.Source, pick: string -> int)
    requires Replay.Regular(Replay.NewReader(Replay.ReopenPerPass, src)) || |src.lines| < 2
    ensures ArgmaxStage(src, pick) == ArgmaxOutput(Replay.Expected(src), pick)
  {
    var r := Replay.NewReader(Replay.ReopenPerPass, src);
    Replay.NewReaderValid(Replay.ReopenPerPass, src);
    if Replay.Regular(r) {
      ArgmaxRunReadable(r, pick);
    } else {
      Replay.FirstPassRecords(r, 2);
      assert Replay.Pass(r, 2).value.1 == Replay.Expected(src);
    }
  }

  /** ArgmaxStageOutcome on an unseekable input with a data row. */
  lemma ArgmaxStageUnseekable(src: Replay.Source, pick: string -> int)
    requires !Replay.Regular(Replay.NewReader(Replay.ReopenPerPass, src)) && |src.lines| >= 2
    ensures ArgmaxStage(src, pick).Failure?
    ensures ArgmaxStage(src, pick) == Failure(UsageViolation) <==>
      |Tsv.Fields(Replay.Expected(src)[1])| <= |Tsv.Fields(Replay.Expected(src)[0])|
  {
    var r := Replay.NewReader(Replay.ReopenPerPass, src);
    var e := Replay.Expected(src);
    Replay.NewReaderValid(Replay.ReopenPerPass, src);
    Replay.FirstPassRecords(r, 2);
    var (r1, got) := Replay.Pass(r, 2).value;
    assert got == e[..2];
    assert Replay.Begin(r1).Failure?;
    FirstRowFits(got);
  }

  /** The view of a header and one data row fails exactly when the row is
      wider than the header. */
  lemma FirstRowFits(got: seq<string>)
    requires |got| == 2
    ensures Tsv.ViewLines(got, ["cluster"]).Success? <==> |Tsv.Fields(got[1])| <= |Tsv.Fields(got[0])|
  {
  }

  /** With `ensure_loaded` first, the run over any input, standard input
      included, writes the clustered view of the whole file. */
  lemma ArgmaxAfterLoading(src: Replay.Source, pick: string -> int)
    ensures ArgmaxStageLoaded(src, pick) == ArgmaxOutput(Replay.Expected(src), pick)
  {
    var r := Replay.NewReader(Replay.ReopenPerPass, src);
    Replay.NewReaderValid(Replay.ReopenPerPass, src);
    Replay.LenCountsOnceAndMemoizes(r);
    Replay.FullPassOutcome(r);
    Replay.EnsureLoadedIdempotent(r);
    ArgmaxRunReadable(Replay.EnsureLoaded(r).value, pick);
  }

  /** A successful argmax run writes one line per input line: the view's
      header, then every data row of the view followed by the argmax of the
      `lowdim` cell of that row. */
  lemma ArgmaxOutputRows(lines: seq<string>, pick: string -> int)
    requires ArgmaxOutput(lines, pick).Success?
    ensures var out := ArgmaxOutput(lines, pick).value;
      && |lines| > 0 && |out| == |lines|
      && (|lines| > 1 ==> "lowdim" in Tsv.Fields(lines[0]))
      && forall i :: 1 <= i < |lines| ==>
           var col := Tsv.ColumnIndex(Tsv.Fields(lines[0]), "lowdim").value;
           |Tsv.Fields(lines[i])| > col &&
           out[i] == Tsv.ViewLines(lines, ["cluster"]).value[i] + "\t" + Decimal.ShowInt(pick(Tsv.Fields(lines[i])[col]))
  {
    if |lines| >= 2 {
      var labels := Tsv.ColumnOf(lines, "lowdim", pick).value;
      assert Output.Pulled(lines, |labels|) == lines;
      ClusteredRows(lines, labels);
      var out := ArgmaxOutput(lines, pick).value;
      forall i | 1 <= i < |lines|
        ensures var col := Tsv.ColumnIndex(Tsv.Fields(lines[0]), "lowdim").value;
           |Tsv.Fields(lines[i])| > col &&
           out[i] == Tsv.ViewLines(lines, ["cluster"]).value[i] + "\t" + Decimal.ShowInt(pick(Tsv.Fields(lines[i])[col]))
      {
        assert out[(i - 1) + 1] == Tsv.ViewLines(lines, ["cluster"]).value[(i - 1) + 1] + "\t" + Decimal.ShowInt(labels[i - 1]);
      }
    } else {
      assert Output.Pulled(lines, 0) == lines;
      ClusteredRows(lines, []);
    }
  }
}

=== FILE: comp.dfy ===
/** `ttm comp` (ttm/comp.py): the agreement of two clusterings of the same
    ids, adjusted for chance. A labelled file is modelled by its rows of
    (id, cluster); both columns come from the same rows, so the `zip` in
    `_cluster2doc` never truncates. */
module Comp {
  import opened Wrappers
  import opened Sorting
  import opened Eval

  type Row = (string, string)   // (id, cluster)
  type Pair = (string, string)

  function Ids(rows: seq<Row>): (r: seq<string>)
    ensures |r| == |rows| && forall i :: 0 <= i < |rows| ==> r[i] == rows[i].0
  {
    seq(|rows|, i requires 0 <= i < |rows| => rows[i].0)
  }

  function Labels(rows: seq<Row>): (r: seq<string>)
    ensures |r| == |rows| && forall i :: 0 <= i < |rows| ==> r[i] == rows[i].1
  {
    seq(|rows|, i requires 0 <= i < |rows| => rows[i].1)
  }

  // ---------------------------------------------------------------------
  // _cluster2doc

  /** Reference definition: the ids of the rows in cluster `c`, in row
      order. */
  function Members(rows: seq<Row>, c: string): seq<string>
  {
    if |rows| == 0 then []
    else (if rows[0].1 == c then [rows[0].0] else []) + Members(rows[1..], c)
  }

  function ClusterSet(rows: seq<Row>): set<string>
  {
    set i | 0 <= i < |rows| :: rows[i].1
  }

  /** The loop of `_cluster2doc`: append each id to its cluster's list. */
  function Fill(m: map<string, seq<string>>, rows: seq<Row>): (r: map<string, seq<string>>)
    requires forall i :: 0 <= i < |rows| ==> rows[i].1 in m
    ensures r.Keys == m.Keys
  {
    if |rows| == 0 then m
    else
      var (d, c) := rows[0];
      Fill(m[c := m[c] + [d]], rows[1..])
  }

  /** `_cluster2doc(f)`: one empty list per distinct cluster, then the
      loop. */
  function Cluster2Doc(rows: seq<Row>): (m: map<string, seq<string>>)
    ensures m.Keys == ClusterSet(rows)
  {
    Fill(map c | c in ClusterSet(rows) :: [], rows)
  }

  lemma {:induction false} FillAppends(m: map<string, seq<string>>, rows: seq<Row>)
    requires forall i :: 0 <= i < |rows| ==> rows[i].1 in m
    ensures forall c :: c in m ==> Fill(m, rows)[c] == m[c] + Members(rows, c)
    decreases |rows|
  {
    if |rows| > 0 {
      var (d, c) := rows[0];
      var m' := m[c := m[c] + [d]];
      FillAppends(m', rows[1..]);
    }
  }

  /** comp.py:8-12. The list of cluster `c` holds the ids of the rows
      labelled `c`, in row order. */
  lemma Cluster2DocLists(rows: seq<Row>)
    ensures var m := Cluster2Doc(rows);
      forall c :: c in m ==> m[c] == Members(rows, c)
  {
    var m0: map<string, seq<string>> := map c | c in ClusterSet(rows) :: [];
    FillAppends(m0, rows);
    forall c | c in Cluster2Doc(rows) ensures Cluster2Doc(rows)[c] == Members(rows, c) {
      assert m0[c] + Members(rows, c) == Members(rows, c);
    }
  }

  lemma {:induction false} MembersIff(rows: seq<Row>, c: string, x: string)
    ensures x in Members(rows, c) <==> exists i :: 0 <= i < |rows| && rows[i] == (x, c)
    decreases |rows|
  {
    if |rows| > 0 {
      MembersIff(rows[1..], c, x);
      if exists i :: 0 <= i < |rows| && rows[i] == (x, c) {
        var i :| 0 <= i < |rows| && rows[i] == (x, c);
        if i > 0 {
          assert rows[1..][i - 1] == (x, c);
        }
      }
      if exists i :: 0 <= i < |rows[1..]| && rows[1..][i] == (x, c) {
        var i :| 0 <= i < |rows[1..]| && rows[1..][i] == (x, c);
        assert rows[i + 1] == (x, c);
      }
    }
  }

  /** comp.py:8-12. With distinct ids every id lands in exactly one list:
      the list of its own cluster. */
  lemma Cluster2DocPartition(rows: seq<Row>, i: nat)
    requires NoDup(Ids(rows)) && i < |rows|
    ensures var m := Cluster2Doc(rows);
      forall c :: c in m ==> (rows[i].0 in m[c] <==> c == rows[i].1)
  {
    Cluster2DocLists(rows);
    var m := Cluster2Doc(rows);
    forall c | c in m ensures rows[i].0 in m[c] <==> c == rows[i].1 {
      MembersIff(rows, c, rows[i].0);
      if rows[i].0 in m[c] {
        var j :| 0 <= j < |rows| && rows[j] == (rows[i].0, c);
        assert Ids(rows)[j] == Ids(rows)[i];
      }
    }
  }

  // ---------------------------------------------------------------------
  // combinations(s, 2)

  /** `itertools.combinations(s, 2)`: every pair of positions i < j, in
      lexicographic order of positions. */
  function Combinations<T>(s: seq<T>): (r: seq<(T, T)>)
    ensures |r| == |s| * (|s| - 1) / 2
  {
    if |s| == 0 then []
    else
      var n := |s|;
      assert (n - 1) + (n - 1) * (n - 2) / 2 == n * (n - 1) / 2 by {
        assert n * (n - 1) == 2 * (n - 1) + (n - 1) * (n - 2);
      }
      seq(|s| - 1, j requires 0 <= j < |s| - 1 => (s[0], s[j + 1])) + Combinations(s[1..])
  }

  /** A pair is produced exactly when its parts stand at two positions
      i < j of `s`. */
  lemma {:induction false} CombinationsIff<T>(s: seq<T>, p: (T, T))
    ensures p in Combinations(s) <==> exists i, j :: 0 <= i < j < |s| && p == (s[i], s[j])
    decreases |s|
  {
    if |s| > 0 {
      var head := seq(|s| - 1, j requires 0 <= j < |s| - 1 => (s[0], s[j + 1]));
      CombinationsIff(s[1..], p);
      if p in Combinations(s) {
        if p in head {
          var j :| 0 <= j < |head| && head[j] == p;
          assert p == (s[0], s[j + 1]);
        } else {
          assert p in Combinations(s[1..]);
          var i, j :| 0 <= i < j < |s[1..]| && p == (s[1..][i], s[1..][j]);
          assert p == (s[i + 1], s[j + 1]);
        }
      }
      if exists i, j :: 0 <= i < j < |s| && p == (s[i], s[j]) {
        var i, j :| 0 <= i < j < |s| && p == (s[i], s[j]);
        if i == 0 {
          assert head[j - 1] == p;
        } else {
          assert p == (s[1..][i - 1], s[1..][j - 1]);
        }
      }
    }
  }

  /** Pairs of a sorted list put the smaller element first. */
  lemma CombinationsOrdered<T>(s: seq<T>, le: (T, T) -> bool)
    requires Sorted(s, le)
    ensures forall p :: p in Combinations(s) ==> le(p.0, p.1)
  {
    forall p | p in Combinations(s) ensures le(p.0, p.1) {
      CombinationsIff(s, p);
    }
  }

  /** A list without repeats gives pairs without repeats, none of which
      pairs an element with itself. */
  lemma {:induction false} CombinationsNoDup<T>(s: seq<T>)
    requires NoDup(s)
    ensures NoDup(Combinations(s))
    ensures forall p :: p in Combinations(s) ==> p.0 != p.1
    decreases |s|
  {
    if |s| > 0 {
      var head := seq(|s| - 1, j requires 0 <= j < |s| - 1 => (s[0], s[j + 1]));
      var tail := Combinations(s[1..]);
      CombinationsNoDup(s[1..]);
      var r := Combinations(s);
      assert r == head + tail;
      forall p | p in tail ensures p.0 != s[0] {
        CombinationsIff(s[1..], p);
        var i, j :| 0 <= i < j < |s[1..]| && p == (s[1..][i], s[1..][j]);
        assert p.0 == s[i + 1];
      }
      forall p | p in r ensures p.0 != p.1 {
        CombinationsIff(s, p);
      }
      forall a, b | 0 <= a < b < |r| ensures r[a] != r[b] {
        if b < |head| {
          assert r[a] == (s[0], s[a + 1]) && r[b] == (s[0], s[b + 1]);
        } else if a < |head| {
          assert r[b] == tail[b - |head|] && r[b] in tail;
        } else {
          assert r[a] == tail[a - |head|] && r[b] == tail[b - |head|];
        }
      }
    }
  }

  // ---------------------------------------------------------------------
  // _cluster_pairs

  /** The pairs of the clusters listed in `order`. */
  function PairsOver(m: map<string, seq<string>>, order: seq<string>): seq<Pair>
    requires forall k :: 0 <= k < |order| ==> order[k] in m
  {
    if |order| == 0 then []
    else Combinations(Sort(m[order[0]], LexLe)) + PairsOver(m, order[1..])
  }

  /** The clusters of a file in order of first appearance; each is a key
      of `_cluster2doc` and none is listed twice. */
  function ClusterOrder(rows: seq<Row>): (order: seq<string>)
    ensures forall k :: 0 <= k < |order| ==> order[k] in Cluster2Doc(rows)
    ensures NoDup(order)
  {
    var order := Distinct(Labels(rows));
    forall k | 0 <= k < |order| ensures order[k] in ClusterSet(rows) {
      assert order[k] in Labels(rows);
      var i :| 0 <= i < |rows| && Labels(rows)[i] == order[k];
    }
    order
  }

  /** `_cluster_pairs(f)`. The clusters are visited in order of first
      appearance; Python visits them in the iteration order of a set, but
      both consumers of the pairs (`set()` and the toggle loop) do not
      depend on the order. */
  function ClusterPairs(rows: seq<Row>): seq<Pair>
  {
    PairsOver(Cluster2Doc(rows), ClusterOrder(rows))
  }

  /** A pair of a sorted list joins two of its elements, smaller first. */
  lemma SortedPairsMembers(xs: seq<string>, p: Pair)
    requires p in Combinations(Sort(xs, LexLe))
    ensures p.0 in xs && p.1 in xs && LexLe(p.0, p.1)
  {
    var s := Sort(xs, LexLe);
    CombinationsIff(s, p);
    var i, j :| 0 <= i < j < |s| && p == (s[i], s[j]);
    assert s[i] in multiset(s) && s[j] in multiset(s);
    LexLeIsTotalOrder();
    SortSorted(xs, LexLe);
  }

  lemma {:induction false} PairsOverMembers(m: map<string, seq<string>>, order: seq<string>, p: Pair)
    requires forall k :: 0 <= k < |order| ==> order[k] in m
    requires p in PairsOver(m, order)
    ensures LexLe(p.0, p.1)
    ensures exists k :: 0 <= k < |order| && p.0 in m[order[k]] && p.1 in m[order[k]]
    decreases |order|
  {
    if p in Combinations(Sort(m[order[0]], LexLe)) {
      SortedPairsMembers(m[order[0]], p);
    } else {
      PairsOverMembers(m, order[1..], p);
      var k :| 0 <= k < |order[1..]| && p.0 in m[order[1..][k]] && p.1 in m[order[1..][k]];
      assert order[1..][k] == order[k + 1];
    }
  }

  /** comp.py:13-16. Every pair joins two ids of one cluster, smaller id
      first. */
  lemma ClusterPairsSameCluster(rows: seq<Row>, p: Pair)
    requires p in ClusterPairs(rows)
    ensures LexLe(p.0, p.1)
    ensures exists i, j ::
      0 <= i < |rows| && 0 <= j < |rows| && rows[i].0 == p.0 && rows[j].0 == p.1 && rows[i].1 == rows[j].1
  {
    var m := Cluster2Doc(rows);
    var order := ClusterOrder(rows);
    PairsOverMembers(m, order, p);
    var k :| 0 <= k < |order| && p.0 in m[order[k]] && p.1 in m[order[k]];
    var c := order[k];
    assert p.0 in Members(rows, c) && p.1 in Members(rows, c) by {
      Cluster2DocLists(rows);
    }
    var i :| 0 <= i < |rows| && rows[i] == (p.0, c) by {
      MembersIff(rows, c, p.0);
    }
    var j :| 0 <= j < |rows| && rows[j] == (p.1, c) by {
      MembersIff(rows, c, p.1);
    }
    assert rows[i].0 == p.0 && rows[j].0 == p.1 && rows[i].1 == rows[j].1;
  }

  lemma {:induction false} NoDupCount<T>(s: seq<T>, x: T)
    requires NoDup(s)
    ensures multiset(s)[x] <= 1
    decreases |s|
  {
    if |s| > 0 {
      var n := |s| - 1;
      assert s == s[..n] + [s[n]];
      assert NoDup(s[..n]);
      NoDupCount(s[..n], x);
      if x == s[n] {
        assert x !in s[..n];
      }
    }
  }

  lemma TwoCopies<T>(r: seq<T>, a: nat, b: nat)
    requires a < b < |r| && r[a] == r[b]
    ensures multiset(r)[r[a]] >= 2
  {
    assert r == r[..b] + r[b..];
    assert r[a] == r[..b][a] && r[b] == r[b..][0];
    assert multiset(r) == multiset(r[..b]) + multiset(r[b..]);
  }

  /** A reordering of a list without repeats has no repeats. */
  lemma NoDupPermutation<T>(s: seq<T>, r: seq<T>)
    requires NoDup(s) && multiset(r) == multiset(s)
    ensures NoDup(r)
  {
    forall a, b | 0 <= a < b < |r| ensures r[a] != r[b] {
      if r[a] == r[b] {
        TwoCopies(r, a, b);
        NoDupCount(s, r[a]);
      }
    }
  }

  lemma NoDupConcat<T>(a: seq<T>, b: seq<T>)
    requires NoDup(a) && NoDup(b)
    requires forall x :: x in a ==> x !in b
    ensures NoDup(a + b)
  {
    var r := a + b;
    forall i, j | 0 <= i < j < |r| ensures r[i] != r[j] {
      if j >= |a| && i < |a| {
        assert r[i] in a && r[j] == b[j - |a|];
      } else if i >= |a| {
        assert r[i] == b[i - |a|] && r[j] == b[j - |a|];
      }
    }
  }

  lemma NoDupTail<T>(s: seq<T>)
    requires NoDup(s) && |s| > 0
    ensures NoDup(s[1..])
  {
    assert forall a, b :: 0 <= a < b < |s| - 1 ==> s[1..][a] == s[a + 1] && s[1..][b] == s[b + 1];
  }

  /** The pairs of the first cluster are not pairs of the later ones. */
  lemma HeadPairsNotInTail(m: map<string, seq<string>>, order: seq<string>, p: Pair)
    requires |order| > 0 && forall k :: 0 <= k < |order| ==> order[k] in m
    requires NoDup(order)
    requires forall c, c', x :: c in m && c' in m && c != c' && x in m[c] ==> x !in m[c']
    requires p in Combinations(Sort(m[order[0]], LexLe))
    ensures p !in PairsOver(m, order[1..])
  {
    SortedPairsMembers(m[order[0]], p);
    forall k | 0 <= k < |order[1..]| ensures p.0 !in m[order[1..][k]] {
      assert order[1..][k] == order[k + 1] != order[0];
    }
    if p in PairsOver(m, order[1..]) {
      PairsOverMembers(m, order[1..], p);
    }
  }

  /** Lists of clusters that share no id give pairs without repeats. */
  lemma {:induction false} PairsOverNoDup(m: map<string, seq<string>>, order: seq<string>)
    requires forall k :: 0 <= k < |order| ==> order[k] in m
    requires NoDup(order)
    requires forall c :: c in m ==> NoDup(m[c])
    requires forall c, c', x :: c in m && c' in m && c != c' && x in m[c] ==> x !in m[c']
    ensures NoDup(PairsOver(m, order))
    decreases |order|
  {
    if |order| > 0 {
      var s := Sort(m[order[0]], LexLe);
      NoDupTail(order);
      PairsOverNoDup(m, order[1..]);
      NoDupPermutation(m[order[0]], s);
      CombinationsNoDup(s);
      forall p | p in Combinations(s) ensures p !in PairsOver(m, order[1..]) {
        HeadPairsNotInTail(m, order, p);
      }
      NoDupConcat(Combinations(s), PairsOver(m, order[1..]));
    }
  }

  /** With distinct ids `_cluster_pairs` never repeats a pair, which is what
      the toggle loop of the second `_kappa` needs. */
  lemma ClusterPairsNoDup(rows: seq<Row>)
    requires NoDup(Ids(rows))
    ensures NoDup(ClusterPairs(rows))
  {
    var m := Cluster2Doc(rows);
    Cluster2DocLists(rows);
    forall c | c in m ensures NoDup(m[c]) {
      forall a, b | 0 <= a < b < |m[c]| ensures m[c][a] != m[c][b] {
        MembersNoDup(rows, c, a, b);
      }
    }
    forall c, c', x | c in m && c' in m && c != c' && x in m[c] ensures x !in m[c'] {
      MembersIff(rows, c, x);
      var i :| 0 <= i < |rows| && rows[i] == (x, c);
      Cluster2DocPartition(rows, i);
    }
    PairsOverNoDup(m, ClusterOrder(rows));
  }

  lemma {:induction false} MembersNoDup(rows: seq<Row>, c: string, a: nat, b: nat)
    requires NoDup(Ids(rows))
    requires a < b < |Members(rows, c)|
    ensures Members(rows, c)[a] != Members(rows, c)[b]
    decreases |rows|
  {
    var t := rows[1..];
    assert NoDup(Ids(t)) by {
      assert forall i :: 0 <= i < |t| ==> Ids(t)[i] == Ids(rows)[i + 1];
    }
    if rows[0].1 == c {
      if a == 0 {
        var x := Members(rows, c)[b];
        assert x == Members(t, c)[b - 1] && x in Members(t, c);
        MembersIff(t, c, x);
        var i :| 0 <= i < |t| && t[i] == (x, c);
        assert Ids(rows)[i + 1] == x && Ids(rows)[0] == rows[0].0;
      } else {
        MembersNoDup(t, c, a - 1, b - 1);
      }
    } else {
      MembersNoDup(t, c, a, b);
    }
  }

  // ---------------------------------------------------------------------
  // The toggle loop of the second _kappa

  function CountOf(s: seq<Pair>, x: Pair): nat
  {
    if |s| == 0 then 0 else (if s[0] == x then 1 else 0) + CountOf(s[1..], x)
  }

  /** `for pair in G: remove it if present, else add it`. */
  function Toggle(d: set<Pair>, g: seq<Pair>): set<Pair>
    decreases |g|
  {
    if |g| == 0 then d
    else Toggle(if g[0] in d then d - {g[0]} else d + {g[0]}, g[1..])
  }

  /** An element ends up in the toggled set when it was in the set or
      occurs an odd number of times in `g`, but not both; the order of `g`
      does not matter. */
  lemma {:induction false} ToggleParity(d: set<Pair>, g: seq<Pair>, x: Pair)
    ensures x in Toggle(d, g) <==> (x in d) != (CountOf(g, x) % 2 == 1)
    decreases |g|
  {
    if |g| > 0 {
      var d' := if g[0] in d then d - {g[0]} else d + {g[0]};
      ToggleParity(d', g[1..], x);
    }
  }

  lemma {:induction false} CountOfNoDup(g: seq<Pair>, x: Pair)
    requires NoDup(g)
    ensures CountOf(g, x) == if x in g then 1 else 0
    decreases |g|
  {
    if |g| > 0 {
      assert NoDup(g[1..]) by {
        assert forall a, b :: 0 <= a < b < |g| - 1 ==> g[1..][a] == g[a + 1] && g[1..][b] == g[b + 1];
      }
      CountOfNoDup(g[1..], x);
      if g[0] == x {
        assert x !in g[1..] by {
          assert forall j :: 0 <= j < |g| - 1 ==> g[1..][j] == g[j + 1] != g[0];
        }
      }
      assert x in g <==> x == g[0] || x in g[1..] by {
        assert g == [g[0]] + g[1..];
      }
    }
  }

  /** comp.py:40-45. Toggling a repeat-free `g` into `d` gives the
      symmetric difference of `d` and the elements of `g`. */
  lemma ToggleIsSymmetricDifference(d: set<Pair>, g: seq<Pair>)
    requires NoDup(g)
    ensures Toggle(d, g) == (d - set x | x in g) + ((set x | x in g) - d)
  {
    var gs := set y | y in g;
    forall x ensures x in Toggle(d, g) <==> x in (d - gs) + (gs - d) {
      ToggleParity(d, g, x);
      CountOfNoDup(g, x);
    }
  }

  /** A pair listed twice in `g` is toggled back out: with repeats the
      loop is not the symmetric difference. */
  lemma ToggleTwiceCancels(x: Pair)
    ensures Toggle({}, [x, x]) == {}
    ensures (set p | p in [x, x]) == {x}
  {
    forall y ensures y !in Toggle({}, [x, x]) {
      ToggleParity({}, [x, x], y);
      assert [x, x][1..] == [x] && [x][1..] == [];
      assert CountOf([x], y) == if y == x then 1 else 0;
      assert CountOf([x, x], y) == if y == x then 2 else 0;
    }
  }

  // ---------------------------------------------------------------------
  // _kappa

  /** Real multiplication, kept as a function so that each fact about a
      product is proved on its own. */
  function Mul(x: real, y: real): real
  {
    x * y
  }

  lemma ProductNonNeg(x: real, y: real)
    requires 0.0 <= x && 0.0 <= y
    ensures 0.0 <= Mul(x, y)
  {
  }

  lemma ProductBelowRight(x: real, y: real)
    requires 0.0 <= x <= 1.0 && 0.0 <= y
    ensures Mul(x, y) <= y
  {
  }

  lemma ProductBelowLeft(x: real, y: real)
    requires 0.0 <= x && 0.0 <= y <= 1.0
    ensures Mul(x, y) <= x
  {
  }

  lemma Expand(x: real, y: real)
    ensures Mul(1.0 - x, 1.0 - y) == 1.0 - x - y + Mul(x, y)
    ensures Mul(x, y) + Mul(1.0 - x, 1.0 - y) == 1.0 - Mul(x, 1.0 - y) - Mul(y, 1.0 - x)
  {
  }

  lemma LinearChance(pF: real, pG: real, a: real, b: real)
    requires 0.0 <= a <= pF && a <= pG && 0.0 <= b
    requires b == 1.0 - pF - pG + a
    ensures 0.0 <= a + b <= 1.0
  {
  }

  /** `p_e`: the chance that two independent clusterings agree on a pair;
      a probability when both bucket probabilities are. */
  function ChanceAgreement(pF: real, pG: real): (e: real)
    ensures 0.0 <= pF <= 1.0 && 0.0 <= pG <= 1.0 ==> 0.0 <= e <= 1.0
  {
    if 0.0 <= pF <= 1.0 && 0.0 <= pG <= 1.0 then
      ProductNonNeg(pF, pG);
      ProductBelowRight(pF, pG);
      ProductBelowLeft(pF, pG);
      ProductNonNeg(1.0 - pF, 1.0 - pG);
      Expand(pF, pG);
      LinearChance(pF, pG, Mul(pF, pG), Mul(1.0 - pF, 1.0 - pG));
      Mul(pF, pG) + Mul(1.0 - pF, 1.0 - pG)
    else Mul(pF, pG) + Mul(1.0 - pF, 1.0 - pG)
  }

  lemma ZeroProduct(x: real, y: real)
    requires Mul(x, y) == 0.0
    ensures x == 0.0 || y == 0.0
  {
    if x != 0.0 {
      assert y == (x * y) / x;
    }
  }

  /** Chance agreement is certain exactly when both clusterings put all
      pairs together, or both put every pair apart. */
  lemma ChanceCertain(pF: real, pG: real)
    requires 0.0 <= pF <= 1.0 && 0.0 <= pG <= 1.0
    ensures ChanceAgreement(pF, pG) == 1.0 <==> (pF == 1.0 && pG == 1.0) || (pF == 0.0 && pG == 0.0)
  {
    ProductNonNeg(pF, 1.0 - pG);
    ProductNonNeg(pG, 1.0 - pF);
    Expand(pF, pG);
    if Mul(pF, 1.0 - pG) == 0.0 && Mul(pG, 1.0 - pF) == 0.0 {
      ZeroProduct(pF, 1.0 - pG);
      ZeroProduct(pG, 1.0 - pF);
    }
  }

  /** The common tail of both `_kappa` definitions: the observed agreement
      from the size of the disagreement set, the chance agreement, then
      kappa and zoom. Each division by zero raises ZeroDivisionError. */
  function Agreement(diff: nat, lenU: real, pF: real, pG: real): (r: Result<(real, real)>)
    ensures r.Failure? ==> r.error == ZeroDivisionError
    ensures r.Failure? <==> lenU == 0.0 || ChanceAgreement(pF, pG) == 1.0
    ensures r.Success? ==> r.value.0 == (1.0 - diff as real / lenU - ChanceAgreement(pF, pG)) * r.value.1
  {
    if lenU == 0.0 then Failure(ZeroDivisionError)
    else
      var po := 1.0 - diff as real / lenU;
      var pe := ChanceAgreement(pF, pG);
      if 1.0 - pe == 0.0 then Failure(ZeroDivisionError)
      else Success(((po - pe) / (1.0 - pe), 1.0 / (1.0 - pe)))
  }

  /** The bucket probability of a file's cluster column. */
  function Expected(rows: seq<Row>): real
  {
    BucketProbability(Distribution(Labels(rows)))
  }

  function PairSet(s: seq<Pair>): set<Pair>
  {
    set p | p in s
  }

  /** The first `_kappa` (comp.py:17-30), which the second definition
      shadows: sets of pairs and `len(combinations(ids, 2))`. */
  function KappaSets(f: seq<Row>, g: seq<Row>): Result<(real, real)>
  {
    var U := Combinations(Ids(f));
    var F := PairSet(ClusterPairs(f));
    var G := PairSet(ClusterPairs(g));
    Agreement(|(F - G) + (G - F)|, |U| as real, Expected(f), Expected(g))
  }

  /** The second `_kappa` (comp.py:31-54), the one in effect: the id count,
      `len_U = (n**2 - n) / 2`, and the toggle loop. */
  function Kappa(f: seq<Row>, g: seq<Row>): Result<(real, real)>
  {
    Agreement(Disagreement(f, g), PairCount(|Ids(f)|), Expected(f), Expected(g))
  }

  /** `len_U = (n_ids**2 - n_ids) / 2`. */
  function PairCount(n: nat): real
  {
    (n * n - n) as real / 2.0
  }

  /** `len(diff_F_G)` after the toggle loop. */
  function Disagreement(f: seq<Row>, g: seq<Row>): nat
  {
    |Toggle(PairSet(ClusterPairs(f)), ClusterPairs(g))|
  }

  /** comp.py:19-23, 35-47. `len_U` is the number of id pairs, and the toggle
      loop is the symmetric difference when g's ids are distinct: both
      definitions agree. */
  lemma KappaDefinitionsAgree(f: seq<Row>, g: seq<Row>)
    requires NoDup(Ids(g))
    ensures Kappa(f, g) == KappaSets(f, g)
  {
    var n := |Ids(f)|;
    LenU(n);
    ClusterPairsNoDup(g);
    ToggleIsSymmetricDifference(PairSet(ClusterPairs(f)), ClusterPairs(g));
  }

  lemma {:induction false} HalfProduct(n: nat)
    ensures (n * (n - 1) / 2) * 2 == n * (n - 1)
  {
    if n > 0 {
      HalfProduct(n - 1);
      assert n * (n - 1) == (n - 1) * (n - 2) + 2 * (n - 1);
    }
  }

  /** `(n**2 - n) / 2` is the number of pairs of n ids. */
  lemma LenU(n: nat)
    ensures PairCount(n) == (n * (n - 1) / 2) as real
  {
    HalfProduct(n);
    var h := n * (n - 1) / 2;
    assert n * n - n == h * 2;
    assert (h * 2) as real == h as real * 2.0;
  }

  /** Agreement of two clusterings: it fails exactly without pairs, when
      both put everything in one cluster, or when neither has a bucket;
      otherwise the zoom is at least 1 and kappa at most 1. */
  lemma AgreementBounds(diff: nat, lenU: real, pF: real, pG: real)
    requires lenU >= 0.0 && 0.0 <= pF <= 1.0 && 0.0 <= pG <= 1.0
    ensures var r := Agreement(diff, lenU, pF, pG);
      && (r.Failure? <==> lenU == 0.0 || (pF == 1.0 && pG == 1.0) || (pF == 0.0 && pG == 0.0))
      && (r.Success? ==> r.value.1 >= 1.0 && r.value.0 <= 1.0)
  {
    ChanceCertain(pF, pG);
    if lenU > 0.0 && ChanceAgreement(pF, pG) != 1.0 {
      var po := 1.0 - diff as real / lenU;
      assert diff as real / lenU >= 0.0;
      KappaDivisions(po, ChanceAgreement(pF, pG));
    }
  }

  /** comp.py:50-53. Kappa fails exactly when there are fewer than two ids
      or both files put everything in one cluster; otherwise the zoom is
      at least 1 and kappa at most 1. A file with a header but no rows
      contributes a bucket probability of 0. */
  lemma KappaBounds(f: seq<Row>, g: seq<Row>)
    ensures var r := Kappa(f, g);
      && (r.Failure? <==> |f| < 2 || (|Distinct(Labels(f))| == 1 && |Distinct(Labels(g))| == 1))
      && (r.Success? ==> r.value.1 >= 1.0 && r.value.0 <= 1.0)
  {
    var pF := Expected(f);
    var pG := Expected(g);
    var u := PairCount(|f|);
    ExpectedBounds(f);
    ExpectedBounds(g);
    LenUZero(|f|);
    AgreementBounds(Disagreement(f, g), u, pF, pG);
  }

  /** A clustering compared with itself, ids distinct: no pair is in
      dispute, so `p_o` is 1 and kappa is 1 whenever it is defined, which
      is whenever there are two ids and more than one cluster. */
  lemma KappaReflexive(f: seq<Row>)
    requires NoDup(Ids(f))
    ensures Disagreement(f, f) == 0
    ensures Kappa(f, f).Success? <==> |f| >= 2 && |Distinct(Labels(f))| != 1
    ensures Kappa(f, f).Success? ==> Kappa(f, f).value.0 == 1.0
  {
    var pairs := ClusterPairs(f);
    ClusterPairsNoDup(f);
    ToggleIsSymmetricDifference(PairSet(pairs), pairs);
    assert PairSet(pairs) == set x | x in pairs;
    assert Toggle(PairSet(pairs), pairs) == {};
    KappaBounds(f, f);
    FullAgreement(PairCount(|Ids(f)|), Expected(f), Expected(f));
  }

  lemma SelfQuotient(x: real)
    requires x != 0.0
    ensures x / x == 1.0
  {
  }

  /** Without disagreement `p_o` is 1, and so is kappa. */
  lemma FullAgreement(lenU: real, pF: real, pG: real)
    ensures var r := Agreement(0, lenU, pF, pG);
      r.Success? ==> r.value.0 == 1.0
  {
    if lenU != 0.0 {
      var pe := ChanceAgreement(pF, pG);
      assert 1.0 - 0 as real / lenU == 1.0;
      if 1.0 - pe != 0.0 {
        SelfQuotient(1.0 - pe);
      }
    }
  }

  lemma ExpectedBounds(f: seq<Row>)
    ensures 0.0 <= Expected(f) <= 1.0
    ensures Expected(f) == 0.0 <==> |f| == 0
    ensures Expected(f) == 1.0 <==> |Distinct(Labels(f))| == 1
  {
    if |f| > 0 {
      BucketProbabilityBounds(Labels(f));
    } else {
      assert Labels(f) == [];
    }
  }

  lemma LenUZero(n: nat)
    ensures PairCount(n) >= 0.0
    ensures PairCount(n) == 0.0 <==> n < 2
  {
    LenU(n);
    if n >= 2 {
      SomePair(n);
    } else {
      assert n * (n - 1) == 0;
    }
  }

  lemma {:induction false} SomePair(n: nat)
    requires n >= 2
    ensures n * (n - 1) / 2 >= 1
  {
    if n > 2 {
      SomePair(n - 1);
      assert n * (n - 1) == (n - 1) * (n - 2) + 2 * (n - 1);
    }
  }

  lemma KappaDivisions(po: real, pe: real)
    requires po <= 1.0 && 0.0 <= pe < 1.0
    ensures (po - pe) / (1.0 - pe) <= 1.0
    ensures 1.0 / (1.0 - pe) >= 1.0
  {
    if pe > 0.0 {
      ChanceAdjusted(po, pe);
    }
  }

  // ---------------------------------------------------------------------
  // avg_kappa and the command line

  function SumReals(s: seq<real>): real
  {
    if |s| == 0 then 0.0 else s[0] + SumReals(s[1..])
  }

  /** The results of a loop whose first failure propagates. */
  function Collect<T>(rs: seq<Result<T>>): (r: Result<seq<T>>)
    ensures r.Success? <==> forall k :: 0 <= k < |rs| ==> rs[k].Success?
    ensures r.Success? ==> |r.value| == |rs| && forall k :: 0 <= k < |rs| ==> r.value[k] == rs[k].value
    ensures r.Failure? ==> exists k :: 0 <= k < |rs| && rs[k].Failure? && r.error == rs[k].error
  {
    if |rs| == 0 then Success([])
    else
      var x :- rs[0];
      var rest :- Collect(rs[1..]);
      assert forall k :: 1 <= k < |rs| ==> rs[k] == rs[1..][k - 1];
      Success([x] + rest)
  }

  /** `_kappa` for every pair of files. */
  function Kappas(pairs: seq<(seq<Row>, seq<Row>)>): (r: seq<Result<(real, real)>>)
    ensures |r| == |pairs|
  {
    seq(|pairs|, k requires 0 <= k < |pairs| => Kappa(pairs[k].0, pairs[k].1))
  }

  /** The means of the kappas and of the zooms; none at all divides by
      zero. */
  function Means(ks: seq<(real, real)>): (r: Result<(real, real)>)
    ensures r.Failure? <==> |ks| == 0
    ensures r.Failure? ==> r.error == ZeroDivisionError
  {
    if |ks| == 0 then Failure(ZeroDivisionError)
    else
      var kappas := seq(|ks|, k requires 0 <= k < |ks| => ks[k].0);
      var zooms := seq(|ks|, k requires 0 <= k < |ks| => ks[k].1);
      Success((SumReals(kappas) / |ks| as real, SumReals(zooms) / |ks| as real))
  }

  /** `avg_kappa(*files)`: the mean kappa and mean zoom over all pairs of
      files. */
  function AvgKappa(files: seq<seq<Row>>): (r: Result<(real, real)>)
    ensures |files| < 2 ==> r == Failure(ZeroDivisionError)
  {
    var ks :- Collect(Kappas(Combinations(files)));
    Means(ks)
  }

  lemma {:induction false} SumBelow(s: seq<real>, b: real)
    requires forall k :: 0 <= k < |s| ==> s[k] <= b
    ensures SumReals(s) <= |s| as real * b
    decreases |s|
  {
    if |s| > 0 {
      SumBelow(s[1..], b);
    }
  }

  lemma {:induction false} SumAbove(s: seq<real>, b: real)
    requires forall k :: 0 <= k < |s| ==> s[k] >= b
    ensures SumReals(s) >= |s| as real * b
    decreases |s|
  {
    if |s| > 0 {
      SumAbove(s[1..], b);
    }
  }

  lemma MeanBounds(sk: real, sz: real, n: nat)
    requires n > 0 && sk <= n as real * 1.0 && sz >= n as real * 1.0
    ensures sk / n as real <= 1.0 && sz / n as real >= 1.0
  {
  }

  /** Means of kappas at most 1 and zooms at least 1 keep those bounds. */
  lemma MeansBounds(ks: seq<(real, real)>)
    requires |ks| > 0
    requires forall k :: 0 <= k < |ks| ==> ks[k].0 <= 1.0 && ks[k].1 >= 1.0
    ensures Means(ks).Success? && Means(ks).value.0 <= 1.0 && Means(ks).value.1 >= 1.0
  {
    var kappas := seq(|ks|, k requires 0 <= k < |ks| => ks[k].0);
    var zooms := seq(|ks|, k requires 0 <= k < |ks| => ks[k].1);
    SumBelow(kappas, 1.0);
    SumAbove(zooms, 1.0);
    MeanBounds(SumReals(kappas), SumReals(zooms), |ks|);
  }

  /** comp.py:55-65. The average runs over the n(n-1)/2 pairs of files;
      whenever it succeeds the mean zoom is at least 1 and the mean kappa
      at most 1. */
  lemma AvgKappaBounds(files: seq<seq<Row>>)
    requires AvgKappa(files).Success?
    ensures |files| >= 2
    ensures AvgKappa(files).value.0 <= 1.0 && AvgKappa(files).value.1 >= 1.0
  {
    var pairs := Combinations(files);
    var rs := Kappas(pairs);
    var ks := Collect(rs).value;
    forall k | 0 <= k < |ks| ensures ks[k].0 <= 1.0 && ks[k].1 >= 1.0 {
      CombinationsIff(files, pairs[k]);
      KappaBounds(pairs[k].0, pairs[k].1);
      assert ks[k] == rs[k].value;
    }
    MeansBounds(ks);
  }

  /** `_cli` of `ttm comp`: two or more file names are required. */
  function CompCli(files: seq<seq<Row>>): (r: Result<(real, real)>)
    ensures |files| < 2 ==> r == Failure(CliError("At least two FILE arguments are required for ttm comp"))
  {
    if |files| < 2 then Failure(CliError("At least two FILE arguments are required for ttm comp"))
    else AvgKappa(files)
  }

  /** comp.py:98-100 with comp.py:55-61. The command line check rules out
      the empty average: past it, a failure is the failure of the kappa
      of some pair of files. */
  lemma CliAvoidsEmptyAverage(files: seq<seq<Row>>)
    requires |files| >= 2
    ensures |Combinations(files)| >= 1
    ensures CompCli(files).Failure? ==>
      exists k :: 0 <= k < |Combinations(files)| &&
        Kappa(Combinations(files)[k].0, Combinations(files)[k].1) == Failure(CompCli(files).error)
  {
    SomePair(|files|);
    var rs := Kappas(Combinations(files));
    var c := Collect(rs);
    if c.Success? {
      assert |c.value| == |rs| >= 1;
    } else {
      var k :| 0 <= k < |rs| && rs[k].Failure? && c.error == rs[k].error;
      assert rs[k] == Failure(CompCli(files).error);
    }
  }
}

=== FILE: decimal.dfy ===
/** Decimal rendering and parsing of integers (Python `str(n)`,
    `f'{n:03d}'`, `int(s)`) and Python's floor division and modulo. */
module Decimal {
  import opened Wrappers

  predicate IsDigit(c: char)
  {
    '0' <= c <= '9'
  }

  predicate AllDigits(s: string)
  {
    forall i :: 0 <= i < |s| ==> IsDigit(s[i])
  }

  function DigitChar(d: nat): (c: char)
    requires d < 10
    ensures IsDigit(c) && c as int - '0' as int == d
  {
    ('0' as int + d) as char
  }

  /** The number a digit string denotes (leading zeros allowed). */
  function Value(s: string): nat
    requires AllDigits(s)
  {
    if |s| == 0 then 0
    else Value(s[..|s| - 1]) * 10 + (s[|s| - 1] as int - '0' as int)
  }

  /** Python `str(n)` for a natural number. */
  function Show(n: nat): (r: string)
    ensures |r| >= 1 && AllDigits(r)
    ensures |r| > 1 ==> r[0] != '0'
    decreases n
  {
    if n < 10 then [DigitChar(n)] else Show(n / 10) + [DigitChar(n % 10)]
  }

  /** `Show` denotes the number it renders. */
  lemma {:induction false} ShowValue(n: nat)
    ensures Value(Show(n)) == n
    decreases n
  {
    if n >= 10 {
      ShowValue(n / 10);
      var s := Show(n);
      assert s[..|s| - 1] == Show(n / 10);
    }
  }

  /** Python `int(s)` on an optional sign followed by decimal digits.
      Anything else is `None`, where Python's `int()` raises ValueError. */
  function ParseInt(s: string): (r: Option<int>)
    ensures r.Some? ==> |s| > 0
    ensures AllDigits(s) && |s| > 0 ==> r == Some(Value(s))
  {
    if |s| > 0 && (s[0] == '-' || s[0] == '+') then
      var body := s[1..];
      if |body| > 0 && AllDigits(body) then
        var n: int := Value(body);
        var v: int := if s[0] == '-' then 0 - n else n;
        Some(v)
      else None
    else if |s| > 0 && AllDigits(s) then Some(Value(s))
    else None
  }

  /** Parsing a rendered number gives the number back. */
  lemma ParseShow(n: nat)
    ensures ParseInt(Show(n)) == Some(n)
  {
    ShowValue(n);
  }

  /** Python `str(i)` for any integer. */
  function ShowInt(i: int): (r: string)
    ensures |r| > 0 && (r[0] == '-' <==> i < 0)
    ensures i >= 0 ==> AllDigits(r)
  {
    if i < 0 then "-" + Show(-i) else Show(i)
  }

  /** Parsing a rendered integer gives the integer back. */
  lemma ParseShowInt(i: int)
    ensures ParseInt(ShowInt(i)) == Some(i)
  {
    if i < 0 {
      ShowValue(-i);
      assert ShowInt(i)[1..] == Show(-i);
    } else {
      ShowValue(i);
    }
  }

  /** Leading zeros do not change the value of a digit string. */
  lemma {:induction false} ValueLeadingZeros(z: nat, s: string)
    requires AllDigits(s)
    ensures AllDigits(Zeros(z) + s) && Value(Zeros(z) + s) == Value(s)
    decreases |s|
  {
    var t := Zeros(z) + s;
    assert AllDigits(t) by {
      forall i | 0 <= i < |t| ensures IsDigit(t[i]) {
        if i >= z { assert t[i] == s[i - z]; }
      }
    }
    if |s| == 0 {
      ValueOfZeros(z);
      assert t == Zeros(z);
    } else {
      ValueLeadingZeros(z, s[..|s| - 1]);
      assert t[..|t| - 1] == Zeros(z) + s[..|s| - 1];
    }
  }

  function Zeros(n: nat): (r: string)
    ensures |r| == n && forall i :: 0 <= i < n ==> r[i] == '0'
  {
    if n == 0 then "" else "0" + Zeros(n - 1)
  }

  lemma {:induction false} ValueOfZeros(n: nat)
    ensures AllDigits(Zeros(n)) && Value(Zeros(n)) == 0
  {
    if n > 0 {
      ValueOfZeros(n - 1);
      assert Zeros(n)[..n - 1] == Zeros(n - 1);
    }
  }

  /** Python `f'{n:0{width}d}'`: the decimal digits of `n`, zero-padded on
      the left to at least `width` characters. */
  function ZeroPad(n: nat, width: nat): (r: string)
    ensures |r| == if |Show(n)| >= width then |Show(n)| else width
  {
    var d := Show(n);
    if |d| >= width then d else Zeros(width - |d|) + d
  }

  /** The padded digits still denote `n` and end with its plain digits. */
  lemma ZeroPadValue(n: nat, width: nat)
    ensures AllDigits(ZeroPad(n, width)) && Value(ZeroPad(n, width)) == n
    ensures EndsWithDigits(ZeroPad(n, width), Show(n))
  {
    var d := Show(n);
    ShowValue(n);
    if |d| < width {
      ValueLeadingZeros(width - |d|, d);
      PaddedEnds(width - |d|, d);
    }
  }

  lemma PaddedEnds(z: nat, d: string)
    ensures EndsWithDigits(Zeros(z) + d, d)
  {
    assert (Zeros(z) + d)[z..] == d;
  }

  predicate EndsWithDigits(r: string, d: string)
  {
    |d| <= |r| && r[|r| - |d|..] == d
  }

  /** Python `a // b`: division rounding toward negative infinity. */
  function PyDiv(a: int, b: int): int
    requires b != 0
  {
    if b > 0 then a / b else (-a) / (-b)
  }

  /** Python `a % b`: the remainder takes the sign of the divisor. */
  function PyMod(a: int, b: int): (r: int)
    requires b != 0
    ensures b > 0 ==> 0 <= r < b
    ensures b < 0 ==> b < r <= 0
    ensures a == b * PyDiv(a, b) + r
  {
    if b > 0 then a % b
    else
      var q, m := (-a) / (-b), (-a) % (-b);
      assert -a == (-b) * q + m;
      assert b * q == -((-b) * q);
      -m
  }
}

=== FILE: eval.dfy ===
/** The metrics of `ttm eval` that are computed by the project itself
    (ttm/eval.py): the cluster distribution, the bucket probability, the
    psq count and score, and the rules deciding which metrics are computed.
    Ratios are exact reals. */
module Eval {
  import opened Wrappers
  import opened Sorting
  import opened Tsv

  // ---------------------------------------------------------------------
  // Counting labels

  /** Occurrences of `x` in `s`. */
  function Count(s: seq<string>, x: string): nat
  {
    if |s| == 0 then 0 else Count(s[..|s| - 1], x) + (if s[|s| - 1] == x then 1 else 0)
  }

  lemma {:induction false} CountPositive(s: seq<string>, x: string)
    requires x in s
    ensures Count(s, x) > 0
    decreases |s|
  {
    if s[|s| - 1] != x {
      assert x in s[..|s| - 1] by {
        var i :| 0 <= i < |s| && s[i] == x;
        assert s[..|s| - 1][i] == x;
      }
      CountPositive(s[..|s| - 1], x);
    }
  }

  /** The distinct labels of `s`, in order of first appearance. */
  function Distinct(s: seq<string>): (r: seq<string>)
    ensures forall x :: x in r <==> x in s
    ensures forall i, j :: 0 <= i < j < |r| ==> r[i] != r[j]
  {
    if |s| == 0 then []
    else
      var p := Distinct(s[..|s| - 1]);
      assert forall x :: x in s <==> x in s[..|s| - 1] || x == s[|s| - 1] by {
        assert s == s[..|s| - 1] + [s[|s| - 1]];
      }
      if s[|s| - 1] in p then p else p + [s[|s| - 1]]
  }

  /** Reference definition of the counts dictionary: each distinct label
      with its number of occurrences, in order of first appearance (the
      insertion order of a Python dict). */
  function TallyOf(s: seq<string>): seq<(string, nat)>
  {
    var d := Distinct(s);
    seq(|d|, i requires 0 <= i < |d| => (d[i], Count(s, d[i])))
  }

  /** Position of `x` among the keys of `counts`, or `|counts|`. */
  function KeyIndex(counts: seq<(string, nat)>, x: string): (k: nat)
    ensures k <= |counts|
    ensures k < |counts| ==> counts[k].0 == x
    ensures forall j :: 0 <= j < k ==> counts[j].0 != x
  {
    if |counts| == 0 then 0
    else if counts[0].0 == x then 0
    else 1 + KeyIndex(counts[1..], x)
  }

  /** One more label, as `if c not in counts: counts[c] = 0` followed by
      `counts[c] += 1` does it. */
  lemma TallyStep(s: seq<string>, x: string)
    ensures var t := TallyOf(s);
      var k := KeyIndex(t, x);
      TallyOf(s + [x]) == if k == |t| then t + [(x, 1)] else t[k := (x, t[k].1 + 1)]
  {
    var s' := s + [x];
    assert s'[..|s'| - 1] == s;
    var t := TallyOf(s);
    var d := Distinct(s);
    var k := KeyIndex(t, x);
    assert forall y :: Count(s', y) == Count(s, y) + (if y == x then 1 else 0);
    if k == |t| {
      forall i | 0 <= i < |d| ensures d[i] != x {
        assert t[i].0 == d[i];
      }
      CountAbsent(s, x);
      assert Distinct(s') == d + [x];
      var r := t + [(x, 1)];
      assert |TallyOf(s')| == |r|;
      forall i | 0 <= i < |r| ensures TallyOf(s')[i] == r[i] {
        if i < |d| { assert d[i] != x; }
      }
    } else {
      assert x in d;
      assert Distinct(s') == d;
      forall i | 0 <= i < |d| && i != k ensures d[i] != x {
        assert d[k] == x;
      }
    }
  }

  lemma {:induction false} CountAbsent(s: seq<string>, x: string)
    requires x !in s
    ensures Count(s, x) == 0
    decreases |s|
  {
    if |s| > 0 {
      assert forall i :: 0 <= i < |s| - 1 ==> s[..|s| - 1][i] == s[i];
      CountAbsent(s[..|s| - 1], x);
    }
  }

  /** eval.py:26-30. The counting loop builds the counts dictionary. */
  method CountLabels(labels: seq<string>) returns (counts: seq<(string, nat)>)
    ensures |counts| == |Distinct(labels)|
    ensures forall i :: 0 <= i < |counts| ==>
      counts[i].0 == Distinct(labels)[i] && counts[i].1 == Count(labels, counts[i].0)
  {
    counts := [];
    var i := 0;
    while i < |labels|
      invariant 0 <= i <= |labels|
      invariant counts == TallyOf(labels[..i])
    {
      var c := labels[i];
      assert labels[..i + 1] == labels[..i] + [c];
      ghost var prev := counts;
      var k := KeyIndex(counts, c);
      if k == |counts| {
        counts := counts + [(c, 0)];
      }
      counts := counts[k := (c, counts[k].1 + 1)];
      assert counts == TallyOf(labels[..i + 1]) by {
        InsertThenBump(prev, c);
        TallyStep(labels[..i], c);
      }
      i := i + 1;
    }
    assert labels[..i] == labels;
    TallyOfEntries(labels);
  }

  /** Inserting a zero for a new key and then adding one leaves the key
      with count 1; an existing key just gains one. */
  lemma InsertThenBump(t: seq<(string, nat)>, x: string)
    ensures var k := KeyIndex(t, x);
      var t1 := if k == |t| then t + [(x, 0)] else t;
      t1[k := (x, t1[k].1 + 1)] == if k == |t| then t + [(x, 1)] else t[k := (x, t[k].1 + 1)]
  {
  }

  /** The reference counts hold each distinct label with its count. */
  lemma TallyOfEntries(labels: seq<string>)
    ensures |TallyOf(labels)| == |Distinct(labels)|
    ensures forall i :: 0 <= i < |TallyOf(labels)| ==>
      TallyOf(labels)[i].0 == Distinct(labels)[i] && TallyOf(labels)[i].1 == Count(labels, TallyOf(labels)[i].0)
  {
  }

  // ---------------------------------------------------------------------
  // Sorting the counts

  /** `key=lambda x: x[1], reverse=True`: larger counts first. */
  predicate ByCountDesc(a: (string, nat), b: (string, nat))
  {
    a.1 >= b.1
  }

  lemma ByCountDescIsTotalPreorder()
    ensures Total(ByCountDesc) && Transitive(ByCountDesc)
  {
  }

  /** The entries of `s` with count `c`, in order. */
  function WithCount(s: seq<(string, nat)>, c: nat): seq<(string, nat)>
  {
    if |s| == 0 then [] else (if s[0].1 == c then [s[0]] else []) + WithCount(s[1..], c)
  }

  lemma {:induction false} InsertKeepsTies(x: (string, nat), t: seq<(string, nat)>, c: nat)
    ensures WithCount(Insert(x, t, ByCountDesc), c) == (if x.1 == c then [x] else []) + WithCount(t, c)
    decreases |t|
  {
    if |t| == 0 || ByCountDesc(x, t[0]) {
      InsertTiesFront(x, t, c);
    } else {
      InsertKeepsTies(x, t[1..], c);
      InsertTiesLater(x, t, c);
    }
  }

  /** An entry inserted in front: its own tie comes first. */
  lemma InsertTiesFront(x: (string, nat), t: seq<(string, nat)>, c: nat)
    requires |t| == 0 || ByCountDesc(x, t[0])
    ensures WithCount(Insert(x, t, ByCountDesc), c) == (if x.1 == c then [x] else []) + WithCount(t, c)
  {
    assert Insert(x, t, ByCountDesc) == [x] + t;
    assert ([x] + t)[1..] == t;
  }

  /** An entry inserted after a strictly larger head: the head's tie, if
      any, stays in front. */
  lemma InsertTiesLater(x: (string, nat), t: seq<(string, nat)>, c: nat)
    requires |t| > 0 && !ByCountDesc(x, t[0])
    requires WithCount(Insert(x, t[1..], ByCountDesc), c) == (if x.1 == c then [x] else []) + WithCount(t[1..], c)
    ensures WithCount(Insert(x, t, ByCountDesc), c) == (if x.1 == c then [x] else []) + WithCount(t, c)
  {
    InsertAfterHead(x, t, ByCountDesc);
    TiesBehindHead(t[0], Insert(x, t[1..], ByCountDesc), t[1..], x, c);
    assert [t[0]] + t[1..] == t;
  }

  /** Putting the same head `h` before both sides keeps a tie equation
      when `h` and `x` do not both have count `c`. */
  lemma TiesBehindHead(h: (string, nat), r: seq<(string, nat)>, t: seq<(string, nat)>, x: (string, nat), c: nat)
    requires !(h.1 == c && x.1 == c)
    requires WithCount(r, c) == (if x.1 == c then [x] else []) + WithCount(t, c)
    ensures WithCount([h] + r, c) == (if x.1 == c then [x] else []) + WithCount([h] + t, c)
  {
    WithCountCons(h, r, c);
    WithCountCons(h, t, c);
  }

  /** `WithCount` of a sequence with a known head. */
  lemma WithCountCons(h: (string, nat), r: seq<(string, nat)>, c: nat)
    ensures WithCount([h] + r, c) == (if h.1 == c then [h] else []) + WithCount(r, c)
  {
    assert ([h] + r)[0] == h && ([h] + r)[1..] == r;
  }

  /** The sort is stable: entries with equal counts keep their order. */
  lemma {:induction false} SortKeepsTies(s: seq<(string, nat)>, c: nat)
    ensures WithCount(Sort(s, ByCountDesc), c) == WithCount(s, c)
    decreases |s|
  {
    if |s| > 0 {
      SortKeepsTies(s[1..], c);
      InsertKeepsTies(s[0], Sort(s[1..], ByCountDesc), c);
    }
  }

  predicate NoDup<T(==)>(s: seq<T>)
  {
    forall i, j :: 0 <= i < j < |s| ==> s[i] != s[j]
  }

  lemma {:induction false} InsertNoDup(x: (string, nat), t: seq<(string, nat)>)
    requires NoDup(t) && x !in t
    ensures NoDup(Insert(x, t, ByCountDesc))
    decreases |t|
  {
    if |t| > 0 && !ByCountDesc(x, t[0]) {
      InsertNoDup(x, t[1..]);
      var r := Insert(x, t, ByCountDesc);
      var r1 := Insert(x, t[1..], ByCountDesc);
      assert r == [t[0]] + r1;
      assert forall j :: 0 <= j < |t| - 1 ==> t[1..][j] == t[j + 1] != t[0];
      assert t[0] !in multiset(t[1..]);
      assert t[0] !in multiset(r1);
    }
  }

  lemma {:induction false} SortNoDup(s: seq<(string, nat)>)
    requires NoDup(s)
    ensures NoDup(Sort(s, ByCountDesc))
    decreases |s|
  {
    if |s| > 0 {
      SortNoDup(s[1..]);
      assert forall j :: 0 <= j < |s| - 1 ==> s[1..][j] == s[j + 1] != s[0];
      assert s[0] !in multiset(s[1..]);
      assert s[0] !in multiset(Sort(s[1..], ByCountDesc));
      InsertNoDup(s[0], Sort(s[1..], ByCountDesc));
    }
  }

  function SumCounts(s: seq<(string, nat)>): nat
  {
    if |s| == 0 then 0 else s[0].1 + SumCounts(s[1..])
  }

  lemma {:induction false} SumCountsInsert(x: (string, nat), t: seq<(string, nat)>)
    ensures SumCounts(Insert(x, t, ByCountDesc)) == x.1 + SumCounts(t)
    decreases |t|
  {
    if |t| > 0 && !ByCountDesc(x, t[0]) {
      SumCountsInsert(x, t[1..]);
      assert Insert(x, t, ByCountDesc)[1..] == Insert(x, t[1..], ByCountDesc);
    } else if |t| > 0 {
      assert ([x] + t)[1..] == t;
    }
  }

  lemma {:induction false} SumCountsSort(s: seq<(string, nat)>)
    ensures SumCounts(Sort(s, ByCountDesc)) == SumCounts(s)
    decreases |s|
  {
    if |s| > 0 {
      SumCountsSort(s[1..]);
      SumCountsInsert(s[0], Sort(s[1..], ByCountDesc));
    }
  }

  lemma {:induction false} SumCountsSnoc(t: seq<(string, nat)>, e: (string, nat))
    ensures SumCounts(t + [e]) == SumCounts(t) + e.1
    decreases |t|
  {
    if |t| > 0 {
      SumCountsSnoc(t[1..], e);
      assert (t + [e])[1..] == t[1..] + [e];
    }
  }

  lemma {:induction false} SumCountsBump(t: seq<(string, nat)>, k: nat, e: (string, nat))
    requires k < |t| && e.1 == t[k].1 + 1
    ensures SumCounts(t[k := e]) == SumCounts(t) + 1
    decreases |t|
  {
    if k > 0 {
      SumCountsBump(t[1..], k - 1, e);
      assert t[k := e][1..] == t[1..][k - 1 := e];
    }
  }

  /** The counts add up to the number of labels. */
  lemma {:induction false} SumCountsTally(s: seq<string>)
    ensures SumCounts(TallyOf(s)) == |s|
    decreases |s|
  {
    if |s| > 0 {
      var p := s[..|s| - 1];
      var x := s[|s| - 1];
      SumCountsTally(p);
      TallyStep(p, x);
      assert p + [x] == s;
      var t := TallyOf(p);
      var k := KeyIndex(t, x);
      if k == |t| { SumCountsSnoc(t, (x, 1)); } else { SumCountsBump(t, k, (x, t[k].1 + 1)); }
    }
  }

  // ---------------------------------------------------------------------
  // cluster_distribution

  /** The counts, largest first. */
  function SortedTally(labels: seq<string>): seq<(string, nat)>
  {
    Sort(TallyOf(labels), ByCountDesc)
  }

  /** Each count divided by the total. */
  function Shares(s: seq<(string, nat)>, total: nat): (r: seq<(string, real)>)
    requires total > 0
    ensures |r| == |s|
    ensures forall i :: 0 <= i < |s| ==> r[i] == (s[i].0, s[i].1 as real / total as real)
  {
    if |s| == 0 then [] else [(s[0].0, s[0].1 as real / total as real)] + Shares(s[1..], total)
  }

  /** `cluster_distribution(labels)`: label to share, largest share first. */
  function Distribution(labels: seq<string>): seq<(string, real)>
  {
    if |labels| == 0 then [] else Shares(SortedTally(labels), |labels|)
  }

  function SumShares(d: seq<(string, real)>): real
  {
    if |d| == 0 then 0.0 else d[0].1 + SumShares(d[1..])
  }

  lemma {:induction false} SumSharesOf(s: seq<(string, nat)>, total: nat)
    requires total > 0
    ensures SumShares(Shares(s, total)) == SumCounts(s) as real / total as real
    decreases |s|
  {
    if |s| > 0 {
      SumSharesOf(s[1..], total);
      assert Shares(s, total)[1..] == Shares(s[1..], total);
      AddOver(s[0].1, SumCounts(s[1..]), total);
    }
  }

  /** Shares of one total add like their counts. */
  lemma AddOver(a: nat, b: nat, t: nat)
    requires t > 0
    ensures a as real / t as real + b as real / t as real == (a + b) as real / t as real
  {
  }

  /** The entries of the sorted counts are the entries of the tally. */
  lemma SortedTallyEntries(labels: seq<string>)
    ensures |SortedTally(labels)| == |Distinct(labels)|
    ensures forall i :: 0 <= i < |SortedTally(labels)| ==>
      SortedTally(labels)[i].0 in labels &&
      SortedTally(labels)[i].1 == Count(labels, SortedTally(labels)[i].0)
    ensures forall x :: x in labels ==> exists i :: 0 <= i < |SortedTally(labels)| && SortedTally(labels)[i].0 == x
    ensures forall i, j :: 0 <= i < j < |SortedTally(labels)| ==> SortedTally(labels)[i].0 != SortedTally(labels)[j].0
  {
    var t := TallyOf(labels);
    var r := SortedTally(labels);
    var d := Distinct(labels);
    assert multiset(r) == multiset(t);
    forall i | 0 <= i < |r|
      ensures r[i].0 in labels && r[i].1 == Count(labels, r[i].0)
    {
      assert r[i] in multiset(t);
      var j :| 0 <= j < |t| && t[j] == r[i];
    }
    forall x | x in labels
      ensures exists i :: 0 <= i < |r| && r[i].0 == x
    {
      var j :| 0 <= j < |d| && d[j] == x;
      assert t[j] in multiset(r);
      var i :| 0 <= i < |r| && r[i] == t[j];
    }
    assert NoDup(t) by {
      forall i, j | 0 <= i < j < |t| ensures t[i] != t[j] {
        assert t[i].0 == d[i] && t[j].0 == d[j];
      }
    }
    SortNoDup(t);
  }

  /** eval.py:26-34. One entry per distinct label, each label with its
      count over the total; an empty column gives an empty distribution. */
  lemma DistributionEntries(labels: seq<string>)
    ensures var d := Distribution(labels);
      && (|labels| == 0 <==> d == [])
      && |d| == |Distinct(labels)|
      && (forall x :: x in labels <==> exists i :: 0 <= i < |d| && d[i].0 == x)
      && (forall i, j :: 0 <= i < j < |d| ==> d[i].0 != d[j].0)
      && (forall i :: 0 <= i < |d| ==> d[i].1 == Count(labels, d[i].0) as real / |labels| as real)
  {
    if |labels| > 0 {
      SortedTallyEntries(labels);
      assert labels[0] in labels;
    }
  }

  lemma ShareOrder(a: nat, b: nat, n: nat)
    requires n > 0 && a >= b
    ensures a as real / n as real >= b as real / n as real
    ensures b > 0 ==> b as real / n as real > 0.0
  {
  }

  /** eval.py:31-34. Every share is positive and the shares never increase
      along the distribution. */
  lemma DistributionOrdered(labels: seq<string>)
    ensures var d := Distribution(labels);
      && (forall i :: 0 <= i < |d| ==> d[i].1 > 0.0)
      && (forall i, j :: 0 <= i < j < |d| ==> d[i].1 >= d[j].1)
  {
    if |labels| > 0 {
      var n := |labels|;
      var r := SortedTally(labels);
      var d := Shares(r, n);
      assert Distribution(labels) == d;
      SortedTallyEntries(labels);
      forall i | 0 <= i < |d| ensures d[i].1 > 0.0 {
        CountPositive(labels, r[i].0);
        ShareOrder(r[i].1, r[i].1, n);
      }
      ByCountDescIsTotalPreorder();
      SortSorted(TallyOf(labels), ByCountDesc);
      forall i, j | 0 <= i < j < |d| ensures d[i].1 >= d[j].1 {
        assert ByCountDesc(r[i], r[j]);
        ShareOrder(r[i].1, r[j].1, n);
      }
    }
  }

  /** eval.py:26-34. The shares of a non-empty column add up to 1. */
  lemma DistributionSumsToOne(labels: seq<string>)
    requires |labels| > 0
    ensures SumShares(Distribution(labels)) == 1.0
  {
    var n := |labels|;
    var t := TallyOf(labels);
    var r := SortedTally(labels);
    assert Distribution(labels) == Shares(r, n);
    SumSharesOf(r, n);
    SumCountsSort(t);
    SumCountsTally(labels);
    assert SumCounts(r) == n;
    DivSelf(n);
  }

  lemma DivSelf(n: nat)
    requires n > 0
    ensures n as real / n as real == 1.0
  {
  }

  /** eval.py:32-33. Entries with equal counts appear in the order in which
      their labels first occur in the column (Python's sort is stable, also
      with `reverse=True`). */
  lemma DistributionTiesInFirstAppearanceOrder(labels: seq<string>, c: nat)
    ensures WithCount(SortedTally(labels), c) == WithCount(TallyOf(labels), c)
  {
    SortKeepsTies(TallyOf(labels), c);
  }

  // ---------------------------------------------------------------------
  // bucket_probability

  function SumSquares(d: seq<(string, real)>): real
  {
    if |d| == 0 then 0.0 else d[0].1 * d[0].1 + SumSquares(d[1..])
  }

  /** `bucket_probability(distribution)`: the chance that two documents
      drawn independently fall into the same cluster. */
  function BucketProbability(d: seq<(string, real)>): real
  {
    SumSquares(d)
  }

  function SumSquareCounts(s: seq<(string, nat)>): nat
  {
    if |s| == 0 then 0 else s[0].1 * s[0].1 + SumSquareCounts(s[1..])
  }

  lemma RatioSquare(x: real, c: nat, n: nat)
    requires n > 0 && x == c as real / n as real
    ensures x * x == (c * c) as real / (n * n) as real
  {
  }

  lemma RatioSum(a: nat, b: nat, m: nat)
    requires m > 0
    ensures a as real / m as real + b as real / m as real == (a + b) as real / m as real
  {
  }

  /** Squaring the shares `c / n` and adding them up gives the sum of the
      squared counts over `n * n`. */
  lemma {:induction false} SumSquaresOfShares(s: seq<(string, nat)>, n: nat)
    requires n > 0
    ensures SumSquares(Shares(s, n)) == SumSquareCounts(s) as real / (n * n) as real
    decreases |s|
  {
    if |s| > 0 {
      var d := Shares(s, n);
      var c := s[0].1;
      SumSquaresOfShares(s[1..], n);
      assert d[1..] == Shares(s[1..], n);
      RatioSquare(d[0].1, c, n);
      RatioSum(c * c, SumSquareCounts(s[1..]), n * n);
    }
  }

  /** The squared counts add up to at most the squared total, with equality
      exactly when there is at most one count. */
  lemma {:induction false} SquaresBelowSquaredSum(s: seq<(string, nat)>)
    requires forall i :: 0 <= i < |s| ==> s[i].1 > 0
    ensures SumSquareCounts(s) <= SumCounts(s) * SumCounts(s)
    ensures SumSquareCounts(s) == SumCounts(s) * SumCounts(s) <==> |s| <= 1
    ensures |s| > 0 ==> SumSquareCounts(s) > 0
    decreases |s|
  {
    if |s| > 0 {
      var a, b := s[0].1, SumCounts(s[1..]);
      SquaresBelowSquaredSum(s[1..]);
      assert (a + b) * (a + b) == a * a + 2 * a * b + b * b;
      assert a * a > 0;
      if |s| > 1 {
        assert s[1..][0].1 > 0;
        assert b > 0;
        assert 2 * a * b > 0;
      } else {
        assert s[1..] == [];
      }
    }
  }

  /** The bucket probability of a column's distribution, in counts. */
  lemma BucketProbabilityInCounts(labels: seq<string>)
    requires |labels| > 0
    ensures var r := SortedTally(labels);
      && BucketProbability(Distribution(labels)) == SumSquareCounts(r) as real / (|labels| * |labels|) as real
      && SumCounts(r) == |labels|
      && |r| == |Distinct(labels)|
      && forall i :: 0 <= i < |r| ==> r[i].1 > 0
  {
    var n := |labels|;
    var r := SortedTally(labels);
    SortedTallyEntries(labels);
    assert Distribution(labels) == Shares(r, n);
    SumSquaresOfShares(r, n);
    forall i | 0 <= i < |r| ensures r[i].1 > 0 {
      CountPositive(labels, r[i].0);
    }
    SumCountsSort(TallyOf(labels));
    SumCountsTally(labels);
  }

  lemma RatioBounds(q: nat, m: nat)
    requires 0 < q <= m
    ensures 0.0 < q as real / m as real <= 1.0
    ensures q as real / m as real == 1.0 <==> q == m
  {
  }

  /** eval.py:36-43. For the distribution of a non-empty column the bucket
      probability lies in (0, 1], and it is 1 exactly when there is a
      single cluster. */
  lemma BucketProbabilityBounds(labels: seq<string>)
    requires |labels| > 0
    ensures var e := BucketProbability(Distribution(labels));
      && 0.0 < e <= 1.0
      && (e == 1.0 <==> |Distinct(labels)| == 1)
  {
    var n := |labels|;
    var r := SortedTally(labels);
    BucketProbabilityInCounts(labels);
    SquaresBelowSquaredSum(r);
    assert labels[0] in labels;
    RatioBounds(SumSquareCounts(r), n * n);
  }

  // ---------------------------------------------------------------------
  // psq_count

  function Min(a: nat, b: nat): nat
  {
    if a <= b then a else b
  }

  /** `{d: c for d, c in zip(ids, clusters)}`: a later id overwrites an
      earlier one. */
  function Doc2Cluster(ids: seq<string>, clusters: seq<string>): (m: map<string, string>)
    ensures forall d :: d in m <==> d in ids[..Min(|ids|, |clusters|)]
    decreases |ids|
  {
    var n := Min(|ids|, |clusters|);
    if n == 0 then map[]
    else
      var m := Doc2Cluster(ids[..n - 1], clusters[..n - 1]);
      assert ids[..n - 1][..Min(n - 1, n - 1)] == ids[..n - 1];
      assert forall d :: d in ids[..n] <==> d in ids[..n - 1] || d == ids[n - 1] by {
        assert ids[..n] == ids[..n - 1] + [ids[n - 1]];
      }
      m[ids[n - 1] := clusters[n - 1]]
  }

  /** eval.py:53-54. Each id maps to the cluster of its last occurrence. */
  lemma {:induction false} Doc2ClusterLastWins(ids: seq<string>, clusters: seq<string>, i: nat)
    requires i < |ids| && i < |clusters|
    requires forall j :: i < j < Min(|ids|, |clusters|) ==> ids[j] != ids[i]
    ensures ids[i] in Doc2Cluster(ids, clusters)
    ensures Doc2Cluster(ids, clusters)[ids[i]] == clusters[i]
    decreases |ids|
  {
    var n := Min(|ids|, |clusters|);
    if i < n - 1 {
      Doc2ClusterLastWins(ids[..n - 1], clusters[..n - 1], i);
    }
  }

  /** The loop of psq_count over the lines of the pairs file: the number of
      pairs in one cluster and the number of pairs. Malformed lines raise
      ValueError and unknown ids KeyError, whichever comes first. */
  function CountMatches(m: map<string, string>, lines: seq<string>): (r: Result<(nat, nat)>)
    ensures r.Success? <==> forall i :: 0 <= i < |lines| ==>
      ParsePair(lines[i]).Success? && ParsePair(lines[i]).value.0 in m && ParsePair(lines[i]).value.1 in m
    ensures r.Failure? ==> r.error == ValueError || r.error == KeyError
    ensures r.Success? ==> r.value.1 == |lines| && r.value.0 <= r.value.1
  {
    if |lines| == 0 then Success((0, 0))
    else
      var (a, b) :- ParsePair(lines[0]);
      if a !in m || b !in m then Failure(KeyError)
      else
        var (k, n) :- CountMatches(m, lines[1..]);
        assert forall i :: 1 <= i < |lines| ==> lines[i] == lines[1..][i - 1];
        Success((if m[a] == m[b] then k + 1 else k, n + 1))
  }

  /** A pair of the pairs file lies in one cluster. */
  predicate SameCluster(m: map<string, string>, line: string)
  {
    var p := ParsePair(line);
    p.Success? && p.value.0 in m && p.value.1 in m && m[p.value.0] == m[p.value.1]
  }

  /** All pairs match exactly when the match count is the pair count; none
      does exactly when it is zero. */
  lemma {:induction false} CountMatchesExtremes(m: map<string, string>, lines: seq<string>)
    requires CountMatches(m, lines).Success?
    ensures var (k, n) := CountMatches(m, lines).value;
      && (k == n <==> forall i :: 0 <= i < |lines| ==> SameCluster(m, lines[i]))
      && (k == 0 <==> forall i :: 0 <= i < |lines| ==> !SameCluster(m, lines[i]))
    decreases |lines|
  {
    if |lines| > 0 {
      CountMatchesExtremes(m, lines[1..]);
      assert forall i :: 1 <= i < |lines| ==> lines[i] == lines[1..][i - 1];
    }
  }

  /** `psq_count(infile, psq_pairs)`, given the id and cluster columns and
      the lines of the pairs file. */
  function PsqCount(ids: seq<string>, clusters: seq<string>, pairLines: seq<string>): (r: Result<real>)
    ensures r == Failure(ZeroDivisionError) <==> |pairLines| == 0
    ensures r.Success? ==> 0.0 <= r.value <= 1.0
  {
    var (k, n) :- CountMatches(Doc2Cluster(ids, clusters), pairLines);
    if n == 0 then Failure(ZeroDivisionError)
    else
      PartBounds(k, n);
      Success(k as real / n as real)
  }

  /** A part over its whole lies in [0, 1]. */
  lemma PartBounds(k: nat, n: nat)
    requires 0 < n && k <= n
    ensures 0.0 <= k as real / n as real <= 1.0
  {
    ShareOrder(n, k, n);
    DivSelf(n);
  }

  /** eval.py:45-58. The psq count is 1 exactly when every pair lies in
      one cluster and 0 exactly when none does. */
  lemma PsqCountExtremes(ids: seq<string>, clusters: seq<string>, pairLines: seq<string>)
    requires PsqCount(ids, clusters, pairLines).Success?
    ensures var m := Doc2Cluster(ids, clusters);
      && (PsqCount(ids, clusters, pairLines).value == 1.0 <==>
           forall i :: 0 <= i < |pairLines| ==> SameCluster(m, pairLines[i]))
      && (PsqCount(ids, clusters, pairLines).value == 0.0 <==>
           forall i :: 0 <= i < |pairLines| ==> !SameCluster(m, pairLines[i]))
  {
    var m := Doc2Cluster(ids, clusters);
    var (k, n) := CountMatches(m, pairLines).value;
    CountMatchesExtremes(m, pairLines);
    assert n > 0;
    RatioExtremes(k, n);
  }

  lemma RatioExtremes(k: nat, n: nat)
    requires 0 < n && k <= n
    ensures k as real / n as real == 1.0 <==> k == n
    ensures k as real / n as real == 0.0 <==> k == 0
  {
    if k as real / n as real == 1.0 {
      assert k as real == (k as real / n as real) * n as real;
    }
  }

  // ---------------------------------------------------------------------
  // psq_score

  /** `psq_score(count, distribution)`: the count adjusted for chance, and
      the zoom `1 / (1 - e)` where `e` is the bucket probability. */
  function PsqScore(count: real, d: seq<(string, real)>): (r: Result<(real, real)>)
    ensures r.Failure? <==> BucketProbability(d) == 1.0
    ensures r.Success? ==> r.value.0 == (count - BucketProbability(d)) * r.value.1
  {
    var e := BucketProbability(d);
    if e == 1.0 then Failure(ZeroDivisionError)
    else Success(((count - e) / (1.0 - e), 1.0 / (1.0 - e)))
  }

  /** eval.py:77-94. With more than one cluster the score is defined, the
      zoom is at least 1, and a count of at most 1 gives a score of at
      most 1; a count equal to the expected one scores 0. */
  lemma ChanceAdjusted(count: real, e: real)
    requires 0.0 < e < 1.0 && count <= 1.0
    ensures (count - e) / (1.0 - e) <= 1.0
    ensures 1.0 / (1.0 - e) >= 1.0
    ensures (count - e) / (1.0 - e) == 0.0 <==> count == e
  {
  }

  lemma PsqScoreBounds(count: real, labels: seq<string>)
    requires |Distinct(labels)| > 1 && count <= 1.0
    ensures var r := PsqScore(count, Distribution(labels));
      && r.Success?
      && r.value.1 >= 1.0
      && r.value.0 <= 1.0
      && (r.value.0 == 0.0 <==> count == BucketProbability(Distribution(labels)))
  {
    assert Distinct(labels)[0] in labels;
    BucketProbabilityBounds(labels);
    ChanceAdjusted(count, BucketProbability(Distribution(labels)));
  }

  // ---------------------------------------------------------------------
  // Which metrics are computed

  datatype Metrics = Metrics(
    distribution: seq<(string, real)>,
    clusters: nat,
    separation: bool,                 // calinski-harabasz, davies-bouldin, silhouette
    psqCount: Option<real>,
    psqScore: Option<(real, real)>)   // (score, zoom)

  /** The metric part of `_cli` for one input file: `labels` is the cluster
      column, `vectors` the number of lowdim vectors, `ids` the id column and
      `pairLines` the lines of the --psq-pairs file, if given. The
      separation metrics themselves are foreign; only whether they are
      computed is modelled. */
  function Evaluate(labels: seq<string>, vectors: nat, ids: seq<string>, pairLines: Option<seq<string>>): Result<Metrics>
  {
    var d := Distribution(labels);
    var separation := |d| > 1 && vectors > 0 && |labels| > 0;
    if pairLines.Some? && |d| > 0 then
      var c :- PsqCount(ids, labels, pairLines.value);
      if |d| > 1 then
        var s :- PsqScore(c, d);
        Success(Metrics(d, |d|, separation, Some(c), Some(s)))
      else Success(Metrics(d, |d|, separation, Some(c), None))
    else Success(Metrics(d, |d|, separation, None, None))
  }

  /** One FILE of `ttm eval` as written (eval.py:320-330). The cluster
      distribution is read inside a `try` whose handler names the undefined
      `ColumnNotFound`, so any failure of that read becomes NameError. The
      next `try` calls `peek`, which `Column` does not have: AttributeError,
      which the same handler turns into NameError. `clusters` is the outcome
      of reading the `cluster` column. */
  function EvaluateFileAsWritten(clusters: Result<seq<string>>): Result<seq<(string, real)>>
  {
    var labels :- TryUndefinedExcept(clusters);
    match TryUndefinedExcept<nat>(Failure(AttributeError))
    case Failure(e) => Failure(e)
    case Success(_) => Success(Distribution(labels))
  }

  /** The FILE loop of `_cli` as written (eval.py:319-366), one column
      outcome per FILE. */
  function EvaluateFilesAsWritten(columns: seq<Result<seq<string>>>): Result<seq<seq<(string, real)>>>
  {
    if |columns| == 0 then Success([])
    else
      var d :- EvaluateFileAsWritten(columns[0]);
      var rest :- EvaluateFilesAsWritten(columns[1..]);
      Success([d] + rest)
  }

  /** As written, `ttm eval` aborts with NameError at its first FILE,
      whatever the file holds; only a run with no FILE (just `--include`)
      gets through the loop. */
  lemma EvalAbortsAtFirstFile(columns: seq<Result<seq<string>>>)
    ensures EvaluateFilesAsWritten(columns) == if |columns| == 0 then Success([]) else Failure(NameError)
    ensures forall c :: EvaluateFileAsWritten(c) == Failure(NameError)
  {
  }

  /** eval.py:341-360. The separation metrics need more than one cluster and
      data; the psq count needs pairs and at least one cluster; the psq
      score needs more than one cluster, which keeps its divisor non-zero:
      evaluation fails only where psq_count itself fails, and a computed
      score has a zoom of at least 1 and a score of at most 1. */
  lemma EvaluateGating(labels: seq<string>, vectors: nat, ids: seq<string>, pairLines: Option<seq<string>>)
    ensures var r := Evaluate(labels, vectors, ids, pairLines);
      && (r.Failure? <==> pairLines.Some? && |labels| > 0 && PsqCount(ids, labels, pairLines.value).Failure?)
      && (r.Failure? ==> r.error == PsqCount(ids, labels, pairLines.value).error)
      && (r.Success? ==>
           && r.value.clusters == |Distinct(labels)|
           && (r.value.separation <==> r.value.clusters > 1 && vectors > 0)
           && (r.value.psqCount.Some? <==> pairLines.Some? && r.value.clusters > 0)
           && (r.value.psqScore.Some? <==> pairLines.Some? && r.value.clusters > 1)
           && (r.value.psqScore.Some? ==> r.value.psqScore.value.1 >= 1.0 && r.value.psqScore.value.0 <= 1.0))
  {
    DistributionEntries(labels);
    DistributionOrdered(labels);
    var d := Distribution(labels);
    if |labels| > 0 {
      assert labels[0] in labels;
      DistributionSumsToOne(labels);
    }
    if pairLines.Some? && |d| > 1 && PsqCount(ids, labels, pairLines.value).Success? {
      PsqScoreBounds(PsqCount(ids, labels, pairLines.value).value, labels);
    }
  }
}

=== FILE: evaltsv.dfy ===
/** The TSV result format of `ttm eval` (ttm/eval.py): `_print_tsv` writes
    one row per evaluation result, with placeholders for missing values,
    and `_parse_tsv` reads such rows back (`--include`). Float values are
    carried as the text Python prints for them; JSON values as their JSON
    text. */
module EvalTsv {
  import opened Wrappers
  import opened Text
  import opened Decimal

  /** `_tsv_header`: the keys of a result row, in column order. */
  const TsvHeader: seq<string> := [
    "model_name", "psq_score", "psq_score_zoom", "psq_count",
    "silhouette", "silhouette_samples", "davies_bouldin",
    "calinski_harabasz", "highdim_size", "lowdim_size",
    "clusters", "cluster_distribution"]

  /** The fields of a result, one per key of `_tsv_header`. */
  datatype Key =
    | ModelName | PsqScore | PsqScoreZoom | PsqCount | Silhouette
    | SilhouetteSamples | DaviesBouldin | CalinskiHarabasz | HighdimSize
    | LowdimSize | Clusters | ClusterDistribution

  /** The fields in `_tsv_header` order. */
  const Keys: seq<Key> := [
    ModelName, PsqScore, PsqScoreZoom, PsqCount, Silhouette,
    SilhouetteSamples, DaviesBouldin, CalinskiHarabasz, HighdimSize,
    LowdimSize, Clusters, ClusterDistribution]

  /** How `_parse_cell` reads a field: as text, float, int or JSON. */
  datatype Kind = TextKind | FloatKind | IntKind | JsonKind

  function KindOf(k: Key): Kind
  {
    match k
    case ModelName => TextKind
    case HighdimSize | LowdimSize | Clusters => IntKind
    case ClusterDistribution => JsonKind
    case _ => FloatKind
  }

  /** The field a column name stands for. */
  function KeyOf(name: string): (k: Option<Key>)
    ensures k.Some? <==> name in TsvHeader
    ensures k.Some? ==> Keys[KeyPosition(k.value)] == k.value && TsvHeader[KeyPosition(k.value)] == name
  {
    if name == "model_name" then Some(ModelName)
    else if name == "psq_score" then Some(PsqScore)
    else if name == "psq_score_zoom" then Some(PsqScoreZoom)
    else if name == "psq_count" then Some(PsqCount)
    else if name == "silhouette" then Some(Silhouette)
    else if name == "silhouette_samples" then Some(SilhouetteSamples)
    else if name == "davies_bouldin" then Some(DaviesBouldin)
    else if name == "calinski_harabasz" then Some(CalinskiHarabasz)
    else if name == "highdim_size" then Some(HighdimSize)
    else if name == "lowdim_size" then Some(LowdimSize)
    else if name == "clusters" then Some(Clusters)
    else if name == "cluster_distribution" then Some(ClusterDistribution)
    else None
  }

  function KeyPosition(k: Key): (i: nat)
    ensures i < |Keys| && Keys[i] == k
  {
    match k
    case ModelName => 0
    case PsqScore => 1
    case PsqScoreZoom => 2
    case PsqCount => 3
    case Silhouette => 4
    case SilhouetteSamples => 5
    case DaviesBouldin => 6
    case CalinskiHarabasz => 7
    case HighdimSize => 8
    case LowdimSize => 9
    case Clusters => 10
    case ClusterDistribution => 11
  }

  /** Column i of `_tsv_header` names field i. */
  lemma HeaderNamesKeys(i: nat)
    requires i < |TsvHeader|
    ensures KeyOf(TsvHeader[i]) == Some(Keys[i])
  {
  }

  /** A non-null cluster distribution: JSON text, or the blank string that
      `_parse_cell` keeps as it is. */
  datatype Dist = DistJson(text: string) | DistBlank(raw: string)

  /** `EvaluationResult`. A float field holds the text Python prints for
      the float; `None` is Python's None. */
  datatype EvalResult = EvalResult(
    modelName: Option<string>,
    psqScore: Option<string>,
    psqScoreZoom: Option<string>,
    psqCount: Option<string>,
    silhouette: Option<string>,
    silhouetteSamples: Option<string>,
    daviesBouldin: Option<string>,
    calinskiHarabasz: Option<string>,
    highdimSize: Option<int>,
    lowdimSize: Option<int>,
    clusters: Option<int>,
    distribution: Option<Dist>)

  /** `EvaluationResult()`: everything None except an empty distribution. */
  const Fresh: EvalResult := EvalResult(None, None, None, None, None, None, None, None,
                                        None, None, None, Some(DistJson("{}")))

  // ---------------------------------------------------------------------
  // Float literals

  predicate IsSign(c: char)
  {
    c == '+' || c == '-'
  }

  function Unsigned(s: string): (r: string)
    ensures r == s || (|s| > 0 && IsSign(s[0]) && r == s[1..])
  {
    if |s| > 0 && IsSign(s[0]) then s[1..] else s
  }

  /** Position of the first exponent marker, or `|s|`. */
  function ExponentAt(s: string): (k: nat)
    ensures k <= |s|
    ensures k < |s| ==> s[k] == 'e' || s[k] == 'E'
    ensures forall i :: 0 <= i < k ==> s[i] != 'e' && s[i] != 'E'
  {
    if |s| == 0 then 0
    else if s[0] == 'e' || s[0] == 'E' then 0
    else 1 + ExponentAt(s[1..])
  }

  predicate IsMantissa(m: string)
  {
    && Occurrences(m, '.') <= 1
    && (forall i :: 0 <= i < |m| ==> IsDigit(m[i]) || m[i] == '.')
    && (exists i :: 0 <= i < |m| && IsDigit(m[i]))
  }

  predicate IsDecimalLiteral(b: string)
  {
    var k := ExponentAt(b);
    && IsMantissa(b[..k])
    && (k == |b| || (var e := Unsigned(b[k + 1..]); |e| > 0 && AllDigits(e)))
  }

  /** The texts `float()` accepts here: an optional sign, then `inf`,
      `infinity`, `nan` or a decimal literal with an optional exponent. */
  predicate IsFloatLiteral(s: string)
  {
    var b := Unsigned(s);
    b == "inf" || b == "infinity" || b == "nan" || IsDecimalLiteral(b)
  }

  /** `float(val)`. */
  function ParseFloat(val: string): (r: Result<string>)
    ensures r.Success? <==> IsFloatLiteral(val)
    ensures r.Success? ==> r.value == val
    ensures r.Failure? ==> r.error == ValueError
  {
    if IsFloatLiteral(val) then Success(val) else Failure(ValueError)
  }

  lemma DecimalLiteralChars(b: string, j: nat)
    requires IsDecimalLiteral(b) && j < |b|
    ensures IsDigit(b[j]) || b[j] == '.' || b[j] == 'e' || b[j] == 'E' || IsSign(b[j])
  {
    var k := ExponentAt(b);
    if j < k {
      assert b[..k][j] == b[j];
    } else if j > k {
      var t := b[k + 1..];
      assert t[j - k - 1] == b[j];
      var e := Unsigned(t);
      if e != t && j - k - 1 > 0 {
        assert e[j - k - 2] == b[j];
      } else if e == t {
        assert e[j - k - 1] == b[j];
      }
    }
  }

  /** A float literal contains no tab. */
  lemma FloatLiteralHasNoTab(s: string)
    requires IsFloatLiteral(s)
    ensures '\t' !in s
  {
    var b := Unsigned(s);
    if b != "inf" && b != "infinity" && b != "nan" {
      forall j | 0 <= j < |s| ensures s[j] != '\t' {
        if b == s {
          DecimalLiteralChars(b, j);
        } else if j > 0 {
          assert b[j - 1] == s[j];
          DecimalLiteralChars(b, j - 1);
        }
      }
    }
  }

  /** A word starting with a letter other than i, n, e or E is not a
      float literal. */
  lemma WordIsNotFloat(s: string)
    requires |s| > 0 && !IsDigit(s[0]) && s[0] !in "ineE.+-"
    ensures !IsFloatLiteral(s)
  {
    assert Unsigned(s) == s;
    var k := ExponentAt(s);
    assert k > 0;
    assert s[..k][0] == s[0];
  }

  /** None of the words `_print_tsv` writes for missing values is a float
      literal. */
  lemma PlaceholdersAreNotFloats()
    ensures !IsFloatLiteral("N/A") && !IsFloatLiteral("undefined") && !IsFloatLiteral("None")
  {
    WordIsNotFloat("N/A");
    WordIsNotFloat("undefined");
    WordIsNotFloat("None");
  }

  // ---------------------------------------------------------------------
  // Writing a row: _print_tsv

  /** `print` of an optional value that has no placeholder: None prints as
      the word None. */
  function OrNone(o: Option<string>): string
  {
    if o.None? then "None" else o.value
  }

  function IntOrNone(o: Option<int>): string
  {
    if o.None? then "None" else ShowInt(o.value)
  }

  const HexDigits: string := "0123456789abcdef"

  function Hex4(n: nat): (r: string)
    requires n < 0x10000
    ensures |r| == 4
  {
    [HexDigits[n / 0x1000], HexDigits[n / 0x100 % 16], HexDigits[n / 16 % 16], HexDigits[n % 16]]
  }

  /** One character as `json.dumps` writes it inside a string literal
      (ASCII output: everything outside printable ASCII is escaped, with a
      surrogate pair above U+FFFF). */
  function JsonEscapeChar(c: char): string
  {
    var n := c as int;
    if c == '"' then "\\\""
    else if c == '\\' then "\\\\"
    else if c == '\n' then "\\n"
    else if c == '\r' then "\\r"
    else if c == '\t' then "\\t"
    else if n == 8 then "\\b"
    else if n == 12 then "\\f"
    else if n < 0x20 || (0x7f <= n < 0x10000) then "\\u" + Hex4(n)
    else if n >= 0x10000 then
      var v := n - 0x10000;
      "\\u" + Hex4(0xd800 + v / 0x400) + "\\u" + Hex4(0xdc00 + v % 0x400)
    else [c]
  }

  function JsonEscape(s: string): string
  {
    if |s| == 0 then "" else JsonEscapeChar(s[0]) + JsonEscape(s[1..])
  }

  /** `json.dumps(r.cluster_distribution)`. */
  function DistCell(d: Option<Dist>): string
  {
    match d
    case None => "null"
    case Some(DistJson(text)) => text
    case Some(DistBlank(raw)) => "\"" + JsonEscape(raw) + "\""
  }

  /** `_print_tsv(r)`: the cells of the row, in `_tsv_header` order. A
      missing size prints as N/A; a missing separation metric prints as
      undefined, and a missing silhouette makes the sample count undefined
      too; a missing psq count makes all three psq cells N/A, and otherwise
      a missing psq score makes score and zoom undefined. */
  /** The cell `_print_tsv` writes for field `k`. */
  function Cell(r: EvalResult, k: Key): string
  {
    match k
    case ModelName => OrNone(r.modelName)
    case PsqScore =>
      if r.psqCount.None? then "N/A"
      else if r.psqScore.None? then "undefined"
      else r.psqScore.value
    case PsqScoreZoom =>
      if r.psqCount.None? then "N/A"
      else if r.psqScore.None? then "undefined"
      else OrNone(r.psqScoreZoom)
    case PsqCount => if r.psqCount.None? then "N/A" else r.psqCount.value
    case Silhouette => if r.silhouette.None? then "undefined" else r.silhouette.value
    case SilhouetteSamples => if r.silhouette.None? then "undefined" else OrNone(r.silhouetteSamples)
    case DaviesBouldin => if r.daviesBouldin.None? then "undefined" else r.daviesBouldin.value
    case CalinskiHarabasz => if r.calinskiHarabasz.None? then "undefined" else r.calinskiHarabasz.value
    case HighdimSize => if r.highdimSize.None? then "N/A" else ShowInt(r.highdimSize.value)
    case LowdimSize => if r.lowdimSize.None? then "N/A" else ShowInt(r.lowdimSize.value)
    case Clusters => IntOrNone(r.clusters)
    case ClusterDistribution => DistCell(r.distribution)
  }

  /** `_print_tsv(result)` as cells, in the order of `_tsv_header`. */
  function TsvRow(r: EvalResult): (row: seq<string>)
    ensures |row| == |TsvHeader|
  {
    seq(|Keys|, i requires 0 <= i < |Keys| => Cell(r, Keys[i]))
  }

  /** The placeholders of a written row: psq values are N/A without a psq
      count and undefined without a score, separation metrics are
      undefined when not computed, unknown sizes are N/A. */
  lemma TsvRowPlaceholders(r: EvalResult)
    ensures var row := TsvRow(r);
      (r.psqCount.None? ==> row[1] == row[2] == row[3] == "N/A") &&
      (r.psqCount.Some? && r.psqScore.None? ==> row[1] == row[2] == "undefined") &&
      (r.silhouette.None? ==> row[4] == row[5] == "undefined") &&
      (r.daviesBouldin.None? ==> row[6] == "undefined") &&
      (r.calinskiHarabasz.None? ==> row[7] == "undefined") &&
      (r.highdimSize.None? ==> row[8] == "N/A") &&
      (r.lowdimSize.None? ==> row[9] == "N/A")
  {
    var row := TsvRow(r);
    assert row[1] == Cell(r, PsqScore) && row[2] == Cell(r, PsqScoreZoom) && row[3] == Cell(r, PsqCount);
    assert row[4] == Cell(r, Silhouette) && row[5] == Cell(r, SilhouetteSamples);
    assert row[6] == Cell(r, DaviesBouldin) && row[7] == Cell(r, CalinskiHarabasz);
    assert row[8] == Cell(r, HighdimSize) && row[9] == Cell(r, LowdimSize);
  }

  /** `_print_tsv_header` and `_print_tsv` as lines. */
  const HeaderLine: string := Join(TsvHeader, '\t')

  function TsvLine(r: EvalResult): string
  {
    Join(TsvRow(r), '\t')
  }

  // ---------------------------------------------------------------------
  // Reading a row: _parse_cell and _parse_tsv

  /** A value `_parse_cell` can return. */
  datatype Value = NoneValue | StrValue(s: string) | IntValue(i: int) | FloatValue(text: string) | DistValue(d: Dist)

  predicate IsPlaceholder(val: string)
  {
    val == "N/A" || val == "undefined"
  }

  /** The values a field can hold. */
  predicate Fits(k: Key, v: Value)
  {
    match v
    case NoneValue => true
    case StrValue(_) => KindOf(k) == TextKind
    case FloatValue(_) => KindOf(k) == FloatKind
    case IntValue(_) => KindOf(k) == IntKind
    case DistValue(_) => KindOf(k) == JsonKind
  }

  /** `_parse_cell` once the key is known to be one of `_tsv_header`. */
  function ParseValue(k: Key, val: string): (r: Result<Value>)
    ensures r.Success? ==> Fits(k, r.value)
    ensures IsPlaceholder(val) ==> r == Success(NoneValue)
    ensures r.Failure? ==> r.error == ValueError
    ensures KindOf(k) == IntKind && !IsPlaceholder(val) ==>
      (r.Success? <==> ParseInt(val).Some?) && (r.Success? ==> r.value == IntValue(ParseInt(val).value))
    ensures KindOf(k) == FloatKind && !IsPlaceholder(val) ==>
      (r.Success? <==> IsFloatLiteral(val)) && (r.Success? ==> r.value == FloatValue(val))
  {
    if IsPlaceholder(val) then Success(NoneValue)
    else
      match KindOf(k)
      case TextKind => Success(StrValue(val))
      case JsonKind =>
        if Strip(val) == "" then Success(DistValue(DistBlank(val)))
        else if val == "null" then Success(NoneValue)
        else Success(DistValue(DistJson(val)))
      case IntKind =>
        (match ParseInt(val)
         case Some(i) => Success(IntValue(i))
         case None => Failure(ValueError))
      case FloatKind =>
        var t :- ParseFloat(val);
        Success(FloatValue(t))
  }

  /** `_parse_cell(key, val)`: a placeholder is None whatever the key; an
      unknown key is an error. */
  function ParseCell(key: string, val: string): (r: Result<Value>)
    ensures IsPlaceholder(val) ==> r == Success(NoneValue)
    ensures r == Failure(UnknownKey) <==> key !in TsvHeader && !IsPlaceholder(val)
    ensures r.Failure? ==> r.error == UnknownKey || r.error == ValueError
  {
    if IsPlaceholder(val) then Success(NoneValue)
    else
      match KeyOf(key)
      case None => Failure(UnknownKey)
      case Some(k) => ParseValue(k, val)
  }

  function OptStr(o: Option<string>): Value
  {
    if o.None? then NoneValue else StrValue(o.value)
  }

  function OptFloat(o: Option<string>): Value
  {
    if o.None? then NoneValue else FloatValue(o.value)
  }

  function OptInt(o: Option<int>): Value
  {
    if o.None? then NoneValue else IntValue(o.value)
  }

  /** `result.__dict__[key]`. */
  function Get(r: EvalResult, k: Key): Value
  {
    match k
    case ModelName => OptStr(r.modelName)
    case PsqScore => OptFloat(r.psqScore)
    case PsqScoreZoom => OptFloat(r.psqScoreZoom)
    case PsqCount => OptFloat(r.psqCount)
    case Silhouette => OptFloat(r.silhouette)
    case SilhouetteSamples => OptFloat(r.silhouetteSamples)
    case DaviesBouldin => OptFloat(r.daviesBouldin)
    case CalinskiHarabasz => OptFloat(r.calinskiHarabasz)
    case HighdimSize => OptInt(r.highdimSize)
    case LowdimSize => OptInt(r.lowdimSize)
    case Clusters => OptInt(r.clusters)
    case ClusterDistribution => if r.distribution.None? then NoneValue else DistValue(r.distribution.value)
  }

  function AsStr(v: Value): Option<string>
  {
    if v.StrValue? then Some(v.s) else None
  }

  function AsFloat(v: Value): Option<string>
  {
    if v.FloatValue? then Some(v.text) else None
  }

  function AsInt(v: Value): Option<int>
  {
    if v.IntValue? then Some(v.i) else None
  }

  /** `result.__dict__[key] = v`. */
  function Assign(r: EvalResult, k: Key, v: Value): EvalResult
  {
    match k
    case ModelName => r.(modelName := AsStr(v))
    case PsqScore => r.(psqScore := AsFloat(v))
    case PsqScoreZoom => r.(psqScoreZoom := AsFloat(v))
    case PsqCount => r.(psqCount := AsFloat(v))
    case Silhouette => r.(silhouette := AsFloat(v))
    case SilhouetteSamples => r.(silhouetteSamples := AsFloat(v))
    case DaviesBouldin => r.(daviesBouldin := AsFloat(v))
    case CalinskiHarabasz => r.(calinskiHarabasz := AsFloat(v))
    case HighdimSize => r.(highdimSize := AsInt(v))
    case LowdimSize => r.(lowdimSize := AsInt(v))
    case Clusters => r.(clusters := AsInt(v))
    case ClusterDistribution => r.(distribution := if v.DistValue? then Some(v.d) else None)
  }

  /** Setting a field and reading it back gives the value set; the other
      fields are untouched. */
  lemma AssignGet(r: EvalResult, k: Key, v: Value, other: Key)
    requires Fits(k, v)
    ensures Get(Assign(r, k, v), other) == if other == k then v else Get(r, other)
  {
  }

  /** A result is determined by its fields. */
  lemma GetExtensional(a: EvalResult, b: EvalResult)
    requires forall k: Key :: Get(a, k) == Get(b, k)
    ensures a == b
  {
    assert Get(a, ModelName) == Get(b, ModelName);
    assert Get(a, PsqScore) == Get(b, PsqScore);
    assert Get(a, PsqScoreZoom) == Get(b, PsqScoreZoom);
    assert Get(a, PsqCount) == Get(b, PsqCount);
    assert Get(a, Silhouette) == Get(b, Silhouette);
    assert Get(a, SilhouetteSamples) == Get(b, SilhouetteSamples);
    assert Get(a, DaviesBouldin) == Get(b, DaviesBouldin);
    assert Get(a, CalinskiHarabasz) == Get(b, CalinskiHarabasz);
    assert Get(a, HighdimSize) == Get(b, HighdimSize);
    assert Get(a, LowdimSize) == Get(b, LowdimSize);
    assert Get(a, Clusters) == Get(b, Clusters);
    assert Get(a, ClusterDistribution) == Get(b, ClusterDistribution);
  }

  /** The loop of `_parse_tsv` over one row's cells: cell i goes to the
      field named by header[i]; names outside `_tsv_header` are skipped; a
      cell beyond the header is an IndexError. */
  function ParseRow(header: seq<string>, cells: seq<string>): (r: Result<EvalResult>)
    ensures r.Success? ==> |cells| <= |header|
    ensures r.Failure? ==> r.error == IndexError || r.error == ValueError
    decreases |cells|
  {
    if |cells| == 0 then Success(Fresh)
    else
      var i := |cells| - 1;
      var acc :- ParseRow(header, cells[..i]);
      if i >= |header| then Failure(IndexError)
      else AddCell(acc, header[i], cells[i])
  }

  /** One cell of a row under the column named `name`: a column that names
      no field is skipped, any other sets its field to the parsed cell. */
  function AddCell(acc: EvalResult, name: string, cell: string): (r: Result<EvalResult>)
    ensures r.Failure? ==> r.error == ValueError
  {
    match KeyOf(name)
    case None => Success(acc)
    case Some(k) =>
      var v :- ParseCell(name, cell);
      Success(Assign(acc, k, v))
  }

  /** The field a cell sets, and that it leaves every other field alone. */
  lemma AddCellGet(acc: EvalResult, name: string, cell: string, k: Key)
    requires AddCell(acc, name, cell).Success?
    ensures KeyOf(name) == Some(k) ==> (ParseValue(k, cell).Success? &&
      Get(AddCell(acc, name, cell).value, k) == ParseValue(k, cell).value)
    ensures KeyOf(name) != Some(k) ==> Get(AddCell(acc, name, cell).value, k) == Get(acc, k)
  {
    match KeyOf(name)
    case None =>
    case Some(k') =>
      assert ParseCell(name, cell) == ParseValue(k', cell);
      AssignGet(acc, k', ParseValue(k', cell).value, k);
  }

  /** Last position in `h` of a name for field `k`, or -1. */
  function LastIndex(h: seq<string>, k: Key): (j: int)
    ensures -1 <= j < |h|
    ensures j >= 0 ==> KeyOf(h[j]) == Some(k) && forall i :: j < i < |h| ==> KeyOf(h[i]) != Some(k)
    ensures j < 0 ==> forall i :: 0 <= i < |h| ==> KeyOf(h[i]) != Some(k)
  {
    if |h| == 0 then -1
    else if KeyOf(h[|h| - 1]) == Some(k) then |h| - 1
    else
      var j := LastIndex(h[..|h| - 1], k);
      assert forall i :: 0 <= i < |h| - 1 ==> h[..|h| - 1][i] == h[i];
      j
  }

  /** After a successful parse each field holds the parsed cell of the last
      column with its name, or its initial value when no column has it. */
  lemma {:induction false} ParseRowFields(header: seq<string>, cells: seq<string>, k: Key)
    requires ParseRow(header, cells).Success?
    ensures var j := LastIndex(header[..|cells|], k);
      && (j >= 0 ==> ParseValue(k, cells[j]).Success?)
      && Get(ParseRow(header, cells).value, k) ==
           if j < 0 then Get(Fresh, k) else ParseValue(k, cells[j]).value
    decreases |cells|
  {
    if |cells| > 0 {
      var i := |cells| - 1;
      ParseRowFields(header, cells[..i], k);
      LastIndexStep(header, |cells|, k);
      AddCellGet(ParseRow(header, cells[..i]).value, header[i], cells[i], k);
    }
  }

  /** The last column naming `k` among the first n is column n - 1 or one
      of the first n - 1. */
  lemma LastIndexStep(header: seq<string>, n: nat, k: Key)
    requires 0 < n <= |header|
    ensures LastIndex(header[..n], k) ==
      if KeyOf(header[n - 1]) == Some(k) then n - 1 else LastIndex(header[..n - 1], k)
  {
    assert header[..n][..n - 1] == header[..n - 1];
  }

  /** A row no longer than the header whose every named cell parses is
      read without error. */
  lemma {:induction false} ParseRowSucceeds(header: seq<string>, cells: seq<string>)
    requires |cells| <= |header|
    requires forall i :: 0 <= i < |cells| ==> ParseCell(header[i], cells[i]) != Failure(ValueError)
    ensures ParseRow(header, cells).Success?
    decreases |cells|
  {
    if |cells| > 0 {
      ParseRowSucceeds(header, cells[..|cells| - 1]);
    }
  }

  /** One cell that does not parse, or one cell too many, makes the row
      fail. */
  lemma {:induction false} ParseRowFails(header: seq<string>, cells: seq<string>, i: nat)
    requires i < |cells|
    requires i >= |header| || ParseCell(header[i], cells[i]) == Failure(ValueError)
    ensures ParseRow(header, cells).Failure?
    decreases |cells|
  {
    if i < |cells| - 1 {
      ParseRowFails(header, cells[..|cells| - 1], i);
    }
  }

  /** `_parse_tsv`: the first line is the header, every later line a row.
      An empty input lets `next(lines)` raise StopIteration inside the
      generator, which Python turns into a RuntimeError. */
  function ParseTsv(lines: seq<string>): (r: Result<seq<EvalResult>>)
    ensures |lines| == 0 ==> r == Failure(RuntimeError)
    ensures r.Success? ==> |r.value| == |lines| - 1
    ensures r.Failure? && |lines| > 0 ==> r.error == IndexError || r.error == ValueError
  {
    if |lines| == 0 then Failure(RuntimeError)
    else ParseRows(Split(lines[0], '\t'), lines[1..])
  }

  function ParseRows(header: seq<string>, lines: seq<string>): (r: Result<seq<EvalResult>>)
    ensures r.Success? ==> |r.value| == |lines|
    ensures r.Success? ==> forall i :: 0 <= i < |lines| ==>
      ParseRow(header, Split(lines[i], '\t')) == Success(r.value[i])
    ensures r.Success? <==> forall i :: 0 <= i < |lines| ==> ParseRow(header, Split(lines[i], '\t')).Success?
    ensures r.Failure? ==> r.error == IndexError || r.error == ValueError
  {
    if |lines| == 0 then Success([])
    else
      var first :- ParseRow(header, Split(lines[0], '\t'));
      var rest :- ParseRows(header, lines[1..]);
      Success([first] + rest)
  }

  // ---------------------------------------------------------------------
  // Writing then reading

  /** What a result becomes when written and read back: None model names
      read back as the word None, and values hidden behind a placeholder
      read back as None. */
  function Normalize(r: EvalResult): EvalResult
  {
    r.(modelName := if r.modelName.None? then Some("None") else r.modelName,
       silhouetteSamples := if r.silhouette.None? then None else r.silhouetteSamples,
       psqScore := if r.psqCount.None? then None else r.psqScore,
       psqScoreZoom := if r.psqCount.None? || r.psqScore.None? then None else r.psqScoreZoom)
  }

  /** A text cell that stays one cell of one line: no placeholder, no tab
      and no line break. */
  predicate CellSafe(s: string)
  {
    !IsPlaceholder(s) && '\t' !in s && '\n' !in s && '\r' !in s
  }

  predicate FloatOk(o: Option<string>)
  {
    o.Some? ==> IsFloatLiteral(o.value)
  }

  /** The results whose row reads back: the values `_print_tsv` writes
      without a placeholder (a model name, a cluster count, a sample count
      next to a silhouette, a zoom next to a psq score) are present, texts
      contain no tab or line break and are not placeholders, floats are float literals,
      and a distribution is JSON text other than `null`. */
  predicate WellFormed(r: EvalResult)
  {
    && (r.modelName.Some? ==> CellSafe(r.modelName.value))
    && FloatOk(r.psqScore) && FloatOk(r.psqScoreZoom) && FloatOk(r.psqCount)
    && FloatOk(r.silhouette) && FloatOk(r.silhouetteSamples)
    && FloatOk(r.daviesBouldin) && FloatOk(r.calinskiHarabasz)
    && r.clusters.Some?
    && (r.silhouette.Some? ==> r.silhouetteSamples.Some?)
    && (r.psqCount.Some? && r.psqScore.Some? ==> r.psqScoreZoom.Some?)
    && (r.distribution.Some? ==>
         r.distribution.value.DistJson?
         && CellSafe(r.distribution.value.text)
         && Strip(r.distribution.value.text) != ""
         && r.distribution.value.text != "null")
  }

  lemma IntCellReadsBack(o: Option<int>, cell: string, k: Key)
    requires KindOf(k) == IntKind
    requires cell == (if o.None? then "N/A" else ShowInt(o.value))
    ensures ParseValue(k, cell) == Success(OptInt(o))
    ensures '\t' !in cell
  {
    if o.Some? {
      ParseShowInt(o.value);
      ShowIntChars(o.value);
      var s := ShowInt(o.value);
      assert s != "N/A" && s != "undefined" by {
        assert s[0] == '-' || IsDigit(s[0]);
      }
      assert '\t' !in s by {
        assert forall j :: 0 <= j < |s| ==> s[j] != '\t';
      }
    }
  }

  /** `str(i)` is a minus sign and digits. */
  lemma ShowIntChars(i: int)
    ensures forall j :: 0 <= j < |ShowInt(i)| ==> ShowInt(i)[j] == '-' || IsDigit(ShowInt(i)[j])
  {
    var s := ShowInt(i);
    if i < 0 {
      assert forall j :: 1 <= j < |s| ==> s[j] == Show(-i)[j - 1];
    }
  }

  lemma FloatCellReadsBack(o: Option<string>, cell: string, k: Key)
    requires KindOf(k) == FloatKind && FloatOk(o)
    requires o.Some? ==> cell == o.value
    requires o.None? ==> IsPlaceholder(cell)
    ensures ParseValue(k, cell) == Success(OptFloat(o))
    ensures '\t' !in cell
  {
    if o.Some? {
      assert !IsPlaceholder(cell) by {
        PlaceholdersAreNotFloats();
      }
      FloatLiteralHasNoTab(o.value);
    } else {
      PlaceholdersHaveNoTab(cell);
    }
  }

  lemma PlaceholdersHaveNoTab(cell: string)
    requires IsPlaceholder(cell)
    ensures '\t' !in cell
  {
    assert forall j :: 0 <= j < |cell| ==> cell[j] != '\t';
  }

  lemma StripNull()
    ensures Strip("null") == "null"
  {
    assert SkipSpace("null") == "null" by { assert !IsSpace("null"[0]); }
    assert RStripSpace("null") == "null" by { assert !IsSpace("null"[3]); }
  }

  /** The cell written for field `k` reads back as that field of the
      normalized result, and holds no tab. */
  lemma CellReadsBack(r: EvalResult, k: Key)
    requires WellFormed(r)
    ensures ParseValue(k, Cell(r, k)) == Success(Get(Normalize(r), k))
    ensures '\t' !in Cell(r, k)
  {
    match k
    case ModelName => assert !IsPlaceholder("None");
    case PsqScore => PsqCellReadsBack(r, k);
    case PsqScoreZoom => PsqCellReadsBack(r, k);
    case PsqCount => PsqCellReadsBack(r, k);
    case Silhouette => SeparationCellReadsBack(r, k);
    case SilhouetteSamples => SeparationCellReadsBack(r, k);
    case DaviesBouldin => SeparationCellReadsBack(r, k);
    case CalinskiHarabasz => SeparationCellReadsBack(r, k);
    case HighdimSize => SizeCellReadsBack(r, k);
    case LowdimSize => SizeCellReadsBack(r, k);
    case Clusters => SizeCellReadsBack(r, k);
    case ClusterDistribution => if r.distribution.None? { StripNull(); }
  }

  lemma PsqCellReadsBack(r: EvalResult, k: Key)
    requires WellFormed(r) && (k == PsqScore || k == PsqScoreZoom || k == PsqCount)
    ensures ParseValue(k, Cell(r, k)) == Success(Get(Normalize(r), k))
    ensures '\t' !in Cell(r, k)
  {
    var n := Normalize(r);
    if k == PsqScore {
      FloatCellReadsBack(n.psqScore, Cell(r, k), k);
    } else if k == PsqScoreZoom {
      FloatCellReadsBack(n.psqScoreZoom, Cell(r, k), k);
    } else {
      FloatCellReadsBack(n.psqCount, Cell(r, k), k);
    }
  }

  lemma SeparationCellReadsBack(r: EvalResult, k: Key)
    requires WellFormed(r)
    requires k == Silhouette || k == SilhouetteSamples || k == DaviesBouldin || k == CalinskiHarabasz
    ensures ParseValue(k, Cell(r, k)) == Success(Get(Normalize(r), k))
    ensures '\t' !in Cell(r, k)
  {
    var n := Normalize(r);
    if k == Silhouette {
      FloatCellReadsBack(n.silhouette, Cell(r, k), k);
    } else if k == SilhouetteSamples {
      FloatCellReadsBack(n.silhouetteSamples, Cell(r, k), k);
    } else if k == DaviesBouldin {
      FloatCellReadsBack(n.daviesBouldin, Cell(r, k), k);
    } else {
      FloatCellReadsBack(n.calinskiHarabasz, Cell(r, k), k);
    }
  }

  lemma SizeCellReadsBack(r: EvalResult, k: Key)
    requires WellFormed(r) && (k == HighdimSize || k == LowdimSize || k == Clusters)
    ensures ParseValue(k, Cell(r, k)) == Success(Get(Normalize(r), k))
    ensures '\t' !in Cell(r, k)
  {
    if k == HighdimSize {
      IntCellReadsBack(r.highdimSize, Cell(r, k), k);
    } else if k == LowdimSize {
      IntCellReadsBack(r.lowdimSize, Cell(r, k), k);
    } else {
      IntCellReadsBack(r.clusters, Cell(r, k), k);
    }
  }

  lemma KeysDistinct(i: nat, j: nat)
    requires i < j < |Keys|
    ensures Keys[i] != Keys[j]
  {
  }

  /** eval.py:262-286 with eval.py:200-219. Reading back a written row
      gives the result, up to the placeholders: every N/A or undefined
      comes back as None, and cell i lands in field i of `_tsv_header`. */
  lemma RowRoundTrip(r: EvalResult)
    requires WellFormed(r)
    ensures ParseRow(TsvHeader, TsvRow(r)) == Success(Normalize(r))
  {
    RowParses(r);
    var p := ParseRow(TsvHeader, TsvRow(r)).value;
    forall k: Key ensures Get(p, k) == Get(Normalize(r), k) {
      KeyReadsBack(r, k);
    }
    GetExtensional(p, Normalize(r));
  }

  lemma RowParses(r: EvalResult)
    requires WellFormed(r)
    ensures ParseRow(TsvHeader, TsvRow(r)).Success?
  {
    var row := TsvRow(r);
    forall i | 0 <= i < |row| ensures ParseCell(TsvHeader[i], row[i]) != Failure(ValueError) {
      CellReadsBack(r, Keys[i]);
      HeaderNamesKeys(i);
    }
    ParseRowSucceeds(TsvHeader, row);
  }

  lemma KeyReadsBack(r: EvalResult, k: Key)
    requires WellFormed(r) && ParseRow(TsvHeader, TsvRow(r)).Success?
    ensures Get(ParseRow(TsvHeader, TsvRow(r)).value, k) == Get(Normalize(r), k)
  {
    var row := TsvRow(r);
    assert TsvHeader[..|row|] == TsvHeader;
    ParseRowFields(TsvHeader, row, k);
    LastIndexOfKey(k);
    assert row[KeyPosition(k)] == Cell(r, k);
    CellReadsBack(r, k);
  }

  /** The last (and only) column naming field `k` is its own position. */
  lemma LastIndexOfKey(k: Key)
    ensures LastIndex(TsvHeader, k) == KeyPosition(k)
  {
    var i := KeyPosition(k);
    HeaderNamesKeys(i);
    forall j | i < j < |TsvHeader| ensures KeyOf(TsvHeader[j]) != Some(k) {
      HeaderNamesKeys(j);
      KeysDistinct(i, j);
    }
    LastIndexIs(TsvHeader, k, i);
  }

  /** A position naming `k` with no later one is the last index of `k`. */
  lemma LastIndexIs(h: seq<string>, k: Key, i: nat)
    requires i < |h| && KeyOf(h[i]) == Some(k)
    requires forall j :: i < j < |h| ==> KeyOf(h[j]) != Some(k)
    ensures LastIndex(h, k) == i
  {
  }

  /** A result without a cluster count is written with the word None,
      which `int()` rejects: such a row cannot be read back. */
  lemma MissingClustersDoNotReadBack(r: EvalResult)
    requires r.clusters.None?
    ensures ParseRow(TsvHeader, TsvRow(r)).Failure?
  {
    assert ParseInt("None").None? by {
      assert !AllDigits("None") by { assert !IsDigit("None"[0]); }
    }
    HeaderNamesKeys(10);
    ParseRowFails(TsvHeader, TsvRow(r), 10);
  }

  /** A written TSV file (the header line, then one line per result) reads
      back as the normalized results. */
  lemma TsvRoundTrip(rs: seq<EvalResult>)
    requires forall i :: 0 <= i < |rs| ==> WellFormed(rs[i])
    ensures ParseTsv([HeaderLine] + seq(|rs|, i requires 0 <= i < |rs| => TsvLine(rs[i]))) ==
      Success(seq(|rs|, i requires 0 <= i < |rs| => Normalize(rs[i])))
  {
    var lines := seq(|rs|, i requires 0 <= i < |rs| => TsvLine(rs[i]));
    ParseAfterHeaderLine(lines);
    ParseRowsRoundTrip(rs);
  }

  /** The header line reads back as the header, so the rest of the file is
      parsed against it. */
  lemma ParseAfterHeaderLine(lines: seq<string>)
    ensures ParseTsv([HeaderLine] + lines) == ParseRows(TsvHeader, lines)
  {
    assert ([HeaderLine] + lines)[1..] == lines;
    HeaderLineSplits();
  }

  lemma HeaderLineSplits()
    ensures Split(HeaderLine, '\t') == TsvHeader
  {
    SplitJoin(TsvHeader, '\t');
  }

  lemma ParseRowsRoundTrip(rs: seq<EvalResult>)
    requires forall i :: 0 <= i < |rs| ==> WellFormed(rs[i])
    ensures ParseRows(TsvHeader, seq(|rs|, i requires 0 <= i < |rs| => TsvLine(rs[i]))) ==
      Success(seq(|rs|, i requires 0 <= i < |rs| => Normalize(rs[i])))
  {
    var lines := seq(|rs|, i requires 0 <= i < |rs| => TsvLine(rs[i]));
    var out := seq(|rs|, i requires 0 <= i < |rs| => Normalize(rs[i]));
    forall i | 0 <= i < |rs| ensures ParseRow(TsvHeader, Split(lines[i], '\t')) == Success(out[i]) {
      forall j | 0 <= j < |TsvRow(rs[i])| ensures '\t' !in TsvRow(rs[i])[j] {
        CellReadsBack(rs[i], Keys[j]);
      }
      SplitJoin(TsvRow(rs[i]), '\t');
      RowRoundTrip(rs[i]);
    }
    var p := ParseRows(TsvHeader, lines);
    assert p.Success?;
    assert p.value == out;
  }
}

=== FILE: imports.dfy ===
/** The module imports that tie the commands together. ttm/cli.py:5-6
    imports every command module before it looks at its arguments, and
    ttm/c20cat.py:5 takes three names from ttm/cat.py, while
    ttm/embed.py:4 and ttm/desc.py:4 import `common_types` by an absolute
    name. A `from M import` fails when M binds no such name or no module M
    can be found, and a failing import stops the importing module, so one
    bad import takes every command down. */
module Imports {
  import opened Wrappers

  /** `from .types import *`: ttm/types.py has no `__all__`, so the star
      import binds every top-level name of it that does not begin with `_`
      (types.py:3, 5, 7, 9, 33, 44, 91, 139, 162). */
  const TypesPublic: set<string> := {
    "sys", "gzip", "bz2", "lzma",
    "HelpRequested", "CliError", "ExpectedRuntimeError",
    "OutputFile", "CachingFileReader", "InputFile", "Column", "PsqPairs"}

  /** The names bound at the top level of ttm/cat.py (cat.py:3-5, 7, 12, 31,
      46, 61, 92). */
  const CatNames: set<string> :=
    {"getopt", "os", "re", "_normalize", "_split_doc", "docs", "psq_pairs", "_cli_help", "_cli"} + TypesPublic

  /** The names ttm/c20cat.py:5 takes from ttm/cat.py. */
  const C20catWants: seq<string> := ["docs", "psq_pairs", "calculate_window"]

  /** `from M import a, b, ...` against the names M binds: it succeeds
      exactly when M binds every requested name, and fails otherwise with
      ImportError. */
  function FromImport(namespace: set<string>, names: seq<string>): (r: Result<()>)
    ensures r.Success? <==> forall k :: 0 <= k < |names| ==> names[k] in namespace
    ensures r.Failure? ==> r.error == ImportError
  {
    if |names| == 0 then Success(())
    else if names[0] !in namespace then Failure(ImportError)
    else
      var rest := FromImport(namespace, names[1..]);
      assert forall k :: 1 <= k < |names| ==> names[k] == names[1..][k - 1];
      rest
  }

  /** A command run behind a sequence of module imports: the imports run in
      order, the first that fails is the outcome, and the command itself
      runs only when every import succeeds. */
  function RunAfterImports<T>(imports: seq<Result<()>>, command: Result<T>): (r: Result<T>)
    ensures (forall k :: 0 <= k < |imports| ==> imports[k].Success?) ==> r == command
    ensures forall k :: 0 <= k < |imports| ==>
      (imports[k].Failure? && (forall j :: 0 <= j < k ==> imports[j].Success?) ==> r == Failure(imports[k].error))
  {
    if |imports| == 0 then command
    else if imports[0].Failure? then Failure(imports[0].error)
    else
      var r := RunAfterImports(imports[1..], command);
      assert forall k :: 1 <= k < |imports| ==> imports[k] == imports[1..][k - 1];
      r
  }

  /** As written, ttm/cat.py binds no `calculate_window`, so importing
      ttm/c20cat.py fails; cli.py:5 imports `cat` (which succeeds) and then
      `c20cat`, so every `ttm` command fails with ImportError before it
      reads its arguments, whatever the later modules do. */
  lemma EveryCommandFailsAsWritten<T>(others: seq<Result<()>>, command: Result<T>)
    ensures FromImport(CatNames, C20catWants) == Failure(ImportError)
    ensures RunAfterImports([Success(()), FromImport(CatNames, C20catWants)] + others, command) == Failure(ImportError)
    ensures forall relative :: RunAfterImports(CliImports(false, relative), command) == Failure(ImportError)
  {
    C20catAsWritten();
    var imports := [Success(()), FromImport(CatNames, C20catWants)] + others;
    assert imports[0].Success? && imports[1].Failure?;
    forall relative ensures RunAfterImports(CliImports(false, relative), command) == Failure(ImportError) {
      CliFailsAtC20cat(relative, command);
    }
  }

  lemma C20catAsWritten()
    ensures FromImport(CatNames, C20catWants) == Failure(ImportError)
  {
    assert C20catWants[2] !in CatNames;
  }

  lemma CliFailsAtC20cat<T>(relative: bool, command: Result<T>)
    ensures RunAfterImports(CliImports(false, relative), command) == Failure(ImportError)
  {
    var cli := CliImports(false, relative);
    CliImportsShape(false, relative);
    assert forall j :: 0 <= j < 1 ==> cli[j].Success?;
  }

  lemma RepairedImportSucceeds()
    ensures FromImport(CatNames + {"calculate_window"}, C20catWants).Success?
  {
    var ns := CatNames + {"calculate_window"};
    assert "docs" in ns && "psq_pairs" in ns && "calculate_window" in ns;
    assert forall k :: 0 <= k < |C20catWants| ==> C20catWants[k] in ns;
  }

  /** The top-level modules an installed ttm can import absolutely: the
      standard library modules its files name and the package `ttm` itself.
      setup.py:9 installs the one package `ttm`, so ttm/common_types.py is
      only reachable as `ttm.common_types`. */
  const InstalledTopLevel: set<string> :=
    {"getopt", "sys", "gzip", "bz2", "lzma", "os", "re", "json", "math", "itertools", "ttm"}

  /** The submodules of the package `ttm`, which a relative import names. */
  const TtmSubmodules: set<string> :=
    {"types", "common_types", "cat", "c20cat", "embed", "redim", "cluster", "desc", "comp", "eval", "show", "cli"}

  /** The names bound at the top level of ttm/eval.py that ttm/comp.py:5
      asks for, with the rest of its public functions (eval.py:7-60). */
  const EvalNames: set<string> :=
    {"extract_X_y", "calinski_harabasz", "davies_bouldin", "silhouette",
     "cluster_distribution", "bucket_probability", "psq_count", "psq_score", "EvaluationResult"} + TypesPublic

  /** How ttm/embed.py:4 and ttm/desc.py:4 bring in `common_types`. As
      written, `from common_types import *` is absolute and looks among the
      top-level modules, where there is none of that name, so it raises
      ModuleNotFoundError, a kind of ImportError. Repaired as
      `from .common_types import *`, it looks in the package. */
  function CommonTypesImport(relative: bool): (r: Result<()>)
    ensures r.Success? <==> relative
    ensures r.Failure? ==> r.error == ImportError
  {
    if relative then FromImport(TtmSubmodules, ["common_types"])
    else FromImport(InstalledTopLevel, ["common_types"])
  }

  /** The module imports of ttm/cli.py:5-6, in order: cat, c20cat, embed,
      redim, cluster, desc, comp, then eval. `catRepaired` says whether
      ttm/cat.py defines `calculate_window`, `relative` whether embed and
      desc import `common_types` relatively. The other modules import only
      the standard library and `.types`, and comp takes two names eval
      defines. */
  function CliImports(catRepaired: bool, relative: bool): (r: seq<Result<()>>)
    ensures |r| == 8
  {
    [ Success(()),
      FromImport(CatNamespace(catRepaired), C20catWants),
      CommonTypesImport(relative),
      Success(()),
      Success(()),
      CommonTypesImport(relative),
      FromImport(EvalNames, ["cluster_distribution", "bucket_probability"]),
      Success(()) ]
  }

  /** What ttm/cat.py binds, with or without `calculate_window`. */
  function CatNamespace(repaired: bool): set<string>
  {
    if repaired then CatNames + {"calculate_window"} else CatNames
  }

  /** ttm/c20cat.py imports exactly when ttm/cat.py is repaired. */
  lemma C20catImport(repaired: bool)
    ensures FromImport(CatNamespace(repaired), C20catWants).Success? <==> repaired
  {
    if repaired {
      RepairedImportSucceeds();
    } else {
      C20catAsWritten();
    }
  }

  lemma CliImportsShape(catRepaired: bool, relative: bool)
    ensures var imports := CliImports(catRepaired, relative);
      && imports[0].Success? && imports[3].Success? && imports[4].Success? && imports[7].Success?
      && (imports[1].Success? <==> catRepaired)
      && (imports[2].Success? <==> relative) && (imports[5].Success? <==> relative)
      && imports[6].Success?
  {
    C20catImport(catRepaired);
    CompImportSucceeds();
  }

  /** Every import of cli.py succeeds exactly when both repairs are made:
      `calculate_window` defined in ttm/cat.py, and `common_types`
      imported relatively by ttm/embed.py and ttm/desc.py. */
  lemma CliImportsSucceedIffRepaired(catRepaired: bool, relative: bool)
    ensures (forall k :: 0 <= k < |CliImports(catRepaired, relative)| ==> CliImports(catRepaired, relative)[k].Success?)
      <==> catRepaired && relative
  {
    var imports := CliImports(catRepaired, relative);
    CliImportsShape(catRepaired, relative);
    if catRepaired && relative {
      forall k | 0 <= k < |imports| ensures imports[k].Success? {
        assert k in {0, 1, 2, 3, 4, 5, 6, 7};
      }
    }
  }

  lemma CompImportSucceeds()
    ensures FromImport(EvalNames, ["cluster_distribution", "bucket_probability"]).Success?
  {
    assert "cluster_distribution" in EvalNames && "bucket_probability" in EvalNames;
  }

  /** With ttm/cat.py repaired but `common_types` still imported
      absolutely, c20cat now imports, and every `ttm` command fails one
      module later, at embed, with ImportError. */
  lemma CatRepairAloneFailsAtEmbed<T>(command: Result<T>)
    ensures CliImports(true, false)[1].Success? && CliImports(true, false)[2].Failure?
    ensures RunAfterImports(CliImports(true, false), command) == Failure(ImportError)
  {
    var imports := CliImports(true, false);
    CliImportsShape(true, false);
    assert forall j :: 0 <= j < 2 ==> imports[j].Success?;
  }

  /** With both repairs, every import succeeds and each command runs as
      modelled. */
  lemma CommandsRunOnceRepaired<T>(command: Result<T>)
    ensures RunAfterImports(CliImports(true, true), command) == command
  {
    CliImportsSucceedIffRepaired(true, true);
  }
}

=== FILE: open.dfy ===
/** The choice `_open` makes for a file name and a direction: standard
    input/output for "-", otherwise a codec chosen by the file suffix.
    Only the choice is modelled; opening the file is I/O. */
module Open {
  import opened Wrappers
  import opened Text

  datatype Mode = ReadText | WriteText   // 'rt' / 'wt'

  datatype Handle =
    | StdIn
    | StdOut
    | GzipFile(name: string, mode: Mode)
    | Bz2File(name: string, mode: Mode)
    | LzmaFile(name: string, mode: Mode)
    | PlainFile(name: string, mode: Mode)

  /** A name cannot end in two of the recognised suffixes at once. */
  lemma SuffixesExclusive(name: string)
    ensures !(EndsWith(name, ".gz") && EndsWith(name, ".bz2"))
    ensures !(EndsWith(name, ".gz") && EndsWith(name, ".xz"))
    ensures !(EndsWith(name, ".bz2") && EndsWith(name, ".xz"))
  {
    if EndsWith(name, ".gz") {
      assert name[|name| - 1] == 'z' && name[|name| - 2] == 'g';
    }
    if EndsWith(name, ".bz2") {
      assert name[|name| - 1] == '2';
    }
    if EndsWith(name, ".xz") {
      assert name[|name| - 1] == 'z' && name[|name| - 2] == 'x';
    }
  }

  /** `_open(filename, direction)`. */
  function OpenFile(filename: string, direction: string): (r: Result<Handle>)
    ensures r.Failure? <==> direction != "in" && direction != "out"
    ensures r.Failure? ==> r.error == BadDirection
    ensures r.Success? ==> (r.value == StdIn <==> filename == "-" && direction == "in")
    ensures r.Success? ==> (r.value == StdOut <==> filename == "-" && direction == "out")
    ensures r.Success? && filename != "-" ==>
      r.value.name == filename && (r.value.mode == ReadText <==> direction == "in")
    ensures r.Success? ==> (r.value.GzipFile? <==> filename != "-" && EndsWith(filename, ".gz"))
    ensures r.Success? ==> (r.value.Bz2File? <==> filename != "-" && EndsWith(filename, ".bz2"))
    ensures r.Success? ==> (r.value.LzmaFile? <==> filename != "-" && EndsWith(filename, ".xz"))
    ensures r.Success? ==> (r.value.PlainFile? <==>
      filename != "-" && !EndsWith(filename, ".gz") && !EndsWith(filename, ".bz2")
      && !EndsWith(filename, ".xz"))
  {
    SuffixesExclusive(filename);
    if direction != "in" && direction != "out" then Failure(BadDirection)
    else
      var mode := if direction == "in" then ReadText else WriteText;
      if filename == "-" then Success(if direction == "in" then StdIn else StdOut)
      else if EndsWith(filename, ".gz") then Success(GzipFile(filename, mode))
      else if EndsWith(filename, ".bz2") then Success(Bz2File(filename, mode))
      else if EndsWith(filename, ".xz") then Success(LzmaFile(filename, mode))
      else Success(PlainFile(filename, mode))
  }

  /** The extension of a file name: the text after its last dot, if it
      has one. */
  function Extension(name: string): (r: Option<string>)
    ensures r.Some? ==> '.' !in r.value
    decreases |name|
  {
    if |name| == 0 then None
    else if name[|name| - 1] == '.' then Some("")
    else match Extension(name[..|name| - 1])
      case None => None
      case Some(e) => Some(e + [name[|name| - 1]])
  }

  /** For a text without dots, a name ends in a dot and that text exactly
      when it is the name's extension. */
  lemma ExtensionSuffix(name: string, x: string)
    requires '.' !in x
    ensures Extension(name) == Some(x) <==> EndsWith(name, "." + x)
  {
    if Extension(name) == Some(x) {
      SuffixOfExtension(name, x);
    }
    if EndsWith(name, "." + x) {
      ExtensionOfSuffix(name, x);
    }
  }

  lemma {:induction false} SuffixOfExtension(name: string, x: string)
    requires Extension(name) == Some(x)
    ensures EndsWith(name, "." + x)
    decreases |name|
  {
    var init := name[..|name| - 1];
    var c := name[|name| - 1];
    if c != '.' {
      var e := Extension(init).value;
      SuffixOfExtension(init, e);
      assert x == e + [c];
      assert name == init + [c];
      assert name[|name| - |x| - 1..] == init[|init| - |e| - 1..] + [c];
    }
  }

  lemma {:induction false} ExtensionOfSuffix(name: string, x: string)
    requires '.' !in x && EndsWith(name, "." + x)
    ensures Extension(name) == Some(x)
    decreases |x|
  {
    var init := name[..|name| - 1];
    var c := name[|name| - 1];
    if |x| == 0 {
      assert c == '.';
    } else {
      var x' := x[..|x| - 1];
      assert c == x[|x| - 1] && c != '.';
      assert init[|init| - |x'| - 1..] == name[|name| - |x| - 1..|name| - 1];
      assert name[|name| - |x| - 1..|name| - 1] == ("." + x)[..|x|] == "." + x';
      ExtensionOfSuffix(init, x');
      assert x == x' + [c];
    }
  }

  /** The codec `_open` picks is the one the extension names: `gz`, `bz2`
      or `xz`, and plain for any other extension or none. */
  lemma CodecByExtension(filename: string, direction: string)
    ensures var r := OpenFile(filename, direction);
      r.Success? && filename != "-" ==>
        && (r.value.GzipFile? <==> Extension(filename) == Some("gz"))
        && (r.value.Bz2File? <==> Extension(filename) == Some("bz2"))
        && (r.value.LzmaFile? <==> Extension(filename) == Some("xz"))
        && (r.value.PlainFile? <==>
              Extension(filename) != Some("gz") && Extension(filename) != Some("bz2")
              && Extension(filename) != Some("xz"))
  {
    ExtensionSuffix(filename, "gz");
    ExtensionSuffix(filename, "bz2");
    ExtensionSuffix(filename, "xz");
    assert "." + "gz" == ".gz" && "." + "bz2" == ".bz2" && "." + "xz" == ".xz";
  }

  /** What `_open(name, 'out')` writes, `_open(name, 'in')` reads back
      through the same codec; "-" pairs standard output with standard
      input. */
  lemma ReadBackSameCodec(filename: string)
    ensures OpenFile(filename, "in").Success? && OpenFile(filename, "out").Success?
    ensures filename != "-" ==>
      OpenFile(filename, "in").value == OpenFile(filename, "out").value.(mode := ReadText)
    ensures filename == "-" ==>
      OpenFile(filename, "in").value == StdIn && OpenFile(filename, "out").value == StdOut
  {
    assert "in" != "out";
  }
}

=== FILE: output.dfy ===
/** The "replace column" step that ends both `ttm cluster` and `ttm redim`:
    the input is re-read with any old column of the stage's name hidden,
    the header gets the name appended and every data row gets its new cell
    appended. */
module Output {
  import opened Wrappers
  import opened Text
  import opened Tsv

  /** `f'{next(input_lines)}\t{name}'` for the view hiding `name`. */
  function NewHeader(view: seq<string>, name: string): string
    requires |view| > 0
  {
    view[0] + "\t" + name
  }

  /** The lines `zip(input_lines, cells)` draws from the view: the header,
      taken by `next` before the loop, one data row per cell, and one row
      more, which `zip` pulls before it finds the cells exhausted and then
      drops. */
  function Pulled(lines: seq<string>, n: nat): (r: seq<string>)
    ensures |r| == (if |lines| <= n + 2 then |lines| else n + 2)
    ensures forall i :: 0 <= i < |r| ==> r[i] == lines[i]
  {
    lines[..if |lines| <= n + 2 then |lines| else n + 2]
  }

  /** The cluster flavour (cluster.py:218-221): rows and cells are zipped,
      so the output stops at whichever runs out first. Only the rows the
      zip pulls are projected: a row past the one after the last cell is
      never read, however wide it is. */
  function Zipped(lines: seq<string>, name: string, cells: seq<string>): (r: Result<seq<string>>)
    requires name != ""
    ensures r.Failure? <==> (|lines| == 0 ||
      exists i :: 1 <= i < |lines| && i <= |cells| + 1 && |Fields(lines[i])| > |Fields(lines[0])|)
    ensures r.Failure? ==> r.error == (if |lines| == 0 then ExpectedRuntimeError else IndexError)
    ensures r.Success? ==> |r.value| == 1 + (if |lines| - 1 <= |cells| then |lines| - 1 else |cells|)
    ensures r.Success? ==> r.value[0] == NewHeader(ViewLines(Pulled(lines, |cells|), [name]).value, name)
    ensures r.Success? ==> forall i :: 0 <= i < |r.value| - 1 ==>
      r.value[i + 1] == ViewLines(Pulled(lines, |cells|), [name]).value[i + 1] + "\t" + cells[i]
  {
    var view :- ViewLines(Pulled(lines, |cells|), [name]);
    var rows := view[1..];
    var n := if |rows| <= |cells| then |rows| else |cells|;
    Success([NewHeader(view, name)] + seq(n, i requires 0 <= i < n => rows[i] + "\t" + cells[i]))
  }

  /** When every row fits under the header, the zipped output is the view
      of the whole input, row by row, cut to the shorter of rows and cells. */
  lemma ZippedWholeView(lines: seq<string>, name: string, cells: seq<string>)
    requires name != "" && ViewLines(lines, [name]).Success?
    ensures Zipped(lines, name, cells).Success?
    ensures var r := Zipped(lines, name, cells).value;
      r[0] == NewHeader(ViewLines(lines, [name]).value, name) &&
      forall i :: 0 <= i < |r| - 1 ==> r[i + 1] == ViewLines(lines, [name]).value[i + 1] + "\t" + cells[i]
  {
    var p := Pulled(lines, |cells|);
    assert |lines| > 0;
    ViewLinesPrefix(lines, [name], |p|);
    assert p == lines[..|p|];
  }

  /** Rows after the one that follows the last cell are never read: adding
      any lines there changes nothing, not even an error. */
  lemma ZippedIgnoresUnpulledRows(lines: seq<string>, more: seq<string>, name: string, cells: seq<string>)
    requires name != "" && |lines| >= |cells| + 2
    ensures Zipped(lines + more, name, cells) == Zipped(lines, name, cells)
  {
    assert Pulled(lines + more, |cells|) == Pulled(lines, |cells|);
  }

  /** The redim flavour (redim.py:125-128): data row i gets `cells[i]`;
      with fewer cells than rows the row past the last cell raises
      IndexError. */
  function Indexed(lines: seq<string>, name: string, cells: seq<string>): (r: Result<seq<string>>)
    requires name != ""
    ensures ViewLines(lines, [name]).Failure? ==> r == Failure(ViewLines(lines, [name]).error)
    ensures ViewLines(lines, [name]).Success? ==> (r.Failure? <==> |cells| < |lines| - 1)
    ensures r.Failure? && ViewLines(lines, [name]).Success? ==> r.error == IndexError
    ensures r.Success? ==> |r.value| == |lines| && forall i :: 0 <= i < |lines| - 1 ==>
      r.value[i + 1] == ViewLines(lines, [name]).value[i + 1] + "\t" + cells[i]
  {
    var view :- ViewLines(lines, [name]);
    var rows := view[1..];
    if |cells| < |rows| then Failure(IndexError)
    else Success([NewHeader(view, name)] + seq(|rows|, i requires 0 <= i < |rows| => rows[i] + "\t" + cells[i]))
  }

  /** Appending one more field to a join of at least one field. */
  lemma JoinSnoc(parts: seq<string>, x: string, sep: char)
    requires |parts| >= 1
    ensures Join(parts + [x], sep) == Join(parts, sep) + [sep] + x
    decreases |parts|
  {
    if |parts| > 1 {
      JoinSnoc(parts[1..], x, sep);
      assert (parts + [x])[1..] == parts[1..] + [x];
    }
  }

  /** The columns of the new header: the visible old columns (a lone empty
      name when none is left, since the header then starts with a tab) and
      `name` last. */
  function HeaderFields(header: seq<string>, name: string): seq<string>
  {
    var vis := Visible(header, [name]);
    (if |vis| == 0 then [""] else vis) + [name]
  }

  /** The written header splits into the input's columns other than `name`
      followed by `name`, which therefore appears exactly once, in the last
      position: rerunning the stage replaces the column instead of adding a
      second one. */
  lemma NewHeaderFields(lines: seq<string>, name: string)
    requires name != "" && '\t' !in name && |lines| > 0 && ViewLines(lines, [name]).Success?
    ensures Fields(NewHeader(ViewLines(lines, [name]).value, name)) == HeaderFields(Fields(lines[0]), name)
    ensures var f := HeaderFields(Fields(lines[0]), name);
      f[|f| - 1] == name && forall i :: 0 <= i < |f| - 1 ==> f[i] != name
    ensures forall x :: x != name && x != "" ==>
      (x in HeaderFields(Fields(lines[0]), name) <==> x in Fields(lines[0]))
  {
    var view := ViewLines(lines, [name]).value;
    var h := Fields(lines[0]);
    var vis := Visible(h, [name]);
    ViewHeaderIsVisible(lines, [name]);
    var parts := (if |vis| == 0 then [""] else vis) + [name];
    forall i | 0 <= i < |parts| ensures '\t' !in parts[i] {
      if i < |parts| - 1 && |vis| > 0 {
        assert parts[i] in vis;
      }
    }
    if |vis| == 0 {
      assert Join(vis, '\t') == "";
      assert Join([""] + [name], '\t') == "" + ['\t'] + Join([name], '\t');
    } else {
      JoinSnoc(vis, name, '\t');
    }
    assert NewHeader(view, name) == Join(parts, '\t');
    SplitJoin(parts, '\t');
    forall i | 0 <= i < |parts| - 1 ensures parts[i] != name {
      if |vis| > 0 {
        assert parts[i] in vis;
      }
    }
  }

  /** Running the same stage on its own output: the header of the second
      output is the header of the first, because the only column the
      second run hides is the one the first run appended. */
  lemma RerunKeepsHeader(lines: seq<string>, name: string, cells: seq<string>, more: seq<string>)
    requires name != "" && '\t' !in name && |lines| > 0
    requires Zipped(lines, name, cells).Success?
    requires Zipped(Zipped(lines, name, cells).value, name, more).Success?
    ensures |Visible(Fields(lines[0]), [name])| > 0 ==>
      Zipped(Zipped(lines, name, cells).value, name, more).value[0] == Zipped(lines, name, cells).value[0]
  {
    var out := Zipped(lines, name, cells).value;
    var p := Pulled(lines, |cells|);
    var q := Pulled(out, |more|);
    var vis := Visible(Fields(lines[0]), [name]);
    NewHeaderFields(p, name);
    if |vis| > 0 {
      assert Fields(q[0]) == vis + [name];
      RehiddenHeader(q, vis, name);
      ViewHeaderIsVisible(p, [name]);
    }
  }

  /** A view that hides `name` from a header ending in its only `name`
      column shows the header without it. */
  lemma RehiddenHeader(out: seq<string>, vis: seq<string>, name: string)
    requires name != "" && |out| > 0 && |vis| > 0 && name !in vis
    requires Fields(out[0]) == vis + [name]
    requires ViewLines(out, [name]).Success?
    ensures NewHeader(ViewLines(out, [name]).value, name) == Join(vis, '\t') + "\t" + name
  {
    HideLast(vis, name);
    ViewHeaderIsVisible(out, [name]);
  }

  lemma HideLast(vis: seq<string>, name: string)
    requires name !in vis
    ensures Visible(vis + [name], [name]) == vis
  {
    VisibleAppend(vis, [name], [name]);
    VisibleIdempotent(vis, name);
    assert Visible([name], [name]) == [];
  }

  /** Hiding `name` from names that no longer contain it changes nothing. */
  lemma {:induction false} VisibleIdempotent(vis: seq<string>, name: string)
    requires name !in vis
    ensures Visible(vis, [name]) == vis
    decreases |vis|
  {
    if |vis| > 0 {
      VisibleIdempotent(vis[1..], name);
      assert [vis[0]] + vis[1..] == vis;
    }
  }
}

=== FILE: redim.dfy ===
/** `ttm redim` (ttm/redim.py): the choice of dimensionality reduction and
    its options, the identity method, and the output that replaces the
    `lowdim` column. TruncatedSVD, LDA and UMAP are outside the model;
    their vectors are inputs. */
module Redim {
  import opened Wrappers
  import opened Text
  import Decimal
  import Tsv
  import Cli
  import Output

  /** A reduction method together with the options given for it. */
  datatype Method =
    | Identity
    | Svd(components: Option<int>)
    | Lda(components: Option<int>, maxEpochs: Option<int>)
    | Umap(components: Option<int>, neighbors: Option<int>, metric: Option<string>, minDist: Option<real>)

  /** The METHOD word that selects each method. */
  function Name(m: Method): string
  {
    match m
    case Identity => "id"
    case Svd(_) => "svd"
    case Lda(_, _) => "lda"
    case Umap(_, _, _, _) => "umap"
  }

  predicate Known(word: string)
  {
    word in {"id", "svd", "lda", "umap"}
  }

  /** `float(v)` applied to an option when it is present; `parseFloat`
      stands for Python's `float`. */
  function RealOption(opts: seq<(string, string)>, name: string, parseFloat: string -> Option<real>): (r: Result<Option<real>>)
    ensures r.Failure? <==> Cli.OptionValue(opts, name).Some? && parseFloat(Cli.OptionValue(opts, name).value).None?
    ensures r.Failure? ==> r.error == ValueError
  {
    match Cli.OptionValue(opts, name)
    case None => Success(None)
    case Some(v) =>
      match parseFloat(v)
      case None => Failure(ValueError)
      case Some(x) => Success(Some(x))
  }

  /** Method dispatch (redim.py:85-118). `opts` and `rest` are what getopt
      returns for the arguments after METHOD, option names without their
      leading dashes. `svd` and `lda` convert every value given, umap only
      the last value of each option. */
  function MethodOf(args: seq<string>, opts: seq<(string, string)>, rest: seq<string>,
                    parseFloat: string -> Option<real>): (r: Result<Method>)
    ensures r.Failure? ==> r.error.CliError? || r.error == ValueError
  {
    if |args| == 0 then Failure(CliError("No METHOD specified for ttm redim"))
    else if args[0] == "id" then
      var _ :- Cli.FailOnRest(args[1..], ' ');
      Success(Identity)
    else if args[0] == "svd" then
      var _ :- Cli.FailOnRest(rest, ' ');
      var _ :- Cli.EveryInt(opts);
      var c :- Cli.IntOption(opts, "components");
      Success(Svd(c))
    else if args[0] == "lda" then
      var _ :- Cli.FailOnRest(rest, ' ');
      var _ :- Cli.EveryInt(opts);
      var c :- Cli.IntOption(opts, "components");
      var e :- Cli.IntOption(opts, "max-epochs");
      Success(Lda(c, e))
    else if args[0] == "umap" then
      var _ :- Cli.FailOnRest(rest, ' ');
      var c :- Cli.IntOption(opts, "components");
      var n :- Cli.IntOption(opts, "neighbors");
      var d :- RealOption(opts, "min-dist", parseFloat);
      Success(Umap(c, n, Cli.OptionValue(opts, "metric"), d))
    else Failure(CliError("Unknown ttm redim METHOD '" + args[0] + "'"))
  }

  /** A dispatched method is the one its word names. */
  lemma MethodNamed(args: seq<string>, opts: seq<(string, string)>, rest: seq<string>,
                    parseFloat: string -> Option<real>)
    ensures var r := MethodOf(args, opts, rest, parseFloat);
      r.Success? ==> |args| > 0 && Known(args[0]) && Name(r.value) == args[0]
  {
    var r := MethodOf(args, opts, rest, parseFloat);
    if r.Success? {
      if args[0] == "umap" {
        assert r.value.Umap?;
      } else if args[0] == "lda" {
        assert r.value.Lda?;
      } else if args[0] == "svd" {
        assert r.value.Svd?;
      }
    }
  }

  /** No METHOD and an unknown word are CliErrors. */
  lemma MethodUnknown(args: seq<string>, opts: seq<(string, string)>, rest: seq<string>,
                      parseFloat: string -> Option<real>)
    ensures |args| == 0 ==>
      MethodOf(args, opts, rest, parseFloat) == Failure(CliError("No METHOD specified for ttm redim"))
    ensures |args| > 0 && !Known(args[0]) ==>
      MethodOf(args, opts, rest, parseFloat) == Failure(CliError("Unknown ttm redim METHOD '" + args[0] + "'"))
  {
  }

  /** Extra words after `id`, and leftover arguments after any other
      method's options, are CliErrors naming them separated by spaces. */
  lemma MethodLeftovers(args: seq<string>, opts: seq<(string, string)>, rest: seq<string>,
                        parseFloat: string -> Option<real>)
    ensures |args| > 1 && args[0] == "id" ==>
      MethodOf(args, opts, rest, parseFloat) ==
        Failure(CliError("Unsupported command line argument '" + Join(args[1..], ' ') + "'"))
    ensures |args| == 1 && args[0] == "id" ==> MethodOf(args, opts, rest, parseFloat) == Success(Identity)
    ensures |args| > 0 && Known(args[0]) && args[0] != "id" && |rest| > 0 ==>
      MethodOf(args, opts, rest, parseFloat) ==
        Failure(CliError("Unsupported command line argument '" + Join(rest, ' ') + "'"))
  {
  }

  /** svd and lda reject a value that is not an integer even when a later
      value of the same option replaces it. */
  lemma EveryValueConverted(args: seq<string>, opts: seq<(string, string)>, parseFloat: string -> Option<real>, i: nat)
    requires |args| > 0 && (args[0] == "svd" || args[0] == "lda")
    requires i < |opts| && Decimal.ParseInt(opts[i].1).None?
    ensures MethodOf(args, opts, [], parseFloat) == Failure(ValueError)
  {
  }

  // ---------------------------------------------------------------------
  // The identity method and the output (redim.py:7-8, 119-128)
  // ---------------------------------------------------------------------

  /** `id`: `list(vectors)`. */
  function Id<V>(vectors: seq<V>): seq<V>
  {
    vectors
  }

  /** The output: the input with the old `lowdim` column hidden and
      `dump(lowdim[i])` appended to data row i. */
  function Reduced<V>(lines: seq<string>, lowdim: seq<V>, dump: V -> string): (r: Result<seq<string>>)
  {
    Output.Indexed(lines, "lowdim", seq(|lowdim|, i requires 0 <= i < |lowdim| => dump(lowdim[i])))
  }

  /** Every data row is written, carrying its own vector; fewer vectors
      than rows is an IndexError, more vectors are ignored. */
  lemma ReducedRows<V>(lines: seq<string>, lowdim: seq<V>, dump: V -> string)
    requires Tsv.ViewLines(lines, ["lowdim"]).Success?
    ensures Reduced(lines, lowdim, dump).Failure? <==> |lowdim| < |lines| - 1
    ensures Reduced(lines, lowdim, dump).Failure? ==> Reduced(lines, lowdim, dump).error == IndexError
    ensures var r := Reduced(lines, lowdim, dump);
      r.Success? ==> |r.value| == |lines| && forall i :: 0 <= i < |lines| - 1 ==>
        r.value[i + 1] == Tsv.ViewLines(lines, ["lowdim"]).value[i + 1] + "\t" + dump(lowdim[i])
  {
    var cells := seq(|lowdim|, i requires 0 <= i < |lowdim| => dump(lowdim[i]));
    assert Reduced(lines, lowdim, dump) == Output.Indexed(lines, "lowdim", cells);
    assert forall i :: 0 <= i < |lowdim| ==> cells[i] == dump(lowdim[i]);
  }

  /** With the identity method the vectors are the input's own `highdim`
      column, one per data row, so the output never runs short: data row i
      gets the cell that row holds under `highdim`, decoded and encoded
      again. */
  lemma IdentityCopiesHighdim<V>(lines: seq<string>, loads: string -> V, dump: V -> string)
    requires Tsv.ColumnOf(lines, "highdim", loads).Success?
    requires Tsv.ViewLines(lines, ["lowdim"]).Success?
    ensures var highdim := Tsv.ColumnOf(lines, "highdim", loads).value;
      var col := Tsv.ColumnIndex(Tsv.Fields(lines[0]), "highdim").value;
      var r := Reduced(lines, Id(highdim), dump);
      r.Success? && forall i :: 1 <= i < |lines| ==>
        r.value[i] == Tsv.ViewLines(lines, ["lowdim"]).value[i] + "\t" + dump(loads(Tsv.Fields(lines[i])[col]))
  {
    var highdim := Tsv.ColumnOf(lines, "highdim", loads).value;
    ReducedRows(lines, Id(highdim), dump);
    var r := Reduced(lines, Id(highdim), dump).value;
    forall i | 1 <= i < |lines|
      ensures r[i] == Tsv.ViewLines(lines, ["lowdim"]).value[i] + "\t" + dump(loads(Tsv.Fields(lines[i])[Tsv.ColumnIndex(Tsv.Fields(lines[0]), "highdim").value]))
    {
      assert r[(i - 1) + 1] == Tsv.ViewLines(lines, ["lowdim"]).value[(i - 1) + 1] + "\t" + dump(highdim[i - 1]);
    }
  }

  // ---------------------------------------------------------------------
  // svd's component count (redim.py:28-33)
  // ---------------------------------------------------------------------

  /** As written: TruncatedSVD is always built with five components,
      whatever `--components` says. */
  function SvdComponentsAsWritten(components: Option<int>): int
  {
    5
  }

  /** As intended and documented: `--components`, five by default. */
  function SvdComponents(components: Option<int>): (n: int)
    ensures components.Some? ==> n == components.value
    ensures components.None? ==> n == SvdComponentsAsWritten(components)
  {
    if components.Some? then components.value else 5
  }

  /** The code as written builds the count the options ask for only when
      `--components` is absent or is 5 itself; every other requested count
      is replaced by 5. */
  lemma SvdAgreesOnlyOnFive(components: Option<int>)
    ensures SvdComponents(components) == SvdComponentsAsWritten(components)
      <==> components.None? || components == Some(5)
  {
  }

  /** `ttm redim svd --components 2` reduces to five dimensions as written
      and to two as intended. */
  lemma SvdIgnoresComponents()
    ensures MethodOf(["svd", "--components", "2"], [("components", "2")], [], _ => None) == Success(Svd(Some(2)))
    ensures SvdComponentsAsWritten(Some(2)) == 5
    ensures SvdComponents(Some(2)) == 2
  {
    assert Decimal.ParseInt("2") == Some(2) by {
      Decimal.ParseShowInt(2);
      assert Decimal.ShowInt(2) == "2";
    }
  }
}

=== FILE: replay.dfy ===
/** The replayable line reader: `CachingFileReader` in ttm/types.py and the
    older `Corpus` in ttm/common_types.py.

    A reader owns one line source. If the source is regular (seekable) every
    pass reads it again from the start. Otherwise the first pass records each
    line it yields and later passes replay the recording; a pass that begins
    while the recording is still incomplete is a usage violation.

    Passes are Python generators, so they are modelled as cursors that a
    consumer pulls one line at a time. Nothing happens when a generator is
    created: its body (the seekability test, the `file_accessed` flag, the
    error) runs at the first pull. The recording is marked complete only by
    the pull that finds the source exhausted, so n lines take n + 1 pulls. */
module Replay {
  import opened Wrappers
  import opened Text

  /** `CachingFileReader` reopens the named file for every pass and treats
      standard input as never seekable; `Corpus` rewinds its one shared file
      object with `seek(0)` and trusts `seekable()`. */
  datatype Flavor = ReopenPerPass | RewindShared

  /** The resource: its name, whether the platform can seek in it, and the
      raw lines file iteration produces (each with its line terminator). */
  datatype Source = Source(name: string, seekable: bool, lines: seq<string>)

  /** Reader state. `cache`, `complete` and `accessed` are the attributes of
      the source; `pos` is the position of the shared file object (the
      recording position, or the rewound position of a `Corpus`); `memo` is
      `_len`. */
  datatype Reader = Reader(
    flavor: Flavor,
    src: Source,
    cache: seq<string>,
    complete: bool,
    accessed: bool,
    pos: nat,
    memo: Option<nat>)

  /** A pass in progress. */
  datatype Cursor =
    | Unstarted              // generator created, body not yet run
    | Reopened(at: nat)      // reading its own fresh handle on the file
    | Rewound                // reading the shared, rewound file object
    | Replaying(at: nat)     // reading the completed cache
    | Recording              // first pass over an unseekable source
    | Finished               // generator exhausted (or never had lines)

  datatype Step = Step(reader: Reader, cursor: Cursor, line: Option<string>)

  function NewReader(flavor: Flavor, src: Source): Reader
  {
    Reader(flavor, src, [], false, false, 0, None)
  }

  /** `regular_file` in types.py (`f != sys.stdin and f.seekable()`, where
      `_open` returns standard input exactly for "-"), `file.seekable()` in
      common_types.py. */
  predicate Regular(r: Reader)
  {
    match r.flavor
    case ReopenPerPass => r.src.name != "-" && r.src.seekable
    case RewindShared => r.src.seekable
  }

  /** The lines every correct pass yields. */
  function Expected(src: Source): (r: seq<string>)
    ensures |r| == |src.lines|
    ensures forall i :: 0 <= i < |r| ==> r[i] == StripLine(src.lines[i])
  {
    seq(|src.lines|, i requires 0 <= i < |src.lines| => StripLine(src.lines[i]))
  }

  /** The invariant every reachable reader state keeps. */
  predicate Valid(r: Reader)
  {
    && (Regular(r) ==> r.cache == [] && !r.complete && !r.accessed)
    && (Regular(r) ==> r.pos <= |r.src.lines|)
    && (!Regular(r) ==>
          r.pos == |r.cache| <= |r.src.lines| && r.cache == Expected(r.src)[..|r.cache|])
    && (r.complete ==> r.accessed && r.cache == Expected(r.src))
    && (!r.accessed ==> r.cache == [])
    && (r.memo.Some? ==> r.memo.value == |r.src.lines|)
    && (r.memo.Some? && !Regular(r) ==> r.complete)
  }

  /** A cursor that can be in flight over reader `r`. */
  predicate CursorFits(r: Reader, c: Cursor)
  {
    match c
    case Unstarted => true
    case Reopened(i) => Regular(r) && r.flavor == ReopenPerPass && i <= |r.src.lines|
    case Rewound => Regular(r) && r.flavor == RewindShared
    case Replaying(i) => !Regular(r) && r.complete && i <= |r.cache|
    case Recording => !Regular(r) && r.accessed && !r.complete
    case Finished => true
  }

  lemma NewReaderValid(flavor: Flavor, src: Source)
    ensures Valid(NewReader(flavor, src))
  {
  }

  /** The branch `__iter__` takes when its body starts to run. */
  function Begin(r: Reader): (res: Result<(Reader, Cursor)>)
    ensures res.Failure? <==> !Regular(r) && !r.complete && r.accessed
    ensures res.Failure? ==> res.error == UsageViolation
    ensures res.Success? && !Regular(r) && !r.complete ==> res.value.0.accessed
    ensures Valid(r) && res.Success? ==> Valid(res.value.0) && CursorFits(res.value.0, res.value.1)
  {
    if Regular(r) then
      match r.flavor
      case ReopenPerPass => Success((r, Reopened(0)))
      case RewindShared => Success((r.(pos := 0), Rewound))
    else if r.complete then Success((r, Replaying(0)))
    else if !r.accessed then Success((r.(accessed := true), Recording))
    else Failure(UsageViolation)
  }

  /** One `next()` on a pass. */
  function Pull(r: Reader, c: Cursor): (res: Result<Step>)
    ensures res.Failure? <==> c.Unstarted? && Begin(r).Failure?
    ensures res.Success? ==> r.cache <= res.value.reader.cache
    ensures res.Success? ==> res.value.reader.src == r.src && res.value.reader.memo == r.memo
    decreases if c.Unstarted? then 1 else 0
  {
    match c
    case Unstarted =>
      var (r1, c1) :- Begin(r);
      Pull(r1, c1)
    case Reopened(i) =>
      if i < |r.src.lines| then Success(Step(r, Reopened(i + 1), Some(StripLine(r.src.lines[i]))))
      else Success(Step(r, Finished, None))
    case Rewound =>
      if r.pos < |r.src.lines| then
        Success(Step(r.(pos := r.pos + 1), Rewound, Some(StripLine(r.src.lines[r.pos]))))
      else Success(Step(r, Finished, None))
    case Replaying(i) =>
      if i < |r.cache| then Success(Step(r, Replaying(i + 1), Some(r.cache[i])))
      else Success(Step(r, Finished, None))
    case Recording =>
      if r.pos < |r.src.lines| then
        var line := StripLine(r.src.lines[r.pos]);
        Success(Step(r.(pos := r.pos + 1, cache := r.cache + [line]), Recording, Some(line)))
      else Success(Step(r.(complete := true), Finished, None))
    case Finished => Success(Step(r, Finished, None))
  }

  /** One pull keeps the reader state valid and the cursor in flight. */
  lemma PullValid(r: Reader, c: Cursor)
    requires Valid(r) && CursorFits(r, c)
    ensures Pull(r, c).Success? ==>
      Valid(Pull(r, c).value.reader) && CursorFits(Pull(r, c).value.reader, Pull(r, c).value.cursor)
  {
    if c.Unstarted? {
      if Begin(r).Success? {
        var (r1, c1) := Begin(r).value;
        assert Pull(r, c) == Pull(r1, c1);
        StartedPullValid(r1, c1);
      }
    } else {
      StartedPullValid(r, c);
    }
  }

  lemma StartedPullValid(r: Reader, c: Cursor)
    requires Valid(r) && CursorFits(r, c) && !c.Unstarted?
    ensures Pull(r, c).Success? &&
      Valid(Pull(r, c).value.reader) && CursorFits(Pull(r, c).value.reader, Pull(r, c).value.cursor)
  {
    if c.Recording? {
      RecordingPullValid(r);
    }
  }

  lemma RecordingPullValid(r: Reader)
    requires Valid(r) && CursorFits(r, Recording)
    ensures Pull(r, Recording).Success? &&
      Valid(Pull(r, Recording).value.reader) && CursorFits(Pull(r, Recording).value.reader, Pull(r, Recording).value.cursor)
  {
    var n := |r.src.lines|;
    var e := Expected(r.src);
    if r.pos < n {
      assert e[..r.pos + 1] == e[..r.pos] + [StripLine(r.src.lines[r.pos])];
    } else {
      assert e[..|r.cache|] == e;
    }
  }

  function Emitted(line: Option<string>): seq<string>
  {
    if line.Some? then [line.value] else []
  }

  /** `pulls` successive `next()` calls on one cursor; the lines yielded. */
  function Drive(r: Reader, c: Cursor, pulls: nat): Result<(Reader, Cursor, seq<string>)>
    decreases pulls
  {
    if pulls == 0 then Success((r, c, []))
    else
      var st :- Pull(r, c);
      var rest :- Drive(st.reader, st.cursor, pulls - 1);
      Success((rest.0, rest.1, Emitted(st.line) + rest.2))
  }

  /** A pass that its consumer pulls `pulls` times and then abandons (or
      that ends earlier because the source is exhausted). */
  function Pass(r: Reader, pulls: nat): Result<(Reader, seq<string>)>
  {
    var res :- Drive(r, Unstarted, pulls);
    Success((res.0, res.2))
  }

  /** A pass driven to exhaustion: one pull more than there are lines. */
  function FullPass(r: Reader): Result<(Reader, seq<string>)>
  {
    Pass(r, |r.src.lines| + 1)
  }

  function Min(a: nat, b: nat): nat
  {
    if a <= b then a else b
  }

  /** Driving one cursor keeps the reader state valid. */
  lemma {:induction false} DriveValid(r: Reader, c: Cursor, pulls: nat)
    requires Valid(r) && CursorFits(r, c)
    ensures Drive(r, c, pulls).Success? ==>
      Valid(Drive(r, c, pulls).value.0) && CursorFits(Drive(r, c, pulls).value.0, Drive(r, c, pulls).value.1)
    decreases pulls
  {
    if pulls > 0 {
      var st := Pull(r, c);
      PullValid(r, c);
      if st.Success? {
        DriveValid(st.value.reader, st.value.cursor, pulls - 1);
      }
    }
  }

  /** `Drive` unfolded by one pull. */
  lemma DriveStep(r: Reader, c: Cursor, pulls: nat, st: Step, rest: (Reader, Cursor, seq<string>))
    requires pulls > 0 && Pull(r, c) == Success(st)
    requires Drive(st.reader, st.cursor, pulls - 1) == Success(rest)
    ensures Drive(r, c, pulls) == Success((rest.0, rest.1, Emitted(st.line) + rest.2))
    ensures st.line.None? ==> Drive(r, c, pulls) == Success(rest)
    ensures st.line.Some? ==> Drive(r, c, pulls) == Success((rest.0, rest.1, [st.line.value] + rest.2))
  {
    assert st.line.None? ==> Emitted(st.line) + rest.2 == rest.2;
  }

  /** What `pulls` pulls of a cursor at line `i` of a reopened file
      produce: the reader unchanged, the next lines, and the cursor moved on
      (or finished once it has pulled past the last line). */
  function ReopenedOutcome(r: Reader, i: nat, pulls: nat): (Reader, Cursor, seq<string>)
    requires i <= |r.src.lines|
  {
    var n := |r.src.lines|;
    (r, if i + pulls <= n then Reopened(i + pulls) else Finished, Expected(r.src)[i..Min(i + pulls, n)])
  }

  /** A cursor on a freshly reopened file yields the next lines of the file
      and changes nothing in the reader. */
  lemma {:induction false} DriveReopened(r: Reader, i: nat, pulls: nat)
    requires Regular(r) && r.flavor == ReopenPerPass && i <= |r.src.lines|
    ensures Drive(r, Reopened(i), pulls) == Success((
      r,
      if i + pulls <= |r.src.lines| then Reopened(i + pulls) else Finished,
      Expected(r.src)[i..Min(i + pulls, |r.src.lines|)]))
    decreases pulls
  {
    var n := |r.src.lines|;
    if pulls > 0 {
      if i < n {
        DriveReopened(r, i + 1, pulls - 1);
        DriveReopenedStep(r, i, pulls);
      } else {
        DriveFinished(r, pulls - 1);
        DriveStep(r, Reopened(i), pulls, Step(r, Finished, None), (r, Finished, []));
        assert Min(i + pulls, n) == i && Expected(r.src)[i..i] == [];
      }
    } else {
      assert Min(i + pulls, n) == i && Expected(r.src)[i..i] == [];
    }
  }

  lemma DriveReopenedStep(r: Reader, i: nat, pulls: nat)
    requires Regular(r) && r.flavor == ReopenPerPass && i < |r.src.lines| && pulls > 0
    requires Drive(r, Reopened(i + 1), pulls - 1) == Success(ReopenedOutcome(r, i + 1, pulls - 1))
    ensures Drive(r, Reopened(i), pulls) == Success(ReopenedOutcome(r, i, pulls))
  {
    var st := Step(r, Reopened(i + 1), Some(Expected(r.src)[i]));
    var rest := ReopenedOutcome(r, i + 1, pulls - 1);
    PullReopened(r, i);
    DriveStep(r, Reopened(i), pulls, st, rest);
    ReopenedOutcomeStep(r, i, pulls);
  }

  lemma PullReopened(r: Reader, i: nat)
    requires Regular(r) && i < |r.src.lines|
    ensures Pull(r, Reopened(i)) == Success(Step(r, Reopened(i + 1), Some(Expected(r.src)[i])))
  {
    var line := StripLine(r.src.lines[i]);
    assert Expected(r.src)[i] == line;
    assert Pull(r, Reopened(i)) == Success(Step(r, Reopened(i + 1), Some(line)));
  }

  lemma ReopenedOutcomeStep(r: Reader, i: nat, pulls: nat)
    requires i < |r.src.lines| && pulls > 0
    ensures var rest := ReopenedOutcome(r, i + 1, pulls - 1);
      ReopenedOutcome(r, i, pulls) == (rest.0, rest.1, [Expected(r.src)[i]] + rest.2)
  {
    var n := |r.src.lines|;
    var e := Expected(r.src);
    assert [e[i]] + e[i + 1..Min(i + pulls, n)] == e[i..Min(i + pulls, n)];
  }

  /** What `pulls` pulls of a rewound cursor produce when the shared
      position is `r.pos`. */
  function RewoundOutcome(r: Reader, pulls: nat): (Reader, Cursor, seq<string>)
    requires r.pos <= |r.src.lines|
  {
    var n := |r.src.lines|;
    var stop := Min(r.pos + pulls, n);
    (r.(pos := stop), if r.pos + pulls <= n then Rewound else Finished, Expected(r.src)[r.pos..stop])
  }

  /** A cursor on the rewound shared file yields the next lines and advances
      the shared position. */
  lemma {:induction false} DriveRewound(r: Reader, pulls: nat)
    requires Regular(r) && r.flavor == RewindShared && r.pos <= |r.src.lines|
    ensures Drive(r, Rewound, pulls) == Success(RewoundOutcome(r, pulls))
    decreases pulls
  {
    var n := |r.src.lines|;
    var p := r.pos;
    if pulls > 0 {
      if p < n {
        var r1 := r.(pos := p + 1);
        DriveRewound(r1, pulls - 1);
        DriveRewoundStep(r, pulls);
      } else {
        DriveFinished(r, pulls - 1);
        DriveStep(r, Rewound, pulls, Step(r, Finished, None), (r, Finished, []));
        assert Min(p + pulls, n) == p && Expected(r.src)[p..p] == [];
        assert r.(pos := p) == r;
      }
    } else {
      assert Min(p + pulls, n) == p && Expected(r.src)[p..p] == [];
      assert r.(pos := p) == r;
    }
  }

  lemma DriveRewoundStep(r: Reader, pulls: nat)
    requires Regular(r) && r.flavor == RewindShared && r.pos < |r.src.lines| && pulls > 0
    requires Drive(r.(pos := r.pos + 1), Rewound, pulls - 1) == Success(RewoundOutcome(r.(pos := r.pos + 1), pulls - 1))
    ensures Drive(r, Rewound, pulls) == Success(RewoundOutcome(r, pulls))
  {
    var p := r.pos;
    var r1 := r.(pos := p + 1);
    var st := Step(r1, Rewound, Some(Expected(r.src)[p]));
    var rest := RewoundOutcome(r1, pulls - 1);
    PullRewound(r);
    DriveStep(r, Rewound, pulls, st, rest);
    RewoundOutcomeStep(r, pulls);
  }

  lemma PullRewound(r: Reader)
    requires Regular(r) && r.flavor == RewindShared && r.pos < |r.src.lines|
    ensures Pull(r, Rewound) == Success(Step(r.(pos := r.pos + 1), Rewound, Some(Expected(r.src)[r.pos])))
  {
    var line := StripLine(r.src.lines[r.pos]);
    assert Expected(r.src)[r.pos] == line;
    assert Pull(r, Rewound) == Success(Step(r.(pos := r.pos + 1), Rewound, Some(line)));
  }

  lemma RewoundOutcomeStep(r: Reader, pulls: nat)
    requires r.pos < |r.src.lines| && pulls > 0
    ensures var rest := RewoundOutcome(r.(pos := r.pos + 1), pulls - 1);
      RewoundOutcome(r, pulls) == (rest.0, rest.1, [Expected(r.src)[r.pos]] + rest.2)
  {
    var n := |r.src.lines|;
    var e := Expected(r.src);
    var p := r.pos;
    var stop := Min(p + pulls, n);
    var r1 := r.(pos := p + 1);
    assert r1.(pos := stop) == r.(pos := stop);
    assert (p + 1) + (pulls - 1) == p + pulls;
    SliceCons(e, p, stop);
  }

  /** A slice is its first element followed by the rest. */
  lemma SliceCons<T>(e: seq<T>, p: nat, q: nat)
    requires p < q <= |e|
    ensures [e[p]] + e[p + 1..q] == e[p..q]
  {
  }

  /** An exhausted generator yields nothing and changes nothing. */
  lemma {:induction false} DriveFinished(r: Reader, pulls: nat)
    ensures Drive(r, Finished, pulls) == Success((r, Finished, []))
    decreases pulls
  {
    if pulls > 0 {
      DriveFinished(r, pulls - 1);
      DriveStep(r, Finished, pulls, Step(r, Finished, None), (r, Finished, []));
    }
  }

  /** Replaying a complete cache yields its next lines and changes nothing. */
  lemma {:induction false} DriveReplaying(r: Reader, i: nat, pulls: nat)
    requires i <= |r.cache|
    ensures Drive(r, Replaying(i), pulls) == Success((
      r,
      if i + pulls <= |r.cache| then Replaying(i + pulls) else Finished,
      r.cache[i..Min(i + pulls, |r.cache|)]))
    decreases pulls
  {
    var n := |r.cache|;
    if pulls > 0 {
      if i < n {
        var st := Step(r, Replaying(i + 1), Some(r.cache[i]));
        DriveReplaying(r, i + 1, pulls - 1);
        var rest := (r, if i + pulls <= n then Replaying(i + pulls) else Finished, r.cache[i + 1..Min(i + pulls, n)]);
        DriveStep(r, Replaying(i), pulls, st, rest);
        assert [r.cache[i]] + r.cache[i + 1..Min(i + pulls, n)] == r.cache[i..Min(i + pulls, n)];
      } else {
        DriveFinished(r, pulls - 1);
        DriveStep(r, Replaying(i), pulls, Step(r, Finished, None), (r, Finished, []));
      }
    } else {
      assert Min(i + pulls, n) == i && r.cache[i..i] == [];
    }
  }

  /** The reader after the recording cursor yields one more line. */
  function RecordOne(r: Reader): Reader
    requires |r.cache| < |r.src.lines|
  {
    r.(pos := |r.cache| + 1, cache := r.cache + [Expected(r.src)[|r.cache|]])
  }

  /** Recording one more line keeps a recording reader valid and still
      recording. */
  lemma RecordOneValid(r: Reader)
    requires Valid(r) && !Regular(r) && r.accessed && !r.complete && |r.cache| < |r.src.lines|
    ensures var r1 := RecordOne(r);
      Valid(r1) && !Regular(r1) && r1.accessed && !r1.complete
      && |r1.cache| == |r.cache| + 1 && r1.src == r.src
  {
    var e := Expected(r.src);
    var m := |r.cache|;
    assert RecordOne(r).cache == e[..m + 1];
  }

  /** What `pulls` pulls of the recording cursor produce: the next lines
      of the source, appended to the cache; the cache is complete once the
      pulls go past the last line. */
  function RecordingOutcome(r: Reader, pulls: nat): (Reader, Cursor, seq<string>)
    requires |r.cache| <= |r.src.lines|
  {
    var n := |r.src.lines|;
    var m := |r.cache|;
    var stop := Min(m + pulls, n);
    var ys := Expected(r.src)[m..stop];
    (r.(cache := r.cache + ys, pos := stop, complete := m + pulls > n),
     if m + pulls <= n then Recording else Finished,
     ys)
  }

  /** The recording pass appends each line it yields to the cache; the pull
      after the last line marks the cache complete. */
  lemma {:induction false} DriveRecording(r: Reader, pulls: nat)
    requires Valid(r) && !Regular(r) && r.accessed && !r.complete
    ensures Drive(r, Recording, pulls) == Success(RecordingOutcome(r, pulls))
    decreases pulls
  {
    var m := |r.cache|;
    if pulls > 0 {
      if m < |r.src.lines| {
        RecordOneValid(r);
        DriveRecording(RecordOne(r), pulls - 1);
        DriveRecordingStep(r, pulls);
      } else {
        DriveRecordingEnd(r, pulls);
      }
    } else {
      DriveRecordingIdle(r);
    }
  }

  /** No pull of the recording cursor changes nothing. */
  lemma DriveRecordingIdle(r: Reader)
    requires Valid(r) && !Regular(r) && r.accessed && !r.complete
    ensures Drive(r, Recording, 0) == Success(RecordingOutcome(r, 0))
  {
    var m := |r.cache|;
    assert Expected(r.src)[m..m] == [] && r.cache + [] == r.cache;
    assert r.(cache := r.cache, pos := m, complete := false) == r;
  }

  /** A pull past the last line marks the cache complete and finishes. */
  lemma DriveRecordingEnd(r: Reader, pulls: nat)
    requires Valid(r) && !Regular(r) && r.accessed && !r.complete
    requires |r.cache| == |r.src.lines| && pulls > 0
    ensures Drive(r, Recording, pulls) == Success(RecordingOutcome(r, pulls))
  {
    var m := |r.cache|;
    assert Expected(r.src)[m..m] == [] && r.cache + [] == r.cache;
    var r1 := r.(complete := true);
    assert Pull(r, Recording) == Success(Step(r1, Finished, None));
    DriveFinished(r1, pulls - 1);
    DriveStep(r, Recording, pulls, Step(r1, Finished, None), (r1, Finished, []));
  }

  lemma DriveRecordingStep(r: Reader, pulls: nat)
    requires Valid(r) && !Regular(r) && r.accessed && !r.complete
    requires |r.cache| < |r.src.lines| && pulls > 0
    requires Drive(RecordOne(r), Recording, pulls - 1) == Success(RecordingOutcome(RecordOne(r), pulls - 1))
    ensures Drive(r, Recording, pulls) == Success(RecordingOutcome(r, pulls))
  {
    var m := |r.cache|;
    var e := Expected(r.src);
    var r1 := RecordOne(r);
    var st := Step(r1, Recording, Some(e[m]));
    assert Pull(r, Recording) == Success(st);
    var rest := RecordingOutcome(r1, pulls - 1);
    RecordingOutcomeStep(r, pulls);
    DriveStep(r, Recording, pulls, st, rest);
  }

  /** `RecordingOutcome` unfolded by one recorded line. */
  lemma RecordingOutcomeStep(r: Reader, pulls: nat)
    requires |r.cache| < |r.src.lines| && pulls > 0
    ensures var rest := RecordingOutcome(RecordOne(r), pulls - 1);
      RecordingOutcome(r, pulls) == (rest.0, rest.1, [Expected(r.src)[|r.cache|]] + rest.2)
  {
    var n := |r.src.lines|;
    var m := |r.cache|;
    var e := Expected(r.src);
    var stop := Min(m + pulls, n);
    var r1 := RecordOne(r);
    var rest := RecordingOutcome(r1, pulls - 1);
    var whole := RecordingOutcome(r, pulls);
    assert |r1.cache| == m + 1 && r1.src == r.src;
    assert Min(|r1.cache| + (pulls - 1), n) == stop;
    ExtendCache(r.cache, e, m, stop);
    RecordTwice(r, r1, r.cache + e[m..stop], stop, m + pulls > n);
  }

  /** Overwriting the cache, position and completion of a reader forgets
      how they were set before. */
  lemma RecordTwice(r: Reader, r1: Reader, cache: seq<string>, pos: nat, complete: bool)
    requires r1 == r.(pos := |r.cache| + 1, cache := r1.cache)
    ensures r1.(cache := cache, pos := pos, complete := complete) == r.(cache := cache, pos := pos, complete := complete)
  {
  }

  /** Recording element `m` of `e` and then the rest of `e[m..stop]`
      appends `e[m..stop]`. */
  lemma ExtendCache<T>(cache: seq<T>, e: seq<T>, m: nat, stop: nat)
    requires m < stop <= |e|
    ensures [e[m]] + e[m + 1..stop] == e[m..stop]
    ensures (cache + [e[m]]) + e[m + 1..stop] == cache + e[m..stop]
  {
    SliceCons(e, m, stop);
  }

  // ---------------------------------------------------------------------
  // The promises of the reader, one pass at a time

  /** A pass that is never pulled changes nothing: the generator body has
      not run. */
  lemma UnpulledPassIsInert(r: Reader)
    ensures Pass(r, 0) == Success((r, []))
  {
  }

  /** types.py:67-71. A seekable file (not standard input) is reopened for
      every pass: a full pass yields every line with its trailing '\n' and
      then '\r' characters removed, and leaves the reader as it was, so any
      number of passes yield the same lines. */
  lemma RegularPassReopens(r: Reader)
    requires Valid(r) && Regular(r) && r.flavor == ReopenPerPass
    ensures FullPass(r) == Success((r, Expected(r.src)))
    ensures forall i :: 0 <= i < |Expected(r.src)| ==> Expected(r.src)[i] == StripLine(r.src.lines[i])
  {
    DriveReopened(r, 0, |r.src.lines| + 1);
    assert Expected(r.src)[0..|r.src.lines|] == Expected(r.src);
  }

  /** common_types.py:22-26. A seekable file object is rewound to position
      0 at the start of every pass, and a full pass yields all its lines. */
  lemma RegularPassRewinds(r: Reader)
    requires Valid(r) && Regular(r) && r.flavor == RewindShared
    ensures FullPass(r) == Success((r.(pos := |r.src.lines|), Expected(r.src)))
  {
    DriveRewound(r.(pos := 0), |r.src.lines| + 1);
    assert Expected(r.src)[0..|r.src.lines|] == Expected(r.src);
    assert r.(pos := 0).(pos := |r.src.lines|) == r.(pos := |r.src.lines|);
  }

  /** types.py:75-81 and common_types.py:30-36. The first pass over an
      unseekable source yields the first lines, records exactly what it
      yielded, sets `file_accessed`, and completes the cache only once it
      has been pulled past the last line. */
  lemma FirstPassRecords(r: Reader, pulls: nat)
    requires Valid(r) && !Regular(r) && !r.accessed && pulls >= 1
    ensures Pass(r, pulls).Success?
    ensures var (r', lines) := Pass(r, pulls).value;
      && lines == Expected(r.src)[..Min(pulls, |r.src.lines|)]
      && r'.cache == lines
      && r'.accessed
      && (r'.complete <==> pulls > |r.src.lines|)
      && r'.memo == r.memo && r'.src == r.src && r'.flavor == r.flavor
      && Valid(r')
  {
    var r1 := r.(accessed := true);
    assert r.cache == [];
    DriveRecording(r1, pulls);
    DriveValid(r1, Recording, pulls);
  }

  /** After an exhausting first pass the cache equals the yielded lines. */
  lemma FirstFullPassCompletes(r: Reader)
    requires Valid(r) && !Regular(r) && !r.accessed
    ensures FullPass(r).Success?
    ensures FullPass(r).value.1 == Expected(r.src)
    ensures FullPass(r).value.0.cache == Expected(r.src) && FullPass(r).value.0.complete
  {
    FirstPassRecords(r, |r.src.lines| + 1);
    assert Expected(r.src)[..|r.src.lines|] == Expected(r.src);
  }

  /** types.py:72-74 and common_types.py:27-29. Once the cache is complete
      every pass replays it and changes nothing, as often as requested. */
  lemma CompletePassReplays(r: Reader, pulls: nat)
    requires Valid(r) && !Regular(r) && r.complete
    ensures Pass(r, pulls) == Success((r, r.cache[..Min(pulls, |r.cache|)]))
    ensures FullPass(r) == Success((r, r.cache))
  {
    if pulls > 0 {
      DriveReplaying(r, 0, pulls);
    }
    DriveReplaying(r, 0, |r.src.lines| + 1);
    assert r.cache[0..|r.cache|] == r.cache;
  }

  /** types.py:82-84 and common_types.py:37-39. On an unseekable source, a
      pass that is pulled at all after the first pass started but before it
      completed raises. */
  lemma EarlySecondPassFails(r: Reader, pulls: nat)
    requires !Regular(r) && r.accessed && !r.complete && pulls >= 1
    ensures Pass(r, pulls) == Failure(UsageViolation)
  {
  }

  /** The same, from a fresh reader: abandoning the first pass after any
      number of lines short of exhaustion makes every later pass fail. */
  lemma {:induction false} AbandonedFirstPassBlocksLaterPasses(r: Reader, first: nat, second: nat)
    requires Valid(r) && !Regular(r) && !r.accessed
    requires 1 <= first <= |r.src.lines| && second >= 1
    ensures Pass(r, first).Success?
    ensures Pass(Pass(r, first).value.0, second) == Failure(UsageViolation)
  {
    FirstPassRecords(r, first);
    EarlySecondPassFails(Pass(r, first).value.0, second);
  }

  /** Any pass after an exhausting first pass replays the recording. */
  lemma {:induction false} ReplayAfterRecording(r: Reader, pulls: nat)
    requires Valid(r) && !Regular(r) && !r.accessed
    ensures FullPass(r).Success?
    ensures Pass(FullPass(r).value.0, pulls)
         == Success((FullPass(r).value.0, Expected(r.src)[..Min(pulls, |r.src.lines|)]))
  {
    FirstFullPassCompletes(r);
    FirstPassRecords(r, |r.src.lines| + 1);
    CompletePassReplays(FullPass(r).value.0, pulls);
  }

  /** A `CachingFileReader` that can be read again, because its file is
      regular or its recording is complete, yields the first lines of the
      file to a pass of any length and lets another pass begin. */
  lemma ReadablePass(r: Reader, pulls: nat)
    requires Valid(r) && r.flavor == ReopenPerPass && (Regular(r) || r.complete)
    ensures Pass(r, pulls) == Success((r, Expected(r.src)[..Min(pulls, |r.src.lines|)]))
    ensures Pull(r, Unstarted).Success?
  {
    if Regular(r) {
      DriveReopened(r, 0, pulls);
    } else {
      CompletePassReplays(r, pulls);
    }
  }

  // ---------------------------------------------------------------------
  // Length and ensure_loaded (types.py only)

  /** `__len__`: counts lines by one full pass unless already memoized. */
  function Len(r: Reader): (res: Result<(Reader, nat)>)
  {
    if r.memo.Some? then Success((r, r.memo.value))
    else
      var (r1, lines) :- FullPass(r);
      Success((r1.(memo := Some(|lines|)), |lines|))
  }

  /** A full pass over a valid reader yields the expected lines whenever it
      does not fail, and fails exactly when a recording is in flight. */
  lemma FullPassOutcome(r: Reader)
    requires Valid(r)
    ensures FullPass(r).Failure? <==> !Regular(r) && r.accessed && !r.complete
    ensures FullPass(r).Success? ==>
      && FullPass(r).value.1 == Expected(r.src)
      && Valid(FullPass(r).value.0)
      && (!Regular(r) ==> FullPass(r).value.0.complete)
      && FullPass(r).value.0.memo == r.memo
      && FullPass(r).value.0.src == r.src && FullPass(r).value.0.flavor == r.flavor
  {
    if Regular(r) {
      if r.flavor == ReopenPerPass { RegularPassReopens(r); }
      else { RegularPassRewinds(r); }
    } else if r.complete {
      CompletePassReplays(r, 0);
    } else if !r.accessed {
      FirstFullPassCompletes(r);
      FirstPassRecords(r, |r.src.lines| + 1);
    }
  }

  /** types.py:87-89. `len` is the number of lines, memoized after the first
      call, and fails only while a recording pass is in flight. */
  lemma LenCountsOnceAndMemoizes(r: Reader)
    requires Valid(r)
    ensures Len(r).Failure? <==> r.memo.None? && !Regular(r) && r.accessed && !r.complete
    ensures Len(r).Success? ==>
      var (r', n) := Len(r).value;
      && n == |r.src.lines|
      && r'.memo == Some(n)
      && Valid(r')
      && Len(r') == Success((r', n))
  {
    FullPassOutcome(r);
  }

  /** `ensure_loaded`. */
  function EnsureLoaded(r: Reader): Result<Reader>
  {
    var (r1, _) :- Len(r);
    Success(r1)
  }

  /** types.py:85-86. `ensure_loaded` is idempotent and leaves an
      unseekable reader with a complete cache. */
  lemma EnsureLoadedIdempotent(r: Reader)
    requires Valid(r)
    ensures EnsureLoaded(r).Success? ==>
      && Valid(EnsureLoaded(r).value)
      && EnsureLoaded(EnsureLoaded(r).value) == EnsureLoaded(r)
      && (!Regular(r) ==> EnsureLoaded(r).value.complete)
  {
    LenCountsOnceAndMemoizes(r);
    FullPassOutcome(r);
  }

  // ---------------------------------------------------------------------
  // Two passes pulled in lock step, as `zip(column a, column b)` does

  /** `rounds` rounds of `zip`: pull the first cursor, then the second. */
  function ZipDrive(r: Reader, a: Cursor, b: Cursor, rounds: nat): Result<(Reader, seq<(Option<string>, Option<string>)>)>
    decreases rounds
  {
    if rounds == 0 then Success((r, []))
    else
      var sa :- Pull(r, a);
      var sb :- Pull(sa.reader, b);
      var rest :- ZipDrive(sb.reader, sa.cursor, sb.cursor, rounds - 1);
      Success((rest.0, [(sa.line, sb.line)] + rest.1))
  }

  /** Zipping two passes over a fresh unseekable source with at least one
      line fails: the second pass starts while the first is recording. This
      is why psq_count and book call `ensure_loaded` first. */
  lemma ZipBeforeLoadingFails(r: Reader, rounds: nat)
    requires Valid(r) && !Regular(r) && !r.accessed && |r.src.lines| >= 1 && rounds >= 1
    ensures ZipDrive(r, Unstarted, Unstarted, rounds) == Failure(UsageViolation)
  {
  }

  /** After `ensure_loaded` the same zip succeeds and both passes see the
      recorded lines in step. */
  lemma {:induction false} ZipAfterLoading(r: Reader, i: nat, j: nat, rounds: nat)
    requires !Regular(r) && r.complete && i == j <= |r.cache|
    ensures ZipDrive(r, Replaying(i), Replaying(j), rounds).Success?
    ensures var zs := ZipDrive(r, Replaying(i), Replaying(j), rounds).value.1;
      forall k :: 0 <= k < |zs| ==> zs[k].0 == zs[k].1
    decreases rounds
  {
    if rounds > 0 {
      if i < |r.cache| {
        ZipAfterLoading(r, i + 1, j + 1, rounds - 1);
        var line := Some(r.cache[i]);
        ZipRound(r, Replaying(i), Replaying(j), rounds, Step(r, Replaying(i + 1), line), Step(r, Replaying(j + 1), line));
      } else {
        ZipFinished(r, rounds - 1);
      }
    }
  }

  /** One round of `zip` whose two pulls succeed. */
  lemma ZipRound(r: Reader, a: Cursor, b: Cursor, rounds: nat, sa: Step, sb: Step)
    requires rounds > 0 && Pull(r, a) == Success(sa) && Pull(sa.reader, b) == Success(sb)
    ensures var rest := ZipDrive(sb.reader, sa.cursor, sb.cursor, rounds - 1);
      ZipDrive(r, a, b, rounds) == if rest.Failure? then Failure(rest.error) else Success((rest.value.0, [(sa.line, sb.line)] + rest.value.1))
  {
  }

  lemma {:induction false} ZipFinished(r: Reader, rounds: nat)
    ensures ZipDrive(r, Finished, Finished, rounds).Success?
    ensures forall k :: 0 <= k < |ZipDrive(r, Finished, Finished, rounds).value.1| ==>
      ZipDrive(r, Finished, Finished, rounds).value.1[k] == (None, None)
    decreases rounds
  {
    if rounds > 0 {
      ZipFinished(r, rounds - 1);
    }
  }

  /** A `Corpus` over a seekable file shares one file object between its
      passes: a second pass that starts while the first is in flight rewinds
      the first one too, so the first pass's next line is not the one after
      the line it yielded last. */
  lemma SharedRewindInterferes()
    ensures var r := NewReader(RewindShared, Source("corpus.tsv", true, ["h\n", "a\n", "b\n"]));
      var s1 := Pull(r, Unstarted).value;
      var s2 := Pull(s1.reader, Unstarted).value;
      var s3 := Pull(s2.reader, s1.cursor).value;
      s1.line == Some("h") && s2.line == Some("h") && s3.line == Some("a")
      && Pull(s3.reader, s2.cursor).value.line == Some("b")
  {
    var r := NewReader(RewindShared, Source("corpus.tsv", true, ["h\n", "a\n", "b\n"]));
    assert StripLine("h\n") == "h" by { assert "h\n"[..1] == "h"; }
    assert StripLine("a\n") == "a" by { assert "a\n"[..1] == "a"; }
    assert StripLine("b\n") == "b" by { assert "b\n"[..1] == "b"; }
  }
}

=== FILE: show.dfy ===
/** `ttm show book`: the ASCII rendering of the clusters of one book. The
    pages of the book are mapped to their clusters, grouped into lines of
    `res` pages, and each cluster's share of a line becomes a glyph. The
    subcommand picks the books by regular expression and orders the
    clusters by frequency. */
module Show {
  import opened Wrappers
  import opened Text
  import Decimal
  import Sorting
  import Eval
  import Comp

  // ---------------------------------------------------------------------
  // Document ids

  /** `b, p = doc.split(':'); p = int(p)`: the unpacking needs exactly two
      fields, and the page must be an integer. */
  function ParseId(doc: string): (r: Result<(string, int)>)
    ensures r.Failure? ==> r.error == ValueError
  {
    var parts := Split(doc, ':');
    if |parts| != 2 then Failure(ValueError)
    else match Decimal.ParseInt(parts[1])
      case None => Failure(ValueError)
      case Some(p) => Success((parts[0], p))
  }

  /** The id of page `p` of book `b`, as `cat` writes it. */
  function FormatId(b: string, p: int): string
  {
    b + ":" + Decimal.ShowInt(p)
  }

  /** A rendered integer holds no colon. */
  lemma NoColonInNumber(p: int)
    ensures ':' !in Decimal.ShowInt(p)
  {
    var s := Decimal.ShowInt(p);
    forall i | 0 <= i < |s| ensures s[i] != ':' {
      if p >= 0 {
        assert Decimal.IsDigit(s[i]);
      } else if i > 0 {
        var t := Decimal.Show(-p);
        assert s == "-" + t;
        assert s[i] == t[i - 1] && Decimal.IsDigit(t[i - 1]);
      }
    }
  }

  /** show.py:11. An id written for a colon-free book name reads back as
      that book and page. */
  lemma ParseFormatId(b: string, p: int)
    requires ':' !in b
    ensures ParseId(FormatId(b, p)) == Success((b, p))
  {
    var n := Decimal.ShowInt(p);
    NoColonInNumber(p);
    SplitJoin([b, n], ':');
    assert Join([b, n], ':') == FormatId(b, p) by {
      assert [b, n][1..] == [n];
    }
    Decimal.ParseShowInt(p);
  }

  /** show.py:11. An id without exactly one colon fails the unpacking. */
  lemma ParseIdColons(doc: string)
    ensures ParseId(doc).Success? ==> Occurrences(doc, ':') == 1
  {
  }

  // ---------------------------------------------------------------------
  // The page map of one book

  /** Row `i` is page `p` of book `b`. */
  predicate IsPage(ids: seq<string>, i: nat, b: string, p: int)
    requires i < |ids|
  {
    ParseId(ids[i]).Success? && ParseId(ids[i]).value == (b, p)
  }

  /** The loop of show.py:10-13 over the zipped id and cluster columns:
      every id is parsed, even those of other books, and a later row of the
      same page overwrites an earlier one. */
  function PageMap(ids: seq<string>, clusters: seq<string>, b: string): (r: Result<map<int, string>>)
    ensures r.Success? <==> forall i :: 0 <= i < Eval.Min(|ids|, |clusters|) ==> ParseId(ids[i]).Success?
    ensures r.Failure? ==> r.error == ValueError
    decreases |ids|
  {
    var n := Eval.Min(|ids|, |clusters|);
    if n == 0 then Success(map[])
    else
      assert ids[..n - 1][..Eval.Min(n - 1, n - 1)] == ids[..n - 1];
      var m :- PageMap(ids[..n - 1], clusters[..n - 1], b);
      var id :- ParseId(ids[n - 1]);
      if id.0 != b then Success(m) else Success(m[id.1 := clusters[n - 1]])
  }

  /** `IsPage` depends on the id column only up to row `i`. */
  lemma IsPagePrefix(ids: seq<string>, n: nat, i: nat, b: string, p: int)
    requires i < n <= |ids|
    ensures IsPage(ids[..n], i, b, p) == IsPage(ids, i, b, p)
  {
    assert ids[..n][i] == ids[i];
  }

  /** One step of the page map: the map of all rows but the last, updated
      by the last row when it belongs to the book. */
  lemma PageMapStep(ids: seq<string>, clusters: seq<string>, b: string)
    requires PageMap(ids, clusters, b).Success?
    requires Eval.Min(|ids|, |clusters|) > 0
    ensures var n := Eval.Min(|ids|, |clusters|);
      && PageMap(ids[..n - 1], clusters[..n - 1], b).Success?
      && ParseId(ids[n - 1]).Success?
      && var m' := PageMap(ids[..n - 1], clusters[..n - 1], b).value;
      && var id := ParseId(ids[n - 1]).value;
      PageMap(ids, clusters, b).value == if id.0 != b then m' else m'[id.1 := clusters[n - 1]]
  {
  }

  /** show.py:10-13. The keys are exactly the pages of book `b`. */
  lemma {:induction false} PageMapPages(ids: seq<string>, clusters: seq<string>, b: string)
    requires PageMap(ids, clusters, b).Success?
    ensures var m := PageMap(ids, clusters, b).value;
      forall p :: p in m <==> exists i :: 0 <= i < Eval.Min(|ids|, |clusters|) && IsPage(ids, i, b, p)
    decreases |ids|
  {
    var n := Eval.Min(|ids|, |clusters|);
    if n > 0 {
      var ids', clusters' := ids[..n - 1], clusters[..n - 1];
      PageMapStep(ids, clusters, b);
      PageMapPages(ids', clusters', b);
      var m := PageMap(ids, clusters, b).value;
      var m' := PageMap(ids', clusters', b).value;
      var id := ParseId(ids[n - 1]).value;
      assert Eval.Min(|ids'|, |clusters'|) == n - 1;
      forall p ensures p in m <==> exists i :: 0 <= i < n && IsPage(ids, i, b, p) {
        PagesStep(ids, ids', n, b, m', m, id, clusters[n - 1], p);
      }
    }
  }

  /** One row's step of PageMapPages for a single page `p`, over the maps
      before and after the row. */
  lemma PagesStep(ids: seq<string>, ids': seq<string>, n: nat, b: string, m': map<int, string>, m: map<int, string>, id: (string, int), c: string, p: int)
    requires 0 < n <= |ids| && ids' == ids[..n - 1]
    requires m == if id.0 != b then m' else m'[id.1 := c]
    requires ParseId(ids[n - 1]) == Success(id)
    requires p in m' <==> exists i :: 0 <= i < n - 1 && IsPage(ids', i, b, p)
    ensures p in m <==> exists i :: 0 <= i < n && IsPage(ids, i, b, p)
  {
    UpdatedKeys(m', m, id, b, c, p);
    assert IsPage(ids, n - 1, b, p) <==> id == (b, p);
    if exists i :: 0 <= i < n && IsPage(ids, i, b, p) {
      var i :| 0 <= i < n && IsPage(ids, i, b, p);
      if i < n - 1 {
        IsPagePrefix(ids, n - 1, i, b, p);
      }
    }
    if p in m && id != (b, p) {
      var i :| 0 <= i < n - 1 && IsPage(ids', i, b, p);
      IsPagePrefix(ids, n - 1, i, b, p);
    }
  }

  /** The keys after one row: the earlier keys, plus the row's page when
      the row belongs to the book. */
  lemma UpdatedKeys(m': map<int, string>, m: map<int, string>, id: (string, int), b: string, c: string, p: int)
    requires m == if id.0 != b then m' else m'[id.1 := c]
    ensures p in m <==> p in m' || id == (b, p)
  {
  }

  /** show.py:13. A page maps to the cluster of the last row naming it. */
  lemma {:induction false} PageMapLastWins(ids: seq<string>, clusters: seq<string>, b: string, i: nat, p: int)
    requires PageMap(ids, clusters, b).Success?
    requires i < Eval.Min(|ids|, |clusters|) && IsPage(ids, i, b, p)
    requires forall j :: i < j < Eval.Min(|ids|, |clusters|) ==> !IsPage(ids, j, b, p)
    ensures p in PageMap(ids, clusters, b).value
    ensures PageMap(ids, clusters, b).value[p] == clusters[i]
    decreases |ids|
  {
    var n := Eval.Min(|ids|, |clusters|);
    PageMapStep(ids, clusters, b);
    if i < n - 1 {
      var ids', clusters' := ids[..n - 1], clusters[..n - 1];
      IsPagePrefix(ids, n - 1, i, b, p);
      forall j | i < j < n - 1 ensures !IsPage(ids', j, b, p) {
        IsPagePrefix(ids, n - 1, j, b, p);
      }
      PageMapLastWins(ids', clusters', b, i, p);
      assert !IsPage(ids, n - 1, b, p);
    }
  }

  // ---------------------------------------------------------------------
  // Pages in ascending order

  /** A finite set of integers has a least element. */
  lemma {:induction false} LeastExists(s: set<int>)
    requires s != {}
    ensures exists m :: m in s && forall x :: x in s ==> m <= x
    decreases |s|
  {
    assert exists y :: y in s by {
      if forall y :: y !in s {
        assert false;
      }
    }
    var y :| y in s;
    if s != {y} {
      LeastExists(s - {y});
      var m :| m in s - {y} && forall x :: x in s - {y} ==> m <= x;
      var least := if y < m then y else m;
      forall x | x in s ensures least <= x {
        if x != y {
          assert x in s - {y};
        }
      }
    } else {
      assert forall x :: x in s ==> y <= x;
    }
  }

  /** The least element of a finite non-empty set of integers. */
  function Least(s: set<int>): (m: int)
    requires s != {}
    ensures m in s && forall x :: x in s ==> m <= x
  {
    LeastExists(s);
    var m :| m in s && forall x :: x in s ==> m <= x;
    m
  }

  /** `sorted(page_clusters.keys())`. */
  function SortedPages(s: set<int>): (r: seq<int>)
    ensures forall p :: p in r <==> p in s
    ensures forall i, j :: 0 <= i < j < |r| ==> r[i] < r[j]
    ensures |r| == |s|
    decreases |s|
  {
    if s == {} then []
    else
      var m := Least(s);
      var rest := SortedPages(s - {m});
      assert forall i :: 0 <= i < |rest| ==> m < rest[i] by {
        forall i | 0 <= i < |rest| ensures m < rest[i] {
          assert rest[i] in s - {m};
        }
      }
      [m] + rest
  }

  // ---------------------------------------------------------------------
  // Chunks of `res` pages

  /** The pages popped by each round of the `while pages` loop:
      `min(len(pages), res)` of them at a time. */
  function Chunks(pages: seq<int>, res: nat): (r: seq<seq<int>>)
    requires res >= 1
    ensures forall k :: 0 <= k < |r| ==> 1 <= |r[k]| <= res
    ensures forall k :: 0 <= k < |r| - 1 ==> |r[k]| == res
    decreases |pages|
  {
    if |pages| == 0 then []
    else
      var n := Eval.Min(res, |pages|);
      [pages[..n]] + Chunks(pages[n..], res)
  }

  function Flatten(chunks: seq<seq<int>>): seq<int>
  {
    if |chunks| == 0 then [] else chunks[0] + Flatten(chunks[1..])
  }

  /** show.py:21-28. The chunks hold every page once, in the given order. */
  lemma {:induction false} ChunksFlatten(pages: seq<int>, res: nat)
    requires res >= 1
    ensures Flatten(Chunks(pages, res)) == pages
    decreases |pages|
  {
    if |pages| > 0 {
      var n := Eval.Min(res, |pages|);
      ChunksFlatten(pages[n..], res);
      assert Chunks(pages, res)[1..] == Chunks(pages[n..], res);
      assert pages[..n] + pages[n..] == pages;
    }
  }

  /** show.py:21-28. With `res >= 1` there are ceil(pages / res) chunks:
      enough to hold every page, and one fewer would not be. */
  lemma {:induction false} ChunksCount(pages: seq<int>, res: nat)
    requires res >= 1
    ensures var c := |Chunks(pages, res)|;
      && (c == 0 <==> |pages| == 0)
      && |pages| <= c * res
      && (c > 0 ==> (c - 1) * res < |pages|)
    decreases |pages|
  {
    if |pages| > 0 {
      var n := Eval.Min(res, |pages|);
      ChunksCount(pages[n..], res);
      var c' := |Chunks(pages[n..], res)|;
      assert |Chunks(pages, res)| == c' + 1;
      assert (c' + 1) * res == c' * res + res;
      if c' > 0 {
        assert c' * res == (c' - 1) * res + res;
      }
    }
  }

  // ---------------------------------------------------------------------
  // Glyphs

  /** The glyph of show.py:31-37 as a level from 0 (blank) to 6 (`+++`):
      `count/res == 0`, then `count/res <= k/6` for k = 1..5, compared
      exactly as `6 * count <= k * res`. */
  function GlyphLevel(count: nat, res: nat): (level: nat)
    requires res >= 1
    ensures level <= 6
  {
    if count == 0 then 0
    else if 6 * count <= res then 1
    else if 6 * count <= 2 * res then 2
    else if 6 * count <= 3 * res then 3
    else if 6 * count <= 4 * res then 4
    else if 6 * count <= 5 * res then 5
    else 6
  }

  /** The glyphs, blank first. */
  const Glyphs: seq<string> := ["   ", " - ", " + ", "-+ ", "-+-", "++-", "+++"]

  /** show.py:30-37. The level is the least k below 6 with
      `count / res <= k / 6`, and 6 when there is none. */
  lemma GlyphLevelIsLeast(count: nat, res: nat)
    requires res >= 1
    ensures var level := GlyphLevel(count, res);
      && (level < 6 ==> 6 * count <= level * res)
      && (forall k :: 0 <= k < level ==> 6 * count > k * res)
  {
  }

  /** show.py:30-37. More pages of a cluster never give a lighter glyph; no
      page gives a blank and a full line gives `+++`. */
  lemma GlyphMonotone(c1: nat, c2: nat, res: nat)
    requires res >= 1 && c1 <= c2
    ensures GlyphLevel(c1, res) <= GlyphLevel(c2, res)
    ensures GlyphLevel(0, res) == 0 && GlyphLevel(res, res) == 6
  {
    GlyphLevelIsLeast(c1, res);
    GlyphLevelIsLeast(c2, res);
  }

  // ---------------------------------------------------------------------
  // Header and lines

  /** `f'{c[:2]:>2} '`: the first two characters of a cluster name,
      right-aligned in two columns, then a space. */
  function HeaderCell(c: string): (r: string)
    ensures |r| == 3
  {
    PadLeft(c[..Eval.Min(2, |c|)], 2) + " "
  }

  /** A header cell ends in a space after the cluster name's first two
      characters, which end its first two columns. */
  lemma HeaderCellText(c: string)
    ensures HeaderCell(c)[2] == ' '
    ensures EndsWith(HeaderCell(c)[..2], c[..Eval.Min(2, |c|)])
  {
    var cell := PadLeft(c[..Eval.Min(2, |c|)], 2);
    assert (cell + " ")[..2] == cell;
  }

  /** `''.join(f(x) for x in xs)` for an `f` that always gives three
      columns. */
  function Blocks(f: string -> string, xs: seq<string>): (r: string)
    requires forall x :: |f(x)| == 3
    ensures |r| == 3 * |xs|
  {
    if |xs| == 0 then "" else f(xs[0]) + Blocks(f, xs[1..])
  }

  /** The k-th three columns of the join are the k-th block. */
  lemma {:induction false} BlocksAt(f: string -> string, xs: seq<string>, k: nat)
    requires forall x :: |f(x)| == 3
    requires k < |xs|
    ensures Blocks(f, xs)[3 * k..3 * k + 3] == f(xs[k])
    decreases k
  {
    if k > 0 {
      var b0 := f(xs[0]);
      var rest := Blocks(f, xs[1..]);
      var j := 3 * (k - 1);
      assert rest[j..j + 3] == f(xs[k]) by {
        BlocksAt(f, xs[1..], k - 1);
        assert xs[1..][k - 1] == xs[k];
      }
      assert (b0 + rest)[3 * k..3 * k + 3] == rest[j..j + 3] by {
        SliceAfter(b0, rest, j, 3);
      }
      assert Blocks(f, xs) == b0 + rest;
    }
  }

  /** Every block of the join sits in its own three columns. */
  lemma BlocksAll(f: string -> string, xs: seq<string>)
    requires forall x :: |f(x)| == 3
    ensures forall k :: 0 <= k < |xs| ==> Blocks(f, xs)[3 * k..3 * k + 3] == f(xs[k])
  {
    forall k | 0 <= k < |xs| ensures Blocks(f, xs)[3 * k..3 * k + 3] == f(xs[k]) {
      BlocksAt(f, xs, k);
    }
  }

  /** The header cells, one three-column cell per cluster of the order. */
  function HeaderCells(order: seq<string>): (r: string)
    ensures |r| == 3 * |order|
  {
    Blocks(HeaderCell, order)
  }

  /** The k-th three columns of the header cells are the k-th cluster's cell. */
  lemma HeaderCellsAt(order: seq<string>, k: nat)
    requires k < |order|
    ensures HeaderCells(order)[3 * k..3 * k + 3] == HeaderCell(order[k])
  {
    BlocksAt(HeaderCell, order, k);
  }

  /** A blank field between the two- and three-column margins of the
      header is a blank prefix of whatever follows it. */
  lemma BlankLead(pad: string, rest: string)
    requires forall i :: 0 <= i < |pad| ==> pad[i] == ' '
    ensures forall i :: 0 <= i < |pad| + 5 ==> ("  " + pad + "   " + rest)[i] == ' '
  {
  }

  /** Columns read past a prefix come from the rest. */
  lemma SliceAfter(a: string, b: string, i: nat, w: nat)
    requires i + w <= |b|
    ensures (a + b)[|a| + i..|a| + i + w] == b[i..i + w]
  {
  }

  /** After a fifteen-column lead, the three columns of each cell are
      shifted by fifteen. */
  lemma LeadThenCells(lead: string, cells: string)
    requires |lead| == 15
    ensures forall k: nat :: 3 * k + 3 <= |cells| ==> (lead + cells)[15 + 3 * k..18 + 3 * k] == cells[3 * k..3 * k + 3]
  {
    forall k: nat | 3 * k + 3 <= |cells| ensures (lead + cells)[15 + 3 * k..18 + 3 * k] == cells[3 * k..3 * k + 3] {
      SliceAfter(lead, cells, 3 * k, 3);
    }
  }

  /** show.py:17-18. Fifteen spaces, then one three-column cell per
      cluster. */
  function Header(order: seq<string>): (r: string)
    ensures |r| == 15 + 3 * |order|
    ensures forall i :: 0 <= i < 15 ==> r[i] == ' '
    ensures forall k :: 0 <= k < |order| ==> r[15 + 3 * k..18 + 3 * k] == HeaderCell(order[k])
  {
    var pad := PadLeft("", 10);
    var lead := "  " + pad + "   ";
    var cells := HeaderCells(order);
    assert |lead| == 15;
    assert forall i :: 0 <= i < 15 ==> (lead + cells)[i] == ' ' by {
      BlankLead(pad, cells);
    }
    BlocksAll(HeaderCell, order);
    LeadThenCells(lead, cells);
    lead + cells
  }

  /** `glyph[...]` for one cluster: the three-column glyph of the number of
      the chunk's pages found in cluster `c`. */
  function GlyphCell(found: seq<string>, res: nat, c: string): (r: string)
    requires res >= 1
    ensures |r| == 3
  {
    var level := GlyphLevel(Eval.Count(found, c), res);
    assert forall i :: 0 <= i < |Glyphs| ==> |Glyphs[i]| == 3;
    Glyphs[level]
  }

  /** The glyphs of one body line: one three-column cell per cluster of
      the order, from the number of the chunk's pages in that cluster. */
  function Cells(found: seq<string>, order: seq<string>, res: nat): (r: string)
    requires res >= 1
    ensures |r| == 3 * |order|
    ensures forall k :: 0 <= k < |order| ==>
      r[3 * k..3 * k + 3] == Glyphs[GlyphLevel(Eval.Count(found, order[k]), res)]
  {
    var f := (c: string) => GlyphCell(found, res, c);
    BlocksAll(f, order);
    Blocks(f, order)
  }

  /** `str(fst) + "-" + str(lst)`. */
  function RangeLabel(first: int, last: int): string
  {
    Decimal.ShowInt(first) + "-" + Decimal.ShowInt(last)
  }

  /** The clusters of the pages of a chunk. */
  function ChunkClusters(chunk: seq<int>, pm: map<int, string>): (r: seq<string>)
    requires forall i :: 0 <= i < |chunk| ==> chunk[i] in pm
    ensures |r| == |chunk| && forall i :: 0 <= i < |chunk| ==> r[i] == pm[chunk[i]]
  {
    seq(|chunk|, i requires 0 <= i < |chunk| => pm[chunk[i]])
  }

  /** Every page of a chunk is in the page map. */
  predicate Mapped(chunk: seq<int>, pm: map<int, string>)
  {
    forall i :: 0 <= i < |chunk| ==> chunk[i] in pm
  }

  /** Every page of the chunk has a cluster of the order. */
  predicate Known(chunk: seq<int>, pm: map<int, string>, order: seq<string>)
    requires Mapped(chunk, pm)
  {
    forall i :: 0 <= i < |chunk| ==> pm[chunk[i]] in order
  }

  /** The text of a body line (show.py:29-38). */
  function LineText(chunk: seq<int>, pm: map<int, string>, order: seq<string>, res: nat): string
    requires res >= 1 && |chunk| >= 1 && Mapped(chunk, pm)
  {
    "  " + PadLeft(RangeLabel(chunk[0], chunk[|chunk| - 1]), 10) + "  |" + Cells(ChunkClusters(chunk, pm), order, res) + "|"
  }

  /** One round of the `while pages` loop (show.py:22-38): counting a page
      whose cluster is missing from the order raises KeyError. */
  function BodyLine(chunk: seq<int>, pm: map<int, string>, order: seq<string>, res: nat): (r: Result<string>)
    requires res >= 1 && |chunk| >= 1 && Mapped(chunk, pm)
  {
    if Known(chunk, pm, order) then Success(LineText(chunk, pm, order, res)) else Failure(KeyError)
  }

  /** show.py:29-38. A body line is the page range right-aligned in ten
      columns, a bar, one glyph per cluster of the order and a closing
      bar; it fails exactly when some page's cluster is not in the order. */
  lemma BodyLineShape(chunk: seq<int>, pm: map<int, string>, order: seq<string>, res: nat)
    requires res >= 1 && |chunk| >= 1 && Mapped(chunk, pm)
    ensures var r := BodyLine(chunk, pm, order, res);
      && (r.Success? <==> forall i :: 0 <= i < |chunk| ==> pm[chunk[i]] in order)
      && (r.Failure? ==> r.error == KeyError)
      && (r.Success? ==>
        var span := PadLeft(RangeLabel(chunk[0], chunk[|chunk| - 1]), 10);
        var cells := r.value[|span| + 5..|r.value| - 1];
        && |r.value| == |span| + 6 + 3 * |order|
        && r.value[..|span| + 5] == "  " + span + "  |"
        && r.value[|r.value| - 1] == '|'
        && forall k :: 0 <= k < |order| ==>
          cells[3 * k..3 * k + 3] == Glyphs[GlyphLevel(Eval.Count(ChunkClusters(chunk, pm), order[k]), res)])
  {
    if Known(chunk, pm, order) {
      var span := PadLeft(RangeLabel(chunk[0], chunk[|chunk| - 1]), 10);
      var cells := Cells(ChunkClusters(chunk, pm), order, res);
      assert BodyLine(chunk, pm, order, res).value == "  " + span + "  |" + cells + "|";
      BarFramed(span, cells);
    }
  }

  /** A body line splits back into its margin and span, its cells and its
      closing bar. */
  lemma BarFramed(span: string, cells: string)
    ensures var line := "  " + span + "  |" + cells + "|";
      && |line| == |span| + 6 + |cells|
      && line[..|span| + 5] == "  " + span + "  |"
      && line[|span| + 5..|line| - 1] == cells
      && line[|line| - 1] == '|'
  {
    var head := "  " + span + "  |";
    var line := head + cells + "|";
    assert |head| == |span| + 5;
    assert line[..|head|] == head;
    assert line[|head|..|line| - 1] == cells;
  }

  /** Each chunk is a non-empty run of mapped pages. */
  predicate Drawable(chunks: seq<seq<int>>, pm: map<int, string>)
  {
    forall k :: 0 <= k < |chunks| ==> |chunks[k]| >= 1 && Mapped(chunks[k], pm)
  }

  /** All the values when every result succeeds, the first failure
      otherwise. */
  function Gather<T>(rs: seq<Result<T>>): Result<seq<T>>
  {
    if |rs| == 0 then Success([])
    else
      var v :- rs[0];
      var rest :- Gather(rs[1..]);
      Success([v] + rest)
  }

  /** Gathering succeeds exactly when every result does, keeps the values
      in order, and otherwise fails with the error of the first failure. */
  lemma {:induction false} GatherAt<T>(rs: seq<Result<T>>)
    ensures var r := Gather(rs);
      && (r.Success? <==> forall k :: 0 <= k < |rs| ==> rs[k].Success?)
      && (r.Success? ==> |r.value| == |rs| && forall k :: 0 <= k < |rs| ==> r.value[k] == rs[k].value)
      && (r.Failure? ==> exists k :: 0 <= k < |rs| && rs[k].Failure? && r.error == rs[k].error
                          && forall j :: 0 <= j < k ==> rs[j].Success?)
    decreases |rs|
  {
    if |rs| > 0 {
      var tail := rs[1..];
      GatherAt(tail);
      assert forall k :: 1 <= k < |rs| ==> rs[k] == tail[k - 1];
      if rs[0].Failure? {
        assert Gather(rs).error == rs[0].error;
      } else if Gather(tail).Failure? {
        var k :| 0 <= k < |tail| && tail[k].Failure? && Gather(tail).error == tail[k].error
          && forall j :: 0 <= j < k ==> tail[j].Success?;
        assert Gather(rs).error == rs[k + 1].error;
        assert forall j :: 0 <= j < k + 1 ==> rs[j].Success?;
      } else {
        assert Gather(rs).value == [rs[0].value] + Gather(tail).value;
      }
    }
  }

  /** The result of drawing each chunk. */
  function LineResults(chunks: seq<seq<int>>, pm: map<int, string>, order: seq<string>, res: nat): (r: seq<Result<string>>)
    requires res >= 1 && Drawable(chunks, pm)
    ensures |r| == |chunks|
    ensures forall k :: 0 <= k < |chunks| ==> r[k] == BodyLine(chunks[k], pm, order, res)
  {
    seq(|chunks|, k requires 0 <= k < |chunks| => BodyLine(chunks[k], pm, order, res))
  }

  /** show.py:21-38. The body lines of all chunks, in order; the first
      chunk with a page of an unlisted cluster raises `KeyError`. */
  function BodyLines(chunks: seq<seq<int>>, pm: map<int, string>, order: seq<string>, res: nat): (r: Result<seq<string>>)
    requires res >= 1 && Drawable(chunks, pm)
    ensures r.Failure? ==> r.error == KeyError
  {
    var rs := LineResults(chunks, pm, order, res);
    GatherAt(rs);
    Gather(rs)
  }

  /** The body lines are the lines of the chunks, one each, and there are
      lines exactly when every chunk can be drawn. */
  lemma BodyLinesAt(chunks: seq<seq<int>>, pm: map<int, string>, order: seq<string>, res: nat)
    requires res >= 1 && Drawable(chunks, pm)
    ensures var r := BodyLines(chunks, pm, order, res);
      && (r.Success? <==> forall k :: 0 <= k < |chunks| ==> BodyLine(chunks[k], pm, order, res).Success?)
      && (r.Success? ==> |r.value| == |chunks|)
      && (r.Success? ==> forall k :: 0 <= k < |chunks| ==> r.value[k] == BodyLine(chunks[k], pm, order, res).value)
  {
    GatherAt(LineResults(chunks, pm, order, res));
  }

  /** The chunks of pages drawn from a page map are mapped. */
  lemma ChunksMapped(pm: map<int, string>, res: nat)
    requires res >= 1
    ensures Drawable(Chunks(SortedPages(pm.Keys), res), pm)
  {
    var pages := SortedPages(pm.Keys);
    var chunks := Chunks(pages, res);
    ChunksFlatten(pages, res);
    forall k | 0 <= k < |chunks| ensures Mapped(chunks[k], pm) {
      forall i | 0 <= i < |chunks[k]| ensures chunks[k][i] in pm {
        FlattenMember(chunks, k, i);
      }
    }
  }

  /** An element of a chunk is an element of the flattened chunks. */
  lemma {:induction false} FlattenMember(chunks: seq<seq<int>>, k: nat, i: nat)
    requires k < |chunks| && i < |chunks[k]|
    ensures chunks[k][i] in Flatten(chunks)
    decreases k
  {
    if k > 0 {
      FlattenMember(chunks[1..], k - 1, i);
      assert chunks[1..][k - 1] == chunks[k];
    }
  }

  /** `book(...)` as a list of output lines (show.py:7-40). The page map is
      built first; a book without pages gives the header twice for any
      `res`. With pages, `res < 0` leaves the page list untouched forever
      and `res == 0` divides by zero at the first glyph, or loops forever
      when there is no cluster to draw. */
  function BookLines(ids: seq<string>, clusters: seq<string>, order: seq<string>, b: string, res: int): (r: Result<seq<string>>)
  {
    var pm :- PageMap(ids, clusters, b);
    var pages := SortedPages(pm.Keys);
    var header := Header(order);
    if |pages| == 0 then Success([header, header])
    else if res < 0 then Failure(Diverges)
    else if res == 0 then (if |order| > 0 then Failure(ZeroDivisionError) else Failure(Diverges))
    else
      ChunksMapped(pm, res);
      var body :- BodyLines(Chunks(pages, res), pm, order, res);
      Success([header] + body + [header])
  }

  /** show.py:40. The rendering is the lines joined by newlines. */
  function Book(ids: seq<string>, clusters: seq<string>, order: seq<string>, b: string, res: int): (r: Result<string>)
  {
    var lines :- BookLines(ids, clusters, order, b, res);
    Success(Join(lines, '\n'))
  }

  /** Every page of the map has a cluster of the order. */
  predicate AllKnown(pm: map<int, string>, order: seq<string>)
  {
    forall p :: p in pm ==> pm[p] in order
  }

  /** The chunks of a page map can all be drawn exactly when every page's
      cluster is in the order. */
  lemma ChunksKnown(pm: map<int, string>, order: seq<string>, res: nat)
    requires res >= 1
    ensures Drawable(Chunks(SortedPages(pm.Keys), res), pm)
    ensures var chunks := Chunks(SortedPages(pm.Keys), res);
      (forall k :: 0 <= k < |chunks| ==> BodyLine(chunks[k], pm, order, res).Success?) <==> AllKnown(pm, order)
  {
    ChunksMapped(pm, res);
    if AllKnown(pm, order) {
      KnownChunksDraw(pm, order, res);
    } else {
      UnknownChunkFails(pm, order, res);
    }
  }

  /** A chunk's line succeeds exactly when each of its pages has a cluster
      of the order. */
  lemma BodyLineSucceeds(chunk: seq<int>, pm: map<int, string>, order: seq<string>, res: nat)
    requires res >= 1 && |chunk| >= 1 && Mapped(chunk, pm)
    ensures BodyLine(chunk, pm, order, res).Success? <==> forall i :: 0 <= i < |chunk| ==> pm[chunk[i]] in order
  {
    BodyLineShape(chunk, pm, order, res);
  }

  lemma KnownChunksDraw(pm: map<int, string>, order: seq<string>, res: nat)
    requires res >= 1 && AllKnown(pm, order)
    requires Drawable(Chunks(SortedPages(pm.Keys), res), pm)
    ensures var chunks := Chunks(SortedPages(pm.Keys), res);
      forall k :: 0 <= k < |chunks| ==> BodyLine(chunks[k], pm, order, res).Success?
  {
    var chunks := Chunks(SortedPages(pm.Keys), res);
    forall k | 0 <= k < |chunks| ensures BodyLine(chunks[k], pm, order, res).Success? {
      BodyLineSucceeds(chunks[k], pm, order, res);
      forall i | 0 <= i < |chunks[k]| ensures pm[chunks[k][i]] in order {
        assert chunks[k][i] in pm;
      }
    }
  }

  lemma UnknownChunkFails(pm: map<int, string>, order: seq<string>, res: nat)
    requires res >= 1 && !AllKnown(pm, order)
    requires Drawable(Chunks(SortedPages(pm.Keys), res), pm)
    ensures var chunks := Chunks(SortedPages(pm.Keys), res);
      exists k :: 0 <= k < |chunks| && BodyLine(chunks[k], pm, order, res).Failure?
  {
    var pages := SortedPages(pm.Keys);
    var chunks := Chunks(pages, res);
    var p :| p in pm && pm[p] !in order;
    assert p in Flatten(chunks) by {
      ChunksFlatten(pages, res);
    }
    var k, i := FlattenIndex(chunks, p);
    assert pm[chunks[k][i]] !in order;
    assert BodyLine(chunks[k], pm, order, res).Failure? by {
      BodyLineSucceeds(chunks[k], pm, order, res);
    }
    assert chunks == Chunks(SortedPages(pm.Keys), res);
    assert 0 <= k < |chunks| && BodyLine(chunks[k], pm, order, res).Failure?;
  }

  /** show.py:23-27. With `res >= 1` a book renders exactly when every page
      of the book has a cluster of the order; otherwise KeyError. */
  lemma BookKnown(ids: seq<string>, clusters: seq<string>, order: seq<string>, b: string, res: int)
    requires res >= 1 && PageMap(ids, clusters, b).Success?
    ensures var r := BookLines(ids, clusters, order, b, res);
      && (r.Success? <==> AllKnown(PageMap(ids, clusters, b).value, order))
      && (r.Failure? ==> r.error == KeyError)
  {
    var pm := PageMap(ids, clusters, b).value;
    ChunksKnown(pm, order, res);
    BodyLinesAt(Chunks(SortedPages(pm.Keys), res), pm, order, res);
  }

  /** show.py:17-40. With `res >= 1` the rendering is the header, one line
      per chunk of pages, and the header again. */
  lemma BookShape(ids: seq<string>, clusters: seq<string>, order: seq<string>, b: string, res: int)
    requires res >= 1 && BookLines(ids, clusters, order, b, res).Success?
    ensures PageMap(ids, clusters, b).Success?
    ensures var pm := PageMap(ids, clusters, b).value;
      var r := BookLines(ids, clusters, order, b, res).value;
      var chunks := Chunks(SortedPages(pm.Keys), res);
      && Drawable(chunks, pm)
      && |r| == |chunks| + 2
      && r[0] == Header(order) && r[|r| - 1] == Header(order)
      && forall k :: 0 <= k < |chunks| ==> BodyLine(chunks[k], pm, order, res) == Success(r[k + 1])
  {
    var pm := PageMap(ids, clusters, b).value;
    ChunksMapped(pm, res);
    var chunks := Chunks(SortedPages(pm.Keys), res);
    BookLinesValue(ids, clusters, order, b, res);
    BodyLinesAt(chunks, pm, order, res);
    Framed(Header(order), BodyLines(chunks, pm, order, res).value);
  }

  /** A body between two copies of the header. */
  lemma Framed(h: string, body: seq<string>)
    ensures var r := [h] + body + [h];
      && |r| == |body| + 2 && r[0] == h && r[|r| - 1] == h
      && forall k :: 0 <= k < |body| ==> r[k + 1] == body[k]
  {
  }

  /** The lines of a rendered book around its body lines. */
  lemma BookLinesValue(ids: seq<string>, clusters: seq<string>, order: seq<string>, b: string, res: int)
    requires res >= 1 && BookLines(ids, clusters, order, b, res).Success?
    ensures PageMap(ids, clusters, b).Success?
    ensures var pm := PageMap(ids, clusters, b).value;
      var chunks := Chunks(SortedPages(pm.Keys), res);
      && Drawable(chunks, pm)
      && BodyLines(chunks, pm, order, res).Success?
      && BookLines(ids, clusters, order, b, res).value
        == [Header(order)] + BodyLines(chunks, pm, order, res).value + [Header(order)]
  {
    var pm := PageMap(ids, clusters, b).value;
    ChunksMapped(pm, res);
    if |SortedPages(pm.Keys)| == 0 {
      assert Chunks(SortedPages(pm.Keys), res) == [];
    }
  }

  /** An element of the flattened chunks lies in one of the chunks. */
  lemma {:induction false} FlattenIndex(chunks: seq<seq<int>>, p: int) returns (k: nat, i: nat)
    requires p in Flatten(chunks)
    ensures k < |chunks| && i < |chunks[k]| && chunks[k][i] == p
    decreases |chunks|
  {
    if p in chunks[0] {
      k := 0;
      i :| 0 <= i < |chunks[0]| && chunks[0][i] == p;
    } else {
      var k', i' := FlattenIndex(chunks[1..], p);
      k, i := k' + 1, i';
    }
  }

  /** show.py:20-28. The chunks hold the book's pages once each, ascending,
      at most `res` to a line, and there are ceil(pages / res) of them. */
  lemma BookPages(ids: seq<string>, clusters: seq<string>, b: string, res: nat)
    requires res >= 1 && PageMap(ids, clusters, b).Success?
    ensures var pm := PageMap(ids, clusters, b).value;
      var pages := SortedPages(pm.Keys);
      var chunks := Chunks(pages, res);
      && Flatten(chunks) == pages
      && (forall p :: p in pages <==> exists i :: 0 <= i < Eval.Min(|ids|, |clusters|) && IsPage(ids, i, b, p))
      && (forall i, j :: 0 <= i < j < |pages| ==> pages[i] < pages[j])
      && |pages| <= |chunks| * res
      && (|chunks| > 0 ==> (|chunks| - 1) * res < |pages|)
  {
    var pm := PageMap(ids, clusters, b).value;
    PageMapPages(ids, clusters, b);
    ChunksFlatten(SortedPages(pm.Keys), res);
    ChunksCount(SortedPages(pm.Keys), res);
  }

  /** show.py:21-28. Without a positive `res` a book with pages is never
      rendered; a book without pages is rendered for any `res`. */
  lemma BookNeedsPositiveRes(ids: seq<string>, clusters: seq<string>, order: seq<string>, b: string, res: int)
    requires PageMap(ids, clusters, b).Success?
    ensures var pm := PageMap(ids, clusters, b).value;
      && (|pm| == 0 ==> BookLines(ids, clusters, order, b, res) == Success([Header(order), Header(order)]))
      && (|pm| > 0 && res <= 0 ==> BookLines(ids, clusters, order, b, res).Failure?)
  {
  }

  // ---------------------------------------------------------------------
  // _book: cluster order and book selection

  /** `sorted(..., reverse=True)` on `(share, name)` tuples: the larger
      share first, and among equal shares the larger name first. */
  predicate ShareThenNameDesc(a: (string, real), b: (string, real))
  {
    a.1 > b.1 || (a.1 == b.1 && Sorting.LexLe(b.0, a.0))
  }

  lemma ShareThenNameDescIsTotalOrder()
    ensures Sorting.Total(ShareThenNameDesc) && Sorting.Transitive(ShareThenNameDesc)
  {
    Sorting.LexLeIsTotalOrder();
  }

  /** The names of a distribution, in order. */
  function Names(d: seq<(string, real)>): (r: seq<string>)
    ensures |r| == |d| && forall i :: 0 <= i < |d| ==> r[i] == d[i].0
  {
    seq(|d|, i requires 0 <= i < |d| => d[i].0)
  }

  /** `cluster_order` of show.py:60-62: the clusters of the column by
      descending share, ties by descending name. */
  function ClusterOrder(labels: seq<string>): seq<string>
  {
    Names(Sorting.Sort(Eval.Distribution(labels), ShareThenNameDesc))
  }

  /** Shares over the same total compare as the counts do. */
  lemma ShareCompare(a: nat, b: nat, n: nat)
    requires n > 0
    ensures a as real / n as real > b as real / n as real <==> a > b
    ensures a as real / n as real == b as real / n as real <==> a == b
  {
    if a > b {
      Eval.ShareOrder(a, b, n);
      assert a as real / n as real != b as real / n as real by {
        assert (a as real / n as real) * n as real == a as real;
        assert (b as real / n as real) * n as real == b as real;
      }
    } else {
      Eval.ShareOrder(b, a, n);
    }
  }

  /** The distribution sorted for the order: a repeat-free reordering of
      the distribution in `ShareThenNameDesc` order. */
  lemma RankedDistribution(labels: seq<string>)
    ensures var d := Eval.Distribution(labels);
      var s := Sorting.Sort(d, ShareThenNameDesc);
      && multiset(s) == multiset(d)
      && Sorting.Sorted(s, ShareThenNameDesc)
      && (forall i, j :: 0 <= i < j < |s| ==> s[i].0 != s[j].0)
  {
    var d := Eval.Distribution(labels);
    var s := Sorting.Sort(d, ShareThenNameDesc);
    Eval.DistributionEntries(labels);
    ShareThenNameDescIsTotalOrder();
    Sorting.SortSorted(d, ShareThenNameDesc);
    assert Eval.NoDup(d) by {
      forall i, j | 0 <= i < j < |d| ensures d[i] != d[j] {
        assert d[i].0 != d[j].0;
      }
    }
    Comp.NoDupPermutation(d, s);
    forall i, j | 0 <= i < j < |s| ensures s[i].0 != s[j].0 {
      assert s[i] in multiset(d) && s[j] in multiset(d);
      var a :| 0 <= a < |d| && d[a] == s[i];
      var b :| 0 <= b < |d| && d[b] == s[j];
    }
  }

  /** show.py:60-62. The order holds every cluster of the column once. */
  lemma ClusterOrderMembers(labels: seq<string>)
    ensures var order := ClusterOrder(labels);
      && (forall x :: x in order <==> x in labels)
      && (forall i, j :: 0 <= i < j < |order| ==> order[i] != order[j])
  {
    var d := Eval.Distribution(labels);
    var s := Sorting.Sort(d, ShareThenNameDesc);
    var order := ClusterOrder(labels);
    Eval.DistributionEntries(labels);
    RankedDistribution(labels);
    forall x ensures x in order <==> x in labels {
      if x in labels {
        var i :| 0 <= i < |d| && d[i].0 == x;
        assert d[i] in multiset(s);
        var k :| 0 <= k < |s| && s[k] == d[i];
        assert order[k] == x;
      }
      if x in order {
        var k :| 0 <= k < |order| && order[k] == x;
        assert s[k] in multiset(d);
      }
    }
  }

  /** show.py:60-62. More frequent clusters come first, and equally
      frequent ones by descending name. */
  lemma ClusterOrderRanks(labels: seq<string>)
    ensures var order := ClusterOrder(labels);
      forall i, j :: 0 <= i < j < |order| ==>
        Eval.Count(labels, order[i]) > Eval.Count(labels, order[j])
        || (Eval.Count(labels, order[i]) == Eval.Count(labels, order[j]) && Sorting.LexLe(order[j], order[i]))
  {
    var d := Eval.Distribution(labels);
    var s := Sorting.Sort(d, ShareThenNameDesc);
    var order := ClusterOrder(labels);
    Eval.DistributionEntries(labels);
    RankedDistribution(labels);
    forall i, j | 0 <= i < j < |order|
      ensures Eval.Count(labels, order[i]) > Eval.Count(labels, order[j])
        || (Eval.Count(labels, order[i]) == Eval.Count(labels, order[j]) && Sorting.LexLe(order[j], order[i]))
    {
      assert s[i] in multiset(d) && s[j] in multiset(d);
      var a :| 0 <= a < |d| && d[a] == s[i];
      var b :| 0 <= b < |d| && d[b] == s[j];
      assert ShareThenNameDesc(s[i], s[j]);
      ShareCompare(Eval.Count(labels, order[i]), Eval.Count(labels, order[j]), |labels|);
    }
  }

  /** The book of a document id: `d.split(':')[0]`, which never fails. */
  function BookName(id: string): string
  {
    Split(id, ':')[0]
  }

  function BookNames(ids: seq<string>): (r: seq<string>)
    ensures |r| == |ids| && forall i :: 0 <= i < |ids| ==> r[i] == BookName(ids[i])
  {
    seq(|ids|, i requires 0 <= i < |ids| => BookName(ids[i]))
  }

  /** `sorted(all_books)`. */
  function Books(ids: seq<string>): seq<string>
  {
    Sorting.Sort(Eval.Distinct(BookNames(ids)), Sorting.LexLe)
  }

  /** show.py:63, 65. The books of the id column, each once, in string
      order. */
  lemma BooksSorted(ids: seq<string>)
    ensures var books := Books(ids);
      && (forall b :: b in books <==> exists i :: 0 <= i < |ids| && BookName(ids[i]) == b)
      && Eval.NoDup(books)
      && Sorting.Sorted(books, Sorting.LexLe)
  {
    var names := BookNames(ids);
    var d := Eval.Distinct(names);
    var books := Books(ids);
    forall b ensures b in books <==> b in names {
      assert b in books <==> b in multiset(d);
    }
    forall b | b in names ensures exists i :: 0 <= i < |ids| && BookName(ids[i]) == b {
      var i :| 0 <= i < |names| && names[i] == b;
    }
    Comp.NoDupPermutation(d, books);
    Sorting.LexLeIsTotalOrder();
    Sorting.SortSorted(d, Sorting.LexLe);
  }

  /** The books that `exp` matches, in order. */
  function Matching(books: seq<string>, exp: string, matches: (string, string) -> bool): (r: seq<string>)
    ensures forall b :: b in r <==> b in books && matches(exp, b)
  {
    if |books| == 0 then []
    else (if matches(exp, books[0]) then [books[0]] else []) + Matching(books[1..], exp, matches)
  }

  /** The books that `exp` does not match, in order. */
  function Unmatched(books: seq<string>, exp: string, matches: (string, string) -> bool): (r: seq<string>)
    ensures forall b :: b in r <==> b in books && !matches(exp, b)
  {
    if |books| == 0 then []
    else (if matches(exp, books[0]) then [] else [books[0]]) + Unmatched(books[1..], exp, matches)
  }

  /** Keeping the elements of a repeat-free list that pass a test keeps it
      free of repeats. */
  lemma {:induction false} FiltersNoDup(books: seq<string>, exp: string, matches: (string, string) -> bool)
    requires Eval.NoDup(books)
    ensures Eval.NoDup(Matching(books, exp, matches)) && Eval.NoDup(Unmatched(books, exp, matches))
    decreases |books|
  {
    if |books| > 0 {
      var t := books[1..];
      assert Eval.NoDup(t) by {
        forall i, j | 0 <= i < j < |t| ensures t[i] != t[j] {
          assert t[i] == books[i + 1] && t[j] == books[j + 1];
        }
      }
      FiltersNoDup(t, exp, matches);
      assert books[0] !in t by {
        forall i | 0 <= i < |t| ensures t[i] != books[0] {
          assert t[i] == books[i + 1];
        }
      }
      var head: seq<string> := [books[0]];
      Comp.NoDupConcat(head, Matching(t, exp, matches));
      Comp.NoDupConcat(head, Unmatched(t, exp, matches));
    }
  }

  /** The loop of show.py:64-67: each regular expression takes, in order,
      the remaining books it matches, and those books are removed. The
      regular expression search is the parameter `matches`. */
  function Selected(books: seq<string>, exps: seq<string>, matches: (string, string) -> bool): seq<string>
    decreases |exps|
  {
    if |exps| == 0 then []
    else Matching(books, exps[0], matches) + Selected(Unmatched(books, exps[0], matches), exps[1..], matches)
  }

  /** show.py:64-67. A book is rendered exactly when some regular
      expression matches it, and at most once. */
  lemma {:induction false} SelectedOnce(books: seq<string>, exps: seq<string>, matches: (string, string) -> bool)
    requires Eval.NoDup(books)
    ensures var r := Selected(books, exps, matches);
      && (forall b :: b in r <==> b in books && exists e :: e in exps && matches(e, b))
      && Eval.NoDup(r)
    decreases |exps|
  {
    if |exps| > 0 {
      var e := exps[0];
      var m, u := Matching(books, e, matches), Unmatched(books, e, matches);
      FiltersNoDup(books, e, matches);
      SelectedOnce(u, exps[1..], matches);
      var rest := Selected(u, exps[1..], matches);
      forall b ensures b in m + rest <==> b in books && exists e' :: e' in exps && matches(e', b) {
        if b in books && exists e' :: e' in exps && matches(e', b) {
          var e' :| e' in exps && matches(e', b);
          if !matches(e, b) {
            assert e' in exps[1..] by {
              assert e' != e;
              var k :| 0 <= k < |exps| && exps[k] == e';
              assert exps[1..][k - 1] == e';
            }
          }
        }
        if b in rest {
          var e' :| e' in exps[1..] && matches(e', b);
          assert e' in exps;
        }
      }
      Comp.NoDupConcat(m, rest);
    }
  }

  /** `{k.lstrip('-'): int(v) for k, v in opts}` and `opts.get('res', 15)`:
      every `--res` value must be an integer and the last one wins. */
  function ResOption(values: seq<string>): (r: Result<int>)
    ensures r.Success? <==> forall i :: 0 <= i < |values| ==> Decimal.ParseInt(values[i]).Some?
    ensures r.Failure? ==> r.error == ValueError
  {
    if |values| == 0 then Success(15)
    else
      var _ :- ResOption(values[..|values| - 1]);
      match Decimal.ParseInt(values[|values| - 1])
      case None => Failure(ValueError)
      case Some(v) => Success(v)
  }

  /** show.py:57, 69. Without `--res` a line holds 15 pages; otherwise the
      last value given. */
  lemma ResOptionLastWins(values: seq<string>)
    requires ResOption(values).Success?
    ensures |values| == 0 ==> ResOption(values).value == 15
    ensures |values| > 0 ==> Decimal.ParseInt(values[|values| - 1]) == Some(ResOption(values).value)
  {
  }

  /** Each selected book with its rendering, in order; the first failing
      rendering ends the run. */
  function Render(books: seq<string>, ids: seq<string>, clusters: seq<string>, order: seq<string>, res: int)
    : (r: Result<seq<(string, string)>>)
    ensures r.Success? ==> |r.value| == |books|
    ensures r.Success? ==> forall k :: 0 <= k < |books| ==>
      r.value[k].0 == books[k] && Book(ids, clusters, order, books[k], res) == Success(r.value[k].1)
  {
    if |books| == 0 then Success([])
    else
      var g :- Book(ids, clusters, order, books[0], res);
      var rest :- Render(books[1..], ids, clusters, order, res);
      Success([(books[0], g)] + rest)
  }

  /** `_book` of show.py:53-71 after the option parsing: the `--res`
      values, the regular expressions and the id and cluster columns give
      the rendered books with their names, in printing order. */
  function BookCommand(ids: seq<string>, clusters: seq<string>, exps: seq<string>, resValues: seq<string>,
                       matches: (string, string) -> bool): (r: Result<seq<(string, string)>>)
    ensures |exps| == 0 && ResOption(resValues).Success? ==> r == Failure(CliError("No REGEX specified for 'ttm show book'"))
    ensures ResOption(resValues).Failure? ==> r == Failure(ValueError)
  {
    var res :- ResOption(resValues);
    if |exps| == 0 then Failure(CliError("No REGEX specified for 'ttm show book'"))
    else Render(Selected(Books(ids), exps, matches), ids, clusters, ClusterOrder(clusters), res)
  }

  /** The names of the rendered books. */
  function Titles(r: seq<(string, string)>): (t: seq<string>)
    ensures |t| == |r| && forall k :: 0 <= k < |r| ==> t[k] == r[k].0
  {
    seq(|r|, k requires 0 <= k < |r| => r[k].0)
  }

  /** show.py:63-71. Every book of the id column that some regular
      expression matches is rendered, exactly once, and nothing else is. */
  lemma BookCommandRendersEachOnce(ids: seq<string>, clusters: seq<string>, exps: seq<string>, resValues: seq<string>,
                                   matches: (string, string) -> bool)
    requires BookCommand(ids, clusters, exps, resValues, matches).Success?
    ensures var t := Titles(BookCommand(ids, clusters, exps, resValues, matches).value);
      && (forall b :: b in t <==>
            (exists i :: 0 <= i < |ids| && BookName(ids[i]) == b) && exists e :: e in exps && matches(e, b))
      && Eval.NoDup(t)
  {
    var books := Books(ids);
    BooksSorted(ids);
    SelectedOnce(books, exps, matches);
    var sel := Selected(books, exps, matches);
    var r := BookCommand(ids, clusters, exps, resValues, matches).value;
    assert Titles(r) == sel;
  }
}

=== FILE: sorting.dfy ===
/** Python's `sorted` as an insertion sort over a comparison, and Python's
    ordering of strings (lexicographic by code point). */
module Sorting {

  ghost predicate Total<T(!new)>(le: (T, T) -> bool)
  {
    forall x, y :: le(x, y) || le(y, x)
  }

  ghost predicate Transitive<T(!new)>(le: (T, T) -> bool)
  {
    forall x, y, z :: le(x, y) && le(y, z) ==> le(x, z)
  }

  predicate Sorted<T>(s: seq<T>, le: (T, T) -> bool)
  {
    forall i, j :: 0 <= i < j < |s| ==> le(s[i], s[j])
  }

  /** `x` placed before the first element it is `le` to. */
  function Insert<T>(x: T, s: seq<T>, le: (T, T) -> bool): (r: seq<T>)
    ensures multiset(r) == multiset(s) + multiset{x}
    ensures |r| == |s| + 1
  {
    if |s| == 0 then [x]
    else if le(x, s[0]) then [x] + s
    else
      assert s == [s[0]] + s[1..];
      [s[0]] + Insert(x, s[1..], le)
  }

  /** Inserting behind a head that `x` does not go before. */
  lemma InsertAfterHead<T>(x: T, s: seq<T>, le: (T, T) -> bool)
    requires |s| > 0 && !le(x, s[0])
    ensures Insert(x, s, le) == [s[0]] + Insert(x, s[1..], le)
  {
  }

  /** Insertion sort; an earlier element stays ahead of a later one it is
      `le` to, as in Python's stable `sorted`. */
  function Sort<T>(s: seq<T>, le: (T, T) -> bool): (r: seq<T>)
    ensures multiset(r) == multiset(s)
    ensures |r| == |s|
  {
    if |s| == 0 then []
    else
      assert s == [s[0]] + s[1..];
      Insert(s[0], Sort(s[1..], le), le)
  }

  lemma {:induction false} InsertSorted<T(!new)>(x: T, s: seq<T>, le: (T, T) -> bool)
    requires Total(le) && Transitive(le)
    requires Sorted(s, le)
    ensures Sorted(Insert(x, s, le), le)
    decreases |s|
  {
    if |s| > 0 && !le(x, s[0]) {
      var t := s[1..];
      InsertSorted(x, t, le);
      var r := Insert(x, t, le);
      forall j | 0 <= j < |r| ensures le(s[0], r[j]) {
        assert r[j] in multiset(r);
        if r[j] != x {
          assert r[j] in multiset(t);
          var k :| 0 <= k < |t| && t[k] == r[j];
          assert s[k + 1] == t[k];
        }
      }
    } else if |s| > 0 {
      var r := [x] + s;
      forall i, j | 0 <= i < j < |r| ensures le(r[i], r[j]) {
        if i == 0 && j > 1 { assert le(x, s[0]) && le(s[0], s[j - 1]); }
      }
    }
  }

  /** `Sort` returns its input in `le` order. */
  lemma {:induction false} SortSorted<T(!new)>(s: seq<T>, le: (T, T) -> bool)
    requires Total(le) && Transitive(le)
    ensures Sorted(Sort(s, le), le)
    decreases |s|
  {
    if |s| > 0 {
      SortSorted(s[1..], le);
      InsertSorted(s[0], Sort(s[1..], le), le);
    }
  }

  /** Python's `a <= b` on strings: lexicographic by code point. */
  predicate LexLe(a: string, b: string)
  {
    |a| == 0 || (|b| > 0 && (a[0] < b[0] || (a[0] == b[0] && LexLe(a[1..], b[1..]))))
  }

  lemma {:induction false} LexLeTotalAt(a: string, b: string)
    ensures LexLe(a, b) || LexLe(b, a)
    decreases |a|
  {
    if |a| > 0 && |b| > 0 && a[0] == b[0] {
      LexLeTotalAt(a[1..], b[1..]);
    }
  }

  lemma {:induction false} LexLeTransitiveAt(a: string, b: string, c: string)
    requires LexLe(a, b) && LexLe(b, c)
    ensures LexLe(a, c)
    decreases |a|
  {
    if |a| > 0 && a[0] == b[0] && b[0] == c[0] {
      LexLeTransitiveAt(a[1..], b[1..], c[1..]);
    }
  }

  lemma {:induction false} LexLeAntisymmetricAt(a: string, b: string)
    requires LexLe(a, b) && LexLe(b, a)
    ensures a == b
    decreases |a|
  {
    if |a| > 0 {
      LexLeAntisymmetricAt(a[1..], b[1..]);
      assert a == [a[0]] + a[1..] && b == [b[0]] + b[1..];
    }
  }

  /** The string order is a total order. */
  lemma LexLeIsTotalOrder()
    ensures Total(LexLe) && Transitive(LexLe)
    ensures forall a, b :: LexLe(a, b) && LexLe(b, a) ==> a == b
  {
    forall a, b ensures LexLe(a, b) || LexLe(b, a) {
      LexLeTotalAt(a, b);
    }
    forall a, b, c | LexLe(a, b) && LexLe(b, c) ensures LexLe(a, c) {
      LexLeTransitiveAt(a, b, c);
    }
    forall a, b | LexLe(a, b) && LexLe(b, a) ensures a == b {
      LexLeAntisymmetricAt(a, b);
    }
  }
}

=== FILE: text.dfy ===
/** The string operations of Python that the modelled code relies on:
    str.split(sep), str.join, str.rstrip(ch), str.split(), str.strip(),
    re.sub(r'\s+', ' ', ...), str.endswith and right-aligned formatting. */
module Text {

  /** Number of occurrences of `c` in `s`. */
  function Occurrences(s: string, c: char): nat
  {
    if |s| == 0 then 0
    else (if s[0] == c then 1 else 0) + Occurrences(s[1..], c)
  }

  /** Python `s.split(sep)` for a one-character separator: separators never
      collapse, n separators give n+1 fields, and "" gives [""]. */
  function Split(s: string, sep: char): (r: seq<string>)
    ensures |r| == Occurrences(s, sep) + 1
    ensures forall i :: 0 <= i < |r| ==> sep !in r[i]
    decreases |s|
  {
    if |s| == 0 then [""]
    else
      var rest := Split(s[1..], sep);
      if s[0] == sep then [""] + rest
      else [[s[0]] + rest[0]] + rest[1..]
  }

  /** Python `sep.join(parts)`. */
  function Join(parts: seq<string>, sep: char): string
  {
    if |parts| == 0 then ""
    else if |parts| == 1 then parts[0]
    else parts[0] + [sep] + Join(parts[1..], sep)
  }

  /** Joining the fields of a split gives back the original string. */
  lemma {:induction false} JoinSplit(s: string, sep: char)
    ensures Join(Split(s, sep), sep) == s
    decreases |s|
  {
    if |s| > 0 {
      var rest := Split(s[1..], sep);
      JoinSplit(s[1..], sep);
      if s[0] == sep {
        assert Split(s, sep) == [""] + rest;
        JoinAfterEmpty(rest, sep);
      } else {
        assert Split(s, sep) == [[s[0]] + rest[0]] + rest[1..];
        JoinAfterChar(s[0], rest, sep);
      }
      assert s == [s[0]] + s[1..];
    }
  }

  /** An empty first field contributes only the separator after it. */
  lemma JoinAfterEmpty(rest: seq<string>, sep: char)
    requires |rest| >= 1
    ensures Join([""] + rest, sep) == [sep] + Join(rest, sep)
  {
    assert ([""] + rest)[1..] == rest;
  }

  /** A character put in front of the first field comes first in the join. */
  lemma JoinAfterChar(c: char, rest: seq<string>, sep: char)
    requires |rest| >= 1
    ensures Join([[c] + rest[0]] + rest[1..], sep) == [c] + Join(rest, sep)
  {
    var parts := [[c] + rest[0]] + rest[1..];
    if |rest| > 1 {
      assert parts[1..] == rest[1..];
      assert Join(rest, sep) == rest[0] + [sep] + Join(rest[1..], sep);
    }
  }

  /** Splitting a string that starts with a separator-free prefix `p`
      extends the first field of the rest by `p`. */
  lemma {:induction false} SplitPrefix(p: string, t: string, sep: char)
    requires sep !in p
    ensures Split(p + t, sep) == [p + Split(t, sep)[0]] + Split(t, sep)[1..]
    decreases |p|
  {
    if |p| > 0 {
      SplitPrefix(p[1..], t, sep);
      assert (p + t)[1..] == p[1..] + t;
      assert (p + t)[0] == p[0];
      assert [p[0]] + (p[1..] + Split(t, sep)[0]) == p + Split(t, sep)[0];
    } else {
      var r := Split(t, sep);
      assert p + t == t;
      assert p + r[0] == r[0];
      assert [r[0]] + r[1..] == r;
    }
  }

  /** Splitting a join of separator-free fields gives the fields back. */
  lemma {:induction false} SplitJoin(parts: seq<string>, sep: char)
    requires |parts| >= 1
    requires forall i :: 0 <= i < |parts| ==> sep !in parts[i]
    ensures Split(Join(parts, sep), sep) == parts
    decreases |parts|
  {
    if |parts| == 1 {
      SplitPrefix(parts[0], "", sep);
      assert parts[0] + "" == parts[0];
    } else {
      var rest := parts[1..];
      SplitJoin(rest, sep);
      var j := Join(rest, sep);
      assert Split([sep] + j, sep) == [""] + rest by {
        assert ([sep] + j)[1..] == j;
      }
      SplitPrefix(parts[0], [sep] + j, sep);
      assert parts[0] + [sep] + j == parts[0] + ([sep] + j);
      assert ([""] + rest)[1..] == rest;
      assert parts[0] + "" == parts[0];
      assert [parts[0]] + rest == parts;
    }
  }

  /** Python `s.rstrip(c)`: every trailing `c` removed. */
  function RStrip(s: string, c: char): (r: string)
    ensures |r| <= |s| && r == s[..|r|]
    ensures |r| == 0 || r[|r| - 1] != c
    ensures forall i :: |r| <= i < |s| ==> s[i] == c
    decreases |s|
  {
    if |s| > 0 && s[|s| - 1] == c then RStrip(s[..|s| - 1], c) else s
  }

  /** A line as the readers yield it: `line.rstrip('\n').rstrip('\r')`. */
  function StripLine(line: string): string
  {
    RStrip(RStrip(line, '\n'), '\r')
  }

  /** Python's `str.isspace` for one character, which is also what `\s`
      matches in a `str` regular expression and where `str.split()` and
      `str.strip()` cut. */
  predicate IsSpace(c: char)
  {
    var n := c as int;
    (9 <= n <= 13) || (28 <= n <= 32) || n == 133 || n == 160 || n == 5760
    || (8192 <= n <= 8202) || n == 8232 || n == 8233 || n == 8239
    || n == 8287 || n == 12288
  }

  /** `s` contains no whitespace other than single ASCII spaces. */
  predicate NoSpaceRuns(s: string)
  {
    && (forall i :: 0 <= i < |s| && IsSpace(s[i]) ==> s[i] == ' ')
    && (forall i, j :: 0 <= i < |s| && j == i + 1 < |s| ==> !(IsSpace(s[i]) && IsSpace(s[j])))
  }

  /** `s` neither starts nor ends with whitespace. */
  predicate Trimmed(s: string)
  {
    |s| == 0 || (!IsSpace(s[0]) && !IsSpace(s[|s| - 1]))
  }

  /** `s` with its leading whitespace removed (Python `s.lstrip()`). */
  function SkipSpace(s: string): (r: string)
    ensures |r| <= |s|
    ensures |r| == 0 || !IsSpace(r[0])
    ensures forall i :: 0 <= i < |s| - |r| ==> IsSpace(s[i])
    decreases |s|
  {
    if |s| > 0 && IsSpace(s[0]) then SkipSpace(s[1..]) else s
  }

  /** `s` with its trailing whitespace removed (Python `s.rstrip()`). */
  function RStripSpace(s: string): (r: string)
    ensures |r| <= |s|
    ensures |r| == 0 || !IsSpace(r[|r| - 1])
    ensures forall i :: |r| <= i < |s| ==> IsSpace(s[i])
    decreases |s|
  {
    if |s| > 0 && IsSpace(s[|s| - 1]) then RStripSpace(s[..|s| - 1]) else s
  }

  /** What `SkipSpace` keeps is a suffix of its input. */
  lemma {:induction false} SkipSpaceSuffix(s: string)
    ensures SkipSpace(s) == s[|s| - |SkipSpace(s)|..]
    decreases |s|
  {
    if |s| > 0 && IsSpace(s[0]) {
      SkipSpaceSuffix(s[1..]);
      assert s[1..][|s| - 1 - |SkipSpace(s)|..] == s[|s| - |SkipSpace(s)|..];
    }
  }

  /** What `RStripSpace` keeps is a prefix of its input. */
  lemma {:induction false} RStripSpacePrefix(s: string)
    ensures RStripSpace(s) == s[..|RStripSpace(s)|]
    decreases |s|
  {
    if |s| > 0 && IsSpace(s[|s| - 1]) {
      RStripSpacePrefix(s[..|s| - 1]);
      assert s[..|s| - 1][..|RStripSpace(s)|] == s[..|RStripSpace(s)|];
    }
  }

  /** Python `s.strip()`. */
  function Strip(s: string): (r: string)
    ensures Trimmed(r)
  {
    RStripSpacePrefix(SkipSpace(s));
    RStripSpace(SkipSpace(s))
  }

  /** `re.sub(r'\s+', ' ', s)`: every maximal run of whitespace becomes
      one ASCII space. */
  function Collapse(s: string): (r: string)
    ensures NoSpaceRuns(r)
    ensures |r| == 0 <==> |s| == 0
    ensures |s| > 0 ==> (IsSpace(r[0]) <==> IsSpace(s[0]))
    ensures |s| > 0 ==> (IsSpace(r[|r| - 1]) <==> IsSpace(s[|s| - 1]))
    decreases |s|
  {
    if |s| == 0 then ""
    else if IsSpace(s[0]) then
      var rest := SkipSpace(s);
      SkipSpaceSuffix(s);
      assert |rest| < |s|;
      " " + Collapse(rest)
    else [s[0]] + Collapse(s[1..])
  }

  /** Python `s.split()` with no argument: the maximal runs of
      non-whitespace, in order. */
  function SplitWs(s: string): (r: seq<string>)
    ensures forall i :: 0 <= i < |r| ==> |r[i]| > 0
    ensures |s| > 0 && !IsSpace(s[0]) ==> |r| > 0 && r[0][0] == s[0]
    decreases |s|
  {
    if |s| == 0 then []
    else
      var rest := SplitWs(s[1..]);
      if IsSpace(s[0]) then rest
      else if |s| > 1 && !IsSpace(s[1]) then [[s[0]] + rest[0]] + rest[1..]
      else [[s[0]]] + rest
  }

  /** `str.split()` yields non-empty tokens without whitespace. */
  lemma {:induction false} SplitWsNoSpace(s: string)
    ensures AreTokens(SplitWs(s))
    decreases |s|
  {
    if |s| > 0 {
      SplitWsNoSpace(s[1..]);
      var rest := SplitWs(s[1..]);
      if !IsSpace(s[0]) && |s| > 1 && !IsSpace(s[1]) {
        forall k | 0 <= k < |[s[0]] + rest[0]| ensures !IsSpace(([s[0]] + rest[0])[k]) {
          if k > 0 {
            assert ([s[0]] + rest[0])[k] == rest[0][k - 1];
          }
        }
      }
    }
  }

  /** Leading whitespace does not change the tokens. */
  lemma {:induction false} SplitWsSkipSpace(s: string)
    ensures SplitWs(SkipSpace(s)) == SplitWs(s)
    decreases |s|
  {
    if |s| > 0 && IsSpace(s[0]) {
      SplitWsSkipSpace(s[1..]);
    }
  }

  /** Collapsing whitespace runs keeps the tokens of `str.split()`. */
  lemma {:induction false} CollapseKeepsTokens(s: string)
    ensures SplitWs(Collapse(s)) == SplitWs(s)
    decreases |s|
  {
    if |s| > 0 {
      if IsSpace(s[0]) {
        var rest := SkipSpace(s);
        CollapseKeepsTokens(rest);
        SplitWsSkipSpace(s);
        assert (" " + Collapse(rest))[1..] == Collapse(rest);
      } else {
        CollapseKeepsTokens(s[1..]);
        var c := Collapse(s[1..]);
        assert Collapse(s) == [s[0]] + c;
        assert ([s[0]] + c)[1..] == c;
      }
    }
  }

  /** Trailing whitespace does not change the tokens. */
  lemma {:induction false} SplitWsRStripSpace(s: string)
    ensures SplitWs(RStripSpace(s)) == SplitWs(s)
    decreases |s|
  {
    if |s| > 0 {
      var r := RStripSpace(s);
      if |r| < |s| {
        // s == r + blanks: cut one blank off the end and recurse
        var s' := s[..|s| - 1];
        SplitWsRStripSpace(s');
        assert RStripSpace(s) == RStripSpace(s');
        SplitWsDropLastSpace(s);
      }
    }
  }

  /** A trailing whitespace character does not change the tokens. */
  lemma {:induction false} SplitWsDropLastSpace(s: string)
    requires |s| > 0 && IsSpace(s[|s| - 1])
    ensures SplitWs(s[..|s| - 1]) == SplitWs(s)
    decreases |s|
  {
    if |s| > 1 {
      var s' := s[..|s| - 1];
      SplitWsDropLastSpace(s[1..]);
      assert s[1..][..|s[1..]| - 1] == s'[1..];
      assert s'[0] == s[0];
      if |s| == 2 {
        assert SplitWs(s'[1..]) == [];
      } else {
        assert s'[1] == s[1];
      }
    }
  }

  /** Stripping keeps the tokens of `str.split()`. */
  lemma StripKeepsTokens(s: string)
    ensures SplitWs(Strip(s)) == SplitWs(s)
  {
    SplitWsRStripSpace(SkipSpace(s));
    SplitWsSkipSpace(s);
  }

  /** A string without whitespace runs keeps that property when stripped. */
  lemma StripKeepsNoSpaceRuns(s: string)
    requires NoSpaceRuns(s)
    ensures NoSpaceRuns(Strip(s))
  {
    var a := SkipSpace(s);
    var r := RStripSpace(a);
    SkipSpaceSuffix(s);
    RStripSpacePrefix(a);
    forall i | 0 <= i < |a| ensures a[i] == s[|s| - |a| + i] {}
    forall i | 0 <= i < |r| ensures r[i] == a[i] {}
  }

  /** Tokens of a word followed by a string that is empty or starts with
      whitespace. */
  lemma {:induction false} SplitWsWord(w: string, t: string)
    requires |w| > 0 && forall k :: 0 <= k < |w| ==> !IsSpace(w[k])
    requires |t| == 0 || IsSpace(t[0])
    ensures SplitWs(w + t) == [w] + SplitWs(t)
    decreases |w|
  {
    var s := w + t;
    assert s[1..] == w[1..] + t;
    if |w| == 1 {
      assert s[1..] == t;
      assert w == [w[0]];
    } else {
      SplitWsWord(w[1..], t);
      assert s[1] == w[1];
      assert [w[0]] + w[1..] == w;
    }
  }

  /** A word, one space and a string without whitespace runs that starts
      with a non-space character form a string without whitespace runs. */
  lemma NoSpaceRunsConcat(w: string, j: string)
    requires |w| > 0 && forall k :: 0 <= k < |w| ==> !IsSpace(w[k])
    requires |j| > 0 && !IsSpace(j[0]) && NoSpaceRuns(j)
    ensures NoSpaceRuns(w + [' '] + j)
  {
    var s := w + [' '] + j;
    forall i | 0 <= i < |s| && IsSpace(s[i]) ensures s[i] == ' ' {
      if i > |w| { assert s[i] == j[i - |w| - 1]; }
    }
    forall i | 0 <= i < |s| - 1 ensures !(IsSpace(s[i]) && IsSpace(s[i + 1])) {
      if i > |w| { assert s[i] == j[i - |w| - 1] && s[i + 1] == j[i - |w|]; }
      else if i == |w| { assert s[i + 1] == j[0]; }
      else { assert s[i] == w[i]; }
    }
  }

  /** Tokens accepted by `JoinSplitWs`: non-empty and free of whitespace. */
  predicate AreTokens(tokens: seq<string>)
  {
    && (forall i :: 0 <= i < |tokens| ==> |tokens[i]| > 0)
    && (forall i, k :: 0 <= i < |tokens| && 0 <= k < |tokens[i]| ==> !IsSpace(tokens[i][k]))
  }

  /** Joining tokens with single spaces leaves neither whitespace runs nor
      outer blanks. */
  lemma {:induction false} JoinTokensShape(tokens: seq<string>)
    requires AreTokens(tokens)
    ensures NoSpaceRuns(Join(tokens, ' ')) && Trimmed(Join(tokens, ' '))
    ensures |tokens| > 0 ==> |Join(tokens, ' ')| > 0 && Join(tokens, ' ')[0] == tokens[0][0]
    decreases |tokens|
  {
    if |tokens| > 1 {
      var rest := tokens[1..];
      JoinTokensShape(rest);
      var j := Join(rest, ' ');
      var w := tokens[0];
      NoSpaceRunsConcat(w, j);
      var s := w + [' '] + j;
      assert s[|s| - 1] == j[|j| - 1];
      assert s[0] == w[0];
    }
  }

  /** Joining space-free, non-empty tokens with single spaces is undone by
      `str.split()`. */
  lemma {:induction false} JoinSplitWs(tokens: seq<string>)
    requires AreTokens(tokens)
    ensures SplitWs(Join(tokens, ' ')) == tokens
    decreases |tokens|
  {
    if |tokens| == 1 {
      SplitWsWord(tokens[0], "");
      assert tokens[0] + "" == tokens[0];
    } else if |tokens| > 1 {
      var rest := tokens[1..];
      JoinSplitWs(rest);
      var j := Join(rest, ' ');
      var w := tokens[0];
      SplitWsWord(w, " " + j);
      assert w + [' '] + j == w + (" " + j);
      assert (" " + j)[1..] == j;
      assert [w] + rest == tokens;
    }
  }

  /** The first token of a string that starts with a non-space character
      starts with that character. */
  lemma SplitWsFirst(s: string)
    requires |s| > 0 && !IsSpace(s[0])
    ensures |SplitWs(s)| > 0 && SplitWs(s)[0][0] == s[0]
  {
  }

  /** Python `s.endswith(suffix)`. */
  predicate EndsWith(s: string, suffix: string)
  {
    |suffix| <= |s| && s[|s| - |suffix|..] == suffix
  }

  /** `n` spaces. */
  function Spaces(n: nat): (r: string)
    ensures |r| == n && forall i :: 0 <= i < n ==> r[i] == ' '
  {
    if n == 0 then "" else " " + Spaces(n - 1)
  }

  /** Python `f'{s:>w}'`: right-aligned in a field of width `w`, never
      truncated. */
  function PadLeft(s: string, w: nat): (r: string)
    ensures |r| == if |s| >= w then |s| else w
    ensures EndsWith(r, s)
    ensures forall i :: 0 <= i < |r| - |s| ==> r[i] == ' '
  {
    if |s| >= w then s else Spaces(w - |s|) + s
  }
}

=== FILE: tsv.dfy ===
/** Tab-separated views over a replayable reader (`InputFile`, `Column` and
    `PsqPairs` in ttm/types.py, and the older `Column` in
    ttm/common_types.py).

    A view is a reader together with a list of column names to hide. A view
    without hidden columns passes the reader's lines through untouched; one
    with hidden columns splits every line on tabs, takes the first line as
    the header and drops the cells whose header name is hidden. A column is
    the sequence of one named cell of every row after the header. */
module Tsv {
  import opened Wrappers
  import opened Text
  import opened Replay

  /** The cells of a line (`line.split('\t')`). */
  function Fields(line: string): (r: seq<string>)
    ensures |r| >= 1
    ensures forall i :: 0 <= i < |r| ==> '\t' !in r[i]
  {
    Split(line, '\t')
  }

  /** Reference definition: the names of `header` that are not hidden. */
  function Visible(header: seq<string>, strip: seq<string>): (r: seq<string>)
    ensures |r| <= |header|
    ensures forall x :: x in r <==> x in header && x !in strip
  {
    if |header| == 0 then []
    else
      var rest := Visible(header[1..], strip);
      assert forall x :: x in header <==> x == header[0] || x in header[1..];
      if header[0] in strip then rest else [header[0]] + rest
  }

  lemma {:induction false} VisibleAppend(a: seq<string>, b: seq<string>, strip: seq<string>)
    ensures Visible(a + b, strip) == Visible(a, strip) + Visible(b, strip)
    decreases |a|
  {
    if |a| > 0 {
      VisibleAppend(a[1..], b, strip);
      assert (a + b)[1..] == a[1..] + b;
    } else {
      assert a + b == b;
    }
  }

  /** The cells of one row that a view keeps: cell `i` survives when
      `header[i]` is not hidden. A row with more cells than the header has
      names raises IndexError. */
  function Keep(cells: seq<string>, header: seq<string>, strip: seq<string>): (r: Result<seq<string>>)
    ensures r.Failure? <==> |cells| > |header|
    ensures r.Failure? ==> r.error == IndexError
    ensures r.Success? ==> forall x :: x in r.value ==> x in cells
    decreases |cells|
  {
    if |cells| == 0 then Success([])
    else if |header| == 0 then Failure(IndexError)
    else
      var rest :- Keep(cells[1..], header[1..], strip);
      assert forall x :: x in rest ==> x in cells;
      Success(if header[0] in strip then rest else [cells[0]] + rest)
  }

  /** A kept row has one cell per visible name among the first `|cells|`
      header names. */
  lemma {:induction false} KeepLength(cells: seq<string>, header: seq<string>, strip: seq<string>)
    requires |cells| <= |header|
    ensures |Keep(cells, header, strip).value| == |Visible(header[..|cells|], strip)|
    decreases |cells|
  {
    if |cells| > 0 {
      KeepLength(cells[1..], header[1..], strip);
      assert header[..|cells|][1..] == header[1..][..|cells| - 1];
    }
  }

  /** Cell `k` of a row, when its column is visible, lands at the position
      given by the number of visible names before it. */
  lemma {:induction false} KeepAt(cells: seq<string>, header: seq<string>, strip: seq<string>, k: nat)
    requires |cells| <= |header| && k < |cells| && header[k] !in strip
    ensures |Visible(header[..k], strip)| < |Keep(cells, header, strip).value|
    ensures Keep(cells, header, strip).value[|Visible(header[..k], strip)|] == cells[k]
    decreases k
  {
    if k > 0 {
      KeepAt(cells[1..], header[1..], strip, k - 1);
      assert header[..k][1..] == header[1..][..k - 1];
    }
  }

  /** The header row, kept against itself, is its visible names. */
  lemma {:induction false} KeepHeader(header: seq<string>, strip: seq<string>)
    ensures Keep(header, header, strip) == Success(Visible(header, strip))
    decreases |header|
  {
    if |header| > 0 {
      KeepHeader(header[1..], strip);
    }
  }

  /** Only membership in the hidden list matters, so the order in which
      columns were hidden does not. */
  lemma {:induction false} KeepSameHidden(cells: seq<string>, header: seq<string>, s1: seq<string>, s2: seq<string>)
    requires forall x :: x in s1 <==> x in s2
    ensures Keep(cells, header, s1) == Keep(cells, header, s2)
    decreases |cells|
  {
    if |cells| > 0 && |header| > 0 {
      KeepSameHidden(cells[1..], header[1..], s1, s2);
    }
  }

  /** One data line as a view with hidden columns yields it. */
  function ProjectLine(line: string, header: seq<string>, strip: seq<string>): Result<string>
  {
    var kept :- Keep(Fields(line), header, strip);
    Success(Join(kept, '\t'))
  }

  function ProjectRows(rows: seq<string>, header: seq<string>, strip: seq<string>): (r: Result<seq<string>>)
    ensures r.Failure? <==> exists i :: 0 <= i < |rows| && |Fields(rows[i])| > |header|
    ensures r.Failure? ==> r.error == IndexError
    ensures r.Success? ==> |r.value| == |rows|
  {
    if |rows| == 0 then Success([])
    else
      var first :- ProjectLine(rows[0], header, strip);
      var rest :- ProjectRows(rows[1..], header, strip);
      assert forall i :: 1 <= i < |rows| ==> rows[i] == rows[1..][i - 1];
      Success([first] + rest)
  }

  /** `InputFile(strip_columns=strip)`: the column names a view hides. */
  datatype View = View(strip: seq<string>)

  /** `InputFile.strip(column)`: one more hidden column, on the same reader. */
  function StripColumn(v: View, column: string): (r: View)
    ensures column in r.strip
    ensures forall x :: x in v.strip ==> x in r.strip
    ensures |r.strip| == |v.strip| + 1
  {
    View([column] + v.strip)
  }

  /** What a view yields, given all lines of its reader. */
  function ViewLines(lines: seq<string>, strip: seq<string>): (r: Result<seq<string>>)
    ensures |strip| == 0 ==> r == Success(lines)
    ensures r.Failure? <==>
      |strip| > 0 && (|lines| == 0 || exists i :: 1 <= i < |lines| && |Fields(lines[i])| > |Fields(lines[0])|)
    ensures r.Failure? ==> r.error == (if |lines| == 0 then ExpectedRuntimeError else IndexError)
    ensures r.Success? ==> |r.value| == |lines|
  {
    if |strip| == 0 then Success(lines)
    else if |lines| == 0 then Failure(ExpectedRuntimeError)
    else
      var header := Fields(lines[0]);
      var visible := Keep(header, header, strip).value;
      var rows :- ProjectRows(lines[1..], header, strip);
      assert forall i :: 1 <= i < |lines| ==> lines[i] == lines[1..][i - 1];
      Success([Join(visible, '\t')] + rows)
  }

  /** The header a view yields names exactly the visible columns, in order;
      when at least one remains, splitting it gives them back. */
  lemma ViewHeaderIsVisible(lines: seq<string>, strip: seq<string>)
    requires |lines| > 0 && |strip| > 0 && ViewLines(lines, strip).Success?
    ensures ViewLines(lines, strip).value[0] == Join(Visible(Fields(lines[0]), strip), '\t')
    ensures |Visible(Fields(lines[0]), strip)| > 0 ==>
      Fields(ViewLines(lines, strip).value[0]) == Visible(Fields(lines[0]), strip)
    ensures forall x :: x in Visible(Fields(lines[0]), strip) <==> x in Fields(lines[0]) && x !in strip
  {
    var h := Fields(lines[0]);
    KeepHeader(h, strip);
    if |Visible(h, strip)| > 0 {
      forall i | 0 <= i < |Visible(h, strip)| ensures '\t' !in Visible(h, strip)[i] {
        assert Visible(h, strip)[i] in h;
      }
      SplitJoin(Visible(h, strip), '\t');
    }
  }

  /** Hiding `a` then `b` is the same view as hiding `b` then `a`. */
  lemma StripCommutes(lines: seq<string>, v: View, a: string, b: string)
    ensures ViewLines(lines, StripColumn(StripColumn(v, a), b).strip)
         == ViewLines(lines, StripColumn(StripColumn(v, b), a).strip)
  {
    var s1 := StripColumn(StripColumn(v, a), b).strip;
    var s2 := StripColumn(StripColumn(v, b), a).strip;
    if |lines| > 0 {
      var h := Fields(lines[0]);
      KeepSameHidden(h, h, s1, s2);
      ProjectRowsSameHidden(lines[1..], h, s1, s2);
    }
  }

  lemma {:induction false} ProjectRowsSameHidden(rows: seq<string>, header: seq<string>, s1: seq<string>, s2: seq<string>)
    requires forall x :: x in s1 <==> x in s2
    ensures ProjectRows(rows, header, s1) == ProjectRows(rows, header, s2)
    decreases |rows|
  {
    if |rows| > 0 {
      KeepSameHidden(Fields(rows[0]), header, s1, s2);
      ProjectRowsSameHidden(rows[1..], header, s1, s2);
    }
  }

  /** Rows are projected one at a time, so projecting a prefix of the rows
      gives the prefix of the projection. */
  lemma {:induction false} ProjectRowsPrefix(rows: seq<string>, header: seq<string>, strip: seq<string>, k: nat)
    requires k <= |rows| && ProjectRows(rows, header, strip).Success?
    ensures ProjectRows(rows[..k], header, strip) == Success(ProjectRows(rows, header, strip).value[..k])
    decreases k
  {
    if k > 0 {
      var first := ProjectLine(rows[0], header, strip).value;
      var rest := ProjectRows(rows[1..], header, strip).value;
      assert ProjectRows(rows, header, strip).value == [first] + rest;
      assert rows[..k][1..] == rows[1..][..k - 1];
      ProjectRowsPrefix(rows[1..], header, strip, k - 1);
      assert ([first] + rest)[..k] == [first] + rest[..k - 1];
    }
  }

  /** A view of the first `k` lines yields the first `k` lines of the view
      of all of them. */
  lemma ViewLinesPrefix(lines: seq<string>, strip: seq<string>, k: nat)
    requires 1 <= k <= |lines| && ViewLines(lines, strip).Success?
    ensures ViewLines(lines[..k], strip) == Success(ViewLines(lines, strip).value[..k])
  {
    if |strip| > 0 {
      var header := Fields(lines[0]);
      var rows := ProjectRows(lines[1..], header, strip).value;
      var head := Join(Keep(header, header, strip).value, '\t');
      assert ViewLines(lines, strip).value == [head] + rows;
      assert lines[..k][1..] == lines[1..][..k - 1];
      ProjectRowsPrefix(lines[1..], header, strip, k - 1);
      assert ([head] + rows)[..k] == [head] + rows[..k - 1];
    }
  }

  // ---------------------------------------------------------------------
  // Columns

  /** `list.index(name)`: the first position of `name`, or ValueError. */
  function ColumnIndex(header: seq<string>, name: string): (r: Result<nat>)
    ensures r.Failure? <==> name !in header
    ensures r.Failure? ==> r.error == ValueNotInList
    ensures r.Success? ==> r.value < |header| && header[r.value] == name
    ensures r.Success? ==> forall j :: 0 <= j < r.value ==> header[j] != name
  {
    if |header| == 0 then Failure(ValueNotInList)
    else if header[0] == name then Success(0)
    else
      var i :- ColumnIndex(header[1..], name);
      Success(i + 1)
  }

  /** Cell `i` of every row, passed through `mapF`; a row with too few
      cells raises IndexError. */
  function ColumnCells<T>(rows: seq<string>, i: nat, mapF: string -> T): (r: Result<seq<T>>)
    ensures r.Failure? <==> exists k :: 0 <= k < |rows| && |Fields(rows[k])| <= i
    ensures r.Failure? ==> r.error == IndexError
    ensures r.Success? ==> |r.value| == |rows|
    ensures r.Success? ==> forall k :: 0 <= k < |rows| ==> r.value[k] == mapF(Fields(rows[k])[i])
  {
    if |rows| == 0 then Success([])
    else
      var f := Fields(rows[0]);
      if |f| <= i then Failure(IndexError)
      else
        var rest :- ColumnCells(rows[1..], i, mapF);
        assert forall k :: 1 <= k < |rows| ==> rows[k] == rows[1..][k - 1];
        Success([mapF(f[i])] + rest)
  }

  /** What `Column(view, name, map_f)` yields, given the lines the view
      yields: the named cell of every row after the header. */
  function ColumnOf<T>(lines: seq<string>, name: string, mapF: string -> T): (r: Result<seq<T>>)
    ensures |lines| == 0 ==> r == Failure(ExpectedRuntimeError)
    ensures |lines| > 0 && name !in Fields(lines[0]) ==> r == Failure(ValueNotInList)
    ensures r.Success? ==> |r.value| == |lines| - 1
    ensures r.Success? ==> var i := ColumnIndex(Fields(lines[0]), name).value;
      forall k :: 1 <= k < |lines| ==> |Fields(lines[k])| > i && r.value[k - 1] == mapF(Fields(lines[k])[i])
  {
    if |lines| == 0 then Failure(ExpectedRuntimeError)
    else
      var i :- ColumnIndex(Fields(lines[0]), name);
      assert forall k :: 1 <= k < |lines| ==> lines[k] == lines[1..][k - 1];
      ColumnCells(lines[1..], i, mapF)
  }

  /** The header line a view yields: the line itself when nothing is
      hidden, otherwise its visible names joined by tabs. */
  function ViewHeader(line: string, strip: seq<string>): (h: string)
    ensures ViewLines([line], strip) == Success([h])
  {
    if |strip| == 0 then line
    else
      KeepLength(Fields(line), Fields(line), strip);
      var h := Join(Keep(Fields(line), Fields(line), strip).value, '\t');
      assert ProjectRows([line][1..], Fields(line), strip) == Success([]);
      assert [h] + [] == [h];
      h
  }

  /** types.py:151-158. A full pass over `view.column(name, map_f)`. The
      generator takes the view's header and looks the name up in it before
      it pulls any data row, so a missing name raises ValueError whatever
      the rows hold; only then are the rows projected and their cells
      taken, both of which can only raise IndexError. */
  function ColumnPass<T>(r: Reader, v: View, name: string, mapF: string -> T): Result<(Reader, seq<T>)>
  {
    var (r1, lines) :- FullPass(r);
    if |lines| == 0 then Failure(ExpectedRuntimeError)
    else
      var i :- ColumnIndex(Fields(ViewHeader(lines[0], v.strip)), name);
      var view :- ViewLines(lines, v.strip);
      var cells :- ColumnCells(view[1..], i, mapF);
      Success((r1, cells))
  }

  /** A name other than "" is in the view's header exactly when the file's
      header has it and the view does not hide it. */
  lemma ViewHeaderNames(line: string, strip: seq<string>, name: string)
    requires name != ""
    ensures name in Fields(ViewHeader(line, strip)) <==> name in Fields(line) && name !in strip
  {
    if |strip| > 0 {
      ViewHeaderIsVisible([line], strip);
      if |Visible(Fields(line), strip)| == 0 {
        assert Fields(ViewHeader(line, strip)) == Split("", '\t') == [""];
      }
    }
  }

  /** types.py:151-155. The name is looked up before any data row is read:
      on a non-empty file whose header lacks the name, or whose view hides
      it, the pass raises ValueError, whatever the data rows hold. */
  lemma ColumnPassMissingName<T>(r: Reader, v: View, name: string, mapF: string -> T)
    requires name != ""
    ensures (FullPass(r).Success? && |FullPass(r).value.1| > 0 &&
      (name !in Fields(FullPass(r).value.1[0]) || name in v.strip)) ==>
        ColumnPass(r, v, name, mapF) == Failure(ValueNotInList)
  {
    if FullPass(r).Success? && |FullPass(r).value.1| > 0 {
      ViewHeaderNames(FullPass(r).value.1[0], v.strip, name);
    }
  }

  /** When the view projects every row, the lazy pass yields what the
      eager column of the whole view holds, and fails when it fails. */
  lemma ColumnPassIsColumnOfView<T>(r: Reader, v: View, name: string, mapF: string -> T)
    ensures FullPass(r).Success? && ViewLines(FullPass(r).value.1, v.strip).Success? ==>
      var out := ColumnOf(ViewLines(FullPass(r).value.1, v.strip).value, name, mapF);
      && (ColumnPass(r, v, name, mapF).Success? <==> out.Success?)
      && (out.Success? ==> ColumnPass(r, v, name, mapF).value == (FullPass(r).value.0, out.value))
      && (out.Failure? ==> ColumnPass(r, v, name, mapF).error == out.error)
  {
    if FullPass(r).Success? && ViewLines(FullPass(r).value.1, v.strip).Success? {
      var lines := FullPass(r).value.1;
      if |lines| > 0 {
        ViewLinesHead(lines, v.strip);
      }
    }
  }

  /** The first line of a view is the view's header line. */
  lemma ViewLinesHead(lines: seq<string>, strip: seq<string>)
    requires |lines| > 0 && ViewLines(lines, strip).Success?
    ensures ViewLines(lines, strip).value[0] == ViewHeader(lines[0], strip)
  {
    ViewLinesPrefix(lines, strip, 1);
    assert lines[..1] == [lines[0]];
  }

  /** `len(column)`: one less than the number of lines of the reader,
      hidden columns notwithstanding; on an empty reader that is -1, which
      Python's `len` rejects with ValueError. */
  function ColumnLen(r: Reader): Result<(Reader, nat)>
  {
    var (r1, n) :- Len(r);
    if n == 0 then Failure(ValueError) else Success((r1, n - 1))
  }

  /** types.py:159-160. `len(column)` counts the values a pass over the
      column yields, for any view over the same reader. */
  lemma ColumnLenCountsValues<T>(r: Reader, v: View, name: string, mapF: string -> T)
    requires Valid(r)
    requires ColumnPass(r, v, name, mapF).Success?
    ensures ColumnLen(r).Success?
    ensures ColumnLen(r).value.1 == |ColumnPass(r, v, name, mapF).value.1|
  {
    FullPassOutcome(r);
    LenCountsOnceAndMemoizes(r);
  }

  /** A column read through a view that hides other columns holds the same
      values as the column read from the whole file, provided every row has
      as many cells as the header. */
  lemma ColumnThroughView<T>(lines: seq<string>, strip: seq<string>, name: string, mapF: string -> T)
    requires |lines| > 0 && name in Fields(lines[0]) && name !in strip
    requires forall k :: 1 <= k < |lines| ==> |Fields(lines[k])| == |Fields(lines[0])|
    ensures ViewLines(lines, strip).Success?
    ensures ColumnOf(ViewLines(lines, strip).value, name, mapF) == ColumnOf(lines, name, mapF)
  {
    if |strip| > 0 {
      var h := Fields(lines[0]);
      var k := ColumnIndex(h, name).value;
      var m := |Visible(h[..k], strip)|;
      VisiblePosition(h, strip, name);
      ViewHeaderIsVisible(lines, strip);
      var out := ViewLines(lines, strip).value;
      assert ColumnIndex(Fields(out[0]), name) == Success(m);
      ProjectedColumn(lines[1..], h, strip, k, m, mapF);
      assert out[1..] == ProjectRows(lines[1..], h, strip).value;
    }
  }

  /** Where a visible column sits among the visible names: after the
      visible names that precede it in the header. */
  lemma VisiblePosition(h: seq<string>, strip: seq<string>, name: string)
    requires name in h && name !in strip
    ensures var k := ColumnIndex(h, name).value;
      ColumnIndex(Visible(h, strip), name) == Success(|Visible(h[..k], strip)|)
  {
    var k := ColumnIndex(h, name).value;
    assert h == h[..k] + h[k..];
    var vis := Visible(h, strip);
    var m := |Visible(h[..k], strip)|;
    assert vis[m] == name by {
      KeepHeader(h, strip);
      KeepAt(h, h, strip, k);
    }
    assert vis[..m] == Visible(h[..k], strip) by {
      VisibleAppend(h[..k], h[k..], strip);
    }
    forall j | 0 <= j < m ensures vis[j] != name {
      assert vis[j] in Visible(h[..k], strip);
    }
    ColumnIndexFirst(vis, name, m);
  }

  lemma ColumnIndexFirst(h: seq<string>, name: string, m: nat)
    requires m < |h| && h[m] == name && forall j :: 0 <= j < m ==> h[j] != name
    ensures ColumnIndex(h, name) == Success(m)
  {
  }

  lemma {:induction false} ProjectedColumn<T>(rows: seq<string>, h: seq<string>, strip: seq<string>, k: nat, m: nat, mapF: string -> T)
    requires k < |h| && h[k] !in strip && m == |Visible(h[..k], strip)|
    requires forall i :: 0 <= i < |rows| ==> |Fields(rows[i])| == |h|
    ensures ProjectRows(rows, h, strip).Success?
    ensures ColumnCells(ProjectRows(rows, h, strip).value, m, mapF) == ColumnCells(rows, k, mapF)
    decreases |rows|
  {
    if |rows| > 0 {
      var cells := Fields(rows[0]);
      var kept := Keep(cells, h, strip).value;
      KeepAt(cells, h, strip, k);
      forall i | 0 <= i < |kept| ensures '\t' !in kept[i] {
        assert kept[i] in cells;
      }
      SplitJoin(kept, '\t');
      assert Fields(Join(kept, '\t')) == kept;
      ProjectedColumn(rows[1..], h, strip, k, m, mapF);
      assert forall i :: 1 <= i < |rows| ==> rows[i] == rows[1..][i - 1];
      var p := ProjectRows(rows, h, strip).value;
      assert p == [Join(kept, '\t')] + ProjectRows(rows[1..], h, strip).value;
      assert p[1..] == ProjectRows(rows[1..], h, strip).value;
    }
  }

  // ---------------------------------------------------------------------
  // The older Column of ttm/common_types.py

  /** common_types.py:56-60. The same column, without `map_f` and without
      the empty-input check: on an empty corpus `next` raises StopIteration
      inside the generator, which Python turns into RuntimeError. */
  function CorpusColumnOf(lines: seq<string>, name: string): (r: Result<seq<string>>)
    ensures |lines| == 0 ==> r == Failure(RuntimeError)
  {
    if |lines| == 0 then Failure(RuntimeError)
    else
      var i :- ColumnIndex(Fields(lines[0]), name);
      ColumnCells(lines[1..], i, (x: string) => x)
  }

  /** The two Column classes agree on every input except an empty one,
      where they raise different exceptions. */
  lemma CorpusColumnAgrees(lines: seq<string>, name: string)
    ensures |lines| > 0 ==> CorpusColumnOf(lines, name) == ColumnOf(lines, name, (x: string) => x)
    ensures |lines| == 0 ==>
      && CorpusColumnOf(lines, name).error == RuntimeError
      && ColumnOf(lines, name, (x: string) => x).error == ExpectedRuntimeError
  {
  }

  /** A full pass over `Corpus.column(name)`. */
  function CorpusColumnPass(r: Reader, name: string): Result<(Reader, seq<string>)>
  {
    var (r1, lines) :- FullPass(r);
    var cells :- CorpusColumnOf(lines, name);
    Success((r1, cells))
  }

  /** common_types.py:47-60 over a seekable file: every pass over a column
      rewinds the file and yields the same values. */
  lemma CorpusColumnRepeats(r: Reader, name: string)
    requires Valid(r) && Regular(r) && r.flavor == RewindShared
    requires CorpusColumnPass(r, name).Success?
    ensures CorpusColumnPass(CorpusColumnPass(r, name).value.0, name).Success?
    ensures CorpusColumnPass(CorpusColumnPass(r, name).value.0, name).value.1
         == CorpusColumnPass(r, name).value.1
  {
    RegularPassRewinds(r);
    var r1 := r.(pos := |r.src.lines|);
    assert Valid(r1);
    RegularPassRewinds(r1);
  }

  // ---------------------------------------------------------------------
  // psq-pairs files

  /** `a, b = line.split('\t')`: exactly two cells, else ValueError. */
  function ParsePair(line: string): (r: Result<(string, string)>)
    ensures r.Failure? <==> Occurrences(line, '\t') != 1
    ensures r.Failure? ==> r.error == ValueError
    ensures r.Success? ==> '\t' !in r.value.0 && '\t' !in r.value.1
  {
    var f := Fields(line);
    if |f| != 2 then Failure(ValueError) else Success((f[0], f[1]))
  }

  /** The line `print(a, b, sep='\t')` writes, without its newline. */
  function FormatPair(a: string, b: string): string
  {
    a + "\t" + b
  }

  /** Reading back a written pair gives the pair, as long as neither id
      contains a tab; and a line with exactly one tab is a written pair. */
  lemma ParseFormatPair(a: string, b: string)
    requires '\t' !in a && '\t' !in b
    ensures ParsePair(FormatPair(a, b)) == Success((a, b))
  {
    SplitJoin([a, b], '\t');
    assert Join([a, b], '\t') == FormatPair(a, b) by {
      assert Join([b], '\t') == b;
    }
  }

  lemma FormatParsePair(line: string)
    requires ParsePair(line).Success?
    ensures FormatPair(ParsePair(line).value.0, ParsePair(line).value.1) == line
  {
    JoinSplit(line, '\t');
    var f := Fields(line);
    assert Join([f[1]], '\t') == f[1];
    assert f == [f[0], f[1]];
  }

  function PairsOf(lines: seq<string>): (r: Result<seq<(string, string)>>)
    ensures r.Failure? <==> exists i :: 0 <= i < |lines| && ParsePair(lines[i]).Failure?
    ensures r.Success? ==> |r.value| == |lines|
    ensures r.Success? ==> forall i :: 0 <= i < |lines| ==> r.value[i] == ParsePair(lines[i]).value
  {
    if |lines| == 0 then Success([])
    else
      var p :- ParsePair(lines[0]);
      var rest :- PairsOf(lines[1..]);
      assert forall i :: 1 <= i < |lines| ==> lines[i] == lines[1..][i - 1];
      Success([p] + rest)
  }

  /** types.py:162-173. A full pass over a `PsqPairs` file. */
  function PsqPairsPass(r: Reader): Result<(Reader, seq<(string, string)>)>
  {
    var (r1, lines) :- FullPass(r);
    var pairs :- PairsOf(lines);
    Success((r1, pairs))
  }
}

=== FILE: wrappers.dfy ===
/** Failure-compatible result type shared by every module of the model, and
    the kinds of error the modelled Python code raises. */
module Wrappers {

  /** The exception classes the modelled code can raise, named after the
      Python exception (or the project's own exception class) they stand for. */
  datatype Error =
    | UsageViolation          // bare Exception: second pass before the cache is complete
    | BadDirection            // bare Exception: _open direction not 'in'/'out'
    | StepDoesNotDivide       // bare Exception: window % step != 0 in _split_doc
    | ExpectedRuntimeError    // 'Input file is empty'
    | RuntimeError            // StopIteration escaping a generator (PEP 479)
    | ValueNotInList          // list.index on a missing element
    | ValueError              // bad unpacking, bad int()/float(), negative __len__
    | IndexError
    | KeyError
    | ZeroDivisionError
    | UnknownKey              // ValueError("Unknown key ...") in eval._parse_cell
    | CliError(msg: string)
    | NameError               // a name that nothing defines is evaluated
    | ImportError             // `from M import x` where M binds no x
    | AttributeError          // a method an object does not have
    | Diverges                // not an exception: a loop that never ends

  datatype Option<+T> = None | Some(value: T)

  datatype Result<+T> = Success(value: T) | Failure(error: Error) {
    predicate IsFailure() {
      Failure?
    }

    function PropagateFailure<U>(): Result<U>
      requires Failure?
    {
      Failure(error)
    }

    function Extract(): T
      requires Success?
    {
      value
    }
  }

  /** A `try` whose `except` clause names an exception class that nothing
      defines. Python evaluates the clause only when the body raises, and
      the evaluation itself then raises NameError. */
  function TryUndefinedExcept<T>(body: Result<T>): (r: Result<T>)
    ensures r.Success? <==> body.Success?
    ensures r.Success? ==> r.value == body.value
    ensures r.Failure? ==> r.error == NameError
  {
    if body.Success? then body else Failure(NameError)
  }
}
